=== FILE: README.md ===
# vulkan-hdr-demo: a Dafny model of the engine's bookkeeping

vulkan-hdr-demo is a small Vulkan renderer with HDR post-processing
(exposure adaptation, bloom, Durand and exposure-fusion local tone
mapping, global tone mapping, gamma), an OBJ/glTF model loader and a
handful of Python build scripts. Most of the engine is calls into Vulkan,
GLFW and ImGui. Between those calls sits bookkeeping and decision code,
and that code is what this project models and proves things about:

- the descriptor pool allocator, the descriptor-set layout cache and the
  descriptor builder (`descriptors.dfy`);
- uniform-buffer padding and power-of-two rounding (`alignment.dfy`);
- the deletion stack, the UI flag registry, the frame counter, the
  per-frame slot and the swapchain-recreate decisions of `drawFrame`
  (`deletion.dfy`, `engine_state.dfy`);
- snapping light radii to the attenuation table, and the light updates
  (`lights.dfy`);
- the object storage buffer header handshake and the bind-on-change draw
  loop (`render.dfy`);
- the name-keyed resource caches, showing and hiding light objects,
  `cleanupScene` and the texture counters (`scene.dfy`, `scene_state.dfy`);
- mesh construction from OBJ loader output: the smoothing-group split, the
  per-material meshes and vertex deduplication, plus the stand-alone
  `Mesh` loaders (`objdata.dfy`, `smoothing.dfy`, `objloader.dfy`,
  `meshload.dfy`);
- asset bookkeeping: texture descriptor writes, the skybox staging layout,
  mesh buffer sizes, and saving and loading a scene (`assets.dfy`);
- surface format, present mode, extent and image-count choice, and the
  swapchain handle replacement (`swapchain.dfy`);
- physical-device, queue-family and instance-extension selection
  (`devices.dfy`, `instance.dfy`, `names.dfy`);
- the post-processing stage registry, its effect/prefix keys, the effect
  switches and the pending image-binding queue (`postfx.dfy`);
- the shader compile and build scripts (`scripts.dfy`);
- string helpers (`strutil.dfy`).

Modelling conventions:

- Vulkan handles are opaque numbers, with 0 for `VK_NULL_HANDLE`.
- Whatever Vulkan, the driver, the parsers, the filesystem or a child
  process reports is a parameter of the operation that receives it.
- Classes stand for the objects the source updates in place. Their
  methods are proved against specification functions (`AllocateSpec`,
  `LayoutFor`, `PendingWrites`, `Compiled`, ...).
- `uint32_t` and `size_t` arithmetic is written out modulo 2^32 and 2^64
  where the source can wrap.
- An `ASSERT` on a value the calling code controls is a `requires`. An
  `ASSERT` or exception on what the environment reports is an explicit
  outcome.

## Model

| member | source | states |
|---|---|---|
| Alignment.PadUniformBufferSize | src/memory.cpp:35-45 | with alignment 0 the size comes back unchanged; with a power-of-two alignment the result is a multiple of it, below 2^64, and lies in [size, size + alignment) when the sum does not wrap |
| Alignment.PadKeepsAlignedSize | src/memory.cpp:41-44 | a size that is already a multiple of the alignment (or any size under alignment 0) is returned unchanged |
| Alignment.PadIdempotent | src/memory.cpp:41-44 | padding a padded size changes nothing |
| Alignment.TwosComplementRoundDown | src/math_utils.cpp:9 | and-ing the 32-bit pattern of an int with -2^k rounds it down to a multiple of 2^k, negative values included |
| Alignment.RoundUpPw2 | src/math_utils.cpp:5-10 | for a non-zero power-of-two multiple (the asserted precondition) and a sum that fits in an int, the result is a multiple of it in [numToRound, numToRound + multiple) |
| Alignment.RoundUpPw2Idempotent | src/math_utils.cpp:9 | exact multiples are returned unchanged, so rounding a rounded value changes nothing |
| Assets.PerFrame | src/assets.cpp:51-60 | each frame receives at most two writes |
| Assets.FrameTextureWrites | src/assets.cpp:34-60 | a frame's scene set gets the diffuse array (binding 5) if any, then the bump array (binding 6) if any, each holding its insertion-ordered texture list, so its count is that list's length |
| Assets.TextureWritesLength | src/assets.cpp:51-60 | the frames together receive |frames| times the per-frame number of writes |
| Assets.TextureWritesConcat | src/assets.cpp:51-60 | writing for two runs of frames is writing for the first run, then for the second |
| Assets.TextureWritesLayout | src/assets.cpp:51-60 | the writes form one block per frame, block k at k times the per-frame count holding frame k's writes, and nothing else |
| Assets.NoTexturesNoWrites | src/assets.cpp:52-59 | with both texture lists empty no write is issued |
| Assets.WriteTextureDescriptorSets | src/assets.cpp:8-63 | the writes handed to vkUpdateDescriptorSets are the per-frame blocks built from the engine's two insertion-ordered texture lists, |frames| times the per-frame count |
| Assets.CopyRegions | src/assets.cpp:251-274 | six regions, region f reading from offset f × imageSize into array layer f, one layer each, at the base size |
| Assets.LoadSkybox | src/assets.cpp:151-274 | the faces px, nx, py, ny, pz, nz are checked in order, aborting at the first that is not HDR, fails to decode or differs from face 0; on success imageSize is width × height × 16, the buffer holds 6 × imageSize, face i sits at i × imageSize and region i fills layer i from there |
| Assets.FaceSlotsDisjoint | src/assets.cpp:188-205 | the staged faces do not overlap and the last one ends exactly at the end of the 6 × imageSize buffer |
| Assets.CreateMeshBuffer | src/assets.cpp:460-497 | a buffer is made iff its list is non-empty, sized vertex count × 44 or index count × 4, and its release is pushed on the scene dispose stack |
| Assets.UploadMesh | src/assets.cpp:499-505 | the vertex buffer is made first and the index buffer second, so a mesh without indices still gets its vertex buffer and one deletor |
| Assets.SceneToJson | src/assets.cpp:553-588 | the file holds one lights entry per light |
| Assets.SceneFromJson | src/assets.cpp:509-548 | after loading the render context still has MAX_LIGHTS lights, and the load gets through iff the file has at least MAX_LIGHTS light entries |
| Assets.LoadAfterSave | src/assets.cpp:509-588 | loading right after saving restores model name, scale, skybox, bump strength and each light's enabled, intensity and position; the model position becomes the main object's position |
| Assets.SaveScene | src/assets.cpp:553-588 | the file names the model path, the main object's position and the skybox, and holds entry i = (enabled, position, intensity) of light i for every light |
| Assets.LoadScene | src/assets.cpp:509-548 | the settings become what the file describes; a lights array shorter than MAX_LIGHTS stops the load at its first missing entry with the earlier assignments kept; nothing else changes |
| Deletion.DeletionStack.constructor | src/types.h:5-6 | a new stack holds no deletors |
| Deletion.DeletionStack.Push | src/types.h:8-10 | exactly one deletor goes on top and the rest of the stack is untouched |
| Deletion.DeletionStack.Flush | src/types.h:12-17 | the deletors run in reverse push order and the stack is left empty |
| Deletion.ReverseRunsEachOnce | src/types.h:12-17 | the calls of a flush are a permutation of the pending deletors (each runs exactly once), the last one pushed first |
| Deletion.ReverseReverse | src/types.h:12-17 | reading a flush's calls backwards gives the push order back |
| Deletion.ReverseAppend | src/types.h:8-17 | deletors pushed later run before those pushed earlier |
| Deletion.FlushTwice | src/types.h:12-17 | a second flush runs nothing, and across both flushes every pending deletor ran once |
| Deletion.InputContext.constructor | src/types.h:110-114 | a new context has the cursor disabled, no pending resize, and tone mapping and exposure enabled |
| Descriptors.GrabSpec | src/vk_descriptors.cpp:137-147 | with free pools, the last one is returned and removed from the free list; with none, the newly created pool is returned and the free list is unchanged |
| Descriptors.GrabAndUseValid | src/vk_descriptors.cpp:66-70 | grabbing a pool and pushing it to usedPools keeps every pool held once and none null, leaves a non-null current pool equal to the last used one, and adds a pool to the held multiset only when none was free |
| Descriptors.AllocateValid | src/vk_descriptors.cpp:64-117 | allocate keeps that invariant and always leaves a non-null current pool |
| Descriptors.AllocateOutcome | src/vk_descriptors.cpp:64-117 | allocate succeeds iff the first try succeeds or the first fails with a fragmented or exhausted pool and the single retry succeeds; usedPools grows only at its end, by one for a null currentPool plus one for the retry; any other error changes nothing beyond that first grab |
| Descriptors.ResetPoolsValid | src/vk_descriptors.cpp:52-62 | after reset_pools nothing is in use, the current pool is null, the free pools are exactly the old used ones, and the invariant holds |
| Descriptors.DescriptorAllocator.constructor | src/vk_descriptors.h:65-68 | a new allocator has a null current pool and no pools |
| Descriptors.DescriptorAllocator.GrabPool | src/vk_descriptors.cpp:137-147 | the pool returned and the new free list are GrabSpec of the old free list |
| Descriptors.DescriptorAllocator.Allocate | src/vk_descriptors.cpp:64-117 | the new state and the result are AllocateSpec of the old state and the two vkAllocateDescriptorSets results, and the invariant is kept |
| Descriptors.DescriptorAllocator.ResetPools | src/vk_descriptors.cpp:52-62 | every used pool is reset once, in order, and the new state is ResetSpec of the old one |
| Descriptors.DescriptorAllocator.Cleanup | src/vk_descriptors.cpp:124-135 | free pools then used pools are destroyed, each pool held exactly once and no other |
| Descriptors.Keys | src/vk_descriptors.cpp:365-392 | the projection of each binding on the four fields that equality compares |
| Descriptors.LayoutInfoEqual | src/vk_descriptors.cpp:365-392 | equal iff equal length and pairwise equal binding, descriptorType, descriptorCount and stageFlags |
| Descriptors.LayoutInfoEqualIffSameKeys | src/vk_descriptors.cpp:365-392 | equality of layout infos is equality of their key projections, so a map keyed on projections finds what operator== finds |
| Descriptors.EqualInfosHashEqual | src/vk_descriptors.cpp:394-411 | equal layout infos hash equally for every std::hash<size_t> |
| Descriptors.SortByBinding | src/vk_descriptors.cpp:172-177 | the sorted copy is ordered by binding number and is a permutation of the input |
| Descriptors.InStrictOrderStep | src/vk_descriptors.cpp:161-171 | scanning one more binding updates isSorted and lastBinding exactly as the loop does, on int32 binding numbers |
| Descriptors.InStrictOrderNeedsNoSort | src/vk_descriptors.cpp:159-177 | bindings that pass the isSorted scan are already sorted, so skipping std::sort changes nothing |
| Descriptors.CacheKeyIgnoresOrder | src/vk_descriptors.cpp:155-191 | the same bindings in any order (distinct binding numbers) give the same cache key |
| Descriptors.DescriptorLayoutCache.constructor | src/vk_descriptors.h:98 | a new cache is empty |
| Descriptors.CacheWith | src/vk_descriptors.cpp:180-190 | after a request the key is cached; a hit keeps the cached layout, a miss stores the created one; every old entry stays and no other key is added |
| Descriptors.DescriptorLayoutCache.CreateDescriptorLayout | src/vk_descriptors.cpp:155-191 | a cache hit on the sorted bindings returns the cached layout and leaves the cache alone; a miss returns the created layout and adds exactly that entry; the cache grows by at most one |
| Descriptors.SameLayoutForReorderedBindings | src/vk_descriptors.cpp:155-191 | two requests with the same bindings in different orders return the same layout, and the cache grows by at most one entry |
| Descriptors.WithDstSet | src/vk_descriptors.cpp:348-350 | every write, and only its dstSet, is pointed at the set |
| Descriptors.DescriptorBuilder.Begin | src/vk_descriptors.cpp:204-211 | a new builder has no bindings and no writes and uses the given cache and allocator |
| Descriptors.DescriptorBuilder.BindBuffer | src/vk_descriptors.cpp:214-240 | one binding of count 1 is always added; a write of count 1 is added iff a buffer info is given |
| Descriptors.DescriptorBuilder.BindImageEmpty | src/vk_descriptors.cpp:243-260 | a count of 0 adds nothing; otherwise one binding and no write |
| Descriptors.DescriptorBuilder.BindImage | src/vk_descriptors.cpp:262-288 | one binding of count 1 is always added; a write of count 1 is added iff an image info is given |
| Descriptors.DescriptorBuilder.BindImageArray | src/vk_descriptors.cpp:290-316 | one binding counting every info (narrowed to uint32) is added; a write iff the list is non-empty |
| Descriptors.DescriptorBuilder.Build | src/vk_descriptors.cpp:318-355 | the layout comes from the cache for the builder's bindings, and the cache becomes CacheWith (unchanged on a hit, one new entry on a miss); the allocator moves as allocate does; on failure the set is VK_NULL_HANDLE, as a failed vkAllocateDescriptorSets leaves it, and no write is touched or submitted; on success the set is the allocated one, every write gets the set as dstSet and all of them are submitted |
| Devices.CheckDeviceExtensionSupport | src/physical_device.cpp:9-30 | true iff every required extension name is in the available list; the scan clears a flag instead of stopping |
| Devices.FirstWhere | src/physical_device.cpp:58-84 | the first index whose family has the property, None iff no family has it |
| Devices.QueueChoiceCapable | src/physical_device.cpp:58-88 | a chosen pair names a graphics-capable and a present-capable family of the device; no choice iff there is no combined family and no graphics-only or no present-only family |
| Devices.ChooseQueueFamilies | src/physical_device.cpp:56-88 | the family loop with its UINT32_MAX markers and goto yields the first combined family for both jobs, else the first graphics-only and first present-only families when both exist |
| Devices.CompatibleSound | src/physical_device.cpp:42-90 | every listed candidate comes from a device with all required extensions and carries that device's type and the families chosen for it; at most one entry per device |
| Devices.CompatibleComplete | src/physical_device.cpp:42-90 | every device with all the extensions and usable families is listed with its chosen families |
| Devices.DeviceEntryOf | src/physical_device.cpp:44-89 | one device contributes no entry without the extensions or without usable families, else exactly its candidate |
| Devices.FindCompatibleDevices | src/physical_device.cpp:32-93 | the list is the candidates of the devices, in enumeration order, for the engine's four required device extensions |
| Devices.FindCompatibleDevicesOpt | src/Enigne.cpp:75-126 | the vulkan.hpp variant checks only VK_KHR_swapchain and always returns a value, never nullopt |
| Devices.Score | src/physical_device.cpp:114-128 | the score is the type's table entry (type clamped to 0..5) plus one for a shared family: between 10 and 51, at least 50 for a discrete GPU and at most 41 otherwise |
| Devices.TypeDominates | src/physical_device.cpp:114-121 | discrete beats integrated beats virtual beats CPU beats the rest; within one type the shared-family bonus alone decides |
| Devices.BestCandidate | src/physical_device.cpp:122-133 | the chosen index has the maximal score and every earlier candidate scores strictly less, so ties go to the earliest |
| Devices.BestIsUnique | src/physical_device.cpp:125-133 | there is only one earliest candidate of maximal score |
| Devices.DeviceSelection.PickPhysicalDevice | src/physical_device.cpp:95-142 | fails (the assertion) iff no device is compatible and then records nothing; otherwise the earliest best candidate's device and families are recorded |
| Devices.DeviceSelection.InitPhysicalDevice | src/Enigne.cpp:128-198 | a failed surface creation throws; an empty compatible list throws "No compatible devices found"; otherwise the earliest best swapchain-capable candidate is recorded |
| EngineState.Flagged | src/Engine.h:108-112 | after flag(b), b is registered, existing entries keep their places, b is appended iff it was missing, and a duplicate-free registry stays duplicate-free |
| EngineState.FlaggedIdempotent | src/Engine.h:108-112 | flagging the same bool twice equals flagging it once |
| EngineState.FlagAllKeepsRegistry | src/Engine.h:107-112 | no sequence of flag calls produces a duplicate; the registry holds exactly the bools flagged so far, earlier entries first |
| EngineState.Engine.constructor | src/Engine.h:152-153 | the engine starts at slot 0 and frame 0 with three frame slots and no registered flags |
| EngineState.Engine.CurrentFrame | src/Engine.h:73 | getCurrentFrame returns one of the MAX_FRAMES_IN_FLIGHT (3) frames; the slot index is always in bounds |
| EngineState.Engine.Flag | src/Engine.h:108-112 | the registry becomes Flagged(old registry, b) and stays duplicate-free |
| EngineState.Engine.DrawFrame | src/draw.cpp:4-66 | the new slot, counter, resize flag and recreation count are exactly those of one drawFrame for the given acquire and present results, and the current frame is the slot of the old frame number |
| EngineState.DrawFrameOutcome | src/draw.cpp:4-66 | the slot is frameNumber mod 3; an out-of-date acquire recreates the swapchain and returns without counting; the counter advances (mod 2^32) iff the frame reaches present; the frame ends recreating after present iff the acquire gave success or suboptimal and present gave out-of-date or suboptimal or a resize is pending, and the resize flag is then cleared; the acquire trap fires iff the acquire gave any other result than out-of-date, success or suboptimal; the present trap fires iff the acquire was accepted, present gave any other result than out-of-date, suboptimal or success, and no resize is pending |
| EngineState.SlotsCycle | src/draw.cpp:8-65 | consecutive frames take consecutive slots, except across the uint32 wrap of _frameNumber, where two frames in a row both take slot 0 |
| Names.Contains | src/instance.cpp:40-45 | the inner strcmp scan finds the name iff it is in the available list |
| Names.AllInConcat | src/instance.cpp:37-52 | a list of requirements is met iff each part of it is met, so the scan may check one name at a time |
| Instance.CheckSupport | src/instance.cpp:30-53 | checkValidationLayerSupport (and checkInstanceExtensionSupport, the same loop) is true iff every required name is available; it stops false at the first missing one and an empty list passes |
| Instance.RequiredExtensions | src/instance.cpp:90-101 | GLFW's extensions in order, then VK_EXT_debug_utils iff validation is on; debug utils is present iff validation is on or GLFW asked for it |
| Instance.GetRequiredExtensions | src/instance.cpp:90-108 | returns exactly RequiredExtensions when all of them are supported and throws (None) otherwise |
| Instance.CreateInstance | src/instance.cpp:6-28 | unsupported extensions throw first; layers are checked only with validation on; the instance is created iff both checks pass and vkCreateInstance succeeds, with the validation layers enabled iff validation is on |
| Instance.DebugCallback | src/utils.h:72-81 | the debug messenger callback never asks for the call to be aborted (VK_FALSE), as the VK_EXT_debug_utils callback contract requires |
| Lights.AttenKeys | src/resources.h:261-275 | the radius keys of atten_map, one per entry, in table order |
| Lights.AttenKeysValues | src/resources.h:261-275 | the keys are 7, 13, 20, 32, 50, 65, 100, 160, 200, 325, 600, 3250 |
| Lights.AttenMapShape | src/resources.h:261-275 | the table has 12 entries with strictly increasing keys |
| Lights.FirstClosestUnique | src/resources.cpp:558-573 | at most one index is the first one at minimal distance from the radius |
| Lights.FirstClosest | src/resources.cpp:558-573 | the first index whose key minimises the distance to the radius |
| Lights.GetClosestRadiusIndex | src/resources.cpp:558-573 | the min-search loop returns the first index of minimal std::abs(key - radius) (strict < keeps the earlier index on ties), and 0 for an empty table or when no distance is below INT_MAX |
| Lights.NearestWithinReach | src/resources.cpp:559-565 | with key 7 in the table and a radius in range, the nearest distance is below INT_MAX, so the loop always takes a key |
| Lights.RangeMeansNoOverflow | src/resources.cpp:564 | for radii in the stated range no key - radius overflows an int |
| Lights.AdjustIndexSteps | src/resources.cpp:581-590 | mode 1 moves to the next larger key and mode 2 to the next smaller one, staying put at the ends; any other mode keeps the closest; the index never leaves the table |
| Lights.IndexOfKey | src/render.cpp:374 | the position in atten_map of a key the map holds |
| Lights.InitialRadii | src/resources.cpp:617-642 | Init snaps the radii 20, 10, 30, 5 to 20, 7, 32, 7; the tie at 10 goes to the earlier key 7 |
| Lights.SnapInOrderIsNearest | src/render.cpp:361-371 | whatever order the unordered_map visits its keys in, the key found is a table key at minimal distance from the radius |
| Lights.SnapTieDependsOnOrder | src/render.cpp:341-371 | with the unordered_map the tie at radius 10 is decided by the visiting order: 7 first gives 7, 13 first gives 13 |
| Lights.RenderContext.UpdateLightAttenuation | src/resources.cpp:575-599 | only the light at lightIndex changes: its radius becomes the key at the adjusted index and its constant, linear and quadratic that entry's factors |
| Lights.RenderContext.Init | src/resources.cpp:601-643 | the ambient colour is (0.2, 0.2, 0.2, 1); each light is the fresh light i snapped to its closest key; all four are enabled with radii 20, 7, 32, 7 |
| Lights.RenderContext.UpdateLightAttenuationUnordered | src/render.cpp:339-379 | only the light at lightIndex changes: its radius becomes the nearest key found in the map's visiting order and its attenuation that key's entry |
| Lights.RenderContext.InitUnordered | src/render.cpp:381-433 | every light is enabled at its position and tint with a table key as radius: 20, 7 or 13, 32, 7 |
| Lights.RenderContext.UpdateLightPosition | src/resources.cpp:552-556 | the light and its light object both move to the new position and nothing else changes |
| Lights.NearestKeys | src/render.cpp:397 | the nearest table keys to 20, 10, 30 and 5 are 20, 7 or 13, 32 and 7 |
| MeshLoad.FlattenShape | src/Mesh.cpp:41-86 | the faces of a shape give three vertices each |
| MeshLoad.FlattenShapeCorners | src/Mesh.cpp:40-82 | vertex k of a shape's flattening is built from its index k: faces are read in order with index_offset advancing by 3 |
| MeshLoad.FlattenAllLength | src/Mesh.cpp:38-87 | loadFromObj appends exactly three vertices per face of every shape, with no deduplication |
| MeshLoad.PrimVertex | src/Mesh.cpp:146-157 | a glTF vertex takes its position and normal from entry i, its colour is its normal and its uv is (0, 0) without TEXCOORD_0 |
| MeshLoad.PrimVertices | src/Mesh.cpp:146-158 | a primitive contributes one vertex per POSITION entry, vertex i from entry i |
| MeshLoad.GltfScanCompletes | src/Mesh.cpp:113-160 | the walk completes iff every primitive is a triangle list with POSITION and NORMAL; otherwise its stop is the reason of some primitive |
| MeshLoad.GltfScanStopsAtFirst | src/Mesh.cpp:113-128 | the walk stops at the first primitive that is not a triangle list or lacks POSITION or NORMAL |
| MeshLoad.GltfScanSticky | src/Mesh.cpp:115-128 | once the walk has returned, later primitives add nothing |
| MeshLoad.AllPrimitivesPrefix | src/Mesh.cpp:113-114 | the primitives of the first m meshes are visited before the rest, mesh by mesh |
| MeshLoad.GltfAsWrittenMisreports | src/Mesh.cpp:115-128 | as written, a primitive that is not a triangle list or lacks normals makes loadFromGLTF return true, and a fully loaded file returns no value |
| MeshLoad.GltfReportsErrors | src/Mesh.cpp:92-162 | with the intended returns, loadFromGLTF returns true exactly when the file loaded and every primitive was a triangle list with positions and normals |
| MeshLoad.GltfThrowsOnMissingPosition | src/Mesh.cpp:120 | a primitive without POSITION reached before any other stop throws out of attributes.at, as written and as intended |
| MeshLoad.Mesh.constructor | src/Mesh.h:23-24 | a new mesh has no vertices |
| MeshLoad.Mesh.LoadFromObj | src/Mesh.cpp:12-90 | returns true iff tinyobj succeeded with no error; then every triangle of every shape is appended in order, and otherwise the vertex list is unchanged |
| MeshLoad.Mesh.AppendShape | src/Mesh.cpp:40-86 | the face loop appends the shape's flattening |
| MeshLoad.Mesh.AppendPrimitive | src/Mesh.cpp:146-158 | the POSITION loop appends the primitive's vertices |
| MeshLoad.Mesh.WalkPrimitives | src/Mesh.cpp:113-160 | the old vertices are kept, and what is appended and how the walk ends is the scan of all primitives |
| MeshLoad.Mesh.WalkMesh | src/Mesh.cpp:114-159 | the primitive loop of one mesh extends the scan or stops it with the primitive's reason |
| MeshLoad.Mesh.LoadFromGltfAsWritten | src/Mesh.cpp:92-162 | a failed load changes nothing and returns false; otherwise the scan's vertices are appended and the return is the as-written one |
| MeshLoad.Mesh.LoadFromGltf | src/Mesh.cpp:92-162 | as loadFromGLTF, but with the intended returns: false on an unsupported primitive and true after all primitives |
| ObjData.MakeVertex | src/model_loader.cpp:296-324 | the corner's position from its vertex index, a zero normal when the normal index is negative, the colour equal to the normal, and uv with v flipped to 1 - v, (0, 1) without a texcoord |
| ObjData.VertexEqIsEquality | src/resources.h:25-27 | for vertices whose colour is their normal, as the loaders build them, operator== is plain equality |
| ObjData.VertexEqIgnoresNormal | src/resources.h:25-27 | operator== ignores the normal: a vertex equals a copy with another normal although the two differ |
| ObjData.EqualVerticesHashEqual | src/resources.h:30-49 | vertices equal under operator== get equal hashes when their normals agree, which holds for loader-built vertices |
| ObjLoader.FindMesh | src/model_loader.cpp:263-271 | the search over meshVertexMap finds a mesh with the material id iff one exists, and the one it reports has that id |
| ObjLoader.SearchMesh | src/model_loader.cpp:264-271 | the loop without a break reports a mesh iff one has the material id, and then the last such mesh |
| ObjLoader.FaceAt | src/model_loader.cpp:255-296 | a face carries a valid material id and the three vertices of its corners |
| ObjLoader.ShapeFaces | src/model_loader.cpp:254-348 | the first n faces of a shape, each with a known material |
| ObjLoader.AllFaces | src/model_loader.cpp:241-349 | the faces of all shapes, shape by shape, each with a known material |
| ObjLoader.Expand | src/model_loader.cpp:330-335 | the vertex stream an index buffer describes has one vertex per index |
| ObjLoader.AddVertexOk | src/model_loader.cpp:329-335 | adding a corner keeps the mesh's vertices distinct, its indices in range and uniqueVertices exact, and extends its vertex stream by that corner |
| ObjLoader.AddVerticesOk | src/model_loader.cpp:293-346 | the corners of a face extend the mesh's vertex stream by exactly those corners and keep the mesh well formed |
| ObjLoader.EmittedNone | src/model_loader.cpp:273-285 | a material no earlier face used has no corners yet, so a newly created mesh starts from an empty stream |
| ObjLoader.AddToMeshOk | src/model_loader.cpp:265-290 | a face whose material has a mesh keeps every load invariant: meshes well formed, distinct, covering every face, each holding its material's corners |
| ObjLoader.NewMeshOk | src/model_loader.cpp:273-285 | a face whose material has no mesh and whose mesh name is free creates a mesh that keeps every load invariant |
| ObjLoader.LoadFacesOk | src/model_loader.cpp:241-349 | when no ASSERT aborts, each mesh is well formed, named "MESH_MAT: " + its material's name, not an existing engine mesh, material ids and names are distinct, every face's material has a mesh, and each mesh's vertex stream is exactly the corners of its material's faces in order |
| ObjLoader.AbortIsFinal | src/model_loader.cpp:275 | once the ASSERT on an existing mesh name has aborted, later faces do not matter |
| ObjLoader.MeshForOther | src/model_loader.cpp:290-335 | a face of another material leaves a mesh's invariant intact |
| ObjLoader.MeshForSame | src/model_loader.cpp:290-335 | the mesh of the face's material takes the face's corners and keeps its invariant |
| ObjLoader.AddFaceVertices | src/model_loader.cpp:290-347 | the vertex loop of one face adds its corners to the current mesh and changes no other mesh |
| ObjLoader.LoadFace | src/model_loader.cpp:255-348 | one face iteration, with the search run only when the material changed, does what the face specification says, and leaves the current mesh as the one of its material |
| ObjLoader.LoadShape | src/model_loader.cpp:244-348 | the face loop of a shape, with prev_mat_id reset to -1, extends the load by the shape's faces when every face is a triangle with a material of the table, and aborts otherwise: no face, a face that is not a triangle, a first face of id -1 with no current mesh, or an id outside the table |
| ObjLoader.ShapeFace | src/model_loader.cpp:255-348 | one pass of the face loop either extends the load by face f, leaving the current mesh as the one of its material, or stops where the shape is not loadable or its load aborts |
| ObjLoader.LoadableFace | src/model_loader.cpp:251-285 | every face of a shape the loop gets through is a triangle whose material id indexes the material table |
| ObjLoader.FaceReady | src/model_loader.cpp:254-347 | after loadable faces, index_offset is 3f, so a triangle with a material of the table reads its corners inside the indices |
| ObjLoader.LoadableIff | src/model_loader.cpp:244-285 | on tinyobj's output a shape loads iff it has a face and every face is a triangle with a material id inside the table, -1 excluded |
| ObjData.TrianglesBeforeFit | src/model_loader.cpp:254-347 | when faces 0 .. f are triangles, face f's three corners lie inside the shape's indices |
| ObjLoader.LoadMeshes | src/model_loader.cpp:241-349 | the shape loop builds exactly the meshes the face-by-face specification gives when every shape is loadable, and aborts when one is not or where the specification aborts |
| ObjLoader.ObjBaseDir | src/model_loader.cpp:206-210 | the texture directory always ends with '/' |
| ObjLoader.ObjBaseDirOfJoin | src/model_loader.cpp:8-13 | a model at dir/name looks for its textures in dir/, or in ./ when dir is empty |
| ObjLoader.ChooseMeshInput | src/model_loader.cpp:226-235 | smoothing runs exactly when the file has no normals; otherwise the file's own attributes and shapes are used |
| ObjLoader.LoadModelFromObj | src/model_loader.cpp:189-349 | false iff tinyobj failed or reported an error; a shape with no face, a non-triangle face or a material id outside the table aborts the load; otherwise the meshes are those of the face-by-face specification, meeting every load invariant, or the load aborts exactly where it does |
| ObjLoader.MeshTex | src/model_loader.cpp:388-398 | a mesh asks for at most one file per kind: none when the material's name for it is empty |
| ObjLoader.TexNames | src/model_loader.cpp:384-405 | the meshes ask for at most one file each per kind, mesh by mesh |
| ObjLoader.LoadTexture | src/model_loader.cpp:359-405 | one file is loaded or reused, aborting iff it is neither loaded nor available; it is appended to its insertion-ordered list and the counters stay equal to the lists' lengths |
| ObjLoader.LoadMeshTextures | src/model_loader.cpp:388-405 | a mesh's diffuse then bump map are loaded, succeeding iff every file it names is available |
| ObjLoader.LoadTexturesOfMesh | src/model_loader.cpp:384-405 | one pass of the texture loop extends the ordered lists by mesh i's files and the textures by the files the first i + 1 meshes ask for, or fails only when a requested file is unavailable |
| ObjLoader.MissingTexture | src/model_loader.cpp:384-405 | a file one mesh names that is unavailable makes the whole texture loop fail |
| ObjLoader.MaterialTexRequested | src/model_loader.cpp:384-385 | the files one mesh names are among the files all meshes ask for |
| ObjLoader.LoadModelTextures | src/model_loader.cpp:359-405 | the texture loop succeeds iff every requested file is already loaded or available; the ordered lists grow by the requested names in mesh order and the engine's textures become the old ones plus the requested ones |
| ObjLoader.RequestedGrows | src/model_loader.cpp:384-405 | the files the first i meshes ask for are among those all of them ask for |
| PostFx.Ord | src/postfx.h:62-64 | each effect's enum value is its position in declaration order |
| PostFx.EffectPrefix | src/compute.cpp:290-308 | every prefix ends in '_' and has at least five characters |
| PostFx.PrefixHeadsDistinct | src/compute.cpp:290-308 | two effects whose prefixes share their first two characters are the same effect |
| PostFx.PrefixedKeyInjective | src/postfx.cpp:430-446 | prefix + name determines both the effect and the name, so distinct (effect, name) pairs never share a key |
| PostFx.EffectPrefixInjective | src/compute.cpp:290-308 | getEffectPrefix maps distinct effects to distinct prefixes |
| PostFx.StandardPrefixMap | src/postfx.cpp:29-34 | the constructor's effectPrefixMap holds every effect with the prefix getEffectPrefix gives it |
| PostFx.KeyedByEffectInsert | src/postfx.cpp:36-95 | inserting under prefix + name keeps every table key starting with some effect prefix |
| PostFx.KindType | src/postfx.cpp:398-411 | storage image exactly for IMG and PYR, uniform buffer exactly for UB, storage buffer exactly for SSBO |
| PostFx.KindCount | src/postfx.cpp:398-411 | one descriptor for every kind except PYR, which takes MAX_VIEWPORT_MIPS |
| PostFx.LayoutFor | src/postfx.cpp:396-415 | every declared binding is a compute binding below the kind count; with a positive MAX_VIEWPORT_MIPS, binding i has kind i's type and count |
| PostFx.WritesFor | src/postfx.cpp:396-415 | only buffer bindings get a write, each with one descriptor of its kind's type pointing at the frame's UB or SSBO; none when no kind is a buffer |
| PostFx.WritesForCount | src/postfx.cpp:396-415 | the number of writes equals the number of buffer kinds |
| PostFx.PendingWrites | src/postfx.cpp:339-364 | one storage-image write per queued binding, in order, to that binding and set, over all its views |
| PostFx.FlushCalls | src/postfx.cpp:332-371 | no descriptor update for an empty queue, otherwise exactly one carrying every pending write |
| PostFx.ComputeStage.constructor | src/postfx.h:17-38 | a stage with the table entry's shader, bindings and push-constant flag, an empty queue and no command buffer |
| PostFx.ComputeStage.Bind | src/postfx.cpp:301-306 | remembers the command buffer and appends exactly one pipeline bind in it |
| PostFx.ComputeStage.UpdateImage | src/postfx.cpp:308-314 | appends one binding of the single view and keeps the queue within MAX_IMAGE_UPDATES |
| PostFx.ComputeStage.UpdateImageAttachment | src/postfx.cpp:316-322 | appends one binding of the attachment's view and keeps the queue within MAX_IMAGE_UPDATES |
| PostFx.ComputeStage.UpdateImagePyramid | src/postfx.cpp:324-330 | appends one binding of all the pyramid's views and keeps the queue within MAX_IMAGE_UPDATES |
| PostFx.ComputeStage.WriteSets | src/postfx.cpp:332-371 | the queue is empty afterwards and the calls grow by exactly the flush of the old queue into sets[set_i] |
| PostFx.ComputeStage.Dispatch | src/postfx.cpp:373-381 | flush first, then bind sets[set_i] and dispatch groupsX x groupsY x 1; the queue ends empty |
| PostFx.ComputeStage.InitDescriptorSets | src/postfx.cpp:390-419 | the builder declares LayoutFor(dsetBindings); the layout is the cached one or the new one, and the shared cache becomes CacheWith of its old value; the frame's slot gets the allocated set and the buffer writes are issued when allocation succeeds; on failure the slot becomes VK_NULL_HANDLE and nothing is written |
| PostFx.SecondBuildSharesLayout | src/vk_descriptors.cpp:180-190 | a second stage with the same bindings on one cache gets the layout the first stage got |
| PostFx.BindKind | src/postfx.cpp:398-411 | one switch arm adds exactly that kind's layout binding and write |
| PostFx.BindAll | src/postfx.cpp:398-412 | the loop appends LayoutFor and WritesFor of the kinds to the builder |
| PostFx.PostFX.constructor | src/postfx.cpp:8-95 | bloom on, every other effect off, Durand mode, the standard prefixes, and tables whose keys all carry an effect prefix and whose stages all declare bindings |
| PostFx.PostFX.AddDurandTables | src/postfx.cpp:37-47 | the Durand stages and attachments keep the prefixes and tables well formed |
| PostFx.PostFX.AddFusionTables | src/postfx.cpp:48-67 | the exposure-fusion stages keep the prefixes and tables well formed |
| PostFx.PostFX.AddFusionPyramidStages | src/postfx.cpp:53-60 | the upsampling stages keep the prefixes and tables well formed |
| PostFx.PostFX.AddFusionImages | src/postfx.cpp:63-67 | the fusion attachment and pyramids keep the prefixes and tables well formed |
| PostFx.PostFX.AddBloomTables | src/postfx.cpp:68-77 | the bloom stages and pyramid keep the prefixes and tables well formed |
| PostFx.PostFX.AddExposureTables | src/postfx.cpp:78-83 | the adaptation stages keep the prefixes and tables well formed |
| PostFx.PostFX.AddGlobalTables | src/postfx.cpp:84-91 | the tone-mapping and gamma stages keep the prefixes and tables well formed |
| PostFx.PostFX.AddStage | src/postfx.cpp:39 | the stage table gains exactly the entry under the effect's prefix + name |
| PostFx.PostFX.AddAttachment | src/postfx.cpp:43 | the attachment table gains exactly an empty attachment under prefix + name |
| PostFx.PostFX.AddPyramid | src/postfx.cpp:65 | the pyramid table gains exactly an empty pyramid under prefix + name |
| PostFx.PostFX.GetPrefixFromEffect | src/postfx.cpp:448-456 | with the standard map, getEffectPrefix's prefix; "" for an effect the map lacks |
| PostFx.PostFX.GetEffectFromPrefix | src/postfx.cpp:458-467 | finds the first effect in key order whose prefix matches; fails iff none matches; with the standard map it inverts getPrefixFromEffect |
| PostFx.PostFX.IsEffectEnabled | src/postfx.cpp:469-488 | bloom, adaptation, global tone mapping and gamma follow their switches; Durand and fusion need local tone mapping and their own mode |
| PostFx.PostFX.Stage | src/postfx.cpp:430-434 | with the standard map, the entry under getEffectPrefix + key, which declares at least one binding |
| PostFx.PostFX.Att | src/postfx.cpp:436-440 | with the standard map, the attachment under getEffectPrefix + key |
| PostFx.PostFX.Pyr | src/postfx.cpp:442-446 | with the standard map, the pyramid under getEffectPrefix + key |
| PostFx.LocalOperatorsExclusive | src/postfx.cpp:469-476 | Durand and exposure fusion are never enabled together |
| PostFx.DefaultsEnableOnlyBloom | src/postfx.cpp:23-27 | with the constructor's switches, an effect is enabled iff it is bloom |
| PostFx.StageKeysDistinct | src/postfx.cpp:430-434 | two Stage lookups read the same entry only for the same effect and key |
| PostFx.ConfiguredStagesInitialisable | src/postfx.cpp:390-393 | every registered stage meets InitDescriptorSets' non-empty dsetBindings assertion |
| PostFx.ComputePass.constructor | src/compute.cpp:193-270 | the three tables are the given ones |
| PostFx.ComputePass.Stage | src/compute.cpp:272-276 | an entry of the stage table, found under getEffectPrefix + key |
| PostFx.ComputePass.Att | src/compute.cpp:278-282 | an entry of the attachment table, found under getEffectPrefix + key |
| PostFx.ComputePass.Pyr | src/compute.cpp:284-288 | an entry of the pyramid table, found under getEffectPrefix + key |
| PostFx.SameKeying | src/compute.cpp:272-274 | PostFX with its standard map builds the same key as ComputePass for every effect and key, so over equal tables the Stage, Att and Pyr lookups of the two classes succeed on the same keys and return the same entries |
| Render.OldMaxIsPreviousFrameMax | src/render.cpp:62-69 | once frame k is prepared, the old maximum (y) is what the shader reported in frame k - 1 (0 for frame 0) and the new maximum starts from 0, whatever the buffer held before |
| Render.ObjectBuffer.constructor | src/resources.h:184-185 | the buffer holds MAX_OBJECTS = 10 default object slots after the header |
| Render.LoadObjectBuffer | src/render.cpp:62-85 | frame 0 zeroes the header, later frames swap x and y and zero x; slot i gets object i's matrix and colour and every other slot is unchanged |
| Render.SsboData.constructor | src/resources.cpp:48-84 | the fields UpdateSSBOData and drawObjects write (the exposure and tone-mapping flags, the two maxima, MAX_OBJECTS default object slots), with the flags off and both maxima 0 |
| Render.UpdateSsboData | src/resources.cpp:48-60 | both flags come from the input context, slot i gets object i's transform and colour, and the maxima and later slots are unchanged |
| Render.UploadSsbo | src/resources.cpp:64-87 | afterwards the new maximum is 0, the old one is the mapped new maximum of the previous frame (0 on frame 0), and the mapped buffer equals the engine's copy |
| Render.BoundAppend | src/render.cpp:121-142 | what is bound after two runs of commands is what the second run leaves, starting from what the first left |
| Render.StepBound | src/resources.cpp:119-146 | one object's commands leave its own material and mesh bound, whatever was bound before |
| Render.BoundIsLastObject | src/resources.cpp:113-147 | after the commands for a run of objects the last object's material and mesh are bound |
| Render.DrawSpecPrefix | src/resources.cpp:115-147 | the commands for the first k objects are a prefix of the commands for all |
| Render.DrawSeesItsObject | src/resources.cpp:113-147 | binding only on change is sound: object i's draw uses instance index i and runs with object i's material and mesh bound |
| Render.DrawObjects | src/resources.cpp:113-147 | the loop records, per object, a pipeline bind (2 sets, 3 with a texture set, and the frame's dynamic scene-buffer offset) when the material changed, a vertex bind when the mesh changed, then a draw with instance index i |
| Render.UniformSlotsDisjoint | src/resources.cpp:89-124 | while the slots fit in 32 bits, the dynamic offset bound for frame f equals the size_t offset the frame's scene data is written at, is a multiple of the device's alignment, and frame f's scene data ends before frame f + 1's slot begins |
| Scene.RenderObject.constructor | src/resources.h:95-109 | a new object has the given tag, colour, mesh, material and position, no model, is neither skybox nor light source, and its recorded position is the origin |
| Scene.RenderObject.LightSource | src/assets.cpp:107-116 | a light-source object carries its tag, colour, the sphere model and the light's position, and is marked as a light source |
| Scene.RenderObject.HasMoved | src/types.cpp:133-139 | true iff the position differs from the recorded one; the recorded position becomes the current one |
| Scene.HasMovedTwice | src/types.cpp:133-139 | a second HasMoved with no movement in between reports false |
| SceneState.GetCache | src/types.cpp:191-202 | nullptr (None) iff the name is absent, otherwise the stored entry |
| SceneState.CacheAfterStore | src/types.cpp:191-202 | after storing under a name its lookup finds the new value and every other name's lookup is unchanged |
| SceneState.Tags | src/types.cpp:12 | the tag of each renderable, in order |
| SceneState.TagOfMember | src/types.cpp:20-22 | the tag of any object in the list is among its tags, so find_if finds it |
| SceneState.ShowKeepsAndCovers | src/types.cpp:17-27 | showing keeps every renderable in place, leaves every light tag present, appends only light objects and adds no duplicate tag |
| SceneState.ShowNoop | src/types.cpp:17-27 | showing when every light tag is already present changes nothing |
| SceneState.ShowIdempotent | src/types.cpp:17-27 | a second show changes nothing |
| SceneState.HideRemovesExactlyLights | src/types.cpp:9-16 | the intended hide keeps exactly the renderables whose tag is not a light tag, so no light object remains |
| SceneState.HideAfterShow | src/types.cpp:7-28 | hiding after showing gives what hiding alone gives |
| SceneState.ScanLights | src/types.cpp:11-15 | the inner loop as written never lengthens the renderables |
| SceneState.HideSkipsNext | src/types.cpp:10-16 | as written, [light1, light0] keeps light0: the erase of light1 slides light0 into place and only later lights are compared with it |
| SceneState.HideReadsPastEnd | src/types.cpp:10-16 | as written, [main, light0] reads one past the end of the renderables after erasing light0 |
| SceneState.ScanLightsAlone | src/types.cpp:11-16 | on renderables that are the remaining lights in order, the inner loop erases each one and never reads past the end |
| SceneState.HideAsWrittenOnLightsAlone | src/types.cpp:9-16 | when the renderables are exactly the light objects, the hide loop as written succeeds and equals the intended hide, which removes them all |
| SceneState.Engine.constructor | src/Engine.h:160-174 | every scene container is empty and both texture counters are 0 |
| SceneState.Engine.GetMaterial | src/types.cpp:204-207 | nullptr iff no material has the name, otherwise the stored one |
| SceneState.Engine.GetMesh | src/types.cpp:209-212 | nullptr iff no mesh has the name, otherwise the stored one |
| SceneState.Engine.GetTexture | src/types.cpp:214-217 | nullptr iff no texture has the name, otherwise the stored one |
| SceneState.Engine.GetModel | src/types.cpp:219-222 | nullptr iff no model has the name, otherwise the stored one |
| SceneState.Engine.CreateMaterial | src/render.cpp:4-14 | the material is stored (or overwritten) under its name with no texture set, its lookup then finds it, other names are unaffected, and its cleanup is pushed on the deletion stack |
| SceneState.Engine.FindTag | src/types.cpp:20-23 | find_if finds an object iff its tag is among the renderables' tags |
| SceneState.Engine.SetDisplayLightSourceObjects | src/types.cpp:7-28 | showing appends each light object whose tag is missing; hiding (as intended) removes every light-tagged renderable and keeps the rest in order |
| SceneState.Engine.HideLightObjectsAsWritten | src/types.cpp:9-16 | the hide loop as written, with the index advancing after an erase; it fails exactly where the loop reads past the end |
| SceneState.Engine.CreateLightObjects | src/assets.cpp:98-129 | with a sphere model, four fresh light-source objects tagged light0..light3 at the lights' positions go to the renderables and light objects, then the display setting is applied with the hide loop as written (ok is false where it reads past the end); without a sphere nothing changes; starting from the empty lists cleanupScene leaves, it never fails and the result is the intended show or hide |
| SceneState.Engine.AddLightObjects | src/assets.cpp:105-120 | one fresh sphere object per light, light i's position and tag "light" + i, appended to both lists |
| SceneState.Engine.ApplyLightDisplay | src/assets.cpp:127 | setDisplayLightSourceObjects with the scene's setting: the show, or the hide loop as written |
| SceneState.Engine.RegisterModelTexture | src/model_loader.cpp:359-405 | a loaded texture is reused and a missing or unreadable file aborts; the texture gets the current counter as its global index, is appended to its insertion-ordered list, and the counter stays equal to the list's length |
| SceneState.Engine.CleanupScene | src/assets.cpp:605-622 | renderables, light objects, models, meshes and textures are emptied, the scene dispose stack is flushed in reverse push order, the counters restart at 0, and materials survive |
| Scripts.Join | scripts/compile_shaders.py:26-29 | os.path.join of two components: the first, one separator, then the second |
| Scripts.Selected | scripts/compile_shaders.py:36-37 | the loop handles exactly the listing entries ending in one of the six shader extensions, in listing order |
| Scripts.SelectedStep | scripts/compile_shaders.py:36-46 | one more listing entry adds itself to the selection iff it has a shader extension |
| Scripts.ResolveGlslc | scripts/compile_shaders.py:12-19 | which()'s hit when there is one; otherwise external/shaderc/glslc on win32 and nothing elsewhere |
| Scripts.CompileActions | scripts/compile_shaders.py:42-44 | two actions per compiled source |
| Scripts.CompileActionsAt | scripts/compile_shaders.py:42-44 | the i-th source's command is echoed and then run through os.system, at positions 2i and 2i+1 |
| Scripts.CompileActionsConcat | scripts/compile_shaders.py:36-46 | compiling two runs of sources does what compiling each in turn does |
| Scripts.CompileLoop | scripts/compile_shaders.py:36-46 | the loop's actions are bin_dir created once (only if missing and some source is selected) followed by every selected source's echo and compile |
| Scripts.Compiled | scripts/compile_shaders.py:40-44 | two actions per source plus one makedirs exactly when bin_dir is missing and there is a source |
| Scripts.CompileStep | scripts/compile_shaders.py:37-46 | a shader entry adds makedirs (first source only, bin_dir missing) then its echo and compile; any other entry adds nothing |
| Scripts.CompileShaders | scripts/compile_shaders.py:5-46 | usage and exit 1 unless exactly one argument; exit 1 when glslc is not found on linux or the path does not exist; TypeError when nothing is found elsewhere; otherwise chdir then the compile loop, finishing whatever glslc returns |
| Scripts.FirstPass | compile_shaders.py:11-17 | two actions for every shader source of the first listing |
| Scripts.SpvEntries | compile_shaders.py:19-20 | exactly the entries of the second listing that end in .spv |
| Scripts.SecondPass | compile_shaders.py:19-26 | two actions per .spv entry, the second being its move into bin |
| Scripts.CompileShadersInPlace | compile_shaders.py:1-26 | the first pass over the first listing followed by the second pass over the .spv entries of the second listing |
| Scripts.EverySpvMoved | compile_shaders.py:19-24 | every .spv the second listing shows is moved into bin, including ones the first pass did not produce |
| Scripts.BuildAndRun | build-n-run.py:1-35 | cmake, then MSBuild from which() or the fixed Visual Studio path, then the executable; each runs only after the previous returned 0, the first failure exits 1, and the script finishes iff all three return 0 |
| Scripts.Wsl | scripts/linux-build-n-run.py:53-54 | the command prefixed by "wsl " iff the flag is given |
| Scripts.MakeCommand | scripts/linux-build-n-run.py:64-67 | the composed make command is "wsl make" iff the flag is given |
| Scripts.HandleRemoveReadonly | scripts/linux-build-n-run.py:13-31 | re-raises iff the path is writable; otherwise makes it owner-writable and retries the failed step |
| Scripts.LinuxStages | scripts/linux-build-n-run.py:43-91 | clean cache and build directory if present, configure, chdir, make, check the executable, run it; the first failure exits 1 and the script finishes iff every stage succeeds |
| Scripts.LinuxBuildAndRunAsWritten | scripts/linux-build-n-run.py:69 | once cmake succeeds, make runs as "wsl make" whatever the flag |
| Scripts.AsWrittenMakeIgnoresFlag | scripts/linux-build-n-run.py:64-69 | without the flag, configure runs unprefixed yet make runs as "wsl make", which is not the composed command |
| Scripts.LinuxBuildAndRun | scripts/linux-build-n-run.py:43-91 | every process is run through WSL iff the flag is given, make uses the composed command, and the script finishes iff every stage succeeds |
| Smoothing.Iota | src/model_loader.cpp:169-171 | the face indices 0 .. n - 1, in order |
| Smoothing.KeyOrder | src/model_loader.cpp:172 | the key g * n + f with f < n orders the pairs (g, f) as std::pair's comparison does |
| Smoothing.SortedFacesCover | src/model_loader.cpp:169-172 | after the sort every face of the shape appears in sortedids, and nothing else does |
| Smoothing.SortedFacesStrict | src/model_loader.cpp:172 | sortedids ascend strictly in (group id, face index) order, so no face appears twice |
| Smoothing.SortedIds | src/model_loader.cpp:169-172 | sortedids holds one pair per face: the face's group id and its index, in sorted order |
| Smoothing.SortedIdsAscend | src/model_loader.cpp:172 | the group ids in sortedids never decrease |
| Smoothing.RunEnd | src/model_loader.cpp:178-179 | the inner while stops at the first id of another group or at the end, so [idbegin, idend) holds a single group |
| Smoothing.RunEndUnique | src/model_loader.cpp:178-179 | a constant run that stops at a change of group or at the end is the one the inner while finds |
| Smoothing.RunsPartition | src/model_loader.cpp:174-184 | the runs tile the sorted ids without gap or overlap, each non-empty and of one group, with strictly ascending groups, so no group is split |
| Smoothing.SplitRuns | src/model_loader.cpp:174-184 | the split loop yields exactly the maximal runs, in order |
| Smoothing.AddCorner | src/model_loader.cpp:127-153 | one corner keeps the output positions a whole number of vertices |
| Smoothing.FaceCorners | src/model_loader.cpp:127-128 | a face has three input corners |
| Smoothing.Corners | src/model_loader.cpp:118-128 | the faces of a run give three input corners each |
| Smoothing.AddFace | src/model_loader.cpp:118-155 | one face keeps the output positions a whole number of vertices |
| Smoothing.AddFaces | src/model_loader.cpp:118-155 | the faces of a run keep the output positions a whole number of vertices |
| Smoothing.SmoothShape | src/model_loader.cpp:102-156 | computeSmoothingShape leaves the output positions a whole number of vertices |
| Smoothing.ReuseKeeps | src/model_loader.cpp:130-135 | in a non-zero group a remapped input vertex reuses its output vertex, with the normal index equal to it and the texcoord -1 exactly when the input's is |
| Smoothing.FreshKeeps | src/model_loader.cpp:136-151 | a fresh corner appends the input position and a zero normal, uses the new offset for vertex and normal (and texcoord unless -1), and records it in the remap |
| Smoothing.AddCornerKeeps | src/model_loader.cpp:127-154 | one corner keeps every corner mapped from its input, with the attributes only grown and the remap consistent |
| Smoothing.AddCornersKeeps | src/model_loader.cpp:127-154 | the corners of a face keep every corner mapped from its input, in order |
| Smoothing.AddFacesKeeps | src/model_loader.cpp:118-155 | per face the output mesh holds one 3, the group id, the face's material id when the input has any, and three mapped corners |
| Smoothing.SmoothShapeMeets | src/model_loader.cpp:102-156 | the output shape keeps the input's name and per face a 3, the group id, the material id and three indices; corners are mapped and attributes only grow; in group 0 every corner has its own fresh vertex and in any other group corners with the same input vertex share one |
| Smoothing.FacesOf | src/model_loader.cpp:119 | the face index of each sorted id, in order |
| Smoothing.RunsInRange | src/model_loader.cpp:177-184 | every run lies inside the sorted ids and is non-empty |
| Smoothing.SmoothRuns | src/model_loader.cpp:177-184 | splitting keeps the output positions a whole number of vertices |
| Smoothing.SmoothRunsShapes | src/model_loader.cpp:177-184 | the shapes already made are kept and one shape per run is appended, in run order, with the run's faces and group |
| Smoothing.RemapCorner | src/model_loader.cpp:127-154 | the corner loop body does what AddCorner specifies |
| Smoothing.RemapFace | src/model_loader.cpp:118-155 | the face loop body does what AddFace specifies |
| Smoothing.ComputeSmoothingShape | src/model_loader.cpp:102-156 | computeSmoothingShape for [idbegin, idend) does what SmoothShape specifies for the run's faces in the group of its first id |
| Smoothing.ComputeRuns | src/model_loader.cpp:177-184 | the split loop makes one shape per run, as SmoothRuns specifies |
| Smoothing.ComputeSmoothingShapes | src/model_loader.cpp:158-186 | every input shape is sorted, split into runs and made into shapes sharing one attribute set, as SmoothAll specifies |
| StrUtil.StrToUpper | src/cpp_utils.cpp:5-8 | same length; every 'a'..'z' becomes its upper-case letter and every other character is kept |
| StrUtil.StrToUpperIdempotent | src/cpp_utils.cpp:5-8 | upper-casing twice is the same as upper-casing once |
| StrUtil.FindLastOf | src/resources.cpp:13-14 | the position found holds one of the characters and none after it does; no position at all when the string holds none of them |
| StrUtil.FindLastOfIs | src/resources.cpp:34-35 | find_last_of returns k whenever k is the last position holding one of the characters |
| StrUtil.Substr | src/resources.cpp:38-41 | defined (no out_of_range) iff pos <= size, and then the characters from pos, at most count of them |
| StrUtil.GetBaseDir | src/resources.cpp:11-16 | a prefix of the path: empty when the path has no separator, otherwise everything before the last separator |
| StrUtil.BaseDirOfJoin | src/resources.cpp:11-16 | the base directory of dir + separator + a separator-free name is dir |
| StrUtil.GetFileNameNoExt | src/resources.cpp:32-45 | without separators: the path cut at its last '.'; with a '.' before the last separator, substr throws |
| StrUtil.GetFileNameNoExtKeepsSeparator | src/resources.cpp:41 | on dir/stem.ext the result is the separator followed by the stem minus its last character |
| StrUtil.CubeExample | src/resources.cpp:32-45 | "models/cube.obj" gives "/cub" as written and "cube" as intended |
| StrUtil.FileNameNoExt | src/resources.cpp:32-45 | the intended file name: contains no separator and is no longer than the path |
| StrUtil.FileNameNoExtOfJoin | src/resources.cpp:32-45 | on dir + separator + stem + "." + an extension without dots or separators, the result is exactly the stem |
| Swapchain.PickSurfaceFormat | src/swapchain.cpp:33-42 | the 8-bit BGRA sRGB format with the sRGB non-linear colour space if offered, otherwise the first format offered |
| Swapchain.PickPresentMode | src/swapchain.cpp:44-53 | MAILBOX iff it is offered, otherwise FIFO |
| Swapchain.Clamp | src/swapchain.cpp:65-66 | std::max(lo, std::min(hi, x)) lies in [lo, hi] when lo <= hi, keeps an x inside, and gives lo when hi < lo |
| Swapchain.PickExtent | src/swapchain.cpp:55-70 | the surface's currentExtent unless its width is UINT32_MAX; then the framebuffer size with each side clamped into the surface's limits, unchanged when already inside |
| Swapchain.ImageCount | src/swapchain.cpp:86-90 | one more than the minimum (as a uint32_t sum), never above a non-zero maximum |
| Swapchain.Sharing | src/swapchain.cpp:108-115 | CONCURRENT over both families iff graphics and present families differ, EXCLUSIVE otherwise |
| Swapchain.SwapchainState.constructor | src/Engine.h:142 | no swapchain yet: a null handle, no images and nothing destroyed |
| Swapchain.SwapchainState.CreateSwapchain | src/swapchain.cpp:12-135 | aborts without surface formats or present modes; the create info carries the computed count, format, extent, present mode, sharing and the current handle as oldSwapchain; only on success is the old non-null handle destroyed and replaced, with images, format and window extent updated |
| Swapchain.RecreateTwice | src/swapchain.cpp:117-125 | two recreations destroy exactly the first two handles, each once, and the second creation names the first new swapchain as old |

## Left out

- Vulkan, VMA, GLFW and ImGui calls: handles are created and destroyed by the environment, and command recording, memory mapping, submission and fences are not modelled. Their results (VkResult, created handles, enumerated properties) are parameters.
- Floating-point work is not modelled, because it cannot usefully be verified here. This covers camera movement and rotation, `computeAllSmoothingNormals` (its output is an input of `ObjLoader.LoadModelFromObj`), the `sqrt` of `UpdateLightRadius`, `RenderObject::Transform` (model matrices are opaque ids), bmin/bmax/maxExtent, and the max-intensity scaling. Reals are only copied and compared.
- Light radii are integers. Both attenuation tables use integer keys and the initial radii are whole numbers.
- The tinyobj, tinygltf, stb_image and nlohmann json parsers are not part of this model. Their decoded output is the input data.
- Process and file I/O are not modelled: `readShaderBinary`, `abort_log`, and the effects of `os.system`, `subprocess`, `shutil` and `os.chdir`. Directory listings, `which()` results, existence checks and exit codes are inputs, and the scripts return the actions they take.
- `subprocess.run` is given a single string. How the platform splits that string into a program and its arguments is not modelled.
- Timing (`calculateFPS`, `calculateDeltaTime`) is not modelled.
- The iteration order of `std::unordered_map` is unspecified. Where the source iterates one (the attenuation table of src/render.cpp, `meshVertexMap`), the order is an input, or the creation order of the meshes.
- `MAX_VIEWPORT_MIPS` is not defined in the shipped sources, so it is a parameter of `PostFx.LayoutFor` and `PostFx.ComputeStage.InitDescriptorSets`.
- A `dsetBindings` value outside UB/SSBO/IMG/PYR hits the `ASSERT(false)` default. It cannot be expressed with the `BindingKind` datatype.
- The PostFX float tuning fields (exposure, bloom and tone-mapping parameters) and `PostFXStage::Create`/`Destroy`/`Barrier` are not modelled. They are shader-module and pipeline plumbing with no decisions.
- Descriptors.SortByBinding: std::sort is not stable and the model sorts stably. With two bindings of the same binding number, which is invalid in Vulkan, the source's order, and so the cache key, may differ from the model's.
- ObjLoader.LoadModelFromObj: when the file has no normals, the smoothed shapes are required to have the form tinyobj gives (one material id per face, the face sizes adding up to the index count, every corner inside the new attributes). This is not derived from the contracts of `Smoothing.ComputeSmoothingShapes`.
- ObjLoader.LoadShape: reading `materials[mat_id]` with an id outside the material table is undefined behaviour in the source. The model stops with `Aborted` there, like the ASSERTs of the same loop.
- PostFx.ComputePass.constructor: the ComputePass tables are taken as parameters. The literal entries of src/compute.cpp:193-270 are not listed, because only the keying through `getEffectPrefix` is used.
- PostFx.PostFX.constructor: the ensures states the switches, the prefix map and the well-formedness of the tables (every key carries an effect prefix, every stage declares a binding). It does not list each literal stage, attachment and pyramid entry. `AddStage`, `AddAttachment` and `AddPyramid` state each insertion exactly.
- `PostFXStage` and `ComputeStage` have identical members and bodies, so both are modelled by `PostFx.ComputeStage`. The descriptor sampler and image layout in each image info are not modelled.
- The duplicated support checks in src/initialization.cpp and src/utils.h are the same loops as src/instance.cpp. They are modelled once, by `Instance.CheckSupport`, `Instance.RequiredExtensions` and `Instance.GetRequiredExtensions`.
- Smoothing.ComputeSmoothingShape: no range is claimed for the texcoord indices. The source sets a corner's texcoord index to the new vertex index but appends texcoords only for corners that have one, so a shape that mixes textured and untextured corners can produce texcoord indices beyond the texcoord array.
- Render.SsboData.constructor: the shipped `GPUSSBOData` (src/resources.h:172-186) declares `showNormals`, `exposure`, `enableExposure{1}` and a pad field, and `newMax`/`oldMax` appear there only in a comment. The model follows the fields that src/resources.cpp:48-84 writes (`exposureON`, `toneMappingON`, `newMax`, `oldMax`, `objects`). Their default values, flags off and maxima 0, are assumed, because no shipped declaration gives them.
- Assets.LoadScene: the `createScene()` call at the end of `loadScene` (re-creating the scene's objects from the loaded settings) is not modelled. Only the settings read from the file are.
- Swapchain.SwapchainState.CreateSwapchain: the surface format comes from `ImGui_ImplVulkanH_SelectSurfaceFormat`, which is outside the engine, so it is a parameter. The engine's own, unused `pickSurfaceFormat` is modelled separately as `Swapchain.PickSurfaceFormat`.
- `RenderObject`'s rotation and scale, and the GPU vertex and index buffers of `Mesh`, are not modelled. Neither takes part in a decision.
- Pipeline, render-pass, frame-data, texture, image-view, framebuffer, command, device, debug and surface set-up, and the GPU memory layouts, are not modelled. They are Vulkan struct plumbing with no decisions.
- The window and input callbacks (src/window.cpp) and the ImGui UI (src/UI.cpp) are not modelled. The exception is the flag registry of `flag()`.

## Findings

| source | as written | input that shows it | evidently intended | confidence | as-written member | corrected member |
|---|---|---|---|---|---|---|
| src/resources.cpp:41 | GetFileNameNoExt takes the substring from the separator itself, one character short, so it keeps the separator and drops the last character of the stem | "models/cube.obj" gives "/cub"; latent, since the only call, src/resources.cpp:362, is commented out and the copy at src/model_loader.cpp:29 is never called | the stem without directory and extension, "cube" | high, not executed | StrUtil.GetFileNameNoExtKeepsSeparator | StrUtil.FileNameNoExtOfJoin |
| src/types.cpp:9-16 | setDisplayLightSourceObjects(false) erases _renderables[i] and still advances i, so the next element is skipped; once the last element is erased, the tag comparison reads past the end | [light1, light0] keeps light0; [main, light0] reads _renderables[1] after it is gone | every light object removed and no out-of-range read | high, not executed | SceneState.HideSkipsNext | SceneState.HideRemovesExactlyLights |
| src/Mesh.cpp:115-128 | loadFromGLTF returns 1 (true) on a non-triangle primitive or a primitive without normals, and has no return statement on success | a glTF mesh with one primitive of mode 1 (lines) reports success | false on those errors, true on success | high, not executed | MeshLoad.GltfAsWrittenMisreports | MeshLoad.GltfReportsErrors |
| scripts/linux-build-n-run.py:69 | make runs as the literal "wsl make" and the composed cmd is unused | without --linux-is-wsl the configure runs natively but make runs through WSL | make runs as "wsl make" only with the flag | high, not executed | Scripts.AsWrittenMakeIgnoresFlag | Scripts.LinuxBuildAndRun |

=== FILE: alignment.dfy ===
/**
 * Power-of-two rounding: Engine::pad_uniform_buffer_size (src/memory.cpp)
 * and math::roundUpPw2 (src/math_utils.cpp).
 *
 * Both clear the low bits of a sum with a mask (`& ~(a - 1)` on size_t,
 * `& -multiple` on int).  For a = 2^k that mask clears exactly the k low
 * bits, which ClearLowBits defines bit by bit; the lemmas then show that
 * this is rounding down to a multiple of a.
 */
module Alignment {

  const SIZE_T_LIMIT: nat := 0x1_0000_0000_0000_0000  // 2^64, size_t wraps here
  const INT_MIN: int := -0x8000_0000
  const INT_MAX: int := 0x7fff_ffff
  const UINT32_LIMIT: nat := 0x1_0000_0000

  function Pow2(k: nat): (p: nat)
    ensures p >= 1
  {
    if k == 0 then 1 else 2 * Pow2(k - 1)
  }

  /** n has exactly one bit set. */
  predicate IsPowerOfTwo(n: nat)
    decreases n
  {
    n == 1 || (n >= 2 && n % 2 == 0 && IsPowerOfTwo(n / 2))
  }

  /** The position of the single set bit of a power of two. */
  function Log2(n: nat): (k: nat)
    requires IsPowerOfTwo(n)
    ensures Pow2(k) == n
    decreases n
  {
    if n == 1 then 0 else 1 + Log2(n / 2)
  }

  /** v with its k lowest bits cleared: v & ~(2^k - 1). */
  function ClearLowBits(v: nat, k: nat): (c: nat)
    ensures c <= v
  {
    if k == 0 then v else 2 * ClearLowBits(v / 2, k - 1)
  }

  lemma MulSub(a: int, b: int, c: int)
    ensures (a - b) * c == a * c - b * c
  {
  }

  lemma {:induction false} MulAtLeast(a: int, d: int)
    requires a >= 1 && d > 0
    ensures a * d >= d
  {
    if a > 1 {
      MulAtLeast(a - 1, d);
      MulSub(a, 1, d);
    }
  }

  /** Division with remainder is unique. */
  lemma DivModUnique(v: int, d: int, q: int, r: int)
    requires d > 0 && 0 <= r < d && v == q * d + r
    ensures v / d == q && v % d == r
  {
    var q', r' := v / d, v % d;
    assert v == q' * d + r';
    if q > q' {
      MulSub(q, q', d);
      MulAtLeast(q - q', d);
    } else if q < q' {
      MulSub(q', q, d);
      MulAtLeast(q' - q, d);
    }
  }

  lemma ModAddMultiple(v: int, c: int, m: int)
    requires m > 0
    ensures (v + c * m) % m == v % m
  {
    assert v == (v / m) * m + v % m;
    assert v + c * m == (v / m + c) * m + v % m;
    DivModUnique(v + c * m, m, v / m + c, v % m);
  }

  lemma {:induction false} ClearLowBitsRoundsDown(v: nat, k: nat)
    ensures ClearLowBits(v, k) == v - v % Pow2(k)
  {
    if k > 0 {
      var p := Pow2(k - 1);
      ClearLowBitsRoundsDown(v / 2, k - 1);
      var q, r := (v / 2) / p, (v / 2) % p;
      assert v / 2 == q * p + r;
      assert v == q * (2 * p) + (2 * r + v % 2);
      DivModUnique(v, 2 * p, q, 2 * r + v % 2);
    }
  }

  lemma {:induction false} Pow2Add(i: nat, j: nat)
    ensures Pow2(i + j) == Pow2(i) * Pow2(j)
  {
    if i > 0 {
      Pow2Add(i - 1, j);
    }
  }

  /** v rounded down to a multiple of m lies in (v - m, v] and is a multiple of m. */
  lemma RoundDownFacts(v: int, m: int)
    requires m > 0
    ensures (v - v % m) % m == 0
    ensures v - m < v - v % m <= v
  {
    assert v == (v / m) * m + v % m;
    DivModUnique(v - v % m, m, v / m, 0);
  }

  /** The unique multiple of m in [n, n + m). */
  lemma MultipleInWindowUnique(n: int, m: int, x: int, y: int)
    requires m > 0
    requires x % m == 0 && y % m == 0
    requires n <= x < n + m && n <= y < n + m
    ensures x == y
  {
    var qx, qy := x / m, y / m;
    assert x == qx * m && y == qy * m;
    if qx < qy {
      MulSub(qy, qx, m);
      MulAtLeast(qy - qx, m);
    } else if qy < qx {
      MulSub(qx, qy, m);
      MulAtLeast(qx - qy, m);
    }
  }

  /** Clearing the low bits below a power of two a rounds v down to a multiple of a, by less than a. */
  lemma RoundDownPow2(v: nat, a: nat)
    requires IsPowerOfTwo(a)
    ensures ClearLowBits(v, Log2(a)) % a == 0
    ensures v - a < ClearLowBits(v, Log2(a)) <= v
  {
    ClearLowBitsRoundsDown(v, Log2(a));
    RoundDownFacts(v, a);
  }

  /**
   * Engine::pad_uniform_buffer_size: with a non-zero alignment the size is
   * rounded up to the next multiple of it, the sum wrapping at 2^64 as size_t
   * does; alignment 0 leaves the size alone.  The Vulkan specification's
   * Limits chapter guarantees that minUniformBufferOffsetAlignment is a power
   * of two.
   */
  function PadUniformBufferSize(originalSize: nat, minUboAlignment: nat): (r: nat)
    requires originalSize < SIZE_T_LIMIT && minUboAlignment < SIZE_T_LIMIT
    requires minUboAlignment == 0 || IsPowerOfTwo(minUboAlignment)
    ensures r < SIZE_T_LIMIT
    ensures minUboAlignment == 0 ==> r == originalSize
    ensures minUboAlignment > 0 ==> r % minUboAlignment == 0
    ensures minUboAlignment > 0 && originalSize + minUboAlignment - 1 < SIZE_T_LIMIT ==>
              originalSize <= r < originalSize + minUboAlignment
  {
    if minUboAlignment > 0 then
      var sum := (originalSize + minUboAlignment - 1) % SIZE_T_LIMIT;
      RoundDownPow2(sum, minUboAlignment);
      ClearLowBits(sum, Log2(minUboAlignment))
    else
      originalSize
  }

  /** A power of two below 2^64 divides 2^64. */
  lemma PowerOfTwoDividesSizeLimit(a: nat)
    requires IsPowerOfTwo(a) && a < SIZE_T_LIMIT
    ensures SIZE_T_LIMIT % a == 0
  {
    var k := Log2(a);
    if k >= 64 {
      Pow2Monotone(64, k);
      Pow2Is2To64();
      assert false;
    }
    assert SIZE_T_LIMIT == Pow2(64 - k) * a by {
      Pow2Add(64 - k, k);
      Pow2Is2To64();
    }
    DivModUnique(SIZE_T_LIMIT, a, Pow2(64 - k), 0);
  }

  lemma {:induction false} Pow2Monotone(i: nat, j: nat)
    requires i <= j
    ensures Pow2(i) <= Pow2(j)
    decreases j
  {
    if i < j {
      Pow2Monotone(i, j - 1);
    }
  }

  lemma Pow2Byte()
    ensures Pow2(7) == 128 && Pow2(8) == 256
  {
    assert Pow2(1) == 2;
    assert Pow2(2) == 4;
    assert Pow2(3) == 8;
    assert Pow2(4) == 16;
    assert Pow2(5) == 32;
    assert Pow2(6) == 64;
  }

  lemma Pow2Is2To64()
    ensures Pow2(64) == SIZE_T_LIMIT
  {
    Pow2Byte();
    assert Pow2(16) == 0x1_0000 by { Pow2Add(8, 8); }
    assert Pow2(32) == UINT32_LIMIT by { Pow2Add(16, 16); }
    Pow2Add(32, 32);
  }

  /** A size that is already a multiple of the alignment comes back unchanged. */
  lemma {:induction false} PadKeepsAlignedSize(x: nat, a: nat)
    requires x < SIZE_T_LIMIT && a < SIZE_T_LIMIT
    requires a == 0 || IsPowerOfTwo(a)
    requires a == 0 || x % a == 0
    ensures PadUniformBufferSize(x, a) == x
  {
    if a > 0 {
      PowerOfTwoDividesSizeLimit(a);
      if x + a > SIZE_T_LIMIT {
        // both x and 2^64 would be multiples of a in [x, x + a)
        MultipleInWindowUnique(x, a, x, SIZE_T_LIMIT);
      }
      MultipleInWindowUnique(x, a, x, PadUniformBufferSize(x, a));
    }
  }

  /** Padding twice is padding once. */
  lemma PadIdempotent(x: nat, a: nat)
    requires x < SIZE_T_LIMIT && a < SIZE_T_LIMIT
    requires a == 0 || IsPowerOfTwo(a)
    ensures PadUniformBufferSize(PadUniformBufferSize(x, a), a) == PadUniformBufferSize(x, a)
  {
    PadKeepsAlignedSize(PadUniformBufferSize(x, a), a);
  }

  /** The 32-bit two's complement bit pattern of an int, as an unsigned value. */
  function ToBits32(v: int): (u: nat)
    requires INT_MIN <= v <= INT_MAX
    ensures u < UINT32_LIMIT
  {
    if v < 0 then v + UINT32_LIMIT else v
  }

  /** The int whose 32-bit two's complement pattern is u. */
  function FromBits32(u: nat): (v: int)
    requires u < UINT32_LIMIT
    ensures INT_MIN <= v <= INT_MAX
  {
    if u > INT_MAX then u - UINT32_LIMIT else u
  }

  /**
   * math::roundUpPw2: (numToRound + multiple - 1) & -multiple on int.  The
   * source asserts that multiple is a non-zero power of two; signed overflow
   * in the sum is undefined, so the sum must fit in an int.
   */
  function RoundUpPw2(numToRound: int, multiple: int): (r: int)
    requires 0 < multiple <= INT_MAX && IsPowerOfTwo(multiple)
    requires INT_MIN <= numToRound && numToRound + multiple - 1 <= INT_MAX
    ensures INT_MIN <= r <= INT_MAX
    ensures r % multiple == 0
    ensures numToRound <= r < numToRound + multiple
  {
    var sum := numToRound + multiple - 1;
    var k := Log2(multiple);
    TwosComplementRoundDown(sum, k);
    RoundDownFacts(sum, multiple);
    FromBits32(ClearLowBits(ToBits32(sum), k))
  }

  lemma Pow2Values()
    ensures Pow2(31) == 0x8000_0000 && Pow2(32) == UINT32_LIMIT
  {
    Pow2Byte();
    assert Pow2(15) == 0x8000 by { Pow2Add(8, 7); }
    assert Pow2(16) == 0x1_0000 by { Pow2Add(8, 8); }
    assert Pow2(31) == 0x8000_0000 by { Pow2Add(16, 15); }
    Pow2Add(16, 16);
  }

  /** A power of two that fits in an int is at most 2^30. */
  lemma SmallPow2(k: nat)
    requires Pow2(k) <= INT_MAX
    ensures k <= 30
  {
    if k >= 31 {
      Pow2Monotone(31, k);
      Pow2Values();
      assert false;
    }
  }

  /** 2^k divides 2^j when k <= j. */
  lemma Pow2Divides(k: nat, j: nat)
    requires k <= j
    ensures Pow2(j) % Pow2(k) == 0 && Pow2(j) == Pow2(j - k) * Pow2(k)
  {
    Pow2Add(j - k, k);
    DivModUnique(Pow2(j), Pow2(k), Pow2(j - k), 0);
  }

  lemma TwosComplementRoundDown(v: int, k: nat)
    requires INT_MIN <= v <= INT_MAX && Pow2(k) <= INT_MAX
    ensures FromBits32(ClearLowBits(ToBits32(v), k)) == v - v % Pow2(k)
  {
    var m := Pow2(k);
    SmallPow2(k);
    Pow2Values();
    ClearLowBitsRoundsDown(ToBits32(v), k);
    if v < 0 {
      Pow2Divides(k, 32);
      Pow2Divides(k, 31);
      NegativeRoundDown(v, m, Pow2(32 - k), Pow2(31 - k));
    } else {
      RoundDownFacts(v, m);
    }
  }

  /** Rounding the unsigned pattern of a negative v down equals rounding v down, shifted by 2^32. */
  lemma NegativeRoundDown(v: int, m: int, c: int, h: int)
    requires INT_MIN <= v < 0 && m > 0
    requires c * m == UINT32_LIMIT && h * m == -INT_MIN
    ensures (v + UINT32_LIMIT) % m == v % m
    ensures INT_MIN <= v - v % m
  {
    ModAddMultiple(v, c, m);
    RoundDownFacts(v, m);
    DivModUnique(INT_MIN, m, -h, 0);
    if v - v % m < INT_MIN {
      MultipleInWindowUnique(v - v % m, m, v - v % m, INT_MIN);
    }
  }

  /** An exact multiple is returned unchanged, so rounding twice is rounding once. */
  lemma RoundUpPw2Idempotent(n: int, m: int)
    requires 0 < m <= INT_MAX && IsPowerOfTwo(m)
    requires INT_MIN <= n && n + m - 1 <= INT_MAX
    ensures var r := RoundUpPw2(n, m);
            r + m - 1 <= INT_MAX ==> RoundUpPw2(r, m) == r
    ensures n % m == 0 ==> RoundUpPw2(n, m) == n
  {
    var r := RoundUpPw2(n, m);
    if r + m - 1 <= INT_MAX {
      MultipleInWindowUnique(r, m, r, RoundUpPw2(r, m));
    }
    if n % m == 0 {
      MultipleInWindowUnique(n, m, n, r);
    }
  }
}

=== FILE: assets.dfy ===
/**
 * Asset bookkeeping of src/assets.cpp: the texture-array descriptor writes,
 * the cubemap staging layout of loadSkybox, the mesh buffer sizes of
 * createMeshBuffer/uploadMesh, and the correspondence between the keys
 * saveScene writes and loadScene reads.  Decoded images and parsed scene
 * files are given as values; the Vulkan calls that consume the computed
 * layouts are not modelled.
 */
module Assets {
  import opened Wrappers
  import opened Vk
  import opened Scene
  import Lights
  import SceneState
  import Deletion

  // ---------------------------------------------------------------------
  // writeTextureDescriptorSets
  // ---------------------------------------------------------------------

  const DIFFUSE_TEX_BINDING: nat := 5
  const BUMP_TEX_BINDING: nat := 6

  /**
   * One VkWriteDescriptorSet of type COMBINED_IMAGE_SAMPLER.  `images` names
   * the textures whose views fill pImageInfo, in array order; each is paired
   * with the engine's linear sampler.
   */
  datatype TextureWrite = TextureWrite(dstSet: Handle, binding: nat, images: seq<string>)
  {
    function DescriptorCount(): nat { |images| }
  }

  /** How many writes one frame receives: one per non-empty texture list. */
  function PerFrame(diffuse: nat, bump: nat): (n: nat)
    ensures n <= 2
  {
    (if diffuse > 0 then 1 else 0) + (if bump > 0 then 1 else 0)
  }

  /**
   * The writes for one frame's scene set: the diffuse array if there is one,
   * then the bump array if there is one, each listing its textures in
   * insertion order.
   */
  function FrameTextureWrites(dstSet: Handle, diffuse: seq<string>, bump: seq<string>): (r: seq<TextureWrite>)
    ensures |r| == PerFrame(|diffuse|, |bump|)
    ensures forall w :: w in r ==> w.dstSet == dstSet && w.DescriptorCount() > 0
    ensures forall w :: w in r ==> (w.binding == DIFFUSE_TEX_BINDING && w.images == diffuse)
                                   || (w.binding == BUMP_TEX_BINDING && w.images == bump)
    ensures |diffuse| > 0 ==> r[0] == TextureWrite(dstSet, DIFFUSE_TEX_BINDING, diffuse)
    ensures |bump| > 0 ==> r[|r| - 1] == TextureWrite(dstSet, BUMP_TEX_BINDING, bump)
  {
    (if |diffuse| > 0 then [TextureWrite(dstSet, DIFFUSE_TEX_BINDING, diffuse)] else [])
    + (if |bump| > 0 then [TextureWrite(dstSet, BUMP_TEX_BINDING, bump)] else [])
  }

  /** The writes for every frame, in frame order. */
  function TextureWrites(sets: seq<Handle>, diffuse: seq<string>, bump: seq<string>): seq<TextureWrite>
  {
    if |sets| == 0 then []
    else TextureWrites(sets[..|sets| - 1], diffuse, bump) + FrameTextureWrites(sets[|sets| - 1], diffuse, bump)
  }

  lemma SlotBelow(k: nat, j: nat, p: nat, m: nat)
    requires k < m && j < p
    ensures k * p + j < m * p
  {
    assert (k + 1) * p == k * p + p;
    assert (k + 1) * p <= m * p;
  }

  lemma {:induction false} TextureWritesLength(sets: seq<Handle>, diffuse: seq<string>, bump: seq<string>)
    ensures |TextureWrites(sets, diffuse, bump)| == |sets| * PerFrame(|diffuse|, |bump|)
    decreases |sets|
  {
    if |sets| > 0 {
      TextureWritesLength(sets[..|sets| - 1], diffuse, bump);
      assert (|sets| - 1) * PerFrame(|diffuse|, |bump|) + PerFrame(|diffuse|, |bump|) == |sets| * PerFrame(|diffuse|, |bump|);
    }
  }

  /** Writing for two runs of frames is writing for the first run, then for the second. */
  lemma {:induction false} TextureWritesConcat(a: seq<Handle>, b: seq<Handle>, diffuse: seq<string>, bump: seq<string>)
    ensures TextureWrites(a + b, diffuse, bump) == TextureWrites(a, diffuse, bump) + TextureWrites(b, diffuse, bump)
    decreases |b|
  {
    if |b| > 0 {
      var b' := b[..|b| - 1];
      assert (a + b)[..|a + b| - 1] == a + b';
      assert (a + b)[|a + b| - 1] == b[|b| - 1];
      TextureWritesConcat(a, b', diffuse, bump);
    } else {
      assert a + b == a;
    }
  }

  /**
   * The writes form |sets| consecutive blocks of PerFrame writes; block k,
   * starting at k × PerFrame, is frame k's writes.  So each frame's scene
   * set gets exactly the non-empty texture arrays, and nothing else is
   * written.
   */
  lemma TextureWritesLayout(sets: seq<Handle>, diffuse: seq<string>, bump: seq<string>, k: nat)
    requires k < |sets|
    ensures TextureWrites(sets, diffuse, bump)
            == TextureWrites(sets[..k], diffuse, bump) + FrameTextureWrites(sets[k], diffuse, bump) + TextureWrites(sets[k + 1..], diffuse, bump)
    ensures |TextureWrites(sets[..k], diffuse, bump)| == k * PerFrame(|diffuse|, |bump|)
    ensures |TextureWrites(sets, diffuse, bump)| == |sets| * PerFrame(|diffuse|, |bump|)
  {
    assert sets == sets[..k + 1] + sets[k + 1..];
    TextureWritesConcat(sets[..k + 1], sets[k + 1..], diffuse, bump);
    assert sets[..k + 1][..k] == sets[..k];
    TextureWritesLength(sets[..k], diffuse, bump);
    TextureWritesLength(sets, diffuse, bump);
  }

  /** With both texture lists empty, no write is issued at all. */
  lemma NoTexturesNoWrites(sets: seq<Handle>)
    ensures TextureWrites(sets, [], []) == []
  {
    TextureWritesLength(sets, [], []);
  }

  /**
   * writeTextureDescriptorSets: the writes handed to vkUpdateDescriptorSets,
   * built by one pass over the frames' scene sets from the two
   * insertion-ordered texture lists.
   */
  method WriteTextureDescriptorSets(eng: SceneState.Engine, frameSets: seq<Handle>) returns (writes: seq<TextureWrite>)
    ensures writes == TextureWrites(frameSets, eng.diffTexOrdered, eng.bumpTexOrdered)
    ensures |writes| == |frameSets| * PerFrame(|eng.diffTexOrdered|, |eng.bumpTexOrdered|)
  {
    var diffuse := eng.diffTexOrdered;
    var bump := eng.bumpTexOrdered;
    writes := [];
    for i := 0 to |frameSets|
      invariant writes == TextureWrites(frameSets[..i], diffuse, bump)
    {
      assert frameSets[..i + 1][..i] == frameSets[..i];
      if |diffuse| > 0 {
        writes := writes + [TextureWrite(frameSets[i], DIFFUSE_TEX_BINDING, diffuse)];
      }
      if |bump| > 0 {
        writes := writes + [TextureWrite(frameSets[i], BUMP_TEX_BINDING, bump)];
      }
    }
    assert frameSets[..|frameSets|] == frameSets;
    TextureWritesLength(frameSets, diffuse, bump);
  }

  // ---------------------------------------------------------------------
  // loadSkybox
  // ---------------------------------------------------------------------

  /** SKYBOX_PATH of src/defs.h. */
  const SKYBOX_ROOT: string := "assets/images/skybox/"
  const FACE_SUFFIXES: seq<string> := ["px", "nx", "py", "ny", "pz", "nz"]
  const CUBE_FACES: nat := 6
  /** Bytes per texel of a face decoded as four 32-bit floats (STBI_rgb_alpha, R32G32B32A32_SFLOAT). */
  const TEXEL_SIZE: nat := 16

  datatype ImageDims = ImageDims(width: nat, height: nat, channels: nat)

  /** What stb_image reports for one file: stbi_is_hdr, and the result of stbi_loadf (None for a null pointer). */
  datatype HdrFile = HdrFile(isHdr: bool, decoded: Option<ImageDims>)

  datatype SkyboxError = NotHdr | LoadFailed | SizeMismatch

  /** One VkBufferImageCopy: where in the staging buffer a face starts and which array layer it fills. */
  datatype CopyRegion = CopyRegion(bufferOffset: nat, baseArrayLayer: nat, layerCount: nat, width: nat, height: nat)

  datatype SkyboxLoad =
    | SkyboxAborted(face: nat, error: SkyboxError)
    | SkyboxLoaded(tag: string, dims: ImageDims, imageSize: nat, bufferSize: nat,
                   faceOffsets: seq<nat>, regions: seq<CopyRegion>)

  function FacePath(basePath: string, i: nat): string
    requires i < CUBE_FACES
  {
    basePath + "/" + FACE_SUFFIXES[i] + ".hdr"
  }

  /** The file behind face i; a missing file is one stbi_is_hdr rejects. */
  function FaceFile(files: map<string, HdrFile>, basePath: string, i: nat): Option<HdrFile>
    requires i < CUBE_FACES
  {
    var path := FacePath(basePath, i);
    if path in files then Some(files[path]) else None
  }

  /**
   * The check that fails first for face i, if any: the HDR test, the decode,
   * and, for faces after the first, equality of width, height and channel
   * count with face 0.
   */
  function FaceError(files: map<string, HdrFile>, basePath: string, i: nat): Option<SkyboxError>
    requires i < CUBE_FACES
  {
    var f := FaceFile(files, basePath, i);
    if f.None? || !f.value.isHdr then Some(NotHdr)
    else if f.value.decoded.None? then Some(LoadFailed)
    else if i > 0 && FaceError(files, basePath, 0).None? && f.value.decoded != FaceFile(files, basePath, 0).value.decoded
    then Some(SizeMismatch)
    else None
  }

  /** The dimensions of face 0, which every other face must share. */
  function BaseDims(files: map<string, HdrFile>, basePath: string): ImageDims
    requires FaceError(files, basePath, 0).None?
  {
    FaceFile(files, basePath, 0).value.decoded.value
  }

  /** The six copy regions: layer f reads imageSize bytes from offset f × imageSize. */
  method CopyRegions(dims: ImageDims, imageSize: nat) returns (regions: seq<CopyRegion>)
    ensures |regions| == CUBE_FACES
    ensures forall f :: 0 <= f < CUBE_FACES ==>
              regions[f] == CopyRegion(f * imageSize, f, 1, dims.width, dims.height)
  {
    regions := [];
    var offset: nat := 0;
    for face := 0 to CUBE_FACES
      invariant |regions| == face && offset == face * imageSize
      invariant forall f :: 0 <= f < face ==> regions[f] == CopyRegion(f * imageSize, f, 1, dims.width, dims.height)
    {
      regions := regions + [CopyRegion(offset, face, 1, dims.width, dims.height)];
      offset := offset + imageSize;
    }
  }

  /**
   * loadSkybox: checks and stages the six faces px, nx, py, ny, pz, nz of
   * SKYBOX_ROOT + dirName in order, aborting at the first face whose check
   * fails.  Face i is copied to offset i × imageSize of a staging buffer of
   * 6 × imageSize bytes, imageSize = width × height × 16, and copy region i
   * reads it back into array layer i.
   */
  method LoadSkybox(dirName: string, files: map<string, HdrFile>) returns (r: SkyboxLoad)
    ensures var basePath := SKYBOX_ROOT + dirName;
      r.SkyboxAborted? ==> r.face < CUBE_FACES && FaceError(files, basePath, r.face) == Some(r.error)
                           && forall j :: 0 <= j < r.face ==> FaceError(files, basePath, j).None?
    ensures var basePath := SKYBOX_ROOT + dirName;
      r.SkyboxLoaded? <==> forall j :: 0 <= j < CUBE_FACES ==> FaceError(files, basePath, j).None?
    ensures r.SkyboxLoaded? ==>
      var basePath := SKYBOX_ROOT + dirName;
      && FaceError(files, basePath, 0).None?
      && r.tag == basePath
      && r.dims == BaseDims(files, basePath)
      && r.imageSize == r.dims.width * r.dims.height * TEXEL_SIZE
      && r.bufferSize == CUBE_FACES * r.imageSize
      && |r.faceOffsets| == CUBE_FACES && |r.regions| == CUBE_FACES
      && (forall j :: 0 <= j < CUBE_FACES ==> r.faceOffsets[j] == j * r.imageSize)
      && (forall j :: 0 <= j < CUBE_FACES ==> r.regions[j].bufferOffset == r.faceOffsets[j] && r.regions[j].baseArrayLayer == j)
  {
    var basePath := SKYBOX_ROOT + dirName;
    var base := ImageDims(0, 0, 0);
    var imageSize: nat := 0;
    var offsets: seq<nat> := [];
    var bufferOffset: nat := 0;
    for i := 0 to CUBE_FACES
      invariant forall j :: 0 <= j < i ==> FaceError(files, basePath, j).None?
      invariant i > 0 ==> FaceError(files, basePath, 0).None? && base == BaseDims(files, basePath)
      invariant imageSize == base.width * base.height * TEXEL_SIZE
      invariant |offsets| == i && bufferOffset == i * imageSize
      invariant forall j :: 0 <= j < i ==> offsets[j] == j * imageSize
    {
      var path := FacePath(basePath, i);
      if path !in files || !files[path].isHdr {
        return SkyboxAborted(i, NotHdr);
      }
      var img := files[path].decoded;
      if img.None? {
        return SkyboxAborted(i, LoadFailed);
      }
      if i == 0 {
        base := img.value;
        imageSize := base.width * base.height * 4 * 4;
      } else if img.value != base {
        return SkyboxAborted(i, SizeMismatch);
      }
      offsets := offsets + [bufferOffset];
      bufferOffset := bufferOffset + imageSize;
    }
    var regions := CopyRegions(base, imageSize);
    r := SkyboxLoaded(basePath, base, imageSize, CUBE_FACES * imageSize, offsets, regions);
  }

  /**
   * The staging layout has no overlap and no overflow: each face's
   * imageSize bytes end before the next face starts, and the last one ends
   * exactly at the end of the buffer.
   */
  lemma FaceSlotsDisjoint(imageSize: nat, j: nat, k: nat)
    requires j < k < CUBE_FACES
    ensures j * imageSize + imageSize <= k * imageSize
    ensures k * imageSize + imageSize <= CUBE_FACES * imageSize
  {
    assert (j + 1) * imageSize <= k * imageSize by {
      if imageSize > 0 { SlotBelow(j, imageSize - 1, imageSize, k); }
    }
    assert (k + 1) * imageSize <= CUBE_FACES * imageSize by {
      if imageSize > 0 { SlotBelow(k, imageSize - 1, imageSize, CUBE_FACES); }
    }
  }

  // ---------------------------------------------------------------------
  // createMeshBuffer and uploadMesh
  // ---------------------------------------------------------------------

  /** sizeof(Vertex): pos, normal and color are three 4-byte floats each, uv two. */
  const VERTEX_SIZE: nat := 44
  /** sizeof(uint32_t), the index type. */
  const INDEX_SIZE: nat := 4

  datatype BufferKind = VertexBuffer | IndexBuffer
  datatype MeshBuffer = MeshBuffer(kind: BufferKind, size: nat)

  /**
   * createMeshBuffer: a GPU buffer exactly large enough for the mesh's
   * vertices (or indices), whose release is pushed onto the scene dispose
   * stack.  An empty vertex (or index) list fails the entry assertion and
   * nothing is created.
   */
  method CreateMeshBuffer(eng: SceneState.Engine, isVertexBuffer: bool, vertexCount: nat, indexCount: nat, deletor: nat)
    returns (r: Option<MeshBuffer>)
    modifies eng.sceneDisposeStack
    ensures r.Some? <==> (if isVertexBuffer then vertexCount > 0 else indexCount > 0)
    ensures r.Some? ==> r.value.kind == (if isVertexBuffer then VertexBuffer else IndexBuffer)
    ensures r.Some? && isVertexBuffer ==> r.value.size == vertexCount * VERTEX_SIZE
    ensures r.Some? && !isVertexBuffer ==> r.value.size == indexCount * INDEX_SIZE
    ensures r.Some? ==> eng.sceneDisposeStack.deletors == old(eng.sceneDisposeStack.deletors) + [deletor]
    ensures r.None? ==> eng.sceneDisposeStack.deletors == old(eng.sceneDisposeStack.deletors)
  {
    if !((isVertexBuffer && vertexCount > 0) || (!isVertexBuffer && indexCount > 0)) {
      return None;
    }
    var bufferSize := if isVertexBuffer then vertexCount * VERTEX_SIZE else indexCount * INDEX_SIZE;
    var kind := if isVertexBuffer then VertexBuffer else IndexBuffer;
    eng.sceneDisposeStack.Push(deletor);
    r := Some(MeshBuffer(kind, bufferSize));
  }

  /**
   * uploadMesh: the vertex buffer, then the index buffer.  A mesh without
   * indices still gets its vertex buffer before the second assertion fails.
   */
  method UploadMesh(eng: SceneState.Engine, vertexCount: nat, indexCount: nat, vertexDeletor: nat, indexDeletor: nat)
    returns (vertexBuffer: Option<MeshBuffer>, indexBuffer: Option<MeshBuffer>)
    modifies eng.sceneDisposeStack
    ensures vertexBuffer.Some? <==> vertexCount > 0
    ensures indexBuffer.Some? <==> vertexCount > 0 && indexCount > 0
    ensures vertexBuffer.Some? ==> vertexBuffer.value == MeshBuffer(VertexBuffer, vertexCount * VERTEX_SIZE)
    ensures indexBuffer.Some? ==> indexBuffer.value == MeshBuffer(IndexBuffer, indexCount * INDEX_SIZE)
    ensures eng.sceneDisposeStack.deletors == old(eng.sceneDisposeStack.deletors)
              + (if vertexCount > 0 then [vertexDeletor] else [])
              + (if vertexCount > 0 && indexCount > 0 then [indexDeletor] else [])
  {
    indexBuffer := None;
    vertexBuffer := CreateMeshBuffer(eng, true, vertexCount, indexCount, vertexDeletor);
    if vertexBuffer.None? {
      return;
    }
    indexBuffer := CreateMeshBuffer(eng, false, vertexCount, indexCount, indexDeletor);
  }

  // ---------------------------------------------------------------------
  // saveScene and loadScene
  // ---------------------------------------------------------------------

  /** One entry of the scene file's "lights" array. */
  datatype LightJson = LightJson(enabled: bool, position: Vec3, intensity: real)

  /** The keys of a scene file: model_name, model_position, model_scale, bump_strength, lights, skybox. */
  datatype SceneJson = SceneJson(modelName: string, modelPosition: Vec3, modelScale: real,
                                 bumpStrength: real, lights: seq<LightJson>, skybox: string)

  /** The part of the render context a scene file describes. */
  datatype SceneSettings = SceneSettings(modelPos: Vec3, modelScale: real, modelPath: string, skyboxPath: string,
                                         bumpStrength: real, lights: seq<Lights.Light>)

  function Settings(rc: Lights.RenderContext): SceneSettings
    reads rc
  {
    SceneSettings(rc.modelPos, rc.modelScale, rc.modelPath, rc.skyboxPath, rc.bumpStrength, rc.lights)
  }

  function LightToJson(l: Lights.Light): LightJson
  {
    LightJson(l.enabled, l.position, l.intensity)
  }

  /** A light after loading: enabled, intensity and position from the file, everything else kept. */
  function LightFromJson(l: Lights.Light, j: LightJson): Lights.Light
  {
    l.(enabled := j.enabled, intensity := j.intensity, position := j.position)
  }

  /** The file saveScene writes; model_position is the main object's current position. */
  function SceneToJson(s: SceneSettings, mainObjectPos: Vec3): (j: SceneJson)
    ensures |j.lights| == |s.lights|
  {
    SceneJson(s.modelPath, mainObjectPos, s.modelScale, s.bumpStrength,
              seq(|s.lights|, i requires 0 <= i < |s.lights| => LightToJson(s.lights[i])), s.skyboxPath)
  }

  /**
   * The settings after loadScene reads j, and whether it got through every
   * light: the scalar keys are always taken; light i is taken from entry i
   * for each i below MAX_LIGHTS that the array has, and a shorter array
   * stops the load at its first missing entry.
   */
  function SceneFromJson(s: SceneSettings, j: SceneJson): (r: (SceneSettings, bool))
    requires |s.lights| == Lights.MAX_LIGHTS
    ensures |r.0.lights| == Lights.MAX_LIGHTS
    ensures r.1 <==> |j.lights| >= Lights.MAX_LIGHTS
  {
    var ls := seq(Lights.MAX_LIGHTS, i requires 0 <= i < Lights.MAX_LIGHTS =>
                if i < |j.lights| then LightFromJson(s.lights[i], j.lights[i]) else s.lights[i]);
    (SceneSettings(j.modelPosition, j.modelScale, j.modelName, j.skybox, j.bumpStrength, ls),
     |j.lights| >= Lights.MAX_LIGHTS)
  }

  /**
   * Loading a scene right after saving it restores model_name, model_scale,
   * skybox, bump_strength and each light's enabled, intensity and position;
   * the model position becomes the main object's position, not the old
   * modelPos.
   */
  lemma LoadAfterSave(s: SceneSettings, mainObjectPos: Vec3)
    requires |s.lights| == Lights.MAX_LIGHTS
    ensures SceneFromJson(s, SceneToJson(s, mainObjectPos)) == (s.(modelPos := mainObjectPos), true)
  {
    var j := SceneToJson(s, mainObjectPos);
    var r := SceneFromJson(s, j);
    forall i | 0 <= i < Lights.MAX_LIGHTS
      ensures r.0.lights[i] == s.lights[i]
    {
      var l := s.lights[i];
      assert j.lights[i] == LightToJson(l);
      assert LightFromJson(l, LightToJson(l)) == l;
    }
    assert r.0.lights == s.lights;
  }

  /** saveScene: the scene file describing the render context. */
  method SaveScene(rc: Lights.RenderContext) returns (j: SceneJson)
    requires rc.Valid() && rc.mainObject != null
    ensures j == SceneToJson(Settings(rc), rc.mainObject.pos)
    ensures j.modelName == rc.modelPath && j.modelPosition == rc.mainObject.pos && j.skybox == rc.skyboxPath
    ensures |j.lights| == Lights.MAX_LIGHTS
    ensures forall i :: 0 <= i < Lights.MAX_LIGHTS ==>
              j.lights[i] == LightJson(rc.lights[i].enabled, rc.lights[i].position, rc.lights[i].intensity)
  {
    var arr: seq<LightJson> := [];
    for i := 0 to Lights.MAX_LIGHTS
      invariant |arr| == i
      invariant forall k :: 0 <= k < i ==> arr[k] == LightToJson(rc.lights[k])
    {
      var l := rc.lights[i];
      arr := arr + [LightJson(l.enabled, l.position, l.intensity)];
    }
    j := SceneJson(rc.modelPath, rc.mainObject.pos, rc.modelScale, rc.bumpStrength, arr, rc.skyboxPath);
  }

  /**
   * loadScene: assigns the scene settings from a parsed scene file.  ok is
   * false when the lights array has fewer than MAX_LIGHTS entries, where
   * reading the first missing entry throws; the assignments made before it
   * remain.
   */
  method LoadScene(rc: Lights.RenderContext, j: SceneJson) returns (ok: bool)
    requires rc.Valid()
    modifies rc
    ensures rc.Valid()
    ensures (Settings(rc), ok) == SceneFromJson(old(Settings(rc)), j)
    ensures rc.lightObjects == old(rc.lightObjects) && rc.mainObject == old(rc.mainObject)
    ensures rc.ambientColor == old(rc.ambientColor) && rc.displayLightSourceObjects == old(rc.displayLightSourceObjects)
  {
    ghost var s0 := Settings(rc);
    rc.modelPos := j.modelPosition;
    rc.modelScale := j.modelScale;
    rc.modelPath := j.modelName;
    rc.skyboxPath := j.skybox;
    rc.bumpStrength := j.bumpStrength;
    for i := 0 to Lights.MAX_LIGHTS
      invariant |rc.lights| == Lights.MAX_LIGHTS
      invariant i <= |j.lights|
      invariant forall k :: 0 <= k < Lights.MAX_LIGHTS ==>
                  rc.lights[k] == if k < i then LightFromJson(s0.lights[k], j.lights[k]) else s0.lights[k]
      invariant rc.modelPos == j.modelPosition && rc.modelScale == j.modelScale && rc.modelPath == j.modelName
      invariant rc.skyboxPath == j.skybox && rc.bumpStrength == j.bumpStrength
      invariant rc.lightObjects == old(rc.lightObjects) && rc.mainObject == old(rc.mainObject)
      invariant rc.ambientColor == old(rc.ambientColor) && rc.displayLightSourceObjects == old(rc.displayLightSourceObjects)
    {
      if i >= |j.lights| {
        assert rc.lights == SceneFromJson(s0, j).0.lights;
        return false;
      }
      rc.lights := rc.lights[i := LightFromJson(rc.lights[i], j.lights[i])];
    }
    assert rc.lights == SceneFromJson(s0, j).0.lights;
    ok := true;
  }
}

=== FILE: deletion.dfy ===
/**
 * DeletionStack and InputContext from src/types.h.
 *
 * A deletor is a callback; the model names each one by an id, and flushing
 * returns the ids in the order the callbacks run.
 */
module Deletion {

  /** The sequence read from its last element to its first. */
  function Reverse<T>(s: seq<T>): (r: seq<T>)
    ensures |r| == |s|
  {
    if s == [] then [] else [s[|s| - 1]] + Reverse(s[..|s| - 1])
  }

  lemma {:induction false} ReverseIndex<T>(s: seq<T>, i: nat)
    requires i < |s|
    ensures Reverse(s)[i] == s[|s| - 1 - i]
    decreases |s|
  {
    if i > 0 {
      ReverseIndex(s[..|s| - 1], i - 1);
    }
  }

  /** Every deletor pushed runs exactly once, and the last one pushed runs first. */
  lemma {:induction false} ReverseRunsEachOnce<T>(s: seq<T>)
    ensures multiset(Reverse(s)) == multiset(s)
    ensures |s| > 0 ==> Reverse(s)[0] == s[|s| - 1]
    decreases |s|
  {
    if s != [] {
      ReverseRunsEachOnce(s[..|s| - 1]);
      assert s == s[..|s| - 1] + [s[|s| - 1]];
    }
  }

  /** Reading the calls backwards gives the push order back. */
  lemma ReverseReverse<T>(s: seq<T>)
    ensures Reverse(Reverse(s)) == s
  {
    forall i | 0 <= i < |s| ensures Reverse(Reverse(s))[i] == s[i] {
      ReverseIndex(Reverse(s), i);
      ReverseIndex(s, |s| - 1 - i);
    }
  }

  /** Deletors pushed after a flush run before the ones pushed earlier. */
  lemma ReverseAppend<T>(s: seq<T>, t: seq<T>)
    ensures Reverse(s + t) == Reverse(t) + Reverse(s)
  {
    forall i | 0 <= i < |s| + |t| ensures Reverse(s + t)[i] == (Reverse(t) + Reverse(s))[i] {
      ReverseIndex(s + t, i);
      if i < |t| {
        ReverseIndex(t, i);
      } else {
        ReverseIndex(s, i - |t|);
      }
    }
  }

  class DeletionStack {
    /** Pending deletors, the top of the stack last. */
    var deletors: seq<nat>

    constructor ()
      ensures deletors == []
    {
      deletors := [];
    }

    /** push: the new deletor goes on top, nothing else moves. */
    method Push(deletor: nat)
      modifies this
      ensures deletors == old(deletors) + [deletor]
    {
      deletors := deletors + [deletor];
    }

    /** flush: run the top deletor and pop it until the stack is empty. */
    method Flush() returns (calls: seq<nat>)
      modifies this
      ensures calls == Reverse(old(deletors))
      ensures deletors == []
    {
      calls := [];
      while deletors != []
        invariant Reverse(old(deletors)) == calls + Reverse(deletors)
        decreases |deletors|
      {
        calls := calls + [deletors[|deletors| - 1]];
        deletors := deletors[..|deletors| - 1];
      }
    }
  }

  /** Two flushes in a row: the second runs nothing, and no deletor runs twice. */
  method FlushTwice(stack: DeletionStack) returns (first: seq<nat>, second: seq<nat>)
    modifies stack
    ensures second == [] && stack.deletors == []
    ensures multiset(first) == multiset(old(stack.deletors))
  {
    first := stack.Flush();
    second := stack.Flush();
    ReverseRunsEachOnce(old(stack.deletors));
  }

  /** InputContext: the flags a new context starts with (the camera and the resize callback are not modelled). */
  class InputContext {
    var cursorEnabled: bool
    var framebufferResized: bool
    var toneMappingEnabled: bool
    var exposureEnabled: bool

    constructor ()
      ensures !cursorEnabled && !framebufferResized && toneMappingEnabled && exposureEnabled
    {
      cursorEnabled := false;
      framebufferResized := false;
      toneMappingEnabled := true;
      exposureEnabled := true;
    }
  }
}

=== FILE: descriptors.dfy ===
/**
 * The descriptor machinery of src/vk_descriptors.cpp: the pool allocator
 * with its single retry, the layout cache keyed on sorted binding lists, and
 * the builder that collects bindings and writes.
 *
 * Pools, layouts and sets are opaque handles.  The results of
 * vkAllocateDescriptorSets and the handles vkCreateDescriptorPool and
 * vkCreateDescriptorSetLayout return are parameters of the operations.
 */
module Descriptors {
  import opened Wrappers
  import opened Vk
  import opened Seqs
  import Sorting

  const SIZE_T_LIMIT: nat := 0x1_0000_0000_0000_0000

  // ---------------------------------------------------------------------
  // DescriptorAllocator
  // ---------------------------------------------------------------------

  /** The allocator's three fields: currentPool, usedPools, freePools. */
  datatype PoolState = PoolState(currentPool: Handle, usedPools: seq<Handle>, freePools: seq<Handle>)

  /** No pool is held twice or in both lists, none is null, and a non-null current pool is the last used one. */
  predicate ValidPools(st: PoolState)
  {
    NoDuplicates(st.usedPools + st.freePools) &&
    NULL_HANDLE !in st.usedPools && NULL_HANDLE !in st.freePools &&
    (st.currentPool != NULL_HANDLE ==> |st.usedPools| > 0 && st.currentPool == st.usedPools[|st.usedPools| - 1])
  }

  /** A handle vkCreateDescriptorPool may return: not null and not a pool the allocator holds. */
  predicate IsNewPool(st: PoolState, p: Handle)
  {
    p != NULL_HANDLE && p !in st.usedPools && p !in st.freePools
  }

  /** The two results after which allocate grabs a new pool and retries. */
  predicate NeedsNewPool(r: VkResult)
  {
    r == ErrorFragmentedPool || r == ErrorOutOfPoolMemory
  }

  /** grab_pool: the last free pool, removed from freePools; a newly created pool when none is free. */
  function GrabSpec(free: seq<Handle>, created: Handle): (r: (Handle, seq<Handle>))
    ensures |free| > 0 ==> r.0 == free[|free| - 1] && r.1 + [r.0] == free
    ensures |free| == 0 ==> r.0 == created && r.1 == free
  {
    if |free| > 0 then (free[|free| - 1], free[..|free| - 1]) else (created, free)
  }

  /** The pool grabbed and pushed to usedPools, and the state afterwards. */
  function GrabAndUse(st: PoolState, created: Handle): PoolState
  {
    var (pool, free) := GrabSpec(st.freePools, created);
    PoolState(pool, st.usedPools + [pool], free)
  }

  /**
   * allocate: grab a pool first if there is no current one; on success
   * return true; after a fragmented or exhausted pool grab another one and
   * try once more; on any other error give up.
   */
  function AllocateSpec(st: PoolState, first: VkResult, retry: VkResult, created1: Handle, created2: Handle): (r: (PoolState, bool))
  {
    var st1 := if st.currentPool == NULL_HANDLE then GrabAndUse(st, created1) else st;
    if first == Success then (st1, true)
    else if NeedsNewPool(first) then (GrabAndUse(st1, created2), retry == Success)
    else (st1, false)
  }

  /** reset_pools: every used pool becomes free, the previously free pools are dropped from the lists. */
  function ResetSpec(st: PoolState): (r: PoolState)
  {
    PoolState(NULL_HANDLE, [], st.usedPools)
  }

  lemma GrabAndUseValid(st: PoolState, created: Handle)
    requires ValidPools(st) && IsNewPool(st, created)
    ensures var st' := GrabAndUse(st, created);
            ValidPools(st') && st'.currentPool != NULL_HANDLE &&
            multiset(st'.usedPools + st'.freePools) ==
              multiset(st.usedPools + st.freePools) + (if |st.freePools| == 0 then multiset{created} else multiset{})
  {
    var st' := GrabAndUse(st, created);
    var all := st.usedPools + st.freePools;
    if |st.freePools| > 0 {
      var (pool, free) := GrabSpec(st.freePools, created);
      assert all == st.usedPools + free + [pool];
      assert st'.usedPools + st'.freePools == st.usedPools + [pool] + free;
      assert multiset(st'.usedPools + st'.freePools) == multiset(all);
      forall i, j | 0 <= i < j < |st'.usedPools + st'.freePools|
        ensures (st'.usedPools + st'.freePools)[i] != (st'.usedPools + st'.freePools)[j]
      {
        var s' := st'.usedPools + st'.freePools;
        var u := |st.usedPools|;
        // s' is `all` with its last element moved to position u
        var pi := if i < u then i else if i == u then |all| - 1 else i - 1;
        var pj := if j < u then j else if j == u then |all| - 1 else j - 1;
        assert s'[i] == all[pi] && s'[j] == all[pj];
      }
    } else {
      assert st'.usedPools + st'.freePools == all + [created];
    }
  }

  /** allocate keeps the allocator's invariant and leaves a non-null current pool. */
  lemma AllocateValid(st: PoolState, first: VkResult, retry: VkResult, created1: Handle, created2: Handle)
    requires ValidPools(st) && IsNewPool(st, created1) && IsNewPool(st, created2) && created1 != created2
    ensures ValidPools(AllocateSpec(st, first, retry, created1, created2).0)
    ensures AllocateSpec(st, first, retry, created1, created2).0.currentPool != NULL_HANDLE
  {
    var st1 := if st.currentPool == NULL_HANDLE then GrabAndUse(st, created1) else st;
    if st.currentPool == NULL_HANDLE {
      GrabAndUseValid(st, created1);
      assert created2 !in multiset(st1.usedPools + st1.freePools);
    }
    if NeedsNewPool(first) {
      GrabAndUseValid(st1, created2);
    }
  }

  /**
   * The allocate contract: success on the first try or on the single retry;
   * the retry happens only after a fragmented or exhausted pool and then
   * pushes exactly one more pool; any other error grabs nothing beyond the
   * pool a null currentPool needed; usedPools only grows at its end.
   */
  lemma AllocateOutcome(st: PoolState, first: VkResult, retry: VkResult, created1: Handle, created2: Handle)
    ensures var (st', ok) := AllocateSpec(st, first, retry, created1, created2);
            var initial := if st.currentPool == NULL_HANDLE then 1 else 0;
            (ok <==> first == Success || (NeedsNewPool(first) && retry == Success)) &&
            |st'.usedPools| == |st.usedPools| + initial + (if NeedsNewPool(first) then 1 else 0) &&
            st'.usedPools[..|st.usedPools|] == st.usedPools &&
            (initial == 1 || NeedsNewPool(first) ==> st'.currentPool == st'.usedPools[|st'.usedPools| - 1]) &&
            (initial == 0 && !NeedsNewPool(first) ==> st' == st)
  {
    var (st', ok) := AllocateSpec(st, first, retry, created1, created2);
    var st1 := if st.currentPool == NULL_HANDLE then GrabAndUse(st, created1) else st;
    assert st1.usedPools[..|st.usedPools|] == st.usedPools;
    if NeedsNewPool(first) {
      assert st'.usedPools[..|st.usedPools|] == st1.usedPools[..|st.usedPools|];
    }
  }

  /** After reset_pools the old used pools are exactly the free ones and nothing is in use. */
  lemma ResetPoolsValid(st: PoolState)
    requires ValidPools(st)
    ensures var st' := ResetSpec(st);
            ValidPools(st') && st'.usedPools == [] && st'.currentPool == NULL_HANDLE && st'.freePools == st.usedPools
  {
    var st' := ResetSpec(st);
    assert st'.usedPools + st'.freePools == st.usedPools;
    forall i, j | 0 <= i < j < |st.usedPools| ensures st.usedPools[i] != st.usedPools[j] {
      assert (st.usedPools + st.freePools)[i] == st.usedPools[i];
      assert (st.usedPools + st.freePools)[j] == st.usedPools[j];
    }
  }

  class DescriptorAllocator {
    var currentPool: Handle
    var usedPools: seq<Handle>
    var freePools: seq<Handle>

    function State(): PoolState
      reads this
    {
      PoolState(currentPool, usedPools, freePools)
    }

    constructor ()
      ensures State() == PoolState(NULL_HANDLE, [], []) && ValidPools(State())
    {
      currentPool, usedPools, freePools := NULL_HANDLE, [], [];
    }

    method GrabPool(created: Handle) returns (pool: Handle)
      modifies this`freePools
      ensures (pool, freePools) == GrabSpec(old(freePools), created)
    {
      if |freePools| > 0 {
        pool := freePools[|freePools| - 1];
        freePools := freePools[..|freePools| - 1];
      } else {
        pool := created;
      }
    }

    method Allocate(first: VkResult, retry: VkResult, created1: Handle, created2: Handle) returns (ok: bool)
      requires ValidPools(State()) && IsNewPool(State(), created1) && IsNewPool(State(), created2) && created1 != created2
      modifies this
      ensures (State(), ok) == AllocateSpec(old(State()), first, retry, created1, created2)
      ensures ValidPools(State())
    {
      AllocateValid(State(), first, retry, created1, created2);
      if currentPool == NULL_HANDLE {
        currentPool := GrabPool(created1);
        usedPools := usedPools + [currentPool];
      }
      // vkAllocateDescriptorSets on currentPool returned `first`
      var needReallocate := false;
      match first {
        case Success => return true;
        case ErrorFragmentedPool => needReallocate := true;
        case ErrorOutOfPoolMemory => needReallocate := true;
        case _ => return false;
      }
      if needReallocate {
        currentPool := GrabPool(created2);
        usedPools := usedPools + [currentPool];
        // the second vkAllocateDescriptorSets returned `retry`
        if retry == Success {
          return true;
        }
      }
      return false;
    }

    method ResetPools() returns (reset: seq<Handle>)
      modifies this
      ensures reset == old(usedPools)
      ensures State() == ResetSpec(old(State()))
    {
      reset := [];
      var i := 0;
      while i < |usedPools|
        invariant 0 <= i <= |usedPools|
        invariant reset == usedPools[..i]
      {
        reset := reset + [usedPools[i]];  // vkResetDescriptorPool
        i := i + 1;
      }
      freePools := usedPools;
      usedPools := [];
      currentPool := NULL_HANDLE;
    }

    /** cleanup: every pool held, free ones first, is destroyed exactly once. */
    method Cleanup() returns (destroyed: seq<Handle>)
      requires ValidPools(State())
      ensures destroyed == freePools + usedPools
      ensures NoDuplicates(destroyed)
      ensures forall p :: p in destroyed <==> p in freePools || p in usedPools
    {
      destroyed := [];
      for i := 0 to |freePools|
        invariant destroyed == freePools[..i]
      {
        destroyed := destroyed + [freePools[i]];
      }
      for i := 0 to |usedPools|
        invariant destroyed == freePools + usedPools[..i]
      {
        destroyed := destroyed + [usedPools[i]];
      }
      var all := usedPools + freePools;
      forall i, j | 0 <= i < j < |destroyed| ensures destroyed[i] != destroyed[j] {
        var f, u := |freePools|, |usedPools|;
        var pi := if i < f then u + i else i - f;
        var pj := if j < f then u + j else j - f;
        assert destroyed[i] == all[pi] && destroyed[j] == all[pj];
      }
    }
  }

  // ---------------------------------------------------------------------
  // DescriptorLayoutCache
  // ---------------------------------------------------------------------

  /** VkDescriptorSetLayoutBinding; the immutable-sampler pointer is carried along but never compared. */
  datatype LayoutBinding = LayoutBinding(binding: uint32, descriptorType: uint32, descriptorCount: uint32,
                                         stageFlags: uint32, immutableSamplers: Handle)

  /** The four fields that layout equality and the hash look at. */
  datatype BindingKey = BindingKey(binding: uint32, descriptorType: uint32, descriptorCount: uint32, stageFlags: uint32)

  function KeyOf(b: LayoutBinding): BindingKey
  {
    BindingKey(b.binding, b.descriptorType, b.descriptorCount, b.stageFlags)
  }

  function Keys(s: seq<LayoutBinding>): (ks: seq<BindingKey>)
    ensures |ks| == |s| && forall i :: 0 <= i < |s| ==> ks[i] == KeyOf(s[i])
  {
    seq(|s|, i requires 0 <= i < |s| => KeyOf(s[i]))
  }

  /** DescriptorLayoutInfo::operator==: equal length, then the four fields compared pairwise. */
  function LayoutInfoEqual(a: seq<LayoutBinding>, b: seq<LayoutBinding>): (eq: bool)
    ensures eq <==> |a| == |b| && forall i :: 0 <= i < |a| ==> KeyOf(a[i]) == KeyOf(b[i])
  {
    if |a| != |b| then false
    else if a == [] then true
    else
      var rest := LayoutInfoEqual(a[1..], b[1..]);
      assert forall i :: 1 <= i < |a| ==> a[1..][i - 1] == a[i] && b[1..][i - 1] == b[i];
      a[0].binding == b[0].binding && a[0].descriptorType == b[0].descriptorType &&
      a[0].descriptorCount == b[0].descriptorCount && a[0].stageFlags == b[0].stageFlags && rest
  }

  /** Equality of layout infos is equality of their key projections, which is what keys the cache map. */
  lemma LayoutInfoEqualIffSameKeys(a: seq<LayoutBinding>, b: seq<LayoutBinding>)
    ensures LayoutInfoEqual(a, b) <==> Keys(a) == Keys(b)
  {
    if Keys(a) == Keys(b) {
      assert forall i :: 0 <= i < |a| ==> Keys(a)[i] == KeyOf(a[i]) && Keys(b)[i] == KeyOf(b[i]);
    }
  }

  /** binding | descriptorType << 8 | descriptorCount << 16 | stageFlags << 24, in 32-bit unsigned arithmetic. */
  function PackKey(k: BindingKey): bv32
  {
    (k.binding as bv32) | (k.descriptorType as bv32 << 8) | (k.descriptorCount as bv32 << 16) | (k.stageFlags as bv32 << 24)
  }

  /** XOR of the hash of each packed binding into acc; the packing reads only the four key fields. */
  function HashFold(acc: bv64, ks: seq<BindingKey>, h: bv64 -> bv64): bv64
    decreases ks
  {
    if ks == [] then acc else HashFold(acc ^ h(PackKey(ks[0]) as bv64), ks[1..], h)
  }

  /** A count as a size_t, wrapping at 2^64. */
  function SizeBits(n: nat): bv64
  {
    (n % SIZE_T_LIMIT) as bv64
  }

  /**
   * DescriptorLayoutInfo::hash: the hash of the size, XORed with the hash of
   * each packed binding.  std::hash<size_t> is implementation-defined and is
   * the parameter h.
   */
  function LayoutHash(s: seq<LayoutBinding>, h: bv64 -> bv64): bv64
  {
    HashFold(h(SizeBits(|s|)), Keys(s), h)
  }

  /** Equal layout infos hash equally, whatever std::hash<size_t> is, as unordered_map requires. */
  lemma EqualInfosHashEqual(a: seq<LayoutBinding>, b: seq<LayoutBinding>, h: bv64 -> bv64)
    requires LayoutInfoEqual(a, b)
    ensures LayoutHash(a, h) == LayoutHash(b, h)
  {
    LayoutInfoEqualIffSameKeys(a, b);
  }

  /** A binding number read through static_cast<int32_t>. */
  function AsInt32(x: uint32): int
  {
    if x as int > 0x7fff_ffff then x as int - 0x1_0000_0000 else x as int
  }

  /** What binding i of s must exceed: its predecessor's number as int32, or -1 for the first. */
  function Predecessor(s: seq<LayoutBinding>, i: int): int
    requires 0 <= i < |s|
  {
    if i == 0 then -1 else AsInt32(s[i - 1].binding)
  }

  /** The isSorted test of create_descriptor_layout: binding numbers, read as int32, strictly increase from -1. */
  predicate InStrictOrder(s: seq<LayoutBinding>)
  {
    forall i {:trigger Predecessor(s, i)} :: 0 <= i < |s| ==> AsInt32(s[i].binding) > Predecessor(s, i)
  }

  /** lastBinding after scanning s: the largest int32 binding number seen, -1 at the start. */
  function LastBinding(s: seq<LayoutBinding>): int
  {
    if s == [] then -1
    else
      var prev := LastBinding(s[..|s| - 1]);
      if AsInt32(s[|s| - 1].binding) > prev then AsInt32(s[|s| - 1].binding) else prev
  }

  function BindingNumber(b: LayoutBinding): int { b.binding as int }

  /** std::sort by binding number. */
  function SortByBinding(s: seq<LayoutBinding>): (r: seq<LayoutBinding>)
    ensures Sorting.SortedBy(r, BindingNumber) && multiset(r) == multiset(s)
  {
    Sorting.SortBy(s, BindingNumber)
  }

  /** The key the cache is searched with: the bindings sorted by binding number, projected to the compared fields. */
  function CacheKey(info: seq<LayoutBinding>): seq<BindingKey>
  {
    Keys(SortByBinding(info))
  }

  lemma {:induction false} InStrictOrderPrefix(s: seq<LayoutBinding>)
    requires InStrictOrder(s) && |s| > 0
    ensures InStrictOrder(s[..|s| - 1]) && LastBinding(s) == AsInt32(s[|s| - 1].binding)
    decreases |s|
  {
    var p := s[..|s| - 1];
    forall i | 0 <= i < |p| ensures AsInt32(p[i].binding) > Predecessor(p, i) {
      assert p[i] == s[i];
      if i > 0 { assert p[i - 1] == s[i - 1]; }
      assert Predecessor(p, i) == Predecessor(s, i);
    }
    assert AsInt32(s[|s| - 1].binding) > Predecessor(s, |s| - 1);
    if |p| > 0 {
      InStrictOrderPrefix(p);
      assert p[|p| - 1] == s[|s| - 2];
    }
  }

  /** Scanning one more binding updates isSorted and lastBinding as the loop does. */
  lemma InStrictOrderStep(s: seq<LayoutBinding>, b: LayoutBinding)
    ensures InStrictOrder(s + [b]) <==> InStrictOrder(s) && AsInt32(b.binding) > LastBinding(s)
    ensures LastBinding(s + [b]) == if AsInt32(b.binding) > LastBinding(s) then AsInt32(b.binding) else LastBinding(s)
  {
    var t := s + [b];
    assert t[..|t| - 1] == s;
    if InStrictOrder(s) && |s| > 0 {
      InStrictOrderPrefix(s);
    }
    if InStrictOrder(s) && AsInt32(b.binding) > LastBinding(s) {
      forall i | 0 <= i < |t| ensures AsInt32(t[i].binding) > Predecessor(t, i) {
        if i < |s| {
          assert t[i] == s[i];
          if i > 0 { assert t[i - 1] == s[i - 1]; }
          assert Predecessor(t, i) == Predecessor(s, i);
        } else {
          assert t[i] == b;
          if i > 0 { assert t[i - 1] == s[i - 1]; }
        }
      }
    }
    if InStrictOrder(t) {
      forall i | 0 <= i < |s| ensures AsInt32(s[i].binding) > Predecessor(s, i) {
        assert t[i] == s[i];
        if i > 0 { assert t[i - 1] == s[i - 1]; }
        assert Predecessor(t, i) == Predecessor(s, i);
      }
      assert AsInt32(t[|s|].binding) > Predecessor(t, |s|);
      if |s| > 0 {
        InStrictOrderPrefix(s);
        assert t[|s| - 1] == s[|s| - 1];
      }
    }
  }

  /** Bindings that pass the isSorted test are already sorted, so skipping std::sort changes nothing. */
  lemma InStrictOrderNeedsNoSort(s: seq<LayoutBinding>)
    requires InStrictOrder(s)
    ensures SortByBinding(s) == s
  {
    assert forall i :: 0 <= i < |s| ==> 0 <= AsInt32(s[i].binding) == BindingNumber(s[i]) by {
      forall i | 0 <= i < |s| ensures 0 <= AsInt32(s[i].binding) == BindingNumber(s[i]) {
        StrictOrderNonNegative(s, i);
      }
    }
    forall i, j | 0 <= i < j < |s| ensures BindingNumber(s[i]) < BindingNumber(s[j]) {
      StrictOrderIncreasing(s, i, j);
    }
    Sorting.SortSortedIsIdentity(s, BindingNumber);
  }

  lemma {:induction false} StrictOrderNonNegative(s: seq<LayoutBinding>, i: nat)
    requires InStrictOrder(s) && i < |s|
    ensures AsInt32(s[i].binding) >= 0
  {
    assert AsInt32(s[i].binding) > Predecessor(s, i);
    if i > 0 { StrictOrderNonNegative(s, i - 1); }
  }

  lemma {:induction false} StrictOrderIncreasing(s: seq<LayoutBinding>, i: nat, j: nat)
    requires InStrictOrder(s) && i < j < |s|
    ensures AsInt32(s[i].binding) < AsInt32(s[j].binding)
    decreases j - i
  {
    assert AsInt32(s[j].binding) > Predecessor(s, j);
    if j > i + 1 { StrictOrderIncreasing(s, i, j - 1); }
  }

  predicate DistinctBindingNumbers(s: seq<LayoutBinding>)
  {
    forall i, j :: 0 <= i < j < |s| ==> s[i].binding != s[j].binding
  }

  /**
   * The same bindings passed in any order give the same cache key, so they
   * find the same layout (the Vulkan specification forbids two bindings of
   * one layout to share a binding number).
   */
  lemma CacheKeyIgnoresOrder(a: seq<LayoutBinding>, b: seq<LayoutBinding>)
    requires multiset(a) == multiset(b)
    requires DistinctBindingNumbers(a)
    ensures CacheKey(a) == CacheKey(b)
  {
    assert Sorting.KeyDetermines(a, BindingNumber);
    Sorting.SortPermutationInvariant(a, b, BindingNumber);
  }

  /**
   * The layout cache after a request for `bindings`: unchanged on a hit; on
   * a miss one more entry, the created layout under the request's key.
   */
  function CacheWith(layoutCache: map<seq<BindingKey>, Handle>, bindings: seq<LayoutBinding>, created: Handle)
    : (r: map<seq<BindingKey>, Handle>)
    ensures CacheKey(bindings) in r
    ensures r[CacheKey(bindings)] == if CacheKey(bindings) in layoutCache then layoutCache[CacheKey(bindings)] else created
    ensures forall k :: k in layoutCache ==> k in r && r[k] == layoutCache[k]
    ensures forall k :: k in r ==> k in layoutCache || k == CacheKey(bindings)
  {
    if CacheKey(bindings) in layoutCache then layoutCache else layoutCache[CacheKey(bindings) := created]
  }

  class DescriptorLayoutCache {
    var layoutCache: map<seq<BindingKey>, Handle>

    constructor ()
      ensures layoutCache == map[]
    {
      layoutCache := map[];
    }

    /**
     * create_descriptor_layout: copy the bindings, sort them by binding number
     * unless they already strictly increase, and return the cached layout for
     * that list, creating (as `created`) and caching one when there is none.
     */
    method CreateDescriptorLayout(info: seq<LayoutBinding>, created: Handle) returns (layout: Handle)
      modifies this
      ensures CacheKey(info) in old(layoutCache) ==>
                layout == old(layoutCache)[CacheKey(info)] && layoutCache == old(layoutCache)
      ensures CacheKey(info) !in old(layoutCache) ==>
                layout == created && layoutCache == old(layoutCache)[CacheKey(info) := created]
      ensures |layoutCache| <= |old(layoutCache)| + 1
    {
      var bindings: seq<LayoutBinding> := [];
      var isSorted := true;
      var lastBinding := -1;
      var i := 0;
      while i < |info|
        invariant 0 <= i <= |info|
        invariant bindings == info[..i]
        invariant isSorted <==> InStrictOrder(bindings)
        invariant lastBinding == LastBinding(bindings)
        invariant layoutCache == old(layoutCache)
      {
        InStrictOrderStep(bindings, info[i]);
        bindings := bindings + [info[i]];
        if AsInt32(info[i].binding) > lastBinding {
          lastBinding := AsInt32(info[i].binding);
        } else {
          isSorted := false;
        }
        i := i + 1;
      }
      assert bindings == info by { assert info[..|info|] == info; }
      if !isSorted {
        bindings := SortByBinding(bindings);
      } else {
        InStrictOrderNeedsNoSort(bindings);
      }
      var key := Keys(bindings);
      assert key == CacheKey(info);
      if key in layoutCache {
        layout := layoutCache[key];
      } else {
        layout := created;  // vkCreateDescriptorSetLayout
        layoutCache := layoutCache[key := layout];
      }
    }
  }

  /** Two requests with the same bindings in different orders return the same layout. */
  method SameLayoutForReorderedBindings(cache: DescriptorLayoutCache, a: seq<LayoutBinding>, b: seq<LayoutBinding>,
                                        created1: Handle, created2: Handle) returns (layoutA: Handle, layoutB: Handle)
    requires multiset(a) == multiset(b) && DistinctBindingNumbers(a)
    modifies cache
    ensures layoutA == layoutB
    ensures |cache.layoutCache| <= |old(cache.layoutCache)| + 1
  {
    CacheKeyIgnoresOrder(a, b);
    layoutA := cache.CreateDescriptorLayout(a, created1);
    layoutB := cache.CreateDescriptorLayout(b, created2);
  }

  // ---------------------------------------------------------------------
  // DescriptorBuilder
  // ---------------------------------------------------------------------

  /** What a write points at: a buffer info, an image info, or an array of image infos. */
  datatype DescriptorInfo = BufferInfo(buffer: nat) | ImageInfo(image: nat) | ImageInfos(images: seq<nat>)

  /** VkWriteDescriptorSet as the builder fills it. */
  datatype DescriptorWrite = DescriptorWrite(dstBinding: uint32, descriptorType: uint32, descriptorCount: uint32,
                                             info: DescriptorInfo, dstSet: Handle)

  function WithDstSet(ws: seq<DescriptorWrite>, descriptorSet: Handle): (r: seq<DescriptorWrite>)
    ensures |r| == |ws|
    ensures forall i :: 0 <= i < |ws| ==> r[i] == ws[i].(dstSet := descriptorSet)
  {
    seq(|ws|, i requires 0 <= i < |ws| => ws[i].(dstSet := descriptorSet))
  }

  class DescriptorBuilder {
    var bindings: seq<LayoutBinding>
    var writes: seq<DescriptorWrite>
    var cache: DescriptorLayoutCache
    var alloc: DescriptorAllocator

    /** DescriptorBuilder::begin. */
    constructor Begin(layoutCache: DescriptorLayoutCache, allocator: DescriptorAllocator)
      ensures bindings == [] && writes == [] && cache == layoutCache && alloc == allocator
    {
      bindings, writes := [], [];
      cache, alloc := layoutCache, allocator;
    }

    /** bind_buffer: always one binding of count 1; a write only when a buffer info is given. */
    method BindBuffer(binding: uint32, bufferInfo: Option<nat>, descriptorType: uint32, stageFlags: uint32)
      modifies this`bindings, this`writes
      ensures bindings == old(bindings) + [LayoutBinding(binding, descriptorType, 1, stageFlags, NULL_HANDLE)]
      ensures writes == old(writes) +
                if bufferInfo.Some? then [DescriptorWrite(binding, descriptorType, 1, BufferInfo(bufferInfo.value), NULL_HANDLE)] else []
    {
      bindings := bindings + [LayoutBinding(binding, descriptorType, 1, stageFlags, NULL_HANDLE)];
      if bufferInfo.Some? {
        writes := writes + [DescriptorWrite(binding, descriptorType, 1, BufferInfo(bufferInfo.value), NULL_HANDLE)];
      }
    }

    /** bind_image_empty: nothing for a count of 0, otherwise one binding and no write. */
    method BindImageEmpty(binding: uint32, descriptorCount: uint32, descriptorType: uint32, stageFlags: uint32)
      modifies this`bindings
      ensures bindings == old(bindings) +
                if descriptorCount == 0 then [] else [LayoutBinding(binding, descriptorType, descriptorCount, stageFlags, NULL_HANDLE)]
    {
      if descriptorCount == 0 {
        return;
      }
      bindings := bindings + [LayoutBinding(binding, descriptorType, descriptorCount, stageFlags, NULL_HANDLE)];
    }

    /** bind_image: always one binding of count 1; a write only when an image info is given. */
    method BindImage(binding: uint32, imageInfo: Option<nat>, descriptorType: uint32, stageFlags: uint32)
      modifies this`bindings, this`writes
      ensures bindings == old(bindings) + [LayoutBinding(binding, descriptorType, 1, stageFlags, NULL_HANDLE)]
      ensures writes == old(writes) +
                if imageInfo.Some? then [DescriptorWrite(binding, descriptorType, 1, ImageInfo(imageInfo.value), NULL_HANDLE)] else []
    {
      bindings := bindings + [LayoutBinding(binding, descriptorType, 1, stageFlags, NULL_HANDLE)];
      if imageInfo.Some? {
        writes := writes + [DescriptorWrite(binding, descriptorType, 1, ImageInfo(imageInfo.value), NULL_HANDLE)];
      }
    }

    /** bind_image_array: a binding counting every info (size_t narrowed to uint32); a write only when there are infos. */
    method BindImageArray(binding: uint32, imageInfos: seq<nat>, descriptorType: uint32, stageFlags: uint32)
      modifies this`bindings, this`writes
      ensures var count := (|imageInfos| % UINT32_LIMIT) as uint32;
              bindings == old(bindings) + [LayoutBinding(binding, descriptorType, count, stageFlags, NULL_HANDLE)] &&
              writes == old(writes) +
                if |imageInfos| > 0 then [DescriptorWrite(binding, descriptorType, count, ImageInfos(imageInfos), NULL_HANDLE)] else []
    {
      var count := (|imageInfos| % UINT32_LIMIT) as uint32;
      bindings := bindings + [LayoutBinding(binding, descriptorType, count, stageFlags, NULL_HANDLE)];
      if |imageInfos| > 0 {
        writes := writes + [DescriptorWrite(binding, descriptorType, count, ImageInfos(imageInfos), NULL_HANDLE)];
      }
    }

    /**
     * build: get the layout from the cache, allocate a set from it, and on
     * success point every write at the set and submit them all.  `descriptorSet` is the
     * handle vkAllocateDescriptorSets returns; `first` and `retry` are its
     * results.  `outSet` is what the reference parameter holds afterwards: a
     * failed vkAllocateDescriptorSets leaves VK_NULL_HANDLE in it.  `updates`
     * is what vkUpdateDescriptorSets receives.
     */
    method Build(descriptorSet: Handle, createdLayout: Handle, first: VkResult, retry: VkResult, created1: Handle, created2: Handle)
      returns (ok: bool, outSet: Handle, layout: Handle, updates: seq<DescriptorWrite>)
      requires ValidPools(alloc.State()) && IsNewPool(alloc.State(), created1) && IsNewPool(alloc.State(), created2)
      requires created1 != created2
      modifies this`writes, cache, alloc
      ensures cache == old(cache) && alloc == old(alloc) && bindings == old(bindings)
      ensures layout == if CacheKey(bindings) in old(cache.layoutCache) then old(cache.layoutCache)[CacheKey(bindings)] else createdLayout
      ensures cache.layoutCache == CacheWith(old(cache.layoutCache), bindings, createdLayout)
      ensures (alloc.State(), ok) == AllocateSpec(old(alloc.State()), first, retry, created1, created2)
      ensures ValidPools(alloc.State())
      ensures outSet == if ok then descriptorSet else NULL_HANDLE
      ensures !ok ==> writes == old(writes) && updates == []
      ensures ok ==> writes == WithDstSet(old(writes), descriptorSet) && updates == writes
    {
      layout := cache.CreateDescriptorLayout(bindings, createdLayout);
      assert alloc.State() == old(alloc.State());
      ok := alloc.Allocate(first, retry, created1, created2);
      if !ok {
        // a failed vkAllocateDescriptorSets writes VK_NULL_HANDLE to the set
        return ok, NULL_HANDLE, layout, [];
      }
      outSet := descriptorSet;
      ghost var st := alloc.State();
      ghost var layoutCache := cache.layoutCache;
      var i := 0;
      while i < |writes|
        invariant 0 <= i <= |writes| && |writes| == |old(writes)|
        invariant forall k :: 0 <= k < i ==> writes[k] == old(writes)[k].(dstSet := descriptorSet)
        invariant forall k :: i <= k < |writes| ==> writes[k] == old(writes)[k]
        invariant alloc.State() == st && cache.layoutCache == layoutCache
      {
        writes := writes[i := writes[i].(dstSet := descriptorSet)];
        i := i + 1;
      }
      updates := writes;
    }
  }
}

=== FILE: devices.dfy ===
/**
 * Physical-device selection of src/physical_device.cpp and its vulkan.hpp
 * counterpart in src/Enigne.cpp: the device-extension check, the choice of
 * graphics and presentation queue families, and the scoring that picks the
 * device.  What the driver reports about each device is an input.
 */
module Devices {
  import opened Wrappers
  import opened Vk
  import opened Names

  const SWAPCHAIN_EXTENSION: string := "VK_KHR_swapchain"
  /** _deviceExtensions of src/Engine.h. */
  const DEVICE_EXTENSIONS: seq<string> :=
    [SWAPCHAIN_EXTENSION, "VK_KHR_maintenance4", "VK_KHR_push_descriptor", "VK_EXT_robustness2"]
  /** The "not found yet" marker the family search starts from. */
  const NO_FAMILY: nat := UINT32_LIMIT - 1

  /** VkPhysicalDeviceType values. */
  const TYPE_OTHER: int := 0
  const TYPE_INTEGRATED_GPU: int := 1
  const TYPE_DISCRETE_GPU: int := 2
  const TYPE_VIRTUAL_GPU: int := 3
  const TYPE_CPU: int := 4

  /** A queue family: VK_QUEUE_GRAPHICS_BIT in its flags, and whether it can present to the surface. */
  datatype QueueFamily = QueueFamily(graphics: bool, present: bool)

  datatype PhysicalDevice = PhysicalDevice(handle: Handle, extensions: seq<string>, deviceType: int,
                                           families: seq<QueueFamily>)

  /** An entry of compatibleDevices: the device, its graphics and present families, and its type. */
  datatype Candidate = Candidate(device: Handle, graphicsFamily: nat, presentFamily: nat, deviceType: int)

  // ---------------------------------------------------------------------
  // Device extensions
  // ---------------------------------------------------------------------

  /**
   * checkDeviceExtensionSupport: unlike the instance checks, the scan does
   * not stop at a missing name; it clears a flag and goes on.
   */
  method CheckDeviceExtensionSupport(available: seq<string>, required: seq<string>) returns (allSupported: bool)
    ensures allSupported <==> AllIn(required, available)
  {
    allSupported := true;
    for i := 0 to |required|
      invariant allSupported <==> AllIn(required[..i], available)
    {
      var found := Contains(available, required[i]);
      assert required[..i + 1] == required[..i] + [required[i]];
      AllInConcat(required[..i], [required[i]], available);
      if !found {
        allSupported := false;
      }
    }
    assert required[..|required|] == required;
  }

  // ---------------------------------------------------------------------
  // Queue families
  // ---------------------------------------------------------------------

  predicate Combined(f: QueueFamily) { f.graphics && f.present }
  predicate GraphicsOnly(f: QueueFamily) { f.graphics && !f.present }
  predicate PresentOnly(f: QueueFamily) { !f.graphics && f.present }

  /** The first index whose family satisfies p. */
  function FirstWhere(fs: seq<QueueFamily>, p: QueueFamily -> bool): (r: Option<nat>)
    ensures r.Some? ==> r.value < |fs| && p(fs[r.value]) && forall j :: 0 <= j < r.value ==> !p(fs[j])
    ensures r.None? ==> forall j :: 0 <= j < |fs| ==> !p(fs[j])
  {
    if |fs| == 0 then None
    else if p(fs[0]) then Some(0)
    else match FirstWhere(fs[1..], p)
      case None => None
      case Some(i) => Some(i + 1)
  }

  /** An index characterised as first is the one FirstWhere finds. */
  lemma FirstWhereIs(fs: seq<QueueFamily>, p: QueueFamily -> bool, i: nat)
    requires i < |fs| && p(fs[i]) && forall j :: 0 <= j < i ==> !p(fs[j])
    ensures FirstWhere(fs, p) == Some(i)
  {
  }

  /**
   * The queue families chosen for a device: the first family that does
   * both graphics and presentation, used for both; failing that, the first
   * graphics-only family and the first present-only family, when both exist.
   */
  function QueueChoice(fs: seq<QueueFamily>): Option<(nat, nat)>
  {
    match FirstWhere(fs, Combined)
    case Some(i) => Some((i, i))
    case None =>
      if FirstWhere(fs, GraphicsOnly).Some? && FirstWhere(fs, PresentOnly).Some?
      then Some((FirstWhere(fs, GraphicsOnly).value, FirstWhere(fs, PresentOnly).value))
      else None
  }

  /** A chosen pair always names families that can do graphics and present, respectively. */
  lemma QueueChoiceCapable(fs: seq<QueueFamily>)
    ensures QueueChoice(fs).Some? ==>
      var (g, p) := QueueChoice(fs).value;
      g < |fs| && p < |fs| && fs[g].graphics && fs[p].present
    ensures QueueChoice(fs).None? <==>
      (forall j :: 0 <= j < |fs| ==> !Combined(fs[j]))
      && ((forall j :: 0 <= j < |fs| ==> !GraphicsOnly(fs[j])) || (forall j :: 0 <= j < |fs| ==> !PresentOnly(fs[j])))
  {
  }

  /**
   * The queue-family loop of findCompatibleDevices for one device, with
   * NO_FAMILY as the "none yet" marker and an early exit (the goto) at the
   * first combined family.
   */
  method ChooseQueueFamilies(fs: seq<QueueFamily>) returns (r: Option<(nat, nat)>)
    requires |fs| < NO_FAMILY
    ensures r == QueueChoice(fs)
  {
    var graphicsQueueFamily: nat := NO_FAMILY;
    var presentQueueFamily: nat := NO_FAMILY;
    for i := 0 to |fs|
      invariant forall j :: 0 <= j < i ==> !Combined(fs[j])
      invariant graphicsQueueFamily != NO_FAMILY ==>
                  graphicsQueueFamily < i && GraphicsOnly(fs[graphicsQueueFamily])
                  && forall j :: 0 <= j < graphicsQueueFamily ==> !GraphicsOnly(fs[j])
      invariant graphicsQueueFamily == NO_FAMILY ==> forall j :: 0 <= j < i ==> !GraphicsOnly(fs[j])
      invariant presentQueueFamily != NO_FAMILY ==>
                  presentQueueFamily < i && PresentOnly(fs[presentQueueFamily])
                  && forall j :: 0 <= j < presentQueueFamily ==> !PresentOnly(fs[j])
      invariant presentQueueFamily == NO_FAMILY ==> forall j :: 0 <= j < i ==> !PresentOnly(fs[j])
    {
      if fs[i].present {
        if fs[i].graphics {
          FirstWhereIs(fs, Combined, i);
          return Some((i, i));
        } else if presentQueueFamily == NO_FAMILY {
          presentQueueFamily := i;
        }
      } else {
        if fs[i].graphics && graphicsQueueFamily == NO_FAMILY {
          graphicsQueueFamily := i;
        }
      }
    }
    if graphicsQueueFamily != NO_FAMILY {
      FirstWhereIs(fs, GraphicsOnly, graphicsQueueFamily);
    }
    if presentQueueFamily != NO_FAMILY {
      FirstWhereIs(fs, PresentOnly, presentQueueFamily);
    }
    if graphicsQueueFamily != NO_FAMILY && presentQueueFamily != NO_FAMILY {
      return Some((graphicsQueueFamily, presentQueueFamily));
    }
    return None;
  }

  // ---------------------------------------------------------------------
  // Compatible devices
  // ---------------------------------------------------------------------

  /** The entry a device contributes: none without the extensions or without usable queue families. */
  function DeviceEntry(d: PhysicalDevice, required: seq<string>): seq<Candidate>
  {
    if AllIn(required, d.extensions) && QueueChoice(d.families).Some?
    then [Candidate(d.handle, QueueChoice(d.families).value.0, QueueChoice(d.families).value.1, d.deviceType)]
    else []
  }

  /** compatibleDevices: the entries of the devices, in enumeration order. */
  function Compatible(devices: seq<PhysicalDevice>, required: seq<string>): seq<Candidate>
  {
    if |devices| == 0 then []
    else Compatible(devices[..|devices| - 1], required) + DeviceEntry(devices[|devices| - 1], required)
  }

  /**
   * Every entry comes from a device that has all the required extensions,
   * with the families QueueChoice picks; no device contributes twice.
   */
  lemma {:induction false} CompatibleSound(devices: seq<PhysicalDevice>, required: seq<string>)
    ensures |Compatible(devices, required)| <= |devices|
    ensures forall c :: c in Compatible(devices, required) ==>
              exists k :: 0 <= k < |devices| && devices[k].handle == c.device && c.deviceType == devices[k].deviceType
                          && AllIn(required, devices[k].extensions)
                          && QueueChoice(devices[k].families) == Some((c.graphicsFamily, c.presentFamily))
    decreases |devices|
  {
    if |devices| > 0 {
      var pre := devices[..|devices| - 1];
      CompatibleSound(pre, required);
      forall c | c in Compatible(devices, required)
        ensures exists k :: 0 <= k < |devices| && devices[k].handle == c.device && c.deviceType == devices[k].deviceType
                            && AllIn(required, devices[k].extensions)
                            && QueueChoice(devices[k].families) == Some((c.graphicsFamily, c.presentFamily))
      {
        if c in Compatible(pre, required) {
          var k :| 0 <= k < |pre| && pre[k].handle == c.device && c.deviceType == pre[k].deviceType
                   && AllIn(required, pre[k].extensions)
                   && QueueChoice(pre[k].families) == Some((c.graphicsFamily, c.presentFamily));
          assert devices[k] == pre[k];
        } else {
          assert c in DeviceEntry(devices[|devices| - 1], required);
        }
      }
    }
  }

  /** A device with all the required extensions and usable families is listed. */
  lemma {:induction false} CompatibleComplete(devices: seq<PhysicalDevice>, required: seq<string>, k: nat)
    requires k < |devices| && AllIn(required, devices[k].extensions) && QueueChoice(devices[k].families).Some?
    ensures Candidate(devices[k].handle, QueueChoice(devices[k].families).value.0,
                      QueueChoice(devices[k].families).value.1, devices[k].deviceType) in Compatible(devices, required)
    decreases |devices|
  {
    if k < |devices| - 1 {
      var pre := devices[..|devices| - 1];
      assert pre[k] == devices[k];
      CompatibleComplete(pre, required, k);
    }
  }

  /** One iteration of findCompatibleDevices' device loop in src/physical_device.cpp. */
  method DeviceEntryOf(d: PhysicalDevice, required: seq<string>) returns (entry: seq<Candidate>)
    requires |d.families| < NO_FAMILY
    ensures entry == DeviceEntry(d, required)
  {
    var supported := CheckDeviceExtensionSupport(d.extensions, required);
    if !supported {
      return [];
    }
    var choice := ChooseQueueFamilies(d.families);
    if choice.None? {
      return [];
    }
    entry := [Candidate(d.handle, choice.value.0, choice.value.1, d.deviceType)];
  }

  /** findCompatibleDevices of src/physical_device.cpp. */
  method FindCompatibleDevices(devices: seq<PhysicalDevice>) returns (compatibleDevices: seq<Candidate>)
    requires forall k :: 0 <= k < |devices| ==> |devices[k].families| < NO_FAMILY
    ensures compatibleDevices == Compatible(devices, DEVICE_EXTENSIONS)
  {
    compatibleDevices := [];
    for i := 0 to |devices|
      invariant compatibleDevices == Compatible(devices[..i], DEVICE_EXTENSIONS)
    {
      assert devices[..i + 1][..i] == devices[..i];
      var entry := DeviceEntryOf(devices[i], DEVICE_EXTENSIONS);
      compatibleDevices := compatibleDevices + entry;
    }
    assert devices[..|devices|] == devices;
  }

  /**
   * findCompatibleDevices of src/Enigne.cpp: looks only for
   * VK_KHR_swapchain, and wraps the list in an optional that is never empty.
   */
  method FindCompatibleDevicesOpt(devices: seq<PhysicalDevice>) returns (r: Option<seq<Candidate>>)
    requires forall k :: 0 <= k < |devices| ==> |devices[k].families| < NO_FAMILY
    ensures r == Some(Compatible(devices, [SWAPCHAIN_EXTENSION]))
  {
    var compatibleDevices: seq<Candidate> := [];
    for i := 0 to |devices|
      invariant compatibleDevices == Compatible(devices[..i], [SWAPCHAIN_EXTENSION])
    {
      assert devices[..i + 1][..i] == devices[..i];
      var d := devices[i];
      var hasSwapchain := Contains(d.extensions, SWAPCHAIN_EXTENSION);
      AllInSingle(SWAPCHAIN_EXTENSION, d.extensions);
      if hasSwapchain {
        var choice := ChooseQueueFamilies(d.families);
        if choice.Some? {
          compatibleDevices := compatibleDevices + [Candidate(d.handle, choice.value.0, choice.value.1, d.deviceType)];
        }
      }
    }
    assert devices[..|devices|] == devices;
    r := Some(compatibleDevices);
  }

  // ---------------------------------------------------------------------
  // Scoring
  // ---------------------------------------------------------------------

  /** deviceTypeScore, indexed by the device type clamped into [0, 5]. */
  const DEVICE_TYPE_SCORE: seq<int> := [10, 40, 50, 30, 20, 10]

  /** A device's score: its type's table entry, plus one when one family does both jobs. */
  function Score(c: Candidate): (s: int)
    ensures 10 <= s <= 51
    ensures c.deviceType == TYPE_DISCRETE_GPU ==> s >= 50
    ensures c.deviceType != TYPE_DISCRETE_GPU ==> s <= 41
  {
    var t := if c.deviceType < 0 then 0 else if c.deviceType > 5 then 5 else c.deviceType;
    DEVICE_TYPE_SCORE[t] + (if c.graphicsFamily == c.presentFamily then 1 else 0)
  }

  /**
   * The type ranks devices: discrete over integrated over virtual over CPU
   * over anything else; the shared-queue bonus only orders devices of the
   * same type.
   */
  lemma TypeDominates(a: Candidate, b: Candidate)
    ensures a.deviceType == TYPE_DISCRETE_GPU && b.deviceType != TYPE_DISCRETE_GPU ==> Score(a) > Score(b)
    ensures a.deviceType == TYPE_INTEGRATED_GPU && b.deviceType !in {TYPE_DISCRETE_GPU, TYPE_INTEGRATED_GPU} ==> Score(a) > Score(b)
    ensures a.deviceType == TYPE_VIRTUAL_GPU && b.deviceType !in {TYPE_DISCRETE_GPU, TYPE_INTEGRATED_GPU, TYPE_VIRTUAL_GPU} ==> Score(a) > Score(b)
    ensures a.deviceType == TYPE_CPU && b.deviceType !in {TYPE_DISCRETE_GPU, TYPE_INTEGRATED_GPU, TYPE_VIRTUAL_GPU, TYPE_CPU} ==> Score(a) > Score(b)
    ensures a.deviceType == b.deviceType ==>
              (Score(a) > Score(b) <==> a.graphicsFamily == a.presentFamily && b.graphicsFamily != b.presentFamily)
  {
  }

  /**
   * The best-device loop of pickPhysicalDevice (the same in both files):
   * the highest score, the earliest one on a tie since only a strictly
   * greater score replaces the current best.
   */
  method BestCandidate(candidates: seq<Candidate>) returns (best: nat)
    requires |candidates| > 0
    ensures best < |candidates|
    ensures forall j :: 0 <= j < |candidates| ==> Score(candidates[j]) <= Score(candidates[best])
    ensures forall j :: 0 <= j < best ==> Score(candidates[j]) < Score(candidates[best])
  {
    best := 0;
    var bestScore := Score(candidates[0]);
    for i := 1 to |candidates|
      invariant best < i && bestScore == Score(candidates[best])
      invariant forall j :: 0 <= j < i ==> Score(candidates[j]) <= bestScore
      invariant forall j :: 0 <= j < best ==> Score(candidates[j]) < bestScore
    {
      var score := Score(candidates[i]);
      if score > bestScore {
        best := i;
        bestScore := score;
      }
    }
  }

  /** The device and queue families the engine records. */
  class DeviceSelection {
    var physicalDevice: Handle
    var graphicsQueueFamily: nat
    var presentQueueFamily: nat

    /**
     * pickPhysicalDevice of src/physical_device.cpp: false when no device is
     * compatible (the assertion on an empty list), otherwise the best
     * candidate is recorded.
     */
    method PickPhysicalDevice(devices: seq<PhysicalDevice>) returns (ok: bool)
      requires forall k :: 0 <= k < |devices| ==> |devices[k].families| < NO_FAMILY
      modifies this
      ensures ok <==> |Compatible(devices, DEVICE_EXTENSIONS)| > 0
      ensures ok ==> exists b: nat :: IsBest(Compatible(devices, DEVICE_EXTENSIONS), b) && Records(Compatible(devices, DEVICE_EXTENSIONS)[b])
      ensures !ok ==> unchanged(this)
    {
      var compatibleDevices := FindCompatibleDevices(devices);
      if |compatibleDevices| == 0 {
        return false;
      }
      var best := BestCandidate(compatibleDevices);
      physicalDevice := compatibleDevices[best].device;
      graphicsQueueFamily := compatibleDevices[best].graphicsFamily;
      presentQueueFamily := compatibleDevices[best].presentFamily;
      ok := true;
    }

    predicate Records(c: Candidate)
      reads this
    {
      physicalDevice == c.device && graphicsQueueFamily == c.graphicsFamily && presentQueueFamily == c.presentFamily
    }

    /**
     * initPhysicalDevice of src/Enigne.cpp, with pickPhysicalDevice inlined:
     * a failed surface creation and an empty compatible list each throw;
     * findCompatibleDevices never returns nullopt, so the empty list is the
     * only way to "no compatible devices".
     */
    method InitPhysicalDevice(surfaceResult: VkResult, devices: seq<PhysicalDevice>) returns (outcome: InitOutcome)
      requires forall k :: 0 <= k < |devices| ==> |devices[k].families| < NO_FAMILY
      modifies this
      ensures outcome == SurfaceFailed <==> surfaceResult != Success
      ensures outcome == NoCompatibleDevice <==> surfaceResult == Success && |Compatible(devices, [SWAPCHAIN_EXTENSION])| == 0
      ensures outcome == Initialized ==>
                exists b: nat :: IsBest(Compatible(devices, [SWAPCHAIN_EXTENSION]), b) && Records(Compatible(devices, [SWAPCHAIN_EXTENSION])[b])
      ensures outcome != Initialized ==> unchanged(this)
    {
      if surfaceResult != Success {
        return SurfaceFailed;
      }
      var result := FindCompatibleDevicesOpt(devices);
      if result.None? {
        return NoCompatibleDevice;
      }
      var compatibleDevices := result.value;
      if |compatibleDevices| == 0 {
        return NoCompatibleDevice;
      }
      var best := BestCandidate(compatibleDevices);
      physicalDevice := compatibleDevices[best].device;
      graphicsQueueFamily := compatibleDevices[best].graphicsFamily;
      presentQueueFamily := compatibleDevices[best].presentFamily;
      outcome := Initialized;
    }
  }

  datatype InitOutcome = SurfaceFailed | NoCompatibleDevice | Initialized

  /** b is the earliest candidate of maximal score. */
  predicate IsBest(candidates: seq<Candidate>, b: nat)
  {
    && b < |candidates|
    && (forall j :: 0 <= j < |candidates| ==> Score(candidates[j]) <= Score(candidates[b]))
    && (forall j :: 0 <= j < b ==> Score(candidates[j]) < Score(candidates[b]))
  }

  /** At most one candidate is the earliest of maximal score. */
  lemma BestIsUnique(candidates: seq<Candidate>, a: nat, b: nat)
    requires IsBest(candidates, a) && IsBest(candidates, b)
    ensures a == b
  {
    assert Score(candidates[a]) <= Score(candidates[b]) && Score(candidates[b]) <= Score(candidates[a]);
  }
}

=== FILE: engine_state.dfy ===
/**
 * Engine state that the frame loop and the UI keep: the registry of
 * UI-edited flags (flag() in src/Engine.h), the per-frame slot
 * (getCurrentFrame) and the frame counter and swapchain-recreate decisions
 * of drawFrame (src/draw.cpp).
 *
 * A flag is the address of a bool, modelled as a nat; a frame's FrameData
 * is an opaque id.  The results of vkAcquireNextImageKHR and
 * vkQueuePresentKHR are inputs.
 */
module EngineState {
  import opened Vk
  import opened Seqs

  const MAX_FRAMES_IN_FLIGHT: nat := 3

  // ---------------------------------------------------------------------
  // flag()
  // ---------------------------------------------------------------------

  /**
   * The registry after flag(b): b is registered, every entry keeps its
   * place, b is appended iff it was missing, and no duplicate appears.
   */
  function Flagged(flags: seq<nat>, b: nat): (r: seq<nat>)
    ensures b in r && |r| >= |flags| && r[..|flags|] == flags
    ensures forall x :: x in r <==> x in flags || x == b
    ensures b !in flags <==> |r| == |flags| + 1
    ensures NoDuplicates(flags) ==> NoDuplicates(r)
  {
    if b in flags then flags else flags + [b]
  }

  /** Flagging the same bool twice is the same as once. */
  lemma FlaggedIdempotent(flags: seq<nat>, b: nat)
    ensures Flagged(Flagged(flags, b), b) == Flagged(flags, b)
  {
  }

  /** The registry after flag(bs[0]), ..., flag(bs[|bs| - 1]). */
  function FlagAll(flags: seq<nat>, bs: seq<nat>): seq<nat>
    decreases |bs|
  {
    if bs == [] then flags else FlagAll(Flagged(flags, bs[0]), bs[1..])
  }

  /**
   * No sequence of flag calls produces a duplicate; the registry holds
   * exactly the bools flagged so far, and earlier entries keep their places.
   */
  lemma {:induction false} FlagAllKeepsRegistry(flags: seq<nat>, bs: seq<nat>)
    requires NoDuplicates(flags)
    ensures var r := FlagAll(flags, bs);
            NoDuplicates(r) && |r| >= |flags| && r[..|flags|] == flags &&
            forall x :: x in r <==> x in flags || x in bs
    decreases |bs|
  {
    if bs != [] {
      var f' := Flagged(flags, bs[0]);
      FlagAllKeepsRegistry(f', bs[1..]);
      var r := FlagAll(f', bs[1..]);
      assert r[..|flags|] == r[..|f'|][..|flags|];
      forall x ensures x in r <==> x in flags || x in bs {
        assert x in bs <==> x == bs[0] || x in bs[1..];
      }
    }
  }

  // ---------------------------------------------------------------------
  // drawFrame
  // ---------------------------------------------------------------------

  /** How one call of drawFrame ends. */
  datatype FrameOutcome =
    | AcquireOutOfDate       // swapchain recreated, nothing submitted
    | Presented(recreated: bool)
    | AcquireFailed          // the ASSERTMSG on the acquire result traps
    | PresentFailed          // the assert on the present result traps

  /** The fields drawFrame reads and writes. */
  datatype FrameState = FrameState(frameInFlightNum: nat, frameNumber: nat, framebufferResized: bool, recreations: nat)

  /** _frameNumber after ++ on a uint32. */
  function NextFrameNumber(n: nat): nat
  {
    (n + 1) % UINT32_LIMIT
  }

  /** One drawFrame, given the acquire and present results. */
  function DrawFrameSpec(st: FrameState, acquire: VkResult, present: VkResult): (r: (FrameState, FrameOutcome))
  {
    var slot := st.frameNumber % MAX_FRAMES_IN_FLIGHT;
    var st1 := st.(frameInFlightNum := slot);
    if acquire == ErrorOutOfDate then
      (st1.(recreations := st.recreations + 1), AcquireOutOfDate)
    else if acquire != Success && acquire != Suboptimal then
      (st1, AcquireFailed)
    else if present == ErrorOutOfDate || present == Suboptimal || st.framebufferResized then
      (st1.(framebufferResized := false, recreations := st.recreations + 1, frameNumber := NextFrameNumber(st.frameNumber)),
       Presented(true))
    else if present != Success then
      (st1, PresentFailed)
    else
      (st1.(frameNumber := NextFrameNumber(st.frameNumber)), Presented(false))
  }

  /**
   * The drawFrame contract: the slot is the frame number mod 3; the counter
   * advances exactly when the frame reaches present and not after a trap;
   * the swapchain is recreated once on an out-of-date acquire, or after
   * present on out-of-date, suboptimal or a pending resize, which is then
   * cleared; a resize request survives a frame that does not reach present.
   * Each outcome is also characterised by the two results and the pending
   * resize: the acquire trap fires on any result other than out-of-date,
   * success or suboptimal, and the present trap on any other result when
   * no recreation is due.
   */
  lemma DrawFrameOutcome(st: FrameState, acquire: VkResult, present: VkResult)
    requires st.frameNumber < UINT32_LIMIT
    ensures var (st', out) := DrawFrameSpec(st, acquire, present);
            st'.frameInFlightNum < MAX_FRAMES_IN_FLIGHT &&
            st'.frameInFlightNum == st.frameNumber % MAX_FRAMES_IN_FLIGHT &&
            st'.frameNumber < UINT32_LIMIT &&
            (out.Presented? <==> st'.frameNumber != st.frameNumber) &&
            (out.Presented? ==> st'.frameNumber == (st.frameNumber + 1) % UINT32_LIMIT) &&
            (st'.recreations == st.recreations + 1 <==> out == AcquireOutOfDate || out == Presented(true)) &&
            (st'.recreations == st.recreations || st'.recreations == st.recreations + 1) &&
            (out == AcquireOutOfDate <==> acquire == ErrorOutOfDate) &&
            (out == Presented(true) ==> !st'.framebufferResized) &&
            (!out.Presented? ==> st'.framebufferResized == st.framebufferResized)
    ensures var out := DrawFrameSpec(st, acquire, present).1;
            var accepted := acquire == Success || acquire == Suboptimal;
            (out == AcquireFailed <==> acquire != ErrorOutOfDate && !accepted) &&
            (out == Presented(true) <==>
               accepted && (present == ErrorOutOfDate || present == Suboptimal || st.framebufferResized)) &&
            (out == PresentFailed <==>
               accepted && present != ErrorOutOfDate && present != Suboptimal && present != Success &&
               !st.framebufferResized) &&
            (out == Presented(false) <==> accepted && present == Success && !st.framebufferResized)
  {
    var (st', out) := DrawFrameSpec(st, acquire, present);
    if out.Presented? {
      assert st.frameNumber + 1 <= UINT32_LIMIT;
      if st.frameNumber + 1 < UINT32_LIMIT {
        assert st'.frameNumber == st.frameNumber + 1;
      } else {
        assert st'.frameNumber == 0;
      }
    }
  }

  /**
   * Consecutive presented frames use the next slot, except across the uint32
   * wrap of _frameNumber: 2^32 - 1 and 0 are both slot 0, so two frames in a
   * row wait on the same fence.
   */
  lemma SlotsCycle(n: nat)
    requires n < UINT32_LIMIT
    ensures n + 1 < UINT32_LIMIT ==> NextFrameNumber(n) % MAX_FRAMES_IN_FLIGHT == (n % MAX_FRAMES_IN_FLIGHT + 1) % MAX_FRAMES_IN_FLIGHT
    ensures n + 1 == UINT32_LIMIT ==> NextFrameNumber(n) % MAX_FRAMES_IN_FLIGHT == 0 && n % MAX_FRAMES_IN_FLIGHT == 0
  {
    if n + 1 == UINT32_LIMIT {
      assert NextFrameNumber(n) == 0;
      assert n == 3 * 1431655765;
    }
  }

  class Engine {
    var frames: seq<nat>
    var frameInFlightNum: nat
    var frameNumber: nat
    var framebufferResized: bool
    var recreations: nat
    var imguiFlags: seq<nat>

    predicate Valid()
      reads this
    {
      |frames| == MAX_FRAMES_IN_FLIGHT && frameInFlightNum < MAX_FRAMES_IN_FLIGHT &&
      frameNumber < UINT32_LIMIT && NoDuplicates(imguiFlags)
    }

    function State(): FrameState
      reads this
    {
      FrameState(frameInFlightNum, frameNumber, framebufferResized, recreations)
    }

    constructor (frameData: seq<nat>)
      requires |frameData| == MAX_FRAMES_IN_FLIGHT
      ensures Valid() && frames == frameData && frameInFlightNum == 0 && frameNumber == 0
      ensures !framebufferResized && recreations == 0 && imguiFlags == []
    {
      frames := frameData;
      frameInFlightNum, frameNumber := 0, 0;
      framebufferResized := false;
      recreations := 0;
      imguiFlags := [];
    }

    /** getCurrentFrame: the FrameData of the current slot, always in bounds while Valid() holds. */
    function CurrentFrame(): (f: nat)
      requires Valid()
      reads this
      ensures f in frames
    {
      frames[frameInFlightNum]
    }

    /** flag(b): register b unless it is already registered. */
    method Flag(b: nat)
      requires Valid()
      modifies this`imguiFlags
      ensures Valid()
      ensures imguiFlags == Flagged(old(imguiFlags), b)
    {
      if b !in imguiFlags {
        imguiFlags := imguiFlags + [b];
      }
    }

    /**
     * drawFrame; `acquire` and `present` are what vkAcquireNextImageKHR and
     * vkQueuePresentKHR return.
     */
    method DrawFrame(acquire: VkResult, present: VkResult) returns (outcome: FrameOutcome)
      requires Valid()
      modifies this`frameInFlightNum, this`frameNumber, this`framebufferResized, this`recreations
      ensures Valid()
      ensures (State(), outcome) == DrawFrameSpec(old(State()), acquire, present)
      ensures CurrentFrame() == frames[old(frameNumber) % MAX_FRAMES_IN_FLIGHT]
    {
      frameInFlightNum := frameNumber % MAX_FRAMES_IN_FLIGHT;
      if acquire == ErrorOutOfDate {
        recreations := recreations + 1;  // recreateSwapchain
        return AcquireOutOfDate;
      } else if acquire != Success && acquire != Suboptimal {
        return AcquireFailed;
      }
      // command buffer recorded and submitted
      if present == ErrorOutOfDate || present == Suboptimal || framebufferResized {
        framebufferResized := false;
        recreations := recreations + 1;  // recreateSwapchain
        outcome := Presented(true);
      } else if present != Success {
        return PresentFailed;
      } else {
        outcome := Presented(false);
      }
      frameNumber := NextFrameNumber(frameNumber);
    }
  }
}

=== FILE: instance.dfy ===
/**
 * Instance set-up of src/instance.cpp, with its two older copies in
 * src/initialization.cpp and src/utils.h: the layer and extension support
 * checks, the list of instance extensions requested, and the decision to
 * check validation-layer support only when validation is enabled.  The
 * enumerated names, GLFW's extension list and vkCreateInstance's result
 * are inputs.
 */
module Instance {
  import opened Wrappers
  import opened Vk
  import opened Names

  const DEBUG_UTILS_EXTENSION: string := "VK_EXT_debug_utils"
  const VALIDATION_LAYERS: seq<string> := ["VK_LAYER_KHRONOS_validation"]

  /**
   * checkValidationLayerSupport and checkInstanceExtensionSupport (the two
   * share one loop): true iff every required name is available; the scan
   * stops with false at the first required name that is missing, and an
   * empty requirement list passes.
   */
  method CheckSupport(required: seq<string>, available: seq<string>) returns (ok: bool)
    ensures ok <==> AllIn(required, available)
    ensures |required| == 0 ==> ok
  {
    for i := 0 to |required|
      invariant AllIn(required[..i], available)
    {
      var found := Contains(available, required[i]);
      if !found {
        return false;
      }
      assert required[..i + 1] == required[..i] + [required[i]];
      AllInConcat(required[..i], [required[i]], available);
    }
    assert required[..|required|] == required;
    return true;
  }

  /** The instance extensions the engine asks for: GLFW's, then debug utils when validating. */
  function RequiredExtensions(glfwExtensions: seq<string>, validation: bool): (r: seq<string>)
    ensures |r| == |glfwExtensions| + (if validation then 1 else 0)
    ensures r[..|glfwExtensions|] == glfwExtensions
    ensures validation ==> r[|r| - 1] == DEBUG_UTILS_EXTENSION
    ensures DEBUG_UTILS_EXTENSION in r <==> validation || DEBUG_UTILS_EXTENSION in glfwExtensions
  {
    var r := glfwExtensions + (if validation then [DEBUG_UTILS_EXTENSION] else []);
    assert r[..|glfwExtensions|] == glfwExtensions;
    r
  }

  /**
   * get_required_extensions: builds the list by copying GLFW's extensions
   * one by one and appending debug utils when validating; None stands for
   * the runtime_error thrown when the instance does not support them all.
   */
  method GetRequiredExtensions(glfwExtensions: seq<string>, validation: bool, available: seq<string>)
    returns (r: Option<seq<string>>)
    ensures r.Some? <==> AllIn(RequiredExtensions(glfwExtensions, validation), available)
    ensures r.Some? ==> r.value == RequiredExtensions(glfwExtensions, validation)
  {
    var requiredExtensions: seq<string> := [];
    for i := 0 to |glfwExtensions|
      invariant requiredExtensions == glfwExtensions[..i]
    {
      requiredExtensions := requiredExtensions + [glfwExtensions[i]];
    }
    assert glfwExtensions[..|glfwExtensions|] == glfwExtensions;
    if validation {
      requiredExtensions := requiredExtensions + [DEBUG_UTILS_EXTENSION];
    }
    var ok := CheckSupport(requiredExtensions, available);
    if !ok {
      return None;
    }
    r := Some(requiredExtensions);
  }

  datatype InstanceOutcome =
    | ExtensionsUnsupported
    | LayersUnsupported
    | CreateFailed
    | Created(enabledLayers: seq<string>, enabledExtensions: seq<string>)

  /**
   * createInstance: the extensions are resolved first, the validation
   * layers are checked only when validation is enabled, and the instance is
   * created with the layers only in that case.
   */
  method CreateInstance(validation: bool, glfwExtensions: seq<string>, availableExtensions: seq<string>,
                        availableLayers: seq<string>, createResult: VkResult)
    returns (outcome: InstanceOutcome)
    ensures outcome == ExtensionsUnsupported <==> !AllIn(RequiredExtensions(glfwExtensions, validation), availableExtensions)
    ensures outcome == LayersUnsupported ==> validation && !AllIn(VALIDATION_LAYERS, availableLayers)
    ensures !validation ==> outcome != LayersUnsupported
    ensures outcome.Created? <==>
              AllIn(RequiredExtensions(glfwExtensions, validation), availableExtensions)
              && (validation ==> AllIn(VALIDATION_LAYERS, availableLayers)) && createResult == Success
    ensures outcome.Created? ==>
              outcome.enabledExtensions == RequiredExtensions(glfwExtensions, validation)
              && outcome.enabledLayers == (if validation then VALIDATION_LAYERS else [])
  {
    var extensions := GetRequiredExtensions(glfwExtensions, validation, availableExtensions);
    if extensions.None? {
      return ExtensionsUnsupported;
    }
    if validation {
      var layersOk := CheckSupport(VALIDATION_LAYERS, availableLayers);
      if !layersOk {
        return LayersUnsupported;
      }
    }
    if createResult != Success {
      return CreateFailed;
    }
    outcome := Created(if validation then VALIDATION_LAYERS else [], extensions.value);
  }

  /** debugCallback (src/utils.h): reports the message and never asks for the call to be aborted. */
  function DebugCallback(severity: nat, messageType: nat, message: string): (abortCall: bool)
    ensures !abortCall
  {
    false
  }
}

=== FILE: lights.dfy ===
/**
 * The scene lights of RenderContext: the attenuation table, snapping a
 * light's radius to a table key (the vector-based version of
 * src/resources.cpp with its up/down modes, and the unordered_map version of
 * src/render.cpp), Init and UpdateLightPosition.
 *
 * Radii are whole numbers in both tables and in the initial values, so they
 * are modelled as ints; the float-to-int conversions at the call sites are
 * exact for them.  Attenuation factors are reals that are only copied.
 */
module Lights {
  import opened Scene

  const INT_MAX: int := 0x7fff_ffff
  const MAX_LIGHTS: nat := 4

  datatype Atten = Atten(constant: real, linear: real, quadratic: real)

  /** atten_map: radius -> (constant, linear, quadratic), in table order. */
  const ATTEN_MAP: seq<(int, Atten)> := [
    (7, Atten(1.0, 0.7, 1.8)),
    (13, Atten(1.0, 0.35, 0.44)),
    (20, Atten(1.0, 0.22, 0.20)),
    (32, Atten(1.0, 0.14, 0.07)),
    (50, Atten(1.0, 0.09, 0.032)),
    (65, Atten(1.0, 0.07, 0.017)),
    (100, Atten(1.0, 0.045, 0.0075)),
    (160, Atten(1.0, 0.027, 0.0028)),
    (200, Atten(1.0, 0.022, 0.0019)),
    (325, Atten(1.0, 0.014, 0.0007)),
    (600, Atten(1.0, 0.007, 0.0002)),
    (3250, Atten(1.0, 0.0014, 0.000007))
  ]

  /** The radius keys of atten_map, in table order. */
  function AttenKeys(): (ks: seq<int>)
    ensures |ks| == |ATTEN_MAP| && forall i :: 0 <= i < |ks| ==> ks[i] == ATTEN_MAP[i].0
  {
    seq(|ATTEN_MAP|, i requires 0 <= i < |ATTEN_MAP| => ATTEN_MAP[i].0)
  }

  lemma AttenKeysValues()
    ensures AttenKeys() == [7, 13, 20, 32, 50, 65, 100, 160, 200, 325, 600, 3250]
  {
  }

  /** Every key lies between the first and the last one. */
  lemma KeyBounds(x: int)
    requires x in AttenKeys()
    ensures 7 <= x <= 3250
  {
    AttenKeysValues();
  }

  /** The keys of the unordered_map in the order it visits them: each table key exactly once. */
  ghost predicate IsIterationOrder(keysInOrder: seq<int>)
  {
    |keysInOrder| == |ATTEN_MAP| && forall x :: x in keysInOrder <==> x in AttenKeys()
  }

  predicate StrictlyIncreasing(ks: seq<int>)
  {
    forall i, j :: 0 <= i < j < |ks| ==> ks[i] < ks[j]
  }

  /** The table has 12 entries with strictly increasing keys. */
  lemma AttenMapShape()
    ensures |ATTEN_MAP| == 12 && StrictlyIncreasing(AttenKeys())
  {
    var ks := AttenKeys();
    AttenKeysValues();
    forall i, j | 0 <= i < j < |ks| ensures ks[i] < ks[j] {
      forall k | 0 <= k < |ks| - 1 ensures ks[k] < ks[k + 1] { }
      AscendingSteps(ks, i, j);
    }
  }

  lemma {:induction false} AscendingSteps(ks: seq<int>, i: nat, j: nat)
    requires forall k :: 0 <= k < |ks| - 1 ==> ks[k] < ks[k + 1]
    requires i < j < |ks|
    ensures ks[i] < ks[j]
    decreases j - i
  {
    if i + 1 < j {
      AscendingSteps(ks, i + 1, j);
    }
  }

  function Abs(x: int): nat
  {
    if x < 0 then -x else x
  }

  /** std::abs(key - radius) for the key at position k. */
  function Dist(keys: seq<int>, radius: int, k: int): nat
    requires 0 <= k < |keys|
  {
    Abs(keys[k] - radius)
  }

  /** Among the first n keys, position j is nearest to radius, and no earlier position is as near. */
  predicate IsFirstClosestUpTo(keys: seq<int>, radius: int, j: int, n: int)
  {
    0 <= j < n <= |keys| &&
    (forall k :: 0 <= k < n ==> Dist(keys, radius, j) <= Dist(keys, radius, k)) &&
    (forall k :: 0 <= k < j ==> Dist(keys, radius, j) < Dist(keys, radius, k))
  }

  predicate IsFirstClosest(keys: seq<int>, radius: int, j: int)
  {
    IsFirstClosestUpTo(keys, radius, j, |keys|)
  }

  /** At most one position is the first nearest one. */
  lemma FirstClosestUnique(keys: seq<int>, radius: int, a: int, b: int, n: int)
    requires IsFirstClosestUpTo(keys, radius, a, n) && IsFirstClosestUpTo(keys, radius, b, n)
    ensures a == b
  {
    assert Dist(keys, radius, a) == Dist(keys, radius, b);
  }

  /** The first position among the first n keys nearest to radius. */
  function FirstClosestUpTo(keys: seq<int>, radius: int, n: nat): (j: nat)
    requires 0 < n <= |keys|
    ensures IsFirstClosestUpTo(keys, radius, j, n)
  {
    if n == 1 then 0
    else
      var j := FirstClosestUpTo(keys, radius, n - 1);
      if Dist(keys, radius, n - 1) < Dist(keys, radius, j) then n - 1 else j
  }

  function FirstClosest(keys: seq<int>, radius: int): (j: nat)
    requires |keys| > 0
    ensures IsFirstClosest(keys, radius, j)
  {
    FirstClosestUpTo(keys, radius, |keys|)
  }

  /** key - radius does not overflow int and its std::abs is defined. */
  predicate NoOverflow(keys: seq<int>, radius: int)
  {
    forall k :: 0 <= k < |keys| ==> -INT_MAX <= keys[k] - radius <= INT_MAX
  }

  /**
   * GetClosestRadiusIndex: the first index whose key is nearest to radius.
   * min_diff starts at INT_MAX and only a strictly smaller difference is
   * taken, so 0 comes back for an empty table and when every difference is
   * INT_MAX.
   */
  method GetClosestRadiusIndex(keys: seq<int>, radius: int) returns (closestIndex: nat)
    requires NoOverflow(keys, radius)
    ensures |keys| == 0 ==> closestIndex == 0
    ensures |keys| > 0 && Dist(keys, radius, FirstClosest(keys, radius)) < INT_MAX ==>
              closestIndex == FirstClosest(keys, radius)
    ensures |keys| > 0 && Dist(keys, radius, FirstClosest(keys, radius)) >= INT_MAX ==> closestIndex == 0
  {
    var minDiff := INT_MAX;
    closestIndex := 0;
    var i := 0;
    while i < |keys|
      invariant 0 <= i <= |keys|
      invariant minDiff <= INT_MAX
      invariant minDiff < INT_MAX ==> IsFirstClosestUpTo(keys, radius, closestIndex, i) && minDiff == Dist(keys, radius, closestIndex)
      invariant minDiff == INT_MAX ==> closestIndex == 0 && forall k :: 0 <= k < i ==> Dist(keys, radius, k) == INT_MAX
    {
      var diff := Abs(keys[i] - radius);
      if diff < minDiff {
        minDiff := diff;
        closestIndex := i;
      }
      i := i + 1;
    }
    if |keys| > 0 {
      var fc := FirstClosest(keys, radius);
      if minDiff < INT_MAX {
        FirstClosestUnique(keys, radius, closestIndex, fc, |keys|);
      } else {
        assert Dist(keys, radius, fc) == INT_MAX;
      }
    }
  }

  /** Whatever the order of the keys, the distance to the key 7 stays below INT_MAX for every radius the table can be compared with. */
  lemma NearestWithinReach(keys: seq<int>, radius: int, p: nat)
    requires p < |keys| && keys[p] == 7 && 3250 - INT_MAX <= radius <= INT_MAX
    ensures Dist(keys, radius, FirstClosest(keys, radius)) < INT_MAX
  {
    assert Dist(keys, radius, FirstClosest(keys, radius)) <= Dist(keys, radius, p);
  }

  /** The radius range for which no key - radius overflows. */
  predicate RadiusInRange(radius: int)
  {
    3250 - INT_MAX <= radius <= INT_MAX
  }

  lemma RangeMeansNoOverflow(keys: seq<int>, radius: int)
    requires (keys == AttenKeys() || IsIterationOrder(keys)) && RadiusInRange(radius)
    ensures NoOverflow(keys, radius)
  {
    forall k | 0 <= k < |keys| ensures -INT_MAX <= keys[k] - radius <= INT_MAX {
      assert keys[k] in keys;
      KeyBounds(keys[k]);
    }
  }

  /** The index UpdateLightAttenuation settles on: one step up (mode 1) or down (mode 2) from the closest, within the table. */
  function AdjustIndex(closest: nat, mode: int, n: nat): (ind: nat)
  {
    if mode == 1 then (if closest != n - 1 then closest + 1 else closest)
    else if mode == 2 then (if closest > 0 then closest - 1 else closest)
    else closest
  }

  /**
   * In a table with increasing keys, mode 1 moves to the next larger key and
   * mode 2 to the next smaller one, staying put at the ends; any other mode
   * keeps the closest key.  The index never leaves the table.
   */
  lemma AdjustIndexSteps(keys: seq<int>, closest: nat, mode: int)
    requires StrictlyIncreasing(keys) && closest < |keys|
    ensures var ind := AdjustIndex(closest, mode, |keys|);
            ind < |keys| &&
            (mode == 1 ==> keys[ind] >= keys[closest] && (closest < |keys| - 1 <==> keys[ind] > keys[closest]) &&
                           forall k :: 0 <= k < |keys| && keys[k] > keys[closest] ==> keys[ind] <= keys[k]) &&
            (mode == 2 ==> keys[ind] <= keys[closest] && (closest > 0 <==> keys[ind] < keys[closest]) &&
                           forall k :: 0 <= k < |keys| && keys[k] < keys[closest] ==> keys[ind] >= keys[k]) &&
            (mode != 1 && mode != 2 ==> ind == closest)
  {
    var ind := AdjustIndex(closest, mode, |keys|);
    if mode == 1 {
      forall k | 0 <= k < |keys| && keys[k] > keys[closest] ensures keys[ind] <= keys[k] {
        assert closest < k;
        if ind < k {
          assert keys[ind] < keys[k];
        }
      }
    } else if mode == 2 {
      forall k | 0 <= k < |keys| && keys[k] < keys[closest] ensures keys[ind] >= keys[k] {
        assert k < closest;
        if k < ind {
          assert keys[k] < keys[ind];
        }
      }
    }
  }

  /** sceneData.lights[i]. */
  datatype Light = Light(position: Vec3, radius: int, color: Vec3,
                         ambientFactor: real, diffuseFactor: real, specularFactor: real, intensity: real,
                         constant: real, linear: real, quadratic: real, enabled: bool)

  /** The light with its radius and attenuation taken from table entry ind. */
  function WithAtten(l: Light, ind: nat): Light
    requires ind < |ATTEN_MAP|
  {
    var (key, att) := ATTEN_MAP[ind];
    l.(radius := key, constant := att.constant, linear := att.linear, quadratic := att.quadratic)
  }

  /** The position of a key in atten_map. */
  function IndexOfKey(key: int): (ind: nat)
    requires key in AttenKeys()
    ensures ind < |ATTEN_MAP| && ATTEN_MAP[ind].0 == key
  {
    var ks := AttenKeys();
    var i :| 0 <= i < |ks| && ks[i] == key;
    i
  }

  /** The positions, colours and intensities Init gives the four lights. */
  const LIGHT_POS: seq<Vec3> := [Vec3(0.0, 5.0, 0.0), Vec3(15.0, 5.0, 0.0), Vec3(0.0, 5.0, 15.0), Vec3(15.0, 5.0, 15.0)]
  const INIT_RADIUS: seq<int> := [20, 10, 30, 5]
  const INIT_INTENSITY: seq<real> := [2000.0, 100.0, 30.0, 500.0]
  /** src/resources.cpp colours every light white. */
  const WHITE_COLORS: seq<Vec3> := [Vec3(1.0, 1.0, 1.0), Vec3(1.0, 1.0, 1.0), Vec3(1.0, 1.0, 1.0), Vec3(1.0, 1.0, 1.0)]
  /** src/render.cpp tints them. */
  const TINTED_COLORS: seq<Vec3> := [Vec3(1.0, 1.0, 0.2), Vec3(0.7, 1.0, 0.8), Vec3(1.0, 0.5, 1.0), Vec3(0.7, 1.0, 1.0)]

  /** Light i as Init writes it, before its attenuation is updated (attenuation fields zero). */
  function FreshLight(i: nat, colors: seq<Vec3>): Light
    requires i < MAX_LIGHTS && |colors| == MAX_LIGHTS
  {
    Light(LIGHT_POS[i], INIT_RADIUS[i], colors[i], 0.1, 1.0, 0.5, INIT_INTENSITY[i], 0.0, 0.0, 0.0, true)
  }

  /** Light i after Init of src/resources.cpp. */
  function InitialLight(i: nat): Light
    requires i < MAX_LIGHTS
  {
    WithAtten(FreshLight(i, WHITE_COLORS), FirstClosest(AttenKeys(), INIT_RADIUS[i]))
  }

  /** Init snaps the radii 20, 10, 30, 5 to 20, 7, 32, 7: the tie at 10 between 7 and 13 goes to the earlier 7. */
  lemma InitialRadii()
    ensures InitialLight(0).radius == 20 && InitialLight(1).radius == 7
    ensures InitialLight(2).radius == 32 && InitialLight(3).radius == 7
  {
    var ks := AttenKeys();
    assert IsFirstClosest(ks, 20, 2);
    FirstClosestUnique(ks, 20, 2, FirstClosest(ks, 20), |ks|);
    assert IsFirstClosest(ks, 10, 0);
    FirstClosestUnique(ks, 10, 0, FirstClosest(ks, 10), |ks|);
    assert IsFirstClosest(ks, 30, 3);
    FirstClosestUnique(ks, 30, 3, FirstClosest(ks, 30), |ks|);
    assert IsFirstClosest(ks, 5, 0);
    FirstClosestUnique(ks, 5, 0, FirstClosest(ks, 5), |ks|);
  }

  /** The key the unordered_map loop of src/render.cpp settles on when it visits the keys in the given order. */
  function SnapInOrder(keysInOrder: seq<int>, radius: int): int
    requires |keysInOrder| > 0
  {
    keysInOrder[FirstClosest(keysInOrder, radius)]
  }

  /** Whatever the visiting order, the snapped radius is a table key at minimal distance. */
  lemma SnapInOrderIsNearest(keysInOrder: seq<int>, radius: int)
    requires IsIterationOrder(keysInOrder)
    ensures var key := SnapInOrder(keysInOrder, radius);
            key in AttenKeys() && forall k :: k in AttenKeys() ==> Abs(key - radius) <= Abs(k - radius)
  {
    var j := FirstClosest(keysInOrder, radius);
    assert keysInOrder[j] in keysInOrder;
    forall k | k in AttenKeys() ensures Abs(keysInOrder[j] - radius) <= Abs(k - radius) {
      assert k in keysInOrder;
      var p :| 0 <= p < |keysInOrder| && keysInOrder[p] == k;
      assert Dist(keysInOrder, radius, j) <= Dist(keysInOrder, radius, p);
    }
  }

  /** With an unordered_map the tie at radius 10 depends on the iteration order: 7 first gives 7, 13 first gives 13. */
  lemma SnapTieDependsOnOrder()
    ensures SnapInOrder([7, 13, 20, 32, 50, 65, 100, 160, 200, 325, 600, 3250], 10) == 7
    ensures SnapInOrder([13, 7, 20, 32, 50, 65, 100, 160, 200, 325, 600, 3250], 10) == 13
  {
    var a := [7, 13, 20, 32, 50, 65, 100, 160, 200, 325, 600, 3250];
    var b := [13, 7, 20, 32, 50, 65, 100, 160, 200, 325, 600, 3250];
    assert IsFirstClosest(a, 10, 0);
    FirstClosestUnique(a, 10, 0, FirstClosest(a, 10), |a|);
    assert IsFirstClosest(b, 10, 0);
    FirstClosestUnique(b, 10, 0, FirstClosest(b, 10), |b|);
  }

  class RenderContext {
    var lights: seq<Light>
    var ambientColor: Vec4
    var lightObjects: seq<RenderObject>
    var displayLightSourceObjects: bool
    // Scene settings that loadScene and saveScene in src/assets.cpp exchange with a scene file.
    var modelPos: Vec3
    var modelScale: real
    var modelPath: string
    var skyboxPath: string
    var bumpStrength: real
    var mainObject: RenderObject?

    predicate Valid()
      reads this
    {
      |lights| == MAX_LIGHTS
    }

    /**
     * UpdateLightAttenuation of src/resources.cpp: snap the light's radius to
     * the closest key (mode 0), the next key up (mode 1) or down (mode 2),
     * and copy that entry's attenuation.
     */
    method UpdateLightAttenuation(lightIndex: nat, mode: int)
      requires Valid() && lightIndex < MAX_LIGHTS && RadiusInRange(lights[lightIndex].radius)
      modifies this`lights
      ensures Valid()
      ensures var ind := AdjustIndex(FirstClosest(AttenKeys(), old(lights)[lightIndex].radius), mode, |ATTEN_MAP|);
              ind < |ATTEN_MAP| && lights == old(lights)[lightIndex := WithAtten(old(lights)[lightIndex], ind)]
      ensures lights[lightIndex].radius in AttenKeys()
    {
      var l := lights[lightIndex];
      RangeMeansNoOverflow(AttenKeys(), l.radius);
      NearestWithinReach(AttenKeys(), l.radius, 0);
      var ind := GetClosestRadiusIndex(AttenKeys(), l.radius);
      if mode == 1 {
        if ind != |ATTEN_MAP| - 1 {
          ind := ind + 1;
        }
      } else if mode == 2 {
        if ind > 0 {
          ind := ind - 1;
        }
      }
      var (key, att) := ATTEN_MAP[ind];
      l := l.(radius := key);
      l := l.(constant := att.constant, linear := att.linear, quadratic := att.quadratic);
      lights := lights[lightIndex := l];
    }

    /** Init of src/resources.cpp: the four lights, each snapped to its closest key. */
    method Init()
      requires Valid()
      modifies this`lights, this`ambientColor
      ensures Valid() && ambientColor == Vec4(0.2, 0.2, 0.2, 1.0)
      ensures forall i :: 0 <= i < MAX_LIGHTS ==> lights[i] == InitialLight(i)
      ensures lights[0].radius == 20 && lights[1].radius == 7 && lights[2].radius == 32 && lights[3].radius == 7
      ensures forall i :: 0 <= i < MAX_LIGHTS ==> lights[i].enabled && lights[i].radius in AttenKeys()
    {
      ambientColor := Vec4(0.2, 0.2, 0.2, 1.0);
      for i := 0 to MAX_LIGHTS
        invariant Valid() && ambientColor == Vec4(0.2, 0.2, 0.2, 1.0)
        invariant forall k :: 0 <= k < i ==> lights[k] == InitialLight(k)
      {
        lights := lights[i := FreshLight(i, WHITE_COLORS)];
        UpdateLightAttenuation(i, 0);
      }
      InitialRadii();
      AttenKeysValues();
    }

    /**
     * UpdateLightAttenuation of src/render.cpp: the same search over an
     * unordered_map, visited in the order keysInOrder; the radius becomes
     * the key found and the attenuation that key's entry.
     */
    method UpdateLightAttenuationUnordered(lightIndex: nat, keysInOrder: seq<int>)
      requires Valid() && lightIndex < MAX_LIGHTS && RadiusInRange(lights[lightIndex].radius)
      requires IsIterationOrder(keysInOrder)
      modifies this`lights
      ensures Valid()
      ensures var key := SnapInOrder(keysInOrder, old(lights)[lightIndex].radius);
              key in AttenKeys() && lights == old(lights)[lightIndex := WithAtten(old(lights)[lightIndex], IndexOfKey(key))]
      ensures lights[lightIndex].radius in AttenKeys()
      ensures forall k :: k in AttenKeys() ==> Abs(lights[lightIndex].radius - old(lights)[lightIndex].radius) <= Abs(k - old(lights)[lightIndex].radius)
    {
      var l := lights[lightIndex];
      RangeMeansNoOverflow(keysInOrder, l.radius);
      assert AttenKeys()[0] == 7;
      assert 7 in keysInOrder;
      var p :| 0 <= p < |keysInOrder| && keysInOrder[p] == 7;
      NearestWithinReach(keysInOrder, l.radius, p);
      var pos := GetClosestRadiusIndex(keysInOrder, l.radius);
      var closestKey := keysInOrder[pos];
      SnapInOrderIsNearest(keysInOrder, l.radius);
      var ind := IndexOfKey(closestKey);
      var att := ATTEN_MAP[ind].1;
      l := l.(radius := closestKey);
      l := l.(constant := att.constant, linear := att.linear, quadratic := att.quadratic);
      lights := lights[lightIndex := l];
    }

    /**
     * Init of src/render.cpp: every light enabled, every radius a table key;
     * 20 and 30 and 5 snap to 20, 32 and 7, and 10 to 7 or 13 depending on
     * the map's order.
     */
    method InitUnordered(keysInOrder: seq<int>)
      requires Valid() && IsIterationOrder(keysInOrder)
      modifies this`lights, this`ambientColor
      ensures Valid() && ambientColor == Vec4(0.2, 0.2, 0.2, 1.0)
      ensures forall i :: 0 <= i < MAX_LIGHTS ==> lights[i].enabled && lights[i].radius in AttenKeys()
      ensures forall i :: 0 <= i < MAX_LIGHTS ==> lights[i].position == LIGHT_POS[i] && lights[i].color == TINTED_COLORS[i]
      ensures lights[0].radius == 20 && (lights[1].radius == 7 || lights[1].radius == 13)
      ensures lights[2].radius == 32 && lights[3].radius == 7
    {
      ambientColor := Vec4(0.2, 0.2, 0.2, 1.0);
      for i := 0 to MAX_LIGHTS
        invariant Valid() && ambientColor == Vec4(0.2, 0.2, 0.2, 1.0)
        invariant forall k :: 0 <= k < i ==> lights[k].enabled && lights[k].radius in AttenKeys()
        invariant forall k :: 0 <= k < i ==> lights[k].position == LIGHT_POS[k] && lights[k].color == TINTED_COLORS[k]
        invariant forall k :: 0 <= k < i ==> forall key :: key in AttenKeys() ==> Abs(lights[k].radius - INIT_RADIUS[k]) <= Abs(key - INIT_RADIUS[k])
      {
        lights := lights[i := FreshLight(i, TINTED_COLORS)];
        UpdateLightAttenuationUnordered(i, keysInOrder);
      }
      NearestKeys(lights[0].radius, 20);
      NearestKeys(lights[1].radius, 10);
      NearestKeys(lights[2].radius, 30);
      NearestKeys(lights[3].radius, 5);
    }

    /** UpdateLightPosition: the light and its light object both move to newPos, nothing else changes. */
    method UpdateLightPosition(lightIndex: nat, newPos: Vec3)
      requires Valid() && lightIndex < MAX_LIGHTS && lightIndex < |lightObjects|
      modifies this`lights, lightObjects[lightIndex]
      ensures Valid() && lightObjects == old(lightObjects)
      ensures lights == old(lights)[lightIndex := old(lights)[lightIndex].(position := newPos)]
      ensures var o := lightObjects[lightIndex];
              o.pos == newPos && o.color == old(o.color) && o.mesh == old(o.mesh) &&
              o.material == old(o.material) && o.model == old(o.model) && o.isSkybox == old(o.isSkybox) &&
              o.isLightSource == old(o.isLightSource) && o.prevPos == old(o.prevPos)
    {
      lights := lights[lightIndex := lights[lightIndex].(position := newPos)];
      lightObjects[lightIndex].pos := newPos;
    }
  }

  /** The nearest table keys to the four initial radii. */
  lemma NearestKeys(key: int, radius: int)
    requires key in AttenKeys() && radius in {20, 10, 30, 5}
    requires forall k :: k in AttenKeys() ==> Abs(key - radius) <= Abs(k - radius)
    ensures radius == 20 ==> key == 20
    ensures radius == 10 ==> key == 7 || key == 13
    ensures radius == 30 ==> key == 32
    ensures radius == 5 ==> key == 7
  {
    AttenKeysValues();
    assert 7 in AttenKeys() && 20 in AttenKeys() && 32 in AttenKeys();
    KeyBounds(key);
  }
}

=== FILE: meshload.dfy ===
/**
 * The stand-alone Mesh loaders of src/Mesh.cpp: loadFromObj flattens
 * every triangle of every shape into the mesh's vertex list, three
 * vertices per face and no deduplication; loadFromGLTF appends the
 * vertices of every triangle primitive of every glTF mesh.
 *
 * The parsers (tinyobj, tinygltf) are not part of this model: their
 * results are inputs.  A glTF primitive is given by its mode and the
 * POSITION, NORMAL and TEXCOORD_0 arrays it has, already decoded.
 */
module MeshLoad {
  import opened Wrappers
  import opened Scene
  import opened ObjData
  import Seqs

  // ---------------------------------------------------------------------
  // loadFromObj
  // ---------------------------------------------------------------------

  /** The vertices of the first n faces of a shape, three per face. */
  function FlattenShape(a: Attrib, s: Shape, n: nat): (vs: seq<Vertex>)
    requires TrianglesValid(a, s) && n <= |s.mesh.numFaceVertices|
    ensures |vs| == 3 * n
  {
    if n == 0 then []
    else
      var ix := s.mesh.indices;
      FlattenShape(a, s, n - 1) + [MakeVertex(a, ix[3 * n - 3]), MakeVertex(a, ix[3 * n - 2]), MakeVertex(a, ix[3 * n - 1])]
  }

  /** The vertices of all shapes, shape by shape. */
  function FlattenAll(a: Attrib, shapes: seq<Shape>): seq<Vertex>
    requires forall k :: 0 <= k < |shapes| ==> TrianglesValid(a, shapes[k])
    decreases |shapes|
  {
    if shapes == [] then []
    else
      var last := shapes[|shapes| - 1];
      FlattenAll(a, shapes[..|shapes| - 1]) + FlattenShape(a, last, |last.mesh.numFaceVertices|)
  }

  function FaceCount(shapes: seq<Shape>): nat
    decreases |shapes|
  {
    if shapes == [] then 0 else FaceCount(shapes[..|shapes| - 1]) + |shapes[|shapes| - 1].mesh.numFaceVertices|
  }

  /** Vertex k of a shape's flattening is the vertex of its corner k, in face order. */
  lemma {:induction false} FlattenShapeCorners(a: Attrib, s: Shape, n: nat)
    requires TrianglesValid(a, s) && n <= |s.mesh.numFaceVertices|
    ensures forall k :: 0 <= k < 3 * n ==> FlattenShape(a, s, n)[k] == MakeVertex(a, s.mesh.indices[k])
    decreases n
  {
    if n > 0 {
      FlattenShapeCorners(a, s, n - 1);
    }
  }

  /** Three vertices per face of every shape, and nothing else. */
  lemma {:induction false} FlattenAllLength(a: Attrib, shapes: seq<Shape>)
    requires forall k :: 0 <= k < |shapes| ==> TrianglesValid(a, shapes[k])
    ensures |FlattenAll(a, shapes)| == 3 * FaceCount(shapes)
    decreases |shapes|
  {
    if shapes != [] {
      FlattenAllLength(a, shapes[..|shapes| - 1]);
    }
  }

  // ---------------------------------------------------------------------
  // loadFromGLTF
  // ---------------------------------------------------------------------

  /** TINYGLTF_MODE_TRIANGLES. */
  const MODE_TRIANGLES: int := 4

  /** A glTF primitive: its mode and the attribute arrays it has (None: the attribute is absent). */
  datatype Primitive = Primitive(mode: int, positions: Option<seq<Vec3>>, normals: Option<seq<Vec3>>, uvs: Option<seq<Vec2>>)

  /** How the walk over the primitives ended. */
  datatype GltfStop =
    | Completed
    | NotTriangles      // a primitive whose mode is not triangles
    | NoPosition        // attributes.at("POSITION") throws std::out_of_range
    | NoNormals         // a primitive without NORMAL

  /** The arrays of a primitive with positions and normals hold an entry for every position. */
  predicate PrimitiveReadable(p: Primitive)
  {
    p.positions.Some? && p.normals.Some? ==>
      |p.normals.value| >= |p.positions.value| && (p.uvs.Some? ==> |p.uvs.value| >= |p.positions.value|)
  }

  /** Vertex i of a primitive: colour is the normal; uv is (0, 0) without TEXCOORD_0 and is not flipped. */
  function PrimVertex(p: Primitive, i: nat): (v: Vertex)
    requires p.positions.Some? && p.normals.Some? && PrimitiveReadable(p) && i < |p.positions.value|
    ensures v.color == v.normal && v.pos == p.positions.value[i] && v.normal == p.normals.value[i]
    ensures p.uvs.None? ==> v.uv == Vec2(0.0, 0.0)
  {
    var n := p.normals.value[i];
    Vertex(p.positions.value[i], n, n, if p.uvs.Some? then p.uvs.value[i] else Vec2(0.0, 0.0))
  }

  /** The vertices a primitive contributes: one per POSITION entry, in order. */
  function PrimVertices(p: Primitive, count: nat): (vs: seq<Vertex>)
    requires p.positions.Some? && p.normals.Some? && PrimitiveReadable(p) && count <= |p.positions.value|
    ensures |vs| == count
    ensures forall i :: 0 <= i < count ==> vs[i] == PrimVertex(p, i)
  {
    if count == 0 then [] else PrimVertices(p, count - 1) + [PrimVertex(p, count - 1)]
  }

  /** Why a primitive stops the walk, if it does: mode first, then POSITION, then NORMAL. */
  function PrimStop(p: Primitive): GltfStop
  {
    if p.mode != MODE_TRIANGLES then NotTriangles
    else if p.positions.None? then NoPosition
    else if p.normals.None? then NoNormals
    else Completed
  }

  /** The vertices appended and how the walk ends, primitive by primitive; the first stop is final. */
  function GltfScan(prims: seq<Primitive>): (r: (seq<Vertex>, GltfStop))
    requires forall k :: 0 <= k < |prims| ==> PrimitiveReadable(prims[k])
    decreases |prims|
  {
    if prims == [] then ([], Completed)
    else
      var (vs, stop) := GltfScan(prims[..|prims| - 1]);
      var p := prims[|prims| - 1];
      if stop != Completed then (vs, stop)
      else if PrimStop(p) != Completed then (vs, PrimStop(p))
      else (vs + PrimVertices(p, |p.positions.value|), Completed)
  }

  /** The primitives of all glTF meshes, mesh by mesh. */
  function AllPrimitives(meshes: seq<seq<Primitive>>): seq<Primitive>
    decreases |meshes|
  {
    if meshes == [] then [] else AllPrimitives(meshes[..|meshes| - 1]) + meshes[|meshes| - 1]
  }

  /**
   * The walk completes iff every primitive is a triangle list with
   * POSITION and NORMAL, and then holds one vertex per position of each.
   */
  lemma {:induction false} GltfScanCompletes(prims: seq<Primitive>)
    requires forall k :: 0 <= k < |prims| ==> PrimitiveReadable(prims[k])
    ensures GltfScan(prims).1 == Completed <==> forall k :: 0 <= k < |prims| ==> PrimStop(prims[k]) == Completed
    ensures GltfScan(prims).1 != Completed ==> exists k :: 0 <= k < |prims| && PrimStop(prims[k]) == GltfScan(prims).1
    decreases |prims|
  {
    if prims != [] {
      var init := prims[..|prims| - 1];
      GltfScanCompletes(init);
      if GltfScan(init).1 != Completed {
        var k :| 0 <= k < |init| && PrimStop(init[k]) == GltfScan(init).1;
        assert prims[k] == init[k];
      }
    }
  }

  /** What loadFromGLTF gives back. */
  datatype GltfReturn =
    | Returned(value: bool)
    | FellOffEnd        // control reaches the end of a bool function: no value is returned
    | Threw             // std::out_of_range from attributes.at

  /** The return of loadFromGLTF as written: `return 1` on the two error paths, no return statement after the loop. */
  function GltfOutcomeAsWritten(success: bool, stop: GltfStop): GltfReturn
  {
    if !success then Returned(false)
    else match stop
      case Completed => FellOffEnd
      case NotTriangles => Returned(true)
      case NoNormals => Returned(true)
      case NoPosition => Threw
  }

  /** The return evidently intended: false on a failed load or an unsupported primitive, true after every primitive. */
  function GltfOutcome(success: bool, stop: GltfStop): GltfReturn
  {
    if !success then Returned(false)
    else match stop
      case Completed => Returned(true)
      case NotTriangles => Returned(false)
      case NoNormals => Returned(false)
      case NoPosition => Threw
  }

  /** As written, a file with a line or point primitive reports success, and a good file returns no value. */
  lemma GltfAsWrittenMisreports(prims: seq<Primitive>)
    requires forall k :: 0 <= k < |prims| ==> PrimitiveReadable(prims[k])
    ensures var out := GltfOutcomeAsWritten(true, GltfScan(prims).1);
            (GltfScan(prims).1 == Completed ==> out == FellOffEnd) &&
            (GltfScan(prims).1 in {NotTriangles, NoNormals} ==> out == Returned(true))
    ensures GltfScan([Primitive(1, None, None, None)]).1 == NotTriangles
  {
    assert [Primitive(1, None, None, None)][..0] == [];
  }

  /** Intended: true exactly when the file loaded and every primitive was a triangle list with positions and normals. */
  lemma GltfReportsErrors(success: bool, prims: seq<Primitive>)
    requires Readable(prims)
    ensures GltfOutcome(success, GltfScan(prims).1) == Returned(true) <==>
              success && forall k :: 0 <= k < |prims| ==> PrimStop(prims[k]) == Completed
  {
    GltfScanCompletes(prims);
  }

  /** The exception escapes when the first unsupported primitive is one without POSITION. */
  lemma GltfThrowsOnMissingPosition(prims: seq<Primitive>, k: nat)
    requires Readable(prims)
    requires k < |prims| && PrimStop(prims[k]) == NoPosition
    requires forall j :: 0 <= j < k ==> PrimStop(prims[j]) == Completed
    ensures GltfOutcome(true, GltfScan(prims).1) == Threw
    ensures GltfOutcomeAsWritten(true, GltfScan(prims).1) == Threw
  {
    GltfScanStopsAtFirst(prims);
  }

  /** The walk stops at the first primitive that stops it. */
  lemma {:induction false} GltfScanStopsAtFirst(prims: seq<Primitive>)
    requires forall k :: 0 <= k < |prims| ==> PrimitiveReadable(prims[k])
    ensures forall k :: (0 <= k < |prims| && PrimStop(prims[k]) != Completed &&
                         forall j :: 0 <= j < k ==> PrimStop(prims[j]) == Completed) ==> GltfScan(prims).1 == PrimStop(prims[k])
    decreases |prims|
  {
    if prims != [] {
      var init := prims[..|prims| - 1];
      GltfScanStopsAtFirst(init);
      GltfScanCompletes(init);
      forall k | 0 <= k < |prims| && PrimStop(prims[k]) != Completed && (forall j :: 0 <= j < k ==> PrimStop(prims[j]) == Completed)
        ensures GltfScan(prims).1 == PrimStop(prims[k])
      {
        if k < |init| {
          assert init[k] == prims[k];
          assert forall j :: 0 <= j < k ==> PrimStop(init[j]) == Completed by {
            forall j | 0 <= j < k ensures PrimStop(init[j]) == Completed { assert init[j] == prims[j]; }
          }
        } else {
          assert forall j :: 0 <= j < |init| ==> PrimStop(init[j]) == Completed by {
            forall j | 0 <= j < |init| ensures PrimStop(init[j]) == Completed { assert init[j] == prims[j]; }
          }
        }
      }
    }
  }

  // ---------------------------------------------------------------------
  // The Mesh
  // ---------------------------------------------------------------------

  /** A Mesh's vertex list (_vertices); its GPU buffers are not part of this model. */
  class Mesh {
    var vertices: seq<Vertex>

    constructor ()
      ensures vertices == []
    {
      vertices := [];
    }

    /**
     * loadFromObj: `good` and `err` are what tinyobj::LoadObj returned.
     * On success every triangle's three corners are appended, in face
     * order; on failure nothing changes.
     */
    method LoadFromObj(good: bool, err: string, a: Attrib, shapes: seq<Shape>) returns (ok: bool)
      requires good && err == "" ==> forall k :: 0 <= k < |shapes| ==> TrianglesValid(a, shapes[k])
      modifies this
      ensures ok <==> good && err == ""
      ensures ok ==> vertices == old(vertices) + FlattenAll(a, shapes)
      ensures !ok ==> vertices == old(vertices)
    {
      if !good || err != "" {
        return false;
      }
      for s := 0 to |shapes|
        invariant vertices == old(vertices) + FlattenAll(a, shapes[..s])
      {
        AppendShape(a, shapes[s]);
        assert shapes[..s + 1][..s] == shapes[..s];
      }
      assert shapes[..|shapes|] == shapes;
      return true;
    }

    /** The face loop of loadFromObj for one shape. */
    method AppendShape(a: Attrib, s: Shape)
      requires TrianglesValid(a, s)
      modifies this
      ensures vertices == old(vertices) + FlattenShape(a, s, |s.mesh.numFaceVertices|)
    {
      var indexOffset := 0;
      for f := 0 to |s.mesh.numFaceVertices|
        invariant indexOffset == 3 * f
        invariant vertices == old(vertices) + FlattenShape(a, s, f)
      {
        var fv := 3;
        ghost var face := [MakeVertex(a, s.mesh.indices[3 * f]), MakeVertex(a, s.mesh.indices[3 * f + 1]), MakeVertex(a, s.mesh.indices[3 * f + 2])];
        ghost var before := vertices;
        for v := 0 to fv
          invariant vertices == before + face[..v]
        {
          vertices := vertices + [MakeVertex(a, s.mesh.indices[indexOffset + v])];
          assert face[..v + 1] == face[..v] + [face[v]];
        }
        assert face[..3] == face;
        indexOffset := indexOffset + fv;
      }
    }

    /** The POSITION loop of one primitive. */
    method AppendPrimitive(p: Primitive)
      requires p.positions.Some? && p.normals.Some? && PrimitiveReadable(p)
      modifies this
      ensures vertices == old(vertices) + PrimVertices(p, |p.positions.value|)
    {
      for i := 0 to |p.positions.value|
        invariant vertices == old(vertices) + PrimVertices(p, i)
      {
        vertices := vertices + [PrimVertex(p, i)];
      }
    }

    /** The loops of loadFromGLTF; the walk stops at the first unsupported primitive, keeping what was appended. */
    method WalkPrimitives(meshes: seq<seq<Primitive>>) returns (stop: GltfStop)
      requires Readable(AllPrimitives(meshes))
      modifies this
      ensures |vertices| >= |old(vertices)| && vertices[..|old(vertices)|] == old(vertices)
      ensures (vertices[|old(vertices)|..], stop) == GltfScan(AllPrimitives(meshes))
    {
      ghost var all := AllPrimitives(meshes);
      ghost var base := vertices;
      ghost var pos := 0;
      assert all[..0] == [] && vertices[|base|..] == [];
      for m := 0 to |meshes|
        invariant pos == |AllPrimitives(meshes[..m])| <= |all| && all[..pos] == AllPrimitives(meshes[..m])
        invariant |vertices| >= |base| && vertices[..|base|] == base
        invariant GltfScan(all[..pos]) == (vertices[|base|..], Completed)
      {
        AllPrimitivesPrefix(meshes, m + 1);
        assert meshes[..m + 1][..m] == meshes[..m];
        stop := WalkMesh(meshes[m], all, pos, base);
        if stop != Completed {
          return;
        }
        pos := pos + |meshes[m]|;
      }
      assert meshes[..|meshes|] == meshes;
      assert all[..pos] == all;
      return Completed;
    }

    /**
     * The primitive loop for one glTF mesh, whose primitives sit at `pos`
     * in the list `all` of every primitive; `base` is the vertex list before
     * the walk began.
     */
    method WalkMesh(prims: seq<Primitive>, ghost all: seq<Primitive>, ghost pos: nat, ghost base: seq<Vertex>) returns (stop: GltfStop)
      requires Readable(all) && pos + |prims| <= |all| && all[pos..pos + |prims|] == prims
      requires |vertices| >= |base| && vertices[..|base|] == base
      requires GltfScan(all[..pos]) == (vertices[|base|..], Completed)
      modifies this
      ensures |vertices| >= |base| && vertices[..|base|] == base
      ensures stop == Completed ==> GltfScan(all[..pos + |prims|]) == (vertices[|base|..], Completed)
      ensures stop != Completed ==> GltfScan(all) == (vertices[|base|..], stop)
    {
      for pi := 0 to |prims|
        invariant |vertices| >= |base| && vertices[..|base|] == base
        invariant GltfScan(all[..pos + pi]) == (vertices[|base|..], Completed)
      {
        var p := prims[pi];
        assert p == all[pos + pi];
        GltfScanStep(all, pos + pi, vertices[|base|..]);
        if p.mode != MODE_TRIANGLES || p.positions.None? || p.normals.None? {
          if p.mode != MODE_TRIANGLES {
            return NotTriangles;
          } else if p.positions.None? {
            return NoPosition;
          } else {
            return NoNormals;
          }
        }
        ghost var prev := vertices;
        AppendPrimitive(p);
        Seqs.AppendSlices(prev, |base|, PrimVertices(p, |p.positions.value|));
      }
      return Completed;
    }

    /** loadFromGLTF as written. */
    method LoadFromGltfAsWritten(success: bool, meshes: seq<seq<Primitive>>) returns (out: GltfReturn)
      requires Readable(AllPrimitives(meshes))
      modifies this
      ensures !success ==> vertices == old(vertices)
      ensures success ==> vertices == old(vertices) + GltfScan(AllPrimitives(meshes)).0
      ensures out == GltfOutcomeAsWritten(success, GltfScan(AllPrimitives(meshes)).1)
    {
      if !success {
        return Returned(false);
      }
      var stop := WalkPrimitives(meshes);
      assert vertices == vertices[..|old(vertices)|] + vertices[|old(vertices)|..];
      match stop
      case Completed => out := FellOffEnd;
      case NotTriangles => out := Returned(true);
      case NoNormals => out := Returned(true);
      case NoPosition => out := Threw;
    }

    /** loadFromGLTF with the evidently intended returns: false on an unsupported primitive, true at the end. */
    method LoadFromGltf(success: bool, meshes: seq<seq<Primitive>>) returns (out: GltfReturn)
      requires Readable(AllPrimitives(meshes))
      modifies this
      ensures !success ==> vertices == old(vertices)
      ensures success ==> vertices == old(vertices) + GltfScan(AllPrimitives(meshes)).0
      ensures out == GltfOutcome(success, GltfScan(AllPrimitives(meshes)).1)
    {
      if !success {
        return Returned(false);
      }
      var stop := WalkPrimitives(meshes);
      assert vertices == vertices[..|old(vertices)|] + vertices[|old(vertices)|..];
      match stop
      case Completed => out := Returned(true);
      case NotTriangles => out := Returned(false);
      case NoNormals => out := Returned(false);
      case NoPosition => out := Threw;
    }
  }

  predicate Readable(prims: seq<Primitive>)
  {
    forall k :: 0 <= k < |prims| ==> PrimitiveReadable(prims[k])
  }

  /** The primitives of the first m meshes come first among those of all meshes. */
  lemma {:induction false} AllPrimitivesPrefix(meshes: seq<seq<Primitive>>, m: nat)
    requires m <= |meshes|
    ensures |AllPrimitives(meshes[..m])| <= |AllPrimitives(meshes)|
    ensures AllPrimitives(meshes)[..|AllPrimitives(meshes[..m])|] == AllPrimitives(meshes[..m])
    ensures m < |meshes| ==> AllPrimitives(meshes[..m + 1]) == AllPrimitives(meshes[..m]) + meshes[m]
    decreases |meshes|
  {
    if m < |meshes| {
      var init := meshes[..|meshes| - 1];
      assert meshes[..m + 1][..m] == meshes[..m];
      if m < |init| {
        AllPrimitivesPrefix(init, m);
        assert init[..m] == meshes[..m];
      } else {
        assert init == meshes[..m];
      }
    } else {
      assert meshes[..m] == meshes;
    }
  }

  /** Once the walk has stopped, later primitives change nothing. */
  /** The scan after one more primitive of a walk that has not stopped; a stop there is where the whole walk stops. */
  lemma GltfScanStep(all: seq<Primitive>, n: nat, vs: seq<Vertex>)
    requires Readable(all) && n < |all| && GltfScan(all[..n]) == (vs, Completed)
    ensures PrimStop(all[n]) != Completed ==> GltfScan(all) == (vs, PrimStop(all[n]))
    ensures PrimStop(all[n]) == Completed ==>
              GltfScan(all[..n + 1]) == (vs + PrimVertices(all[n], |all[n].positions.value|), Completed)
  {
    assert all[..n + 1][..n] == all[..n];
    if PrimStop(all[n]) != Completed {
      GltfScanSticky(all, n + 1);
    }
  }

  lemma {:induction false} GltfScanSticky(prims: seq<Primitive>, n: nat)
    requires forall k :: 0 <= k < |prims| ==> PrimitiveReadable(prims[k])
    requires n <= |prims| && GltfScan(prims[..n]).1 != Completed
    ensures GltfScan(prims) == GltfScan(prims[..n])
    decreases |prims|
  {
    if n < |prims| {
      var init := prims[..|prims| - 1];
      assert init[..n] == prims[..n];
      GltfScanSticky(init, n);
    } else {
      assert prims[..n] == prims;
    }
  }
}

=== FILE: names.dfy ===
/**
 * Name lists as the Vulkan enumeration calls return them (layer and
 * extension names), and the linear search over one that every support
 * check in the engine performs.
 */
module Names {

  /** Every required name appears among the available ones. */
  predicate AllIn(required: seq<string>, available: seq<string>)
  {
    forall k :: 0 <= k < |required| ==> required[k] in available
  }

  /** The inner strcmp loop: scans the available names until it meets name. */
  method Contains(available: seq<string>, name: string) returns (found: bool)
    ensures found <==> name in available
  {
    found := false;
    for k := 0 to |available|
      invariant !found && name !in available[..k]
    {
      if available[k] == name {
        found := true;
        return;
      }
    }
    assert available[..|available|] == available;
  }

  /** Requiring more names can only make a support check harder to pass. */
  lemma AllInConcat(a: seq<string>, b: seq<string>, available: seq<string>)
    ensures AllIn(a + b, available) <==> AllIn(a, available) && AllIn(b, available)
  {
    if AllIn(a, available) && AllIn(b, available) {
      forall k | 0 <= k < |a + b| ensures (a + b)[k] in available {
        if k >= |a| { assert (a + b)[k] == b[k - |a|]; }
      }
    }
    if AllIn(a + b, available) {
      forall k | 0 <= k < |a| ensures a[k] in available {
        assert (a + b)[k] == a[k];
      }
      forall k | 0 <= k < |b| ensures b[k] in available {
        assert (a + b)[|a| + k] == b[k];
      }
    }
  }

  /** A single requirement is met iff the name is available. */
  lemma AllInSingle(name: string, available: seq<string>)
    ensures AllIn([name], available) <==> name in available
  {
    assert [name][0] == name;
  }
}

=== FILE: objdata.dfy ===
/**
 * What the OBJ loader (tinyobj) hands the engine, and the engine's Vertex
 * (src/resources.h) built from it.  Coordinates are reals: they are only
 * copied and compared.
 */
module ObjData {
  import opened Scene

  datatype Vec2 = Vec2(x: real, y: real)

  /** tinyobj::index_t: -1 marks a missing normal or texcoord. */
  datatype Index = Index(vertexIndex: int, normalIndex: int, texcoordIndex: int)

  /** tinyobj::attrib_t: flat arrays, 3 reals per position and normal, 2 per texcoord. */
  datatype Attrib = Attrib(vertices: seq<real>, normals: seq<real>, texcoords: seq<real>)

  /** tinyobj::mesh_t, one entry per face in the last three. */
  datatype ObjMesh = ObjMesh(indices: seq<Index>, numFaceVertices: seq<nat>, materialIds: seq<int>, smoothingGroupIds: seq<nat>)

  datatype Shape = Shape(name: string, mesh: ObjMesh)

  const EMPTY_ATTRIB: Attrib := Attrib([], [], [])

  /** The corner's position, normal and texcoord (when present) lie inside the attribute arrays. */
  predicate CornerValid(a: Attrib, idx: Index)
  {
    0 <= idx.vertexIndex && 3 * idx.vertexIndex + 3 <= |a.vertices| &&
    (idx.normalIndex >= 0 ==> 3 * idx.normalIndex + 3 <= |a.normals|) &&
    (idx.texcoordIndex >= 0 ==> 2 * idx.texcoordIndex + 2 <= |a.texcoords|)
  }

  /** The shape is made of triangles whose corners are all valid. */
  predicate TrianglesValid(a: Attrib, s: Shape)
  {
    |s.mesh.indices| == 3 * |s.mesh.numFaceVertices| &&
    (forall f :: 0 <= f < |s.mesh.numFaceVertices| ==> s.mesh.numFaceVertices[f] == 3) &&
    (forall k :: 0 <= k < |s.mesh.indices| ==> CornerValid(a, s.mesh.indices[k]))
  }

  /**
   * Face f as the mesh loop of the model loader needs it: a triangle whose
   * corners, at 3f .. 3f + 2, are valid, with a material id in
   * 0 .. materialCount - 1.
   */
  predicate FaceOk(a: Attrib, materialCount: nat, s: Shape, f: nat)
  {
    f < |s.mesh.numFaceVertices| && s.mesh.numFaceVertices[f] == 3 && 3 * f + 3 <= |s.mesh.indices| &&
    CornerValid(a, s.mesh.indices[3 * f]) && CornerValid(a, s.mesh.indices[3 * f + 1]) &&
    CornerValid(a, s.mesh.indices[3 * f + 2]) &&
    f < |s.mesh.materialIds| && 0 <= s.mesh.materialIds[f] < materialCount
  }

  /** The first n faces of the shape are loadable. */
  predicate FacesOk(a: Attrib, materialCount: nat, s: Shape, n: nat)
  {
    n <= |s.mesh.numFaceVertices| && forall f :: 0 <= f < n ==> FaceOk(a, materialCount, s, f)
  }

  /** A shape the mesh loop gets through: at least one face, and every face loadable. */
  predicate ShapeLoadable(a: Attrib, materialCount: nat, s: Shape)
  {
    |s.mesh.numFaceVertices| > 0 && FacesOk(a, materialCount, s, |s.mesh.numFaceVertices|)
  }

  /** The sum of the face sizes: how many indices tinyobj stores for a shape. */
  function FaceVertexTotal(counts: seq<nat>): nat
  {
    if counts == [] then 0 else counts[0] + FaceVertexTotal(counts[1..])
  }

  /**
   * What tinyobj::LoadObj guarantees of a shape: one material id per face
   * (-1 for a face without a known material), the corners of all faces back
   * to back, and every corner inside the attribute arrays.
   */
  predicate TinyObjShape(a: Attrib, s: Shape)
  {
    |s.mesh.materialIds| == |s.mesh.numFaceVertices| &&
    |s.mesh.indices| == FaceVertexTotal(s.mesh.numFaceVertices) &&
    forall k :: 0 <= k < |s.mesh.indices| ==> CornerValid(a, s.mesh.indices[k])
  }

  /** When faces 0 .. f are triangles, index_offset is 3f and face f's corners lie inside the indices. */
  lemma {:induction false} TrianglesBeforeFit(counts: seq<nat>, f: nat)
    requires f < |counts| && forall g :: 0 <= g <= f ==> counts[g] == 3
    ensures 3 * f + 3 <= FaceVertexTotal(counts)
  {
    if f > 0 {
      TrianglesBeforeFit(counts[1..], f - 1);
    }
  }

  datatype Vertex = Vertex(pos: Vec3, normal: Vec3, color: Vec3, uv: Vec2)

  /**
   * The vertex both OBJ loaders build for a corner: a missing normal is
   * zero, the colour is the normal, the v coordinate is flipped (1 - v),
   * and a missing texcoord gives uv (0, 1).
   */
  function MakeVertex(a: Attrib, idx: Index): (v: Vertex)
    requires CornerValid(a, idx)
    ensures v.color == v.normal
    ensures v.pos == Vec3(a.vertices[3 * idx.vertexIndex], a.vertices[3 * idx.vertexIndex + 1], a.vertices[3 * idx.vertexIndex + 2])
    ensures idx.normalIndex < 0 ==> v.normal == ZERO3
    ensures idx.texcoordIndex < 0 ==> v.uv == Vec2(0.0, 1.0)
    ensures idx.texcoordIndex >= 0 ==> v.uv.y == 1.0 - a.texcoords[2 * idx.texcoordIndex + 1]
  {
    var vi := idx.vertexIndex;
    var n := if idx.normalIndex >= 0 then
               Vec3(a.normals[3 * idx.normalIndex], a.normals[3 * idx.normalIndex + 1], a.normals[3 * idx.normalIndex + 2])
             else ZERO3;
    var uv := if idx.texcoordIndex >= 0 then
                Vec2(a.texcoords[2 * idx.texcoordIndex], 1.0 - a.texcoords[2 * idx.texcoordIndex + 1])
              else Vec2(0.0, 1.0);
    Vertex(Vec3(a.vertices[3 * vi], a.vertices[3 * vi + 1], a.vertices[3 * vi + 2]), n, n, uv)
  }

  /** Vertex::operator==: position, colour and uv; the normal is not compared. */
  predicate VertexEq(a: Vertex, b: Vertex)
  {
    a.pos == b.pos && a.color == b.color && a.uv == b.uv
  }

  /** For vertices whose colour is their normal, as the loaders build them, operator== is plain equality. */
  lemma VertexEqIsEquality(a: Vertex, b: Vertex)
    requires a.color == a.normal && b.color == b.normal
    ensures VertexEq(a, b) <==> a == b
  {
  }

  /** Without that premise operator== identifies vertices that differ in their normal. */
  lemma VertexEqIgnoresNormal(a: Vertex, n: Vec3)
    ensures VertexEq(a, a.(normal := n))
    ensures n != a.normal ==> a != a.(normal := n)
  {
  }

  /** hash_combine on a 64-bit size_t. */
  function HashCombine(s: bv64, h: bv64): bv64
  {
    s ^ (h + 0x9e37_79b9 + (s << 6) + (s >> 2))
  }

  /** hash<Vertex>: pos, normal, color and uv combined in that order, from the component hashes. */
  function VertexHash(v: Vertex, hash3: Vec3 -> bv64, hash2: Vec2 -> bv64): bv64
  {
    HashCombine(HashCombine(HashCombine(HashCombine(0, hash3(v.pos)), hash3(v.normal)), hash3(v.color)), hash2(v.uv))
  }

  /**
   * The hash reads the normal, which operator== ignores, so equal
   * vertices hash equally only when their normals agree; for vertices
   * whose colour is their normal that always holds.
   */
  lemma EqualVerticesHashEqual(a: Vertex, b: Vertex, hash3: Vec3 -> bv64, hash2: Vec2 -> bv64)
    requires VertexEq(a, b)
    requires a.normal == b.normal || (a.color == a.normal && b.color == b.normal)
    ensures VertexHash(a, hash3, hash2) == VertexHash(b, hash3, hash2)
  {
  }
}

=== FILE: objloader.dfy ===
/**
 * The mesh-building part of Engine::loadModelFromObj (src/model_loader.cpp):
 * faces are grouped into one mesh per material id, named
 * "MESH_MAT: " + the material's name, and each mesh deduplicates its
 * vertices through a map from vertex to index, so its index buffer points
 * at distinct vertices.
 *
 * A mesh is a value here, and the per-mesh uniqueVertices map is one of its
 * fields.  Vertices are compared with Dafny's equality; the loaders build
 * every vertex with colour equal to normal, where Vertex::operator== and
 * the hash agree with that equality (ObjData.VertexEqIsEquality,
 * ObjData.EqualVerticesHashEqual).
 */
module ObjLoader {
  import opened Wrappers
  import opened ObjData
  import opened Vk
  import Smoothing
  import StrUtil
  import SceneState

  /** The fields of tinyobj::material_t the engine reads. */
  datatype ObjMaterial = ObjMaterial(name: string, diffuseTexname: string, bumpTexname: string)

  /** A Mesh under construction: its tag, mat_id, vertices and indices, and its uniqueVertices map. */
  datatype MeshBuild = MeshBuild(tag: string, matId: nat, vertices: seq<Vertex>, indices: seq<nat>, uniq: map<Vertex, nat>)

  /** A face as the loop sees it: its material id and its three corner vertices. */
  datatype Face = Face(matId: nat, corners: seq<Vertex>)

  const MESH_PREFIX: string := "MESH_MAT: "

  // ---------------------------------------------------------------------
  // The specification
  // ---------------------------------------------------------------------

  /** One corner: a vertex not seen before in this mesh is appended; its index is pushed either way. */
  function AddVertex(m: MeshBuild, v: Vertex): MeshBuild
  {
    if v in m.uniq then m.(indices := m.indices + [m.uniq[v]])
    else m.(uniq := m.uniq[v := |m.vertices|], vertices := m.vertices + [v], indices := m.indices + [|m.vertices|])
  }

  function AddVertices(m: MeshBuild, vs: seq<Vertex>): MeshBuild
    decreases |vs|
  {
    if vs == [] then m else AddVertex(AddVertices(m, vs[..|vs| - 1]), vs[|vs| - 1])
  }

  /**
   * The search over meshVertexMap for a mesh with the material id; the
   * loop has no break, so the last match wins.
   */
  function FindMesh(meshes: seq<MeshBuild>, matId: nat): (r: Option<nat>)
    ensures r.Some? ==> r.value < |meshes| && meshes[r.value].matId == matId
    ensures r.None? <==> forall k :: 0 <= k < |meshes| ==> meshes[k].matId != matId
    decreases |meshes|
  {
    if meshes == [] then None
    else if meshes[|meshes| - 1].matId == matId then Some(|meshes| - 1)
    else FindMesh(meshes[..|meshes| - 1], matId)
  }

  function Tags(meshes: seq<MeshBuild>): (ts: seq<string>)
    ensures |ts| == |meshes| && forall k :: 0 <= k < |meshes| ==> ts[k] == meshes[k].tag
  {
    seq(|meshes|, k requires 0 <= k < |meshes| => meshes[k].tag)
  }

  /**
   * One face: its corners go to the mesh of its material; a missing mesh is
   * created, unless its name is already taken by an engine mesh or by a
   * mesh of this load, where the ASSERT aborts (None).
   */
  function AddFace(materials: seq<ObjMaterial>, existing: set<string>, meshes: seq<MeshBuild>, face: Face): Option<seq<MeshBuild>>
    requires face.matId < |materials|
  {
    match FindMesh(meshes, face.matId)
    case Some(i) => Some(meshes[i := AddVertices(meshes[i], face.corners)])
    case None =>
      var tag := MESH_PREFIX + materials[face.matId].name;
      if tag in existing || tag in Tags(meshes) then None
      else Some(meshes + [AddVertices(MeshBuild(tag, face.matId, [], [], map[]), face.corners)])
  }

  predicate MaterialsKnown(materials: seq<ObjMaterial>, faces: seq<Face>)
  {
    forall k :: 0 <= k < |faces| ==> faces[k].matId < |materials|
  }

  /** The meshes after the faces, in order; None once an ASSERT has aborted. */
  function LoadFaces(materials: seq<ObjMaterial>, existing: set<string>, faces: seq<Face>): Option<seq<MeshBuild>>
    requires MaterialsKnown(materials, faces)
    decreases |faces|
  {
    if faces == [] then Some([])
    else match LoadFaces(materials, existing, faces[..|faces| - 1])
      case None => None
      case Some(ms) => AddFace(materials, existing, ms, faces[|faces| - 1])
  }

  /** A shape the face loop gets through: faces, all triangles, valid corners and a material of the table per face. */
  predicate LoaderShapeOk(a: Attrib, materials: seq<ObjMaterial>, s: Shape)
  {
    ShapeLoadable(a, |materials|, s)
  }

  /** Face f of a shape: its material id and the vertices built from its three corners. */
  function FaceAt(a: Attrib, materials: seq<ObjMaterial>, s: Shape, f: nat): (face: Face)
    requires FaceOk(a, |materials|, s, f)
    ensures face.matId < |materials| && |face.corners| == 3
  {
    var ix := s.mesh.indices;
    Face(s.mesh.materialIds[f] as nat, [MakeVertex(a, ix[3 * f]), MakeVertex(a, ix[3 * f + 1]), MakeVertex(a, ix[3 * f + 2])])
  }

  /** The first n faces of a shape. */
  function ShapeFaces(a: Attrib, materials: seq<ObjMaterial>, s: Shape, n: nat): (fs: seq<Face>)
    requires FacesOk(a, |materials|, s, n)
    ensures |fs| == n && MaterialsKnown(materials, fs)
  {
    if n == 0 then [] else ShapeFaces(a, materials, s, n - 1) + [FaceAt(a, materials, s, n - 1)]
  }

  /** The faces of all shapes, shape by shape. */
  function AllFaces(a: Attrib, materials: seq<ObjMaterial>, shapes: seq<Shape>): (fs: seq<Face>)
    requires forall k :: 0 <= k < |shapes| ==> LoaderShapeOk(a, materials, shapes[k])
    ensures MaterialsKnown(materials, fs)
    decreases |shapes|
  {
    if shapes == [] then []
    else
      var last := shapes[|shapes| - 1];
      assert LoaderShapeOk(a, materials, last);
      AllFaces(a, materials, shapes[..|shapes| - 1]) + ShapeFaces(a, materials, last, |last.mesh.numFaceVertices|)
  }

  // ---------------------------------------------------------------------
  // What the meshes satisfy
  // ---------------------------------------------------------------------

  /**
   * A mesh's buffers: every index points at a vertex, the vertices are
   * pairwise distinct, and uniqueVertices maps exactly the vertices to
   * their positions.
   */
  ghost predicate MeshOk(m: MeshBuild)
  {
    (forall k :: 0 <= k < |m.indices| ==> m.indices[k] < |m.vertices|) &&
    (forall i, j :: 0 <= i < j < |m.vertices| ==> m.vertices[i] != m.vertices[j]) &&
    (forall v :: v in m.uniq <==> v in m.vertices) &&
    (forall i :: 0 <= i < |m.vertices| ==> m.uniq[m.vertices[i]] == i)
  }

  /** The vertex stream the index buffer describes. */
  function Expand(m: MeshBuild): (vs: seq<Vertex>)
    requires forall k :: 0 <= k < |m.indices| ==> m.indices[k] < |m.vertices|
    ensures |vs| == |m.indices|
  {
    seq(|m.indices|, k requires 0 <= k < |m.indices| && m.indices[k] < |m.vertices| => m.vertices[m.indices[k]])
  }

  /** Adding a vertex keeps the mesh well formed and extends its vertex stream by that vertex. */
  lemma AddVertexOk(m: MeshBuild, v: Vertex)
    requires MeshOk(m)
    ensures MeshOk(AddVertex(m, v))
    ensures Expand(AddVertex(m, v)) == Expand(m) + [v]
    ensures AddVertex(m, v).tag == m.tag && AddVertex(m, v).matId == m.matId
  {
    var r := AddVertex(m, v);
    if v in m.uniq {
      var i :| 0 <= i < |m.vertices| && m.vertices[i] == v;
      assert r.vertices[r.indices[|m.indices|]] == v;
    } else {
      assert r.vertices[|m.vertices|] == v;
      forall w ensures w in r.uniq <==> w in r.vertices {
        assert w in r.vertices <==> w in m.vertices || w == v;
      }
    }
  }

  lemma {:induction false} AddVerticesOk(m: MeshBuild, vs: seq<Vertex>)
    requires MeshOk(m)
    ensures MeshOk(AddVertices(m, vs))
    ensures Expand(AddVertices(m, vs)) == Expand(m) + vs
    ensures AddVertices(m, vs).tag == m.tag && AddVertices(m, vs).matId == m.matId
    decreases |vs|
  {
    if vs != [] {
      var init := vs[..|vs| - 1];
      AddVerticesOk(m, init);
      AddVertexOk(AddVertices(m, init), vs[|vs| - 1]);
      assert Expand(m) + init + [vs[|vs| - 1]] == Expand(m) + vs;
    }
  }

  /** The corners of the faces with material id matId, in face order. */
  function Emitted(faces: seq<Face>, matId: nat): seq<Vertex>
    decreases |faces|
  {
    if faces == [] then []
    else
      var last := faces[|faces| - 1];
      Emitted(faces[..|faces| - 1], matId) + (if last.matId == matId then last.corners else [])
  }

  /** One mesh of a load: well formed, named after its material, not an engine mesh, holding exactly its material's corners. */
  ghost predicate MeshFor(materials: seq<ObjMaterial>, existing: set<string>, faces: seq<Face>, m: MeshBuild)
  {
    MeshOk(m) && m.matId < |materials| && m.tag == MESH_PREFIX + materials[m.matId].name &&
    m.tag !in existing && Expand(m) == Emitted(faces, m.matId)
  }

  /** No two meshes share a material id or a name. */
  ghost predicate Distinct(ms: seq<MeshBuild>)
  {
    forall i, j :: 0 <= i < j < |ms| ==> ms[i].matId != ms[j].matId && ms[i].tag != ms[j].tag
  }

  /** Every face's material has a mesh. */
  ghost predicate Covered(faces: seq<Face>, ms: seq<MeshBuild>)
  {
    forall k :: 0 <= k < |faces| ==> FindMesh(ms, faces[k].matId).Some?
  }

  /**
   * The meshes of a load: each one well formed and named after its
   * material; no engine mesh shares a name with them; material ids and
   * names are distinct; every face's material has a mesh, and a mesh's
   * vertex stream is exactly the corners of the faces of its material.
   */
  ghost predicate LoadOk(materials: seq<ObjMaterial>, existing: set<string>, faces: seq<Face>, ms: seq<MeshBuild>)
  {
    (forall i :: 0 <= i < |ms| ==> MeshFor(materials, existing, faces, ms[i])) && Distinct(ms) && Covered(faces, ms)
  }

  lemma EmittedStep(faces: seq<Face>, face: Face, matId: nat)
    ensures Emitted(faces + [face], matId) == Emitted(faces, matId) + (if face.matId == matId then face.corners else [])
  {
    assert (faces + [face])[..|faces|] == faces;
  }

  /** A mesh of another material is unaffected by the next face. */
  lemma MeshForOther(materials: seq<ObjMaterial>, existing: set<string>, faces: seq<Face>, face: Face, m: MeshBuild)
    requires MeshFor(materials, existing, faces, m) && face.matId != m.matId
    ensures MeshFor(materials, existing, faces + [face], m)
  {
    EmittedStep(faces, face, m.matId);
  }

  /** The mesh of the face's material takes the face's corners. */
  lemma MeshForSame(materials: seq<ObjMaterial>, existing: set<string>, faces: seq<Face>, face: Face, m: MeshBuild)
    requires MeshFor(materials, existing, faces, m) && face.matId == m.matId
    ensures MeshFor(materials, existing, faces + [face], AddVertices(m, face.corners))
  {
    EmittedStep(faces, face, m.matId);
    AddVerticesOk(m, face.corners);
  }

  /** A face whose material already has mesh i. */
  lemma AddToMeshOk(materials: seq<ObjMaterial>, existing: set<string>, faces: seq<Face>, ms: seq<MeshBuild>, face: Face, i: nat)
    requires face.matId < |materials| && LoadOk(materials, existing, faces, ms)
    requires FindMesh(ms, face.matId) == Some(i)
    ensures LoadOk(materials, existing, faces + [face], ms[i := AddVertices(ms[i], face.corners)])
  {
    var ms' := ms[i := AddVertices(ms[i], face.corners)];
    AddToMeshA(materials, existing, faces, ms, face, i, ms');
    AddToMeshB(ms, face, i, ms');
    AddToMeshC(faces, ms, face, i, ms');
  }

  lemma AddToMeshA(materials: seq<ObjMaterial>, existing: set<string>, faces: seq<Face>, ms: seq<MeshBuild>, face: Face, i: nat, ms': seq<MeshBuild>)
    requires face.matId < |materials| && LoadOk(materials, existing, faces, ms)
    requires FindMesh(ms, face.matId) == Some(i) && ms' == ms[i := AddVertices(ms[i], face.corners)]
    ensures forall m :: 0 <= m < |ms'| ==> MeshFor(materials, existing, faces + [face], ms'[m])
  {
    forall m | 0 <= m < |ms'| ensures MeshFor(materials, existing, faces + [face], ms'[m]) {
      if m == i {
        MeshForSame(materials, existing, faces, face, ms[i]);
      } else {
        MeshForOther(materials, existing, faces, face, ms[m]);
      }
    }
  }

  lemma AddToMeshB(ms: seq<MeshBuild>, face: Face, i: nat, ms': seq<MeshBuild>)
    requires Distinct(ms) && i < |ms| && MeshOk(ms[i])
    requires ms' == ms[i := AddVertices(ms[i], face.corners)]
    ensures Distinct(ms')
  {
    AddVerticesOk(ms[i], face.corners);
  }

  lemma AddToMeshC(faces: seq<Face>, ms: seq<MeshBuild>, face: Face, i: nat, ms': seq<MeshBuild>)
    requires Covered(faces, ms) && FindMesh(ms, face.matId) == Some(i) && MeshOk(ms[i])
    requires ms' == ms[i := AddVertices(ms[i], face.corners)]
    ensures Covered(faces + [face], ms')
  {
    var faces' := faces + [face];
    AddVerticesOk(ms[i], face.corners);
    forall k | 0 <= k < |faces'| ensures FindMesh(ms', faces'[k].matId).Some? {
      if k < |faces| {
        assert faces'[k] == faces[k];
        var j := FindMesh(ms, faces[k].matId).value;
        assert ms'[j].matId == faces[k].matId;
      } else {
        assert ms'[i].matId == face.matId;
      }
    }
  }

  /** A face whose material has no mesh yet, and whose mesh name is free. */
  lemma NewMeshOk(materials: seq<ObjMaterial>, existing: set<string>, faces: seq<Face>, ms: seq<MeshBuild>, face: Face)
    requires face.matId < |materials| && LoadOk(materials, existing, faces, ms)
    requires FindMesh(ms, face.matId).None?
    requires MESH_PREFIX + materials[face.matId].name !in existing
    requires MESH_PREFIX + materials[face.matId].name !in Tags(ms)
    ensures LoadOk(materials, existing, faces + [face],
                   ms + [AddVertices(MeshBuild(MESH_PREFIX + materials[face.matId].name, face.matId, [], [], map[]), face.corners)])
  {
    var created := MeshBuild(MESH_PREFIX + materials[face.matId].name, face.matId, [], [], map[]);
    var ms' := ms + [AddVertices(created, face.corners)];
    NewMeshA(materials, existing, faces, ms, face, created, ms');
    NewMeshB(ms, face, created, ms');
    NewMeshC(faces, ms, face, created, ms');
  }

  lemma NewMeshA(materials: seq<ObjMaterial>, existing: set<string>, faces: seq<Face>, ms: seq<MeshBuild>, face: Face, created: MeshBuild, ms': seq<MeshBuild>)
    requires face.matId < |materials| && LoadOk(materials, existing, faces, ms)
    requires FindMesh(ms, face.matId).None?
    requires created == MeshBuild(MESH_PREFIX + materials[face.matId].name, face.matId, [], [], map[])
    requires created.tag !in existing
    requires ms' == ms + [AddVertices(created, face.corners)]
    ensures forall m :: 0 <= m < |ms'| ==> MeshFor(materials, existing, faces + [face], ms'[m])
  {
    forall k | 0 <= k < |faces| ensures faces[k].matId != face.matId {
      var j := FindMesh(ms, faces[k].matId).value;
      assert ms[j].matId == faces[k].matId;
    }
    EmittedNone(faces, face.matId);
    assert Expand(created) == [];
    assert MeshFor(materials, existing, faces, created);
    forall m | 0 <= m < |ms'| ensures MeshFor(materials, existing, faces + [face], ms'[m]) {
      if m < |ms| {
        MeshForOther(materials, existing, faces, face, ms[m]);
      } else {
        MeshForSame(materials, existing, faces, face, created);
      }
    }
  }

  lemma NewMeshB(ms: seq<MeshBuild>, face: Face, created: MeshBuild, ms': seq<MeshBuild>)
    requires Distinct(ms) && FindMesh(ms, face.matId).None?
    requires created.matId == face.matId && created.tag !in Tags(ms) && MeshOk(created)
    requires ms' == ms + [AddVertices(created, face.corners)]
    ensures Distinct(ms')
  {
    AddVerticesOk(created, face.corners);
    forall i | 0 <= i < |ms| ensures ms[i].tag != created.tag {
      assert Tags(ms)[i] == ms[i].tag;
    }
  }

  lemma NewMeshC(faces: seq<Face>, ms: seq<MeshBuild>, face: Face, created: MeshBuild, ms': seq<MeshBuild>)
    requires Covered(faces, ms) && created.matId == face.matId && MeshOk(created)
    requires ms' == ms + [AddVertices(created, face.corners)]
    ensures Covered(faces + [face], ms')
  {
    AddVerticesOk(created, face.corners);
    var faces' := faces + [face];
    forall k | 0 <= k < |faces'| ensures FindMesh(ms', faces'[k].matId).Some? {
      if k < |faces| {
        assert faces'[k] == faces[k];
        var j := FindMesh(ms, faces[k].matId).value;
        assert ms'[j].matId == faces[k].matId;
      } else {
        assert ms'[|ms|].matId == face.matId;
      }
    }
  }

  /** A material id no face uses has emitted nothing. */
  lemma {:induction false} EmittedNone(faces: seq<Face>, matId: nat)
    requires forall k :: 0 <= k < |faces| ==> faces[k].matId != matId
    ensures Emitted(faces, matId) == []
    decreases |faces|
  {
    if faces != [] {
      EmittedNone(faces[..|faces| - 1], matId);
    }
  }

  /**
   * The loop's promise: whenever the load does not abort, its meshes
   * satisfy LoadOk for all the faces.
   */
  lemma {:induction false} LoadFacesOk(materials: seq<ObjMaterial>, existing: set<string>, faces: seq<Face>)
    requires MaterialsKnown(materials, faces)
    ensures LoadFaces(materials, existing, faces).Some? ==> LoadOk(materials, existing, faces, LoadFaces(materials, existing, faces).value)
    decreases |faces|
  {
    if faces != [] {
      var init, face := faces[..|faces| - 1], faces[|faces| - 1];
      LoadFacesOk(materials, existing, init);
      assert faces == init + [face];
      match LoadFaces(materials, existing, init)
      case None =>
      case Some(ms) =>
        match FindMesh(ms, face.matId)
        case Some(i) => AddToMeshOk(materials, existing, init, ms, face, i);
        case None =>
          if MESH_PREFIX + materials[face.matId].name !in existing && MESH_PREFIX + materials[face.matId].name !in Tags(ms) {
            NewMeshOk(materials, existing, init, ms, face);
          }
    }
  }

  /** Once an ASSERT has aborted, later faces do not matter. */
  lemma {:induction false} AbortIsFinal(materials: seq<ObjMaterial>, existing: set<string>, faces: seq<Face>, more: seq<Face>)
    requires MaterialsKnown(materials, faces + more)
    requires MaterialsKnown(materials, faces) && LoadFaces(materials, existing, faces).None?
    ensures LoadFaces(materials, existing, faces + more).None?
    decreases |more|
  {
    if more == [] {
      assert faces + more == faces;
    } else {
      var init := more[..|more| - 1];
      assert (faces + more)[..|faces + more| - 1] == faces + init;
      AbortIsFinal(materials, existing, faces, init);
    }
  }

  // ---------------------------------------------------------------------
  // The source's loops
  // ---------------------------------------------------------------------

  /** The first n faces of a shape are a prefix of its first m faces. */
  lemma {:induction false} ShapeFacesPrefix(a: Attrib, materials: seq<ObjMaterial>, s: Shape, n: nat, m: nat)
    requires FacesOk(a, |materials|, s, m) && n <= m
    ensures ShapeFaces(a, materials, s, m)[..n] == ShapeFaces(a, materials, s, n)
    decreases m
  {
    if n < m {
      ShapeFacesPrefix(a, materials, s, n, m - 1);
      assert ShapeFaces(a, materials, s, m)[..m - 1] == ShapeFaces(a, materials, s, m - 1);
    }
  }

  /** The faces of the first i shapes are a prefix of the faces of all of them. */
  lemma {:induction false} AllFacesPrefix(a: Attrib, materials: seq<ObjMaterial>, shapes: seq<Shape>, i: nat)
    requires forall k :: 0 <= k < |shapes| ==> LoaderShapeOk(a, materials, shapes[k])
    requires i <= |shapes|
    ensures var p := AllFaces(a, materials, shapes[..i]);
            |p| <= |AllFaces(a, materials, shapes)| && AllFaces(a, materials, shapes)[..|p|] == p
    decreases |shapes|
  {
    if i < |shapes| {
      var init := shapes[..|shapes| - 1];
      AllFacesPrefix(a, materials, init, i);
      assert init[..i] == shapes[..i];
      assert AllFaces(a, materials, shapes)[..|AllFaces(a, materials, init)|] == AllFaces(a, materials, init);
    } else {
      assert shapes[..i] == shapes;
    }
  }

  /** LoadFaces on one more face: that face is added unless an ASSERT has already aborted. */
  lemma LoadFacesSnoc(materials: seq<ObjMaterial>, existing: set<string>, done: seq<Face>, face: Face)
    requires MaterialsKnown(materials, done + [face])
    ensures MaterialsKnown(materials, done) && face.matId < |materials|
    ensures LoadFaces(materials, existing, done + [face]) ==
            if LoadFaces(materials, existing, done).None? then None
            else AddFace(materials, existing, LoadFaces(materials, existing, done).value, face)
  {
    assert (done + [face])[..|done|] == done;
    assert (done + [face])[|done|] == face;
  }

  /** Adding vertices to a mesh keeps its material id, so the search result stays the same. */
  lemma {:induction false} FindMeshUpdate(ms: seq<MeshBuild>, i: nat, m: MeshBuild, matId: nat)
    requires i < |ms| && m.matId == ms[i].matId
    ensures FindMesh(ms[i := m], matId) == FindMesh(ms, matId)
    decreases |ms|
  {
    if i < |ms| - 1 {
      assert ms[i := m][..|ms| - 1] == ms[..|ms| - 1][i := m];
      FindMeshUpdate(ms[..|ms| - 1], i, m, matId);
    } else {
      assert ms[i := m][..|ms| - 1] == ms[..|ms| - 1];
    }
  }

  /** The search loop over meshVertexMap: the last mesh with the material id, if any. */
  method SearchMesh(meshes: seq<MeshBuild>, matId: nat) returns (found: bool, currentMesh: nat)
    ensures found <==> FindMesh(meshes, matId).Some?
    ensures found ==> FindMesh(meshes, matId) == Some(currentMesh)
  {
    found, currentMesh := false, 0;
    for k := 0 to |meshes|
      invariant found <==> FindMesh(meshes[..k], matId).Some?
      invariant found ==> FindMesh(meshes[..k], matId) == Some(currentMesh)
    {
      assert meshes[..k + 1][..k] == meshes[..k];
      if meshes[k].matId == matId {
        currentMesh := k;
        found := true;
      }
    }
    assert meshes[..|meshes|] == meshes;
  }

  /** The vertex loop for one face: each corner's vertex goes through the mesh's uniqueVertices map. */
  method AddFaceVertices(a: Attrib, materials: seq<ObjMaterial>, s: Shape, f: nat, meshes: seq<MeshBuild>, currentMesh: nat)
    returns (meshes': seq<MeshBuild>)
    requires FaceOk(a, |materials|, s, f)
    requires currentMesh < |meshes|
    ensures meshes' == meshes[currentMesh := AddVertices(meshes[currentMesh], FaceAt(a, materials, s, f).corners)]
    ensures meshes'[currentMesh].matId == meshes[currentMesh].matId
  {
    ghost var corners := FaceAt(a, materials, s, f).corners;
    meshes' := meshes;
    for v := 0 to 3
      invariant meshes' == meshes[currentMesh := AddVertices(meshes[currentMesh], corners[..v])]
      invariant meshes'[currentMesh].matId == meshes[currentMesh].matId
    {
      assert CornerValid(a, s.mesh.indices[3 * f + v]);
      var newVert := MakeVertex(a, s.mesh.indices[3 * f + v]);
      assert newVert == corners[v];
      var m := meshes'[currentMesh];
      if newVert !in m.uniq {
        m := m.(uniq := m.uniq[newVert := |m.vertices|], vertices := m.vertices + [newVert]);
      }
      m := m.(indices := m.indices + [m.uniq[newVert]]);
      meshes' := meshes'[currentMesh := m];
      assert corners[..v + 1][..v] == corners[..v];
    }
    assert corners[..3] == corners;
  }

  /**
   * One iteration of the face loop: the mesh search runs only when the
   * face's material differs from the previous face's; otherwise the current
   * mesh is reused.  None: the ASSERT on an already existing mesh name fails.
   */
  method LoadFace(a: Attrib, materials: seq<ObjMaterial>, existing: set<string>, s: Shape, f: nat,
                  meshes: seq<MeshBuild>, prevMatId: int, currentMesh: nat)
    returns (r: Option<seq<MeshBuild>>, matId: int, mesh: nat)
    requires FaceOk(a, |materials|, s, f)
    requires prevMatId >= 0 ==> FindMesh(meshes, prevMatId) == Some(currentMesh)
    ensures r == AddFace(materials, existing, meshes, FaceAt(a, materials, s, f))
    ensures matId == s.mesh.materialIds[f] && (r.Some? ==> FindMesh(r.value, matId) == Some(mesh))
  {
    matId := s.mesh.materialIds[f];
    mesh := currentMesh;
    var ms := meshes;
    if matId != prevMatId {
      var found;
      found, mesh := SearchMesh(meshes, matId);
      if !found {
        var meshName := MESH_PREFIX + materials[matId].name;
        if meshName in existing || meshName in Tags(meshes) {
          // ASSERT(getMesh(meshName) == nullptr) fails
          return None, matId, mesh;
        }
        ms := meshes + [MeshBuild(meshName, matId, [], [], map[])];
        mesh := |ms| - 1;
      }
    }
    var ms' := AddFaceVertices(a, materials, s, f, ms, mesh);
    FindMeshUpdate(ms, mesh, ms'[mesh], matId);
    r := Some(ms');
    if ms != meshes {
      assert ms'[mesh] == AddVertices(MeshBuild(MESH_PREFIX + materials[matId].name, matId, [], [], map[]), FaceAt(a, materials, s, f).corners);
      assert ms' == meshes + [ms'[mesh]];
    }
  }

  /**
   * One more face of a shape, in terms of LoadFaces: the face is added to
   * the meshes built so far.
   */
  lemma ShapeStep(a: Attrib, materials: seq<ObjMaterial>, existing: set<string>, before: seq<Face>, s: Shape, f: nat,
                  ms: seq<MeshBuild>)
    requires FacesOk(a, |materials|, s, f + 1) && MaterialsKnown(materials, before)
    requires MaterialsKnown(materials, before + ShapeFaces(a, materials, s, f))
    requires LoadFaces(materials, existing, before + ShapeFaces(a, materials, s, f)) == Some(ms)
    ensures MaterialsKnown(materials, before + ShapeFaces(a, materials, s, f + 1))
    ensures LoadFaces(materials, existing, before + ShapeFaces(a, materials, s, f + 1)) ==
            AddFace(materials, existing, ms, FaceAt(a, materials, s, f))
  {
    var done := before + ShapeFaces(a, materials, s, f);
    assert done + [FaceAt(a, materials, s, f)] == before + ShapeFaces(a, materials, s, f + 1);
    LoadFacesSnoc(materials, existing, done, FaceAt(a, materials, s, f));
  }

  lemma ConcatSplit<T>(x: seq<T>, y: seq<T>, p: seq<T>)
    requires |p| <= |y| && y[..|p|] == p
    ensures x + y == (x + p) + y[|p|..]
  {
    assert y == p + y[|p|..];
  }

  /** An abort inside a shape is an abort of the whole shape. */
  lemma ShapeAbort(a: Attrib, materials: seq<ObjMaterial>, existing: set<string>, before: seq<Face>, s: Shape, f: nat)
    requires LoaderShapeOk(a, materials, s) && MaterialsKnown(materials, before) && f <= |s.mesh.numFaceVertices|
    requires LoadFaces(materials, existing, before + ShapeFaces(a, materials, s, f)).None?
    ensures LoadFaces(materials, existing, before + ShapeFaces(a, materials, s, |s.mesh.numFaceVertices|)).None?
  {
    var n := |s.mesh.numFaceVertices|;
    var whole := ShapeFaces(a, materials, s, n);
    var part := ShapeFaces(a, materials, s, f);
    ShapeFacesPrefix(a, materials, s, f, n);
    ConcatSplit(before, whole, part);
    AbortIsFinal(materials, existing, before + part, whole[f..]);
  }

  /** The faces of the first i + 1 shapes. */
  lemma AllFacesStep(a: Attrib, materials: seq<ObjMaterial>, shapes: seq<Shape>, i: nat)
    requires i < |shapes| && forall k :: 0 <= k <= i ==> LoaderShapeOk(a, materials, shapes[k])
    ensures AllFaces(a, materials, shapes[..i + 1]) ==
            AllFaces(a, materials, shapes[..i]) + ShapeFaces(a, materials, shapes[i], |shapes[i].mesh.numFaceVertices|)
  {
    assert shapes[..i + 1][..i] == shapes[..i];
  }

  /** An abort in the first i shapes is an abort of the whole load. */
  lemma LoadAbort(a: Attrib, materials: seq<ObjMaterial>, existing: set<string>, shapes: seq<Shape>, i: nat)
    requires forall k :: 0 <= k < |shapes| ==> LoaderShapeOk(a, materials, shapes[k])
    requires i <= |shapes| && LoadFaces(materials, existing, AllFaces(a, materials, shapes[..i])).None?
    ensures LoadFaces(materials, existing, AllFaces(a, materials, shapes)).None?
  {
    var upto := AllFaces(a, materials, shapes[..i]);
    var all := AllFaces(a, materials, shapes);
    AllFacesPrefix(a, materials, shapes, i);
    assert all == upto + all[|upto|..];
    AbortIsFinal(materials, existing, upto, all[|upto|..]);
  }

  /** Face f, a triangle with a material of the table after loadable faces, is loadable; face_in_shape's index_offset is 3f. */
  lemma FaceReady(a: Attrib, materials: seq<ObjMaterial>, s: Shape, f: nat)
    requires TinyObjShape(a, s) && FacesOk(a, |materials|, s, f) && f < |s.mesh.numFaceVertices|
    requires s.mesh.numFaceVertices[f] == 3 && 0 <= s.mesh.materialIds[f] < |materials|
    ensures FaceOk(a, |materials|, s, f) && FacesOk(a, |materials|, s, f + 1)
  {
    forall g | 0 <= g <= f
      ensures s.mesh.numFaceVertices[g] == 3
    {
      if g < f {
        assert FaceOk(a, |materials|, s, g);
      }
    }
    TrianglesBeforeFit(s.mesh.numFaceVertices, f);
  }

  /** Every face of a loadable shape is a triangle with a material of the table. */
  lemma LoadableFace(a: Attrib, materials: seq<ObjMaterial>, s: Shape, f: nat)
    requires f < |s.mesh.numFaceVertices|
    ensures LoaderShapeOk(a, materials, s) ==>
              s.mesh.numFaceVertices[f] == 3 && f < |s.mesh.materialIds| && 0 <= s.mesh.materialIds[f] < |materials|
  {
    if LoaderShapeOk(a, materials, s) {
      assert FaceOk(a, |materials|, s, f);
    }
  }

  /**
   * On what tinyobj hands over, a shape fails to load exactly when it has no
   * face, a face that is not a triangle, or a face whose material id is not
   * an index of the material table (-1 included).
   */
  lemma LoadableIff(a: Attrib, materials: seq<ObjMaterial>, s: Shape)
    requires TinyObjShape(a, s)
    ensures LoaderShapeOk(a, materials, s) <==>
              |s.mesh.numFaceVertices| > 0 &&
              forall f :: 0 <= f < |s.mesh.numFaceVertices| ==>
                s.mesh.numFaceVertices[f] == 3 && 0 <= s.mesh.materialIds[f] < |materials|
  {
    var n := |s.mesh.numFaceVertices|;
    if LoaderShapeOk(a, materials, s) {
      forall f | 0 <= f < n
        ensures s.mesh.numFaceVertices[f] == 3 && 0 <= s.mesh.materialIds[f] < |materials|
      {
        LoadableFace(a, materials, s, f);
      }
    } else if n > 0 && forall f :: 0 <= f < n ==> s.mesh.numFaceVertices[f] == 3 && 0 <= s.mesh.materialIds[f] < |materials| {
      forall f | 0 <= f < n
        ensures FaceOk(a, |materials|, s, f)
      {
        TrianglesBeforeFit(s.mesh.numFaceVertices, f);
      }
      assert false;
    }
  }

  /**
   * The face loop for one shape, after the faces `before` of the earlier
   * shapes; prev_mat_id starts at -1 in every shape.  None: an ASSERT fails
   * (no face, a face that is not a triangle, no current mesh for a first
   * face of id -1, an existing mesh name), or materials[mat_id] would be
   * read out of range, which the model stops at.
   */
  method LoadShape(a: Attrib, materials: seq<ObjMaterial>, existing: set<string>, before: seq<Face>, s: Shape, meshes: seq<MeshBuild>)
    returns (r: Option<seq<MeshBuild>>)
    requires TinyObjShape(a, s) && MaterialsKnown(materials, before)
    requires LoadFaces(materials, existing, before) == Some(meshes)
    ensures LoaderShapeOk(a, materials, s) ==>
              r == LoadFaces(materials, existing, before + ShapeFaces(a, materials, s, |s.mesh.numFaceVertices|))
    ensures !LoaderShapeOk(a, materials, s) ==> r == None
  {
    var facesInShape := |s.mesh.numFaceVertices|;
    var prevMatId := -1;
    var currentMesh: nat := 0;
    if facesInShape == 0 {
      return None;  // ASSERT(faces_in_shape > 0)
    }
    var ms := meshes;
    assert before + ShapeFaces(a, materials, s, 0) == before;
    for f := 0 to facesInShape
      invariant FacesOk(a, |materials|, s, f)
      invariant f == 0 ==> prevMatId == -1
      invariant f > 0 ==> prevMatId == s.mesh.materialIds[f - 1] && prevMatId >= 0
      invariant MaterialsKnown(materials, before + ShapeFaces(a, materials, s, f))
      invariant LoadFaces(materials, existing, before + ShapeFaces(a, materials, s, f)) == Some(ms)
      invariant prevMatId >= 0 ==> FindMesh(ms, prevMatId) == Some(currentMesh)
    {
      var next;
      next, prevMatId, currentMesh := ShapeFace(a, materials, existing, before, s, f, ms, prevMatId, currentMesh);
      if next.None? {
        return None;
      }
      ms := next.value;
    }
    r := Some(ms);
  }

  /**
   * One pass of the face loop: the checks on face f, then LoadFace.  None:
   * the shape is not loadable, or loading it aborts.
   */
  method ShapeFace(a: Attrib, materials: seq<ObjMaterial>, existing: set<string>, before: seq<Face>, s: Shape, f: nat,
                   ms: seq<MeshBuild>, prevMatId: int, currentMesh: nat)
    returns (next: Option<seq<MeshBuild>>, matId: int, mesh: nat)
    requires TinyObjShape(a, s) && MaterialsKnown(materials, before)
    requires FacesOk(a, |materials|, s, f) && f < |s.mesh.numFaceVertices|
    requires f == 0 ==> prevMatId == -1
    requires f > 0 ==> prevMatId == s.mesh.materialIds[f - 1] && prevMatId >= 0
    requires MaterialsKnown(materials, before + ShapeFaces(a, materials, s, f))
    requires LoadFaces(materials, existing, before + ShapeFaces(a, materials, s, f)) == Some(ms)
    requires prevMatId >= 0 ==> FindMesh(ms, prevMatId) == Some(currentMesh)
    ensures next.Some? ==>
              FacesOk(a, |materials|, s, f + 1) && matId == s.mesh.materialIds[f] && matId >= 0 &&
              MaterialsKnown(materials, before + ShapeFaces(a, materials, s, f + 1)) &&
              LoadFaces(materials, existing, before + ShapeFaces(a, materials, s, f + 1)) == next &&
              FindMesh(next.value, matId) == Some(mesh)
    ensures next.None? && LoaderShapeOk(a, materials, s) ==>
              LoadFaces(materials, existing, before + ShapeFaces(a, materials, s, |s.mesh.numFaceVertices|)).None?
  {
    LoadableFace(a, materials, s, f);
    if s.mesh.numFaceVertices[f] != 3 {
      return None, prevMatId, currentMesh;  // ASSERT(vertices_in_face == 3)
    }
    matId := s.mesh.materialIds[f];
    if matId == prevMatId && prevMatId < 0 {
      return None, matId, currentMesh;  // no search, so no current mesh: ASSERT(currentMesh != nullptr)
    }
    if matId != prevMatId && !(0 <= matId < |materials|) {
      return None, matId, currentMesh;  // no mesh has this id, so the search fails and materials[mat_id] is out of range
    }
    FaceReady(a, materials, s, f);
    ShapeStep(a, materials, existing, before, s, f, ms);
    next, matId, mesh := LoadFace(a, materials, existing, s, f, ms, prevMatId, currentMesh);
    if next.None? && LoaderShapeOk(a, materials, s) {
      ShapeAbort(a, materials, existing, before, s, f + 1);
    }
  }

  /** The loop over shapes: an abort unless every shape is loadable, otherwise the meshes of all their faces. */
  function LoadAll(a: Attrib, materials: seq<ObjMaterial>, existing: set<string>, shapes: seq<Shape>): Option<seq<MeshBuild>>
  {
    if forall k :: 0 <= k < |shapes| ==> LoaderShapeOk(a, materials, shapes[k])
    then LoadFaces(materials, existing, AllFaces(a, materials, shapes))
    else None
  }

  /** The loop over shapes in loadModelFromObj; None: an ASSERT aborted or a material id was out of range. */
  method LoadMeshes(a: Attrib, materials: seq<ObjMaterial>, existing: set<string>, shapes: seq<Shape>) returns (r: Option<seq<MeshBuild>>)
    requires forall k :: 0 <= k < |shapes| ==> TinyObjShape(a, shapes[k])
    ensures r == LoadAll(a, materials, existing, shapes)
  {
    var meshes: seq<MeshBuild> := [];
    for si := 0 to |shapes|
      invariant forall k :: 0 <= k < si ==> LoaderShapeOk(a, materials, shapes[k])
      invariant LoadFaces(materials, existing, AllFaces(a, materials, shapes[..si])) == Some(meshes)
    {
      var next := LoadShape(a, materials, existing, AllFaces(a, materials, shapes[..si]), shapes[si], meshes);
      if next.None? {
        if forall k :: 0 <= k < |shapes| ==> LoaderShapeOk(a, materials, shapes[k]) {
          AllFacesStep(a, materials, shapes, si);
          LoadAbort(a, materials, existing, shapes, si + 1);
        }
        return None;
      }
      AllFacesStep(a, materials, shapes, si);
      meshes := next.value;
    }
    assert shapes[..|shapes|] == shapes;
    r := Some(meshes);
  }

  // ---------------------------------------------------------------------
  // loadModelFromObj
  // ---------------------------------------------------------------------

  /** The directory textures are looked up in: the model's directory, "." when it has none, then "/". */
  function ObjBaseDir(path: string): (r: string)
    ensures |r| > 0 && r[|r| - 1] == '/'
  {
    var dir := StrUtil.GetBaseDir(path);
    (if dir == "" then "." else dir) + "/"
  }

  /** A model at dir/name (name without separators) looks for its textures in dir/, or in ./ when dir is empty. */
  lemma ObjBaseDirOfJoin(dir: string, sep: char, name: string)
    requires sep in StrUtil.SEPARATORS
    requires forall j :: 0 <= j < |name| ==> name[j] !in StrUtil.SEPARATORS
    ensures ObjBaseDir(dir + [sep] + name) == if dir == "" then "./" else dir + "/"
  {
    StrUtil.BaseDirOfJoin(dir, sep, name);
  }

  /** How a call of loadModelFromObj ends. */
  datatype ObjLoad =
    | LoaderFailed                     // LoadObj failed or reported an error: return false
    | Aborted                          // an ASSERT of the mesh loop fails, or a material id is out of range
    | Loaded(meshes: seq<MeshBuild>)   // the new model's meshes, in creation order

  /**
   * The attributes and shapes the mesh loop reads: the file's own when it
   * has normals; otherwise those of computeSmoothingShapes, with the normal
   * values of computeAllSmoothingNormals (an input here) in place of the
   * zeros.
   */
  function MeshInput(inA: Attrib, inshapes: seq<Shape>, smoothedNormals: seq<real>): (Attrib, seq<Shape>)
    requires |inA.normals| == 0 ==> forall k :: 0 <= k < |inshapes| ==> Smoothing.ShapeOk(inA, inshapes[k])
  {
    if |inA.normals| == 0 then
      var (outs, outA) := Smoothing.SmoothAll(inA, inshapes, [], EMPTY_ATTRIB);
      (outA.(normals := smoothedNormals), outs)
    else (inA, inshapes)
  }

  /**
   * What the source relies on in the data it reads: smoothable shapes when
   * it regenerates normals, and shapes of the form tinyobj produces after
   * that.
   */
  predicate ObjInputOk(inA: Attrib, inshapes: seq<Shape>, smoothedNormals: seq<real>)
  {
    (|inA.normals| == 0 ==> forall k :: 0 <= k < |inshapes| ==> Smoothing.ShapeOk(inA, inshapes[k])) &&
    var (a, shapes) := MeshInput(inA, inshapes, smoothedNormals);
    forall k :: 0 <= k < |shapes| ==> TinyObjShape(a, shapes[k])
  }

  /** The regen_all_normals choice: smoothing runs exactly when the file has no normals. */
  method ChooseMeshInput(inA: Attrib, inshapes: seq<Shape>, smoothedNormals: seq<real>) returns (attrib: Attrib, shapes: seq<Shape>)
    requires |inA.normals| == 0 ==> forall k :: 0 <= k < |inshapes| ==> Smoothing.ShapeOk(inA, inshapes[k])
    ensures (attrib, shapes) == MeshInput(inA, inshapes, smoothedNormals)
    ensures |inA.normals| > 0 ==> attrib == inA && shapes == inshapes
    ensures |inA.normals| == 0 ==> attrib.normals == smoothedNormals
  {
    attrib, shapes := inA, inshapes;
    if |inA.normals| == 0 {
      var outshapes, outattrib := Smoothing.ComputeSmoothingShapes(inA, inshapes);
      attrib, shapes := outattrib.(normals := smoothedNormals), outshapes;
    }
  }

  /**
   * loadModelFromObj up to the texture loop.  `good` and `err` are what
   * tinyobj::LoadObj returned; `existing` is the set of mesh names the
   * engine already has.  The meshes are built face by face from MeshInput.
   */
  method LoadModelFromObj(good: bool, err: string, inA: Attrib, inshapes: seq<Shape>, materials: seq<ObjMaterial>,
                          existing: set<string>, smoothedNormals: seq<real>) returns (r: ObjLoad)
    requires good && err == "" ==> ObjInputOk(inA, inshapes, smoothedNormals)
    ensures r == LoaderFailed <==> !good || err != ""
    ensures r != LoaderFailed ==>
              var a := MeshInput(inA, inshapes, smoothedNormals).0;
              var shapes := MeshInput(inA, inshapes, smoothedNormals).1;
              (r == Aborted <==> LoadAll(a, materials, existing, shapes).None?) &&
              ((exists k :: 0 <= k < |shapes| && !LoaderShapeOk(a, materials, shapes[k])) ==> r == Aborted) &&
              (r.Loaded? ==>
                 (forall k :: 0 <= k < |shapes| ==> LoaderShapeOk(a, materials, shapes[k])) &&
                 LoadFaces(materials, existing, AllFaces(a, materials, shapes)) == Some(r.meshes) &&
                 LoadOk(materials, existing, AllFaces(a, materials, shapes), r.meshes))
  {
    if !good || err != "" {
      return LoaderFailed;
    }
    var attrib, shapes := ChooseMeshInput(inA, inshapes, smoothedNormals);
    var built := LoadMeshes(attrib, materials, existing, shapes);
    if built.None? {
      return Aborted;
    }
    LoadFacesOk(materials, existing, AllFaces(attrib, materials, shapes));
    return Loaded(built.value);
  }

  /** The texture file a material names for a mesh, if any: the bump map if `bump`, else the diffuse map. */
  function MeshTex(baseDir: string, mat: ObjMaterial, bump: bool): (names: seq<string>)
    ensures |names| <= 1
  {
    var name := if bump then mat.bumpTexname else mat.diffuseTexname;
    if name == "" then [] else [baseDir + name]
  }

  /** The texture files the meshes ask for, mesh by mesh. */
  function TexNames(baseDir: string, materials: seq<ObjMaterial>, meshes: seq<MeshBuild>, bump: bool): (names: seq<string>)
    requires forall i :: 0 <= i < |meshes| ==> meshes[i].matId < |materials|
    ensures |names| <= |meshes|
    decreases |meshes|
  {
    if meshes == [] then []
    else TexNames(baseDir, materials, meshes[..|meshes| - 1], bump) + MeshTex(baseDir, materials[meshes[|meshes| - 1].matId], bump)
  }

  lemma TexNamesStep(baseDir: string, materials: seq<ObjMaterial>, meshes: seq<MeshBuild>, i: nat, bump: bool)
    requires forall k :: 0 <= k < |meshes| ==> meshes[k].matId < |materials|
    requires i < |meshes|
    ensures TexNames(baseDir, materials, meshes[..i + 1], bump) ==
            TexNames(baseDir, materials, meshes[..i], bump) + MeshTex(baseDir, materials[meshes[i].matId], bump)
  {
    assert meshes[..i + 1][..i] == meshes[..i];
  }

  /** Every texture file the meshes ask for, diffuse or bump. */
  function Requested(baseDir: string, materials: seq<ObjMaterial>, meshes: seq<MeshBuild>): set<string>
    requires forall i :: 0 <= i < |meshes| ==> meshes[i].matId < |materials|
  {
    set n | n in TexNames(baseDir, materials, meshes, false) + TexNames(baseDir, materials, meshes, true)
  }

  /** A texture file can be had: already loaded, or present on disk and decodable (`files`). */
  predicate Available(name: string, textures: map<string, SceneState.Texture>, files: map<string, Option<Handle>>)
  {
    name in textures || (name in files && files[name].Some?)
  }

  /** The textures loaded so far: the earlier ones and the requested ones, each available at the start. */
  ghost predicate TexturesSoFar(textures: map<string, SceneState.Texture>, tex0: map<string, SceneState.Texture>,
                                req: set<string>, files: map<string, Option<Handle>>)
  {
    (forall n :: n in textures <==> n in tex0 || n in req) &&
    (forall n :: n in req ==> Available(n, tex0, files))
  }

  /**
   * loadModelTexture and the counter update for one file; false: the
   * EXIT(1) on a file that is missing or cannot be read.
   */
  method LoadTexture(eng: SceneState.Engine, names: seq<string>, bump: bool, files: map<string, Option<Handle>>,
                     ghost tex0: map<string, SceneState.Texture>, ghost req: set<string>) returns (ok: bool)
    requires |names| <= 1
    requires eng.TextureCountersValid() && TexturesSoFar(eng.textures, tex0, req, files)
    modifies eng`textures, eng`diffuseTexIndex, eng`bumpTexIndex, eng`diffTexOrdered, eng`bumpTexOrdered
    ensures eng.TextureCountersValid()
    ensures ok <==> forall n :: n in names ==> Available(n, tex0, files)
    ensures ok ==> TexturesSoFar(eng.textures, tex0, req + (set n | n in names), files)
    ensures ok && !bump ==> eng.diffTexOrdered == old(eng.diffTexOrdered) + names && eng.bumpTexOrdered == old(eng.bumpTexOrdered)
    ensures ok && bump ==> eng.bumpTexOrdered == old(eng.bumpTexOrdered) + names && eng.diffTexOrdered == old(eng.diffTexOrdered)
  {
    if names == [] {
      assert req + (set n | n in names) == req;
      return true;
    }
    var name := names[0];
    var onDisk := name in files;
    ghost var before := eng.textures;
    assert name in tex0 ==> name in before;
    ok := eng.RegisterModelTexture(name, bump, onDisk, if onDisk then files[name] else None);
    assert names == [name];
    assert ok <==> Available(name, tex0, files);
  }

  /** The files a material names, diffuse and bump. */
  function MaterialTex(baseDir: string, mat: ObjMaterial): set<string>
  {
    (set n | n in MeshTex(baseDir, mat, false)) + (set n | n in MeshTex(baseDir, mat, true))
  }

  /** One iteration of the texture loop: the mesh's diffuse map, then its bump map. */
  method LoadMeshTextures(eng: SceneState.Engine, baseDir: string, mat: ObjMaterial, files: map<string, Option<Handle>>,
                          ghost tex0: map<string, SceneState.Texture>, ghost req: set<string>) returns (ok: bool)
    requires eng.TextureCountersValid() && TexturesSoFar(eng.textures, tex0, req, files)
    modifies eng`textures, eng`diffuseTexIndex, eng`bumpTexIndex, eng`diffTexOrdered, eng`bumpTexOrdered
    ensures eng.TextureCountersValid()
    ensures ok <==> forall n :: n in MaterialTex(baseDir, mat) ==> Available(n, tex0, files)
    ensures ok ==> TexturesSoFar(eng.textures, tex0, req + MaterialTex(baseDir, mat), files)
    ensures ok ==> eng.diffTexOrdered == old(eng.diffTexOrdered) + MeshTex(baseDir, mat, false) &&
                   eng.bumpTexOrdered == old(eng.bumpTexOrdered) + MeshTex(baseDir, mat, true)
  {
    ok := LoadTexture(eng, MeshTex(baseDir, mat, false), false, files, tex0, req);
    if ok {
      ok := LoadTexture(eng, MeshTex(baseDir, mat, true), true, files, tex0, req + (set n | n in MeshTex(baseDir, mat, false)));
      assert req + (set n | n in MeshTex(baseDir, mat, false)) + (set n | n in MeshTex(baseDir, mat, true)) == req + MaterialTex(baseDir, mat);
    }
  }

  /** A file mesh i asks for is one the meshes ask for. */
  lemma MaterialTexRequested(baseDir: string, materials: seq<ObjMaterial>, meshes: seq<MeshBuild>, i: nat)
    requires forall k :: 0 <= k < |meshes| ==> meshes[k].matId < |materials|
    requires i < |meshes|
    ensures MaterialTex(baseDir, materials[meshes[i].matId]) <= Requested(baseDir, materials, meshes)
  {
    RequestedStep(baseDir, materials, meshes, i);
    RequestedGrows(baseDir, materials, meshes, i + 1);
  }

  /** A file of mesh i that is not available is a requested file that is not available. */
  lemma MissingTexture(baseDir: string, materials: seq<ObjMaterial>, meshes: seq<MeshBuild>, i: nat,
                       tex0: map<string, SceneState.Texture>, files: map<string, Option<Handle>>)
    requires forall k :: 0 <= k < |meshes| ==> meshes[k].matId < |materials|
    requires i < |meshes|
    requires !forall n :: n in MaterialTex(baseDir, materials[meshes[i].matId]) ==> Available(n, tex0, files)
    ensures !forall n :: n in Requested(baseDir, materials, meshes) ==> Available(n, tex0, files)
  {
    MaterialTexRequested(baseDir, materials, meshes, i);
  }

  /**
   * The texture loop of loadModelFromObj: for each mesh, its diffuse map
   * then its bump map, when its material names one, goes through
   * loadModelTexture and takes the next global index.  `files` maps each
   * file that exists to the result of loading it.  false: the EXIT(1) on a
   * missing or unreadable file.
   */
  method LoadModelTextures(eng: SceneState.Engine, baseDir: string, materials: seq<ObjMaterial>, meshes: seq<MeshBuild>,
                           files: map<string, Option<Handle>>) returns (ok: bool)
    requires eng.TextureCountersValid()
    requires forall i :: 0 <= i < |meshes| ==> meshes[i].matId < |materials|
    modifies eng`textures, eng`diffuseTexIndex, eng`bumpTexIndex, eng`diffTexOrdered, eng`bumpTexOrdered
    ensures eng.TextureCountersValid()
    ensures ok <==> forall n :: n in Requested(baseDir, materials, meshes) ==> Available(n, old(eng.textures), files)
    ensures ok ==> eng.diffTexOrdered == old(eng.diffTexOrdered) + TexNames(baseDir, materials, meshes, false) &&
                   eng.bumpTexOrdered == old(eng.bumpTexOrdered) + TexNames(baseDir, materials, meshes, true)
    ensures ok ==> forall n :: n in eng.textures <==> n in old(eng.textures) || n in Requested(baseDir, materials, meshes)
  {
    ghost var diff0, bump0, tex0 := eng.diffTexOrdered, eng.bumpTexOrdered, eng.textures;
    for i := 0 to |meshes|
      invariant eng.TextureCountersValid()
      invariant eng.diffTexOrdered == diff0 + TexNames(baseDir, materials, meshes[..i], false)
      invariant eng.bumpTexOrdered == bump0 + TexNames(baseDir, materials, meshes[..i], true)
      invariant TexturesSoFar(eng.textures, tex0, Requested(baseDir, materials, meshes[..i]), files)
    {
      ok := LoadTexturesOfMesh(eng, baseDir, materials, meshes, i, files, diff0, bump0, tex0);
      if !ok {
        return false;
      }
    }
    assert meshes[..|meshes|] == meshes;
    return true;
  }

  /** One pass of the texture loop: the textures of mesh i, in terms of the first i + 1 meshes. */
  method LoadTexturesOfMesh(eng: SceneState.Engine, baseDir: string, materials: seq<ObjMaterial>, meshes: seq<MeshBuild>, i: nat,
                            files: map<string, Option<Handle>>,
                            ghost diff0: seq<string>, ghost bump0: seq<string>, ghost tex0: map<string, SceneState.Texture>)
    returns (ok: bool)
    requires eng.TextureCountersValid()
    requires forall k :: 0 <= k < |meshes| ==> meshes[k].matId < |materials|
    requires i < |meshes|
    requires eng.diffTexOrdered == diff0 + TexNames(baseDir, materials, meshes[..i], false)
    requires eng.bumpTexOrdered == bump0 + TexNames(baseDir, materials, meshes[..i], true)
    requires TexturesSoFar(eng.textures, tex0, Requested(baseDir, materials, meshes[..i]), files)
    modifies eng`textures, eng`diffuseTexIndex, eng`bumpTexIndex, eng`diffTexOrdered, eng`bumpTexOrdered
    ensures eng.TextureCountersValid()
    ensures !ok ==> !forall n :: n in Requested(baseDir, materials, meshes) ==> Available(n, tex0, files)
    ensures ok ==> eng.diffTexOrdered == diff0 + TexNames(baseDir, materials, meshes[..i + 1], false)
    ensures ok ==> eng.bumpTexOrdered == bump0 + TexNames(baseDir, materials, meshes[..i + 1], true)
    ensures ok ==> TexturesSoFar(eng.textures, tex0, Requested(baseDir, materials, meshes[..i + 1]), files)
  {
    var mat := materials[meshes[i].matId];
    ghost var diff, bump := eng.diffTexOrdered, eng.bumpTexOrdered;
    ok := LoadMeshTextures(eng, baseDir, mat, files, tex0, Requested(baseDir, materials, meshes[..i]));
    if !ok {
      MissingTexture(baseDir, materials, meshes, i, tex0, files);
      return;
    }
    TexLoopStep(baseDir, materials, meshes, i, diff0, bump0, diff, bump);
    RequestedStep(baseDir, materials, meshes, i);
  }

  /** The ordered texture lists after mesh i's textures are the lists for the first i + 1 meshes. */
  lemma TexLoopStep(baseDir: string, materials: seq<ObjMaterial>, meshes: seq<MeshBuild>, i: nat,
                    diff0: seq<string>, bump0: seq<string>, diff: seq<string>, bump: seq<string>)
    requires forall k :: 0 <= k < |meshes| ==> meshes[k].matId < |materials|
    requires i < |meshes|
    requires diff == diff0 + TexNames(baseDir, materials, meshes[..i], false)
    requires bump == bump0 + TexNames(baseDir, materials, meshes[..i], true)
    ensures var mat := materials[meshes[i].matId];
            && diff + MeshTex(baseDir, mat, false) == diff0 + TexNames(baseDir, materials, meshes[..i + 1], false)
            && bump + MeshTex(baseDir, mat, true) == bump0 + TexNames(baseDir, materials, meshes[..i + 1], true)
  {
    TexNamesStep(baseDir, materials, meshes, i, false);
    TexNamesStep(baseDir, materials, meshes, i, true);
  }

  lemma RequestedStep(baseDir: string, materials: seq<ObjMaterial>, meshes: seq<MeshBuild>, i: nat)
    requires forall k :: 0 <= k < |meshes| ==> meshes[k].matId < |materials|
    requires i < |meshes|
    ensures var mat := materials[meshes[i].matId];
            Requested(baseDir, materials, meshes[..i + 1]) ==
            Requested(baseDir, materials, meshes[..i]) + MaterialTex(baseDir, mat)
  {
    TexNamesStep(baseDir, materials, meshes, i, false);
    TexNamesStep(baseDir, materials, meshes, i, true);
  }

  /** The files the first i meshes ask for are among those all of them ask for. */
  lemma {:induction false} RequestedGrows(baseDir: string, materials: seq<ObjMaterial>, meshes: seq<MeshBuild>, i: nat)
    requires forall k :: 0 <= k < |meshes| ==> meshes[k].matId < |materials|
    requires i <= |meshes|
    ensures Requested(baseDir, materials, meshes[..i]) <= Requested(baseDir, materials, meshes)
    decreases |meshes| - i
  {
    if i < |meshes| {
      RequestedGrows(baseDir, materials, meshes, i + 1);
      RequestedStep(baseDir, materials, meshes, i);
    } else {
      assert meshes[..i] == meshes;
    }
  }
}

=== FILE: postfx.dfy ===
/**
 * The compute post-processing chain of src/postfx.cpp and src/compute.cpp.
 * Both files carry the same stage type (PostFXStage and ComputeStage have
 * identical members), modelled once here as ComputeStage: the queue of
 * pending storage-image bindings, its flush into descriptor writes, the
 * flush-before-dispatch order, and the descriptor layout a stage declares.
 * PostFX adds the effect/prefix map, the effect switches and the stage
 * table; ComputePass keys its tables with a prefix switch.  Pipelines,
 * image views and descriptor sets are opaque handles.
 */
module PostFx {
  import opened Wrappers
  import opened Vk
  import opened Descriptors

  const MAX_IMAGE_UPDATES: nat := 64
  const MAX_FRAMES_IN_FLIGHT: nat := 3

  // ---------------------------------------------------------------------
  // Effects and their key prefixes
  // ---------------------------------------------------------------------

  /** The Effect enum, in declaration order. */
  datatype Effect = EXPADP | DURAND | FUSION | BLOOM | GTMO | GAMMA

  /** Every effect, in the order of its enum value (the iteration order of a std::map keyed by Effect). */
  const ALL_EFFECTS: seq<Effect> := [EXPADP, DURAND, FUSION, BLOOM, GTMO, GAMMA]

  /** The enum value of an effect. */
  function Ord(e: Effect): (n: nat)
    ensures n < |ALL_EFFECTS| && ALL_EFFECTS[n] == e
  {
    match e
    case EXPADP => 0
    case DURAND => 1
    case FUSION => 2
    case BLOOM => 3
    case GTMO => 4
    case GAMMA => 5
  }

  /**
   * ComputePass::getEffectPrefix, the switch from an effect to the prefix
   * of its stage, attachment and pyramid keys; PostFX's effectPrefixMap
   * holds the same strings.
   */
  function EffectPrefix(e: Effect): (p: string)
    ensures |p| >= 5 && p[|p| - 1] == '_'
  {
    match e
    case DURAND => "durand_"
    case FUSION => "fusion_"
    case BLOOM => "bloom_"
    case EXPADP => "expadp_"
    case GTMO => "gtmo_"
    case GAMMA => "gamma_"
  }

  /** The first two characters of a prefix already tell the effects apart. */
  lemma PrefixHeadsDistinct(e1: Effect, e2: Effect)
    requires EffectPrefix(e1)[..2] == EffectPrefix(e2)[..2]
    ensures e1 == e2
  {
    assert EffectPrefix(e1)[0] == EffectPrefix(e2)[0] && EffectPrefix(e1)[1] == EffectPrefix(e2)[1];
  }

  /**
   * The six prefixes are distinct and none is a prefix of another, so a key
   * prefix + name determines both the effect and the name: lookups for
   * different (effect, name) pairs never meet in one map entry.
   */
  lemma PrefixedKeyInjective(e1: Effect, name1: string, e2: Effect, name2: string)
    requires EffectPrefix(e1) + name1 == EffectPrefix(e2) + name2
    ensures e1 == e2 && name1 == name2
  {
    var key := EffectPrefix(e1) + name1;
    assert key[..2] == EffectPrefix(e1)[..2];
    assert key[..2] == EffectPrefix(e2)[..2];
    PrefixHeadsDistinct(e1, e2);
    assert name1 == key[|EffectPrefix(e1)|..] == name2;
  }

  /** getEffectPrefix is injective on effects. */
  lemma EffectPrefixInjective(e1: Effect, e2: Effect)
    requires EffectPrefix(e1) == EffectPrefix(e2)
    ensures e1 == e2
  {
    assert EffectPrefix(e1) + [] == EffectPrefix(e2) + [];
    PrefixedKeyInjective(e1, [], e2, []);
  }

  /** The effectPrefixMap the PostFX constructor fills. */
  const EFFECT_PREFIX_MAP: map<Effect, string> :=
    map[EXPADP := "expadp_", DURAND := "durand_", FUSION := "fusion_", BLOOM := "bloom_", GTMO := "gtmo_", GAMMA := "gamma_"]

  /** PostFX's effectPrefixMap: the prefix of every effect, as getEffectPrefix gives it. */
  lemma StandardPrefixMap()
    ensures forall e :: e in EFFECT_PREFIX_MAP && EFFECT_PREFIX_MAP[e] == EffectPrefix(e)
  {
    forall e ensures e in EFFECT_PREFIX_MAP && EFFECT_PREFIX_MAP[e] == EffectPrefix(e) {
      match e
      case EXPADP => case DURAND => case FUSION => case BLOOM => case GTMO => case GAMMA =>
    }
  }

  /** A key built from some effect's prefix. */
  predicate KeyedByEffect<V>(m: map<string, V>)
  {
    forall key :: key in m ==> exists e :: EffectPrefix(e) <= key
  }

  lemma KeyedByEffectInsert<V>(m: map<string, V>, e: Effect, name: string, v: V)
    requires KeyedByEffect(m)
    ensures KeyedByEffect(m[EffectPrefix(e) + name := v])
  {
    assert EffectPrefix(e) <= EffectPrefix(e) + name;
  }

  // ---------------------------------------------------------------------
  // Stage configuration and the descriptor layout it declares
  // ---------------------------------------------------------------------

  /** The dsetBindings kinds: uniform buffer, storage buffer, one storage image, a pyramid of storage images. */
  datatype BindingKind = UB | SSBO | IMG | PYR

  /** The aggregate the stage tables initialise: shaderName, dsetBindings, usesPushConstants. */
  datatype StageConfig = StageConfig(shaderName: string, dsetBindings: seq<BindingKind>, usesPushConstants: bool)

  /** Attachment and AttachmentPyramid as far as the stages read them: the views. */
  datatype Attachment = Attachment(view: Handle)
  datatype AttachmentPyramid = AttachmentPyramid(views: seq<Handle>)

  /** The descriptor type InitDescriptorSets declares for a binding kind. */
  function KindType(k: BindingKind): (t: uint32)
    ensures t == STORAGE_IMAGE <==> k == IMG || k == PYR
    ensures k == UB <==> t == UNIFORM_BUFFER
    ensures k == SSBO <==> t == STORAGE_BUFFER
  {
    match k
    case UB => UNIFORM_BUFFER
    case SSBO => STORAGE_BUFFER
    case IMG => STORAGE_IMAGE
    case PYR => STORAGE_IMAGE
  }

  /** The descriptor count: one, except a pyramid's MAX_VIEWPORT_MIPS. */
  function KindCount(k: BindingKind, maxViewportMips: uint32): (n: uint32)
    ensures k != PYR ==> n == 1
    ensures k == PYR ==> n == maxViewportMips
  {
    if k == PYR then maxViewportMips else 1
  }

  /** The layout binding one kind adds at index i (bind_image_empty adds none for a count of 0). */
  function KindBinding(i: nat, k: BindingKind, maxViewportMips: uint32): seq<LayoutBinding>
    requires i < UINT32_LIMIT
  {
    if KindCount(k, maxViewportMips) == 0 then []
    else [LayoutBinding(i as uint32, KindType(k), KindCount(k, maxViewportMips), STAGE_COMPUTE, NULL_HANDLE)]
  }

  /**
   * The layout bindings InitDescriptorSets declares for dsetBindings: with
   * a positive MAX_VIEWPORT_MIPS, binding i for kinds[i], compute stage,
   * with that kind's type and count.
   */
  function LayoutFor(kinds: seq<BindingKind>, maxViewportMips: uint32): (r: seq<LayoutBinding>)
    requires |kinds| <= UINT32_LIMIT
    ensures |r| <= |kinds|
    ensures forall b :: b in r ==> b.stageFlags == STAGE_COMPUTE && (b.binding as int) < |kinds|
    ensures maxViewportMips > 0 ==> |r| == |kinds|
    ensures maxViewportMips > 0 ==> forall i :: 0 <= i < |kinds| ==>
              r[i] == LayoutBinding(i as uint32, KindType(kinds[i]), KindCount(kinds[i], maxViewportMips), STAGE_COMPUTE, NULL_HANDLE)
  {
    if |kinds| == 0 then []
    else LayoutFor(kinds[..|kinds| - 1], maxViewportMips) + KindBinding(|kinds| - 1, kinds[|kinds| - 1], maxViewportMips)
  }

  /** The write one kind adds at index i: bind_buffer writes the frame's buffer; images get no write. */
  function KindWrite(i: nat, k: BindingKind, ubInfo: nat, ssboInfo: nat): seq<DescriptorWrite>
    requires i < UINT32_LIMIT
  {
    match k
    case UB => [DescriptorWrite(i as uint32, UNIFORM_BUFFER, 1, BufferInfo(ubInfo), NULL_HANDLE)]
    case SSBO => [DescriptorWrite(i as uint32, STORAGE_BUFFER, 1, BufferInfo(ssboInfo), NULL_HANDLE)]
    case IMG => []
    case PYR => []
  }

  /** Whether a kind is a buffer binding, the kinds InitDescriptorSets writes right away. */
  predicate IsBufferKind(k: BindingKind)
  {
    k == UB || k == SSBO
  }

  /**
   * The writes InitDescriptorSets leaves in the builder: one per buffer
   * binding, pointing the uniform buffer bindings at the frame's compute
   * UB and the storage buffer bindings at its SSBO; image bindings stay
   * empty until UpdateImage fills them.
   */
  function WritesFor(kinds: seq<BindingKind>, ubInfo: nat, ssboInfo: nat): (r: seq<DescriptorWrite>)
    requires |kinds| <= UINT32_LIMIT
    ensures |r| <= |kinds|
    ensures forall w :: w in r ==>
              && (w.dstBinding as int) < |kinds| && IsBufferKind(kinds[w.dstBinding])
              && w.descriptorType == KindType(kinds[w.dstBinding]) && w.descriptorCount == 1
              && w.info == BufferInfo(if kinds[w.dstBinding] == UB then ubInfo else ssboInfo)
    ensures (forall i :: 0 <= i < |kinds| ==> !IsBufferKind(kinds[i])) ==> r == []
  {
    if |kinds| == 0 then []
    else
      var init := kinds[..|kinds| - 1];
      var r := WritesFor(init, ubInfo, ssboInfo) + KindWrite(|kinds| - 1, kinds[|kinds| - 1], ubInfo, ssboInfo);
      assert forall w :: w in WritesFor(init, ubInfo, ssboInfo) ==> kinds[w.dstBinding] == init[w.dstBinding];
      r
  }

  /** Every buffer binding gets its write: the write count is the number of buffer kinds. */
  function BufferCount(kinds: seq<BindingKind>): nat
  {
    if |kinds| == 0 then 0
    else BufferCount(kinds[..|kinds| - 1]) + (if IsBufferKind(kinds[|kinds| - 1]) then 1 else 0)
  }

  lemma {:induction false} WritesForCount(kinds: seq<BindingKind>, ubInfo: nat, ssboInfo: nat)
    requires |kinds| <= UINT32_LIMIT
    ensures |WritesFor(kinds, ubInfo, ssboInfo)| == BufferCount(kinds)
  {
    if |kinds| > 0 {
      WritesForCount(kinds[..|kinds| - 1], ubInfo, ssboInfo);
    }
  }

  // ---------------------------------------------------------------------
  // The stage: pending image bindings, their flush, dispatch
  // ---------------------------------------------------------------------

  /** ComputeStageImageBinding: the views to write and the binding they go to. */
  datatype ImageBinding = ImageBinding(views: seq<Handle>, binding: uint32)

  /** The calls a stage makes, in order: recorded commands and immediate descriptor updates. */
  datatype StageCall =
    | BindPipeline(commandBuffer: Handle, pipeline: Handle)
    | UpdateDescriptorSets(writes: seq<DescriptorWrite>)
    | BindDescriptorSet(commandBuffer: Handle, descriptorSet: Handle)
    | DispatchGroups(commandBuffer: Handle, groupsX: uint32, groupsY: uint32, groupsZ: uint32)

  /** The storage-image write WriteSets builds for one pending binding: every view, in order (size_t count narrowed to uint32). */
  function ImageWrite(ib: ImageBinding, dstSet: Handle): DescriptorWrite
  {
    DescriptorWrite(ib.binding, STORAGE_IMAGE, (|ib.views| % UINT32_LIMIT) as uint32, ImageInfos(ib.views), dstSet)
  }

  /**
   * The writes that flush a queue: one storage-image write per pending
   * binding, in queue order, to the same binding, with one descriptor per
   * view, all into dstSet.
   */
  function PendingWrites(bindings: seq<ImageBinding>, dstSet: Handle): (r: seq<DescriptorWrite>)
    ensures |r| == |bindings|
    ensures forall i :: 0 <= i < |bindings| ==>
              && r[i].dstBinding == bindings[i].binding && r[i].dstSet == dstSet
              && r[i].descriptorType == STORAGE_IMAGE && r[i].info == ImageInfos(bindings[i].views)
              && (|bindings[i].views| < UINT32_LIMIT ==> r[i].descriptorCount as int == |bindings[i].views|)
  {
    if |bindings| == 0 then []
    else PendingWrites(bindings[..|bindings| - 1], dstSet) + [ImageWrite(bindings[|bindings| - 1], dstSet)]
  }

  /** The descriptor update a flush submits: none for an empty queue, else one call with every pending write. */
  function FlushCalls(bindings: seq<ImageBinding>, dstSet: Handle): (r: seq<StageCall>)
    ensures |bindings| == 0 <==> r == []
    ensures |bindings| > 0 ==> r == [UpdateDescriptorSets(PendingWrites(bindings, dstSet))]
  {
    if |bindings| == 0 then [] else [UpdateDescriptorSets(PendingWrites(bindings, dstSet))]
  }

  /** PostFXStage and ComputeStage. */
  class ComputeStage {
    var shaderName: string
    var dsetBindings: seq<BindingKind>
    var usesPushConstants: bool
    var pipeline: Handle
    var setLayout: Handle
    /** The per-frame descriptor sets (MAX_FRAMES_IN_FLIGHT of them). */
    var sets: seq<Handle>
    /** Bindings queued by UpdateImage* and not yet written. */
    var imageBindings: seq<ImageBinding>
    var commandBuffer: Handle
    var calls: seq<StageCall>

    /** The queue stays within MAX_IMAGE_UPDATES and there is one set per frame in flight. */
    predicate Valid()
      reads this
    {
      |sets| == MAX_FRAMES_IN_FLIGHT && |imageBindings| <= MAX_IMAGE_UPDATES
    }

    /** A stage from its table entry, after Create has built its pipeline. */
    constructor (config: StageConfig, createdPipeline: Handle)
      ensures Valid()
      ensures shaderName == config.shaderName && dsetBindings == config.dsetBindings
      ensures usesPushConstants == config.usesPushConstants && pipeline == createdPipeline
      ensures imageBindings == [] && calls == [] && commandBuffer == NULL_HANDLE
    {
      shaderName, dsetBindings, usesPushConstants := config.shaderName, config.dsetBindings, config.usesPushConstants;
      pipeline, setLayout := createdPipeline, NULL_HANDLE;
      sets := [NULL_HANDLE, NULL_HANDLE, NULL_HANDLE];
      imageBindings := [];
      commandBuffer := NULL_HANDLE;
      calls := [];
    }

    /** Bind: remember the command buffer and bind the stage's pipeline in it. */
    method Bind(cmd: Handle)
      modifies this`commandBuffer, this`calls
      ensures commandBuffer == cmd && calls == old(calls) + [BindPipeline(cmd, pipeline)]
    {
      commandBuffer := cmd;
      calls := calls + [BindPipeline(cmd, pipeline)];
    }

    /**
     * UpdateImage(VkImageView, binding): queue one binding of a single view;
     * the queue must stay within MAX_IMAGE_UPDATES.
     */
    method UpdateImage(view: Handle, binding: uint32)
      requires Valid() && |imageBindings| < MAX_IMAGE_UPDATES
      modifies this`imageBindings
      ensures Valid()
      ensures imageBindings == old(imageBindings) + [ImageBinding([view], binding)]
    {
      imageBindings := imageBindings + [ImageBinding([view], binding)];
    }

    /** UpdateImage(Attachment, binding): the same for an attachment's view. */
    method UpdateImageAttachment(att: Attachment, binding: uint32)
      requires Valid() && |imageBindings| < MAX_IMAGE_UPDATES
      modifies this`imageBindings
      ensures Valid()
      ensures imageBindings == old(imageBindings) + [ImageBinding([att.view], binding)]
    {
      imageBindings := imageBindings + [ImageBinding([att.view], binding)];
    }

    /** UpdateImagePyramid: queue one binding of all the pyramid's views. */
    method UpdateImagePyramid(pyr: AttachmentPyramid, binding: uint32)
      requires Valid() && |imageBindings| < MAX_IMAGE_UPDATES
      modifies this`imageBindings
      ensures Valid()
      ensures imageBindings == old(imageBindings) + [ImageBinding(pyr.views, binding)]
    {
      imageBindings := imageBindings + [ImageBinding(pyr.views, binding)];
    }

    /**
     * WriteSets: for a non-empty queue, one vkUpdateDescriptorSets call
     * with the queue's writes into sets[setIndex], after which the queue is
     * empty; an empty queue makes no call.
     */
    method WriteSets(setIndex: nat)
      requires Valid() && setIndex < |sets|
      modifies this`imageBindings, this`calls
      ensures Valid() && imageBindings == []
      ensures calls == old(calls) + FlushCalls(old(imageBindings), sets[setIndex])
    {
      if |imageBindings| == 0 {
        return;
      }
      var dstSet := sets[setIndex];
      var writes: seq<DescriptorWrite> := [];
      for i := 0 to |imageBindings|
        invariant writes == PendingWrites(imageBindings[..i], dstSet)
      {
        var ib := imageBindings[i];
        var infos: seq<Handle> := [];
        for j := 0 to |ib.views|
          invariant infos == ib.views[..j]
        {
          infos := infos + [ib.views[j]];
        }
        assert infos == ib.views;
        writes := writes + [DescriptorWrite(ib.binding, STORAGE_IMAGE, (|infos| % UINT32_LIMIT) as uint32, ImageInfos(infos), dstSet)];
        assert imageBindings[..i + 1][..i] == imageBindings[..i];
      }
      assert imageBindings[..|imageBindings|] == imageBindings;
      calls := calls + [UpdateDescriptorSets(writes)];
      imageBindings := [];
    }

    /**
     * Dispatch: flush the pending bindings, then bind sets[setIndex] and
     * dispatch groupsX x groupsY x 1 groups, so a dispatch always sees the
     * images queued before it.
     */
    method Dispatch(groupsX: uint32, groupsY: uint32, setIndex: nat)
      requires Valid() && setIndex < |sets|
      modifies this`imageBindings, this`calls
      ensures Valid() && imageBindings == []
      ensures calls == old(calls) + FlushCalls(old(imageBindings), sets[setIndex])
                       + [BindDescriptorSet(commandBuffer, sets[setIndex]), DispatchGroups(commandBuffer, groupsX, groupsY, 1)]
    {
      WriteSets(setIndex);
      calls := calls + [BindDescriptorSet(commandBuffer, sets[setIndex]), DispatchGroups(commandBuffer, groupsX, groupsY, 1)];
    }

    /**
     * InitDescriptorSets: declare one binding per dsetBindings entry on a
     * fresh builder, then build the frame's set with the stage's layout.
     * The layout is always the cache's; the frame's slot receives the
     * allocated set, or VK_NULL_HANDLE when the allocation fails.  The arguments after maxViewportMips are what
     * the layout cache and allocator receive from Vulkan.
     */
    method InitDescriptorSets(builder: DescriptorBuilder, frameIndex: nat, ubInfo: nat, ssboInfo: nat,
                              maxViewportMips: uint32, descriptorSet: Handle, createdLayout: Handle,
                              first: VkResult, retry: VkResult, created1: Handle, created2: Handle)
      returns (ok: bool, updates: seq<DescriptorWrite>)
      requires Valid() && frameIndex < |sets| && |dsetBindings| > 0 && |dsetBindings| <= UINT32_LIMIT
      requires builder.bindings == [] && builder.writes == []
      requires ValidPools(builder.alloc.State()) && IsNewPool(builder.alloc.State(), created1)
      requires IsNewPool(builder.alloc.State(), created2) && created1 != created2
      modifies this`sets, this`setLayout, builder`bindings, builder`writes, builder.cache, builder.alloc
      ensures Valid()
      ensures builder.bindings == LayoutFor(dsetBindings, maxViewportMips)
      ensures (builder.alloc.State(), ok) == AllocateSpec(old(builder.alloc.State()), first, retry, created1, created2)
      ensures setLayout == CachedOr(old(builder.cache.layoutCache), LayoutFor(dsetBindings, maxViewportMips), createdLayout)
      ensures builder.cache.layoutCache == CacheWith(old(builder.cache.layoutCache), LayoutFor(dsetBindings, maxViewportMips), createdLayout)
      ensures ok ==> sets == old(sets)[frameIndex := descriptorSet]
                     && updates == WithDstSet(WritesFor(dsetBindings, ubInfo, ssboInfo), descriptorSet)
      ensures !ok ==> sets == old(sets)[frameIndex := NULL_HANDLE] && updates == []
    {
      BindAll(builder, dsetBindings, ubInfo, ssboInfo, maxViewportMips);
      assert builder.bindings == LayoutFor(dsetBindings, maxViewportMips);
      assert builder.writes == WritesFor(dsetBindings, ubInfo, ssboInfo);
      var outSet, layout;
      ok, outSet, layout, updates := builder.Build(descriptorSet, createdLayout, first, retry, created1, created2);
      setLayout := layout;
      sets := sets[frameIndex := outSet];
    }
  }

  /** One step of the folds: the entry for index i follows the entries before it. */
  lemma FoldStep(kinds: seq<BindingKind>, i: nat, ubInfo: nat, ssboInfo: nat, maxViewportMips: uint32)
    requires i < |kinds| <= UINT32_LIMIT
    ensures LayoutFor(kinds[..i + 1], maxViewportMips) == LayoutFor(kinds[..i], maxViewportMips) + KindBinding(i, kinds[i], maxViewportMips)
    ensures WritesFor(kinds[..i + 1], ubInfo, ssboInfo) == WritesFor(kinds[..i], ubInfo, ssboInfo) + KindWrite(i, kinds[i], ubInfo, ssboInfo)
  {
    assert kinds[..i + 1][..i] == kinds[..i];
  }

  /** The switch of InitDescriptorSets for one binding kind. */
  method BindKind(builder: DescriptorBuilder, i: nat, k: BindingKind, ubInfo: nat, ssboInfo: nat, maxViewportMips: uint32)
    requires i < UINT32_LIMIT
    modifies builder`bindings, builder`writes
    ensures builder.bindings == old(builder.bindings) + KindBinding(i, k, maxViewportMips)
    ensures builder.writes == old(builder.writes) + KindWrite(i, k, ubInfo, ssboInfo)
  {
    match k
    case UB =>
      builder.BindBuffer(i as uint32, Some(ubInfo), UNIFORM_BUFFER, STAGE_COMPUTE);
    case SSBO =>
      builder.BindBuffer(i as uint32, Some(ssboInfo), STORAGE_BUFFER, STAGE_COMPUTE);
    case IMG =>
      builder.BindImageEmpty(i as uint32, 1, STORAGE_IMAGE, STAGE_COMPUTE);
    case PYR =>
      builder.BindImageEmpty(i as uint32, maxViewportMips, STORAGE_IMAGE, STAGE_COMPUTE);
  }

  /** The layout create_descriptor_layout returns: the cached one for these bindings, else the newly created one. */
  function CachedOr(layoutCache: map<seq<BindingKey>, Handle>, bindings: seq<LayoutBinding>, created: Handle): Handle
  {
    if CacheKey(bindings) in layoutCache then layoutCache[CacheKey(bindings)] else created
  }

  /**
   * Two stages declaring the same bindings on one cache share a layout: the
   * second InitDescriptorSets finds the entry the first one left.
   */
  lemma SecondBuildSharesLayout(layoutCache: map<seq<BindingKey>, Handle>, bindings: seq<LayoutBinding>,
                                created1: Handle, created2: Handle)
    ensures CachedOr(CacheWith(layoutCache, bindings, created1), bindings, created2) == CachedOr(layoutCache, bindings, created1)
  {
  }

  /** The loop of InitDescriptorSets: binding i declared for dsetBindings[i], buffers written at once. */
  method BindAll(builder: DescriptorBuilder, kinds: seq<BindingKind>, ubInfo: nat, ssboInfo: nat, maxViewportMips: uint32)
    requires |kinds| <= UINT32_LIMIT
    modifies builder`bindings, builder`writes
    ensures builder.bindings == old(builder.bindings) + LayoutFor(kinds, maxViewportMips)
    ensures builder.writes == old(builder.writes) + WritesFor(kinds, ubInfo, ssboInfo)
  {
    for i := 0 to |kinds|
      invariant builder.bindings == old(builder.bindings) + LayoutFor(kinds[..i], maxViewportMips)
      invariant builder.writes == old(builder.writes) + WritesFor(kinds[..i], ubInfo, ssboInfo)
    {
      ghost var bindings0, writes0 := builder.bindings, builder.writes;
      BindKind(builder, i, kinds[i], ubInfo, ssboInfo, maxViewportMips);
      FoldStep(kinds, i, ubInfo, ssboInfo, maxViewportMips);
      SeqAssoc(old(builder.bindings), LayoutFor(kinds[..i], maxViewportMips), KindBinding(i, kinds[i], maxViewportMips));
      SeqAssoc(old(builder.writes), WritesFor(kinds[..i], ubInfo, ssboInfo), KindWrite(i, kinds[i], ubInfo, ssboInfo));
    }
    assert kinds[..|kinds|] == kinds;
  }

  lemma SeqAssoc<T>(a: seq<T>, b: seq<T>, c: seq<T>)
    ensures a + b + c == a + (b + c)
  {
  }

  // ---------------------------------------------------------------------
  // PostFX: effect switches, prefix map, stage table
  // ---------------------------------------------------------------------

  /** PostFX::LTM, the local tone-mapping operator. */
  datatype Ltm = LtmDurand | LtmFusion

  class PostFX {
    var enableBloom: bool
    var enableGlobalToneMapping: bool
    var enableGammaCorrection: bool
    var enableAdaptation: bool
    var enableLocalToneMapping: bool
    var localToneMappingMode: Ltm
    var effectPrefixMap: map<Effect, string>
    var stages: map<string, StageConfig>
    var att: map<string, Attachment>
    var pyr: map<string, AttachmentPyramid>

    /** effectPrefixMap holds, for every effect, the prefix getEffectPrefix gives it. */
    predicate PrefixesStandard()
      reads this`effectPrefixMap
    {
      forall e :: e in effectPrefixMap && effectPrefixMap[e] == EffectPrefix(e)
    }

    /** Every table key starts with an effect prefix, and every stage declares at least one binding. */
    predicate TablesWellFormed()
      reads this`stages, this`att, this`pyr
    {
      KeyedByEffect(stages) && KeyedByEffect(att) && KeyedByEffect(pyr)
      && forall key :: key in stages ==> |stages[key].dsetBindings| > 0
    }

    /**
     * The constructor: bloom on and every other effect off, Durand as the
     * local operator, the six prefixes, and the stage, attachment and
     * pyramid entries of each effect under its prefix.
     */
    constructor ()
      ensures enableBloom && !enableGlobalToneMapping && !enableGammaCorrection
      ensures !enableAdaptation && !enableLocalToneMapping && localToneMappingMode == LtmDurand
      ensures PrefixesStandard() && TablesWellFormed()
    {
      enableBloom := true;
      enableGlobalToneMapping := false;
      enableGammaCorrection := false;
      enableAdaptation := false;
      enableLocalToneMapping := false;
      localToneMappingMode := LtmDurand;
      effectPrefixMap := EFFECT_PREFIX_MAP;
      stages, att, pyr := map[], map[], map[];
      new;
      StandardPrefixMap();
      assert TablesWellFormed();
      AddEffectTables();
    }

    /** The entries of every effect, in the constructor's order. */
    method AddEffectTables()
      requires PrefixesStandard() && TablesWellFormed()
      modifies this`stages, this`att, this`pyr
      ensures PrefixesStandard() && TablesWellFormed()
    {
      AddDurandTables();
      AddFusionTables();
      AddBloomTables();
      AddExposureTables();
      AddGlobalTables();
    }

    /** The Durand entries: three stages and four attachments. */
    method AddDurandTables()
      requires PrefixesStandard() && TablesWellFormed()
      modifies this`stages, this`att
      ensures PrefixesStandard() && TablesWellFormed()
    {
      AddStage(DURAND, "lum_chrom", StageConfig("ltm_durand_lum_chrom.comp.spv", [UB, IMG, IMG, IMG], false));
      AddStage(DURAND, "bilateral", StageConfig("ltm_durand_bilateral.comp.spv", [UB, IMG, IMG, IMG], false));
      AddStage(DURAND, "reconstruct", StageConfig("ltm_durand_reconstruct.comp.spv", [UB, IMG, IMG, IMG, IMG], false));
      AddAttachment(DURAND, "lum");
      AddAttachment(DURAND, "chrom");
      AddAttachment(DURAND, "base");
      AddAttachment(DURAND, "detail");
    }

    /** The exposure-fusion stages. */
    method AddFusionTables()
      requires PrefixesStandard() && TablesWellFormed()
      modifies this`stages, this`att, this`pyr
      ensures PrefixesStandard() && TablesWellFormed()
    {
      AddStage(FUSION, "lum_chrom_weight", StageConfig("ltm_fusion_lum_chrom_weight.comp.spv", [UB, IMG, IMG, IMG, IMG], false));
      AddFusionPyramidStages();
      AddStage(FUSION, "residual", StageConfig("ltm_fusion_residual.comp.spv", [IMG, IMG, IMG], false));
      AddStage(FUSION, "reconstruct", StageConfig("ltm_fusion_reconstruct.comp.spv", [IMG, IMG, IMG], false));
      AddStage(FUSION, "downsample", StageConfig("ltm_fusion_downsample.comp.spv", [PYR, PYR], true));
      AddFusionImages();
    }

    /** The exposure-fusion upsampling stages, which work on pyramids. */
    method AddFusionPyramidStages()
      requires PrefixesStandard() && TablesWellFormed()
      modifies this`stages
      ensures PrefixesStandard() && TablesWellFormed()
    {
      AddStage(FUSION, "upsample0_sub", StageConfig("ltm_fusion_upsample.comp.spv", [PYR, PYR], true));
      AddStage(FUSION, "upsample1_sub", StageConfig("ltm_fusion_laplacian.comp.spv", [PYR, PYR, PYR, PYR], true));
      AddStage(FUSION, "upsample0_add", StageConfig("ltm_fusion_upsample.comp.spv", [PYR, PYR], true));
      AddStage(FUSION, "upsample1_add", StageConfig("ltm_fusion_blended_laplacian_sum.comp.spv", [PYR, PYR], true));
    }

    /** The exposure-fusion chrominance attachment and its four pyramids. */
    method AddFusionImages()
      requires PrefixesStandard() && TablesWellFormed()
      modifies this`att, this`pyr
      ensures PrefixesStandard() && TablesWellFormed()
    {
      AddAttachment(FUSION, "chrom");
      AddPyramid(FUSION, "blendedLaplac");
      AddPyramid(FUSION, "weight");
      AddPyramid(FUSION, "lum");
      AddPyramid(FUSION, "upsampled0");
    }

    /** The bloom entries: four stages and the highlights pyramid. */
    method AddBloomTables()
      requires PrefixesStandard() && TablesWellFormed()
      modifies this`stages, this`pyr
      ensures PrefixesStandard() && TablesWellFormed()
    {
      AddStage(BLOOM, "threshold", StageConfig("bloom_threshold.comp.spv", [UB, IMG, IMG], false));
      AddStage(BLOOM, "downsample", StageConfig("bloom_downsample.comp.spv", [UB, PYR], true));
      AddStage(BLOOM, "upsample", StageConfig("bloom_upsample.comp.spv", [UB, PYR], true));
      AddStage(BLOOM, "combine", StageConfig("bloom_combine.comp.spv", [UB, IMG, IMG], false));
      AddPyramid(BLOOM, "highlights");
    }

    /** The exposure-adaptation entries: three stages. */
    method AddExposureTables()
      requires PrefixesStandard() && TablesWellFormed()
      modifies this`stages
      ensures PrefixesStandard() && TablesWellFormed()
    {
      AddStage(EXPADP, "histogram", StageConfig("expadp_histogram.comp.spv", [SSBO, UB, IMG], false));
      AddStage(EXPADP, "avglum", StageConfig("expadp_average_luminance.comp.spv", [SSBO, UB], false));
      AddStage(EXPADP, "eyeadp", StageConfig("expadp_eye_adaptation.comp.spv", [SSBO, IMG], false));
    }

    /** The global tone-mapping and gamma entries: one stage each. */
    method AddGlobalTables()
      requires PrefixesStandard() && TablesWellFormed()
      modifies this`stages
      ensures PrefixesStandard() && TablesWellFormed()
    {
      AddStage(GTMO, "0", StageConfig("global_tone_mapping.comp.spv", [UB, IMG], false));
      AddStage(GAMMA, "0", StageConfig("gamma_correction.comp.spv", [UB, IMG], false));
    }

    /** Register a stage under the effect's prefix followed by name. */
    method AddStage(e: Effect, name: string, config: StageConfig)
      requires PrefixesStandard() && TablesWellFormed() && |config.dsetBindings| > 0
      modifies this`stages
      ensures PrefixesStandard() && TablesWellFormed()
      ensures stages == old(stages)[EffectPrefix(e) + name := config]
    {
      KeyedByEffectInsert(stages, e, name, config);
      stages := stages[GetPrefixFromEffect(e) + name := config];
    }

    /** Register an (empty) attachment under the effect's prefix followed by name. */
    method AddAttachment(e: Effect, name: string)
      requires PrefixesStandard() && TablesWellFormed()
      modifies this`att
      ensures PrefixesStandard() && TablesWellFormed()
      ensures att == old(att)[EffectPrefix(e) + name := Attachment(NULL_HANDLE)]
    {
      KeyedByEffectInsert(att, e, name, Attachment(NULL_HANDLE));
      att := att[GetPrefixFromEffect(e) + name := Attachment(NULL_HANDLE)];
    }

    /** Register an (empty) pyramid under the effect's prefix followed by name. */
    method AddPyramid(e: Effect, name: string)
      requires PrefixesStandard() && TablesWellFormed()
      modifies this`pyr
      ensures PrefixesStandard() && TablesWellFormed()
      ensures pyr == old(pyr)[EffectPrefix(e) + name := AttachmentPyramid([])]
    {
      KeyedByEffectInsert(pyr, e, name, AttachmentPyramid([]));
      pyr := pyr[GetPrefixFromEffect(e) + name := AttachmentPyramid([])];
    }

    /**
     * getPrefixFromEffect: the prefix effectPrefixMap holds for the effect
     * (std::map's operator[] yields "" for an effect it lacks).
     */
    function GetPrefixFromEffect(fct: Effect): (r: string)
      reads this`effectPrefixMap
      ensures PrefixesStandard() ==> r == EffectPrefix(fct)
      ensures fct !in effectPrefixMap ==> r == ""
    {
      if fct in effectPrefixMap then effectPrefixMap[fct] else ""
    }

    /** Whether the map gives effect e the prefix pref. */
    predicate HasPrefix(e: Effect, pref: string)
      reads this`effectPrefixMap
    {
      e in effectPrefixMap && effectPrefixMap[e] == pref
    }

    /**
     * getEffectFromPrefix: scan effectPrefixMap in key order for the
     * prefix.  None stands for the ASSERT(false) an unknown prefix hits.
     * With the standard prefixes it inverts getPrefixFromEffect.
     */
    method GetEffectFromPrefix(pref: string) returns (r: Option<Effect>)
      ensures r.Some? ==> HasPrefix(r.value, pref) && GetPrefixFromEffect(r.value) == pref
      ensures r.Some? ==> forall j :: 0 <= j < Ord(r.value) ==> !HasPrefix(ALL_EFFECTS[j], pref)
      ensures r.None? <==> forall e :: !HasPrefix(e, pref)
      ensures PrefixesStandard() ==> forall e :: pref == GetPrefixFromEffect(e) ==> r == Some(e)
    {
      for i := 0 to |ALL_EFFECTS|
        invariant forall j :: 0 <= j < i ==> !HasPrefix(ALL_EFFECTS[j], pref)
      {
        var e := ALL_EFFECTS[i];
        if e in effectPrefixMap && effectPrefixMap[e] == pref {
          assert i == Ord(e);
          assert HasPrefix(e, pref);
          r := Some(e);
          if PrefixesStandard() {
            forall e' | pref == GetPrefixFromEffect(e') ensures r == Some(e') {
              EffectPrefixInjective(e, e');
            }
          }
          return;
        }
      }
      forall e ensures !HasPrefix(e, pref) {
        assert ALL_EFFECTS[Ord(e)] == e;
      }
      assert PrefixesStandard() ==> forall e :: pref != GetPrefixFromEffect(e) by {
        if PrefixesStandard() {
          forall e ensures pref != GetPrefixFromEffect(e) {
            assert !HasPrefix(e, pref);
          }
        }
      }
      r := None;
    }

    /**
     * isEffectEnabled: each global effect follows its own switch; Durand
     * and exposure fusion need local tone mapping on and their own mode.
     */
    function IsEffectEnabled(fct: Effect): (r: bool)
      reads this`enableBloom, this`enableAdaptation, this`enableGlobalToneMapping, this`enableGammaCorrection,
            this`enableLocalToneMapping, this`localToneMappingMode
      ensures fct == BLOOM ==> (r <==> enableBloom)
      ensures fct == EXPADP ==> (r <==> enableAdaptation)
      ensures fct == GTMO ==> (r <==> enableGlobalToneMapping)
      ensures fct == GAMMA ==> (r <==> enableGammaCorrection)
      ensures (fct == DURAND || fct == FUSION) && r ==> enableLocalToneMapping
      ensures fct == DURAND && enableLocalToneMapping ==> (r <==> localToneMappingMode == LtmDurand)
      ensures fct == FUSION && enableLocalToneMapping ==> (r <==> localToneMappingMode == LtmFusion)
    {
      match fct
      case DURAND => enableLocalToneMapping && localToneMappingMode == LtmDurand
      case FUSION => enableLocalToneMapping && localToneMappingMode == LtmFusion
      case BLOOM => enableBloom
      case EXPADP => enableAdaptation
      case GTMO => enableGlobalToneMapping
      case GAMMA => enableGammaCorrection
    }

    /** Stage: the stage keyed by the effect's prefix followed by key, which must exist. */
    function Stage(fct: Effect, key: string): (r: StageConfig)
      reads this`effectPrefixMap, this`stages
      requires GetPrefixFromEffect(fct) + key in stages
      ensures PrefixesStandard() ==> r == stages[EffectPrefix(fct) + key]
      ensures TablesWellFormed() ==> |r.dsetBindings| > 0
    {
      stages[GetPrefixFromEffect(fct) + key]
    }

    /** Att: the attachment keyed by the effect's prefix followed by key, which must exist. */
    function Att(fct: Effect, key: string): (r: Attachment)
      reads this`effectPrefixMap, this`att
      requires GetPrefixFromEffect(fct) + key in att
      ensures PrefixesStandard() ==> r == att[EffectPrefix(fct) + key]
    {
      att[GetPrefixFromEffect(fct) + key]
    }

    /** Pyr: the pyramid keyed by the effect's prefix followed by key, which must exist. */
    function Pyr(fct: Effect, key: string): (r: AttachmentPyramid)
      reads this`effectPrefixMap, this`pyr
      requires GetPrefixFromEffect(fct) + key in pyr
      ensures PrefixesStandard() ==> r == pyr[EffectPrefix(fct) + key]
    {
      pyr[GetPrefixFromEffect(fct) + key]
    }
  }

  /** The two local tone-mapping operators are never enabled together. */
  lemma LocalOperatorsExclusive(fx: PostFX)
    ensures !(fx.IsEffectEnabled(DURAND) && fx.IsEffectEnabled(FUSION))
  {
  }

  /** With the constructor's switches, bloom is the only effect enabled. */
  lemma DefaultsEnableOnlyBloom(fx: PostFX, e: Effect)
    requires fx.enableBloom && !fx.enableGlobalToneMapping && !fx.enableGammaCorrection
    requires !fx.enableAdaptation && !fx.enableLocalToneMapping
    ensures fx.IsEffectEnabled(e) <==> e == BLOOM
  {
  }

  /**
   * Distinct (effect, key) pairs never reach the same stage entry: with
   * the standard prefixes, Stage(e1, k1) and Stage(e2, k2) read one entry
   * only when e1 == e2 and k1 == k2.
   */
  lemma StageKeysDistinct(fx: PostFX, e1: Effect, k1: string, e2: Effect, k2: string)
    requires fx.PrefixesStandard()
    requires fx.GetPrefixFromEffect(e1) + k1 == fx.GetPrefixFromEffect(e2) + k2
    ensures e1 == e2 && k1 == k2
  {
    PrefixedKeyInjective(e1, k1, e2, k2);
  }

  /** Every stage the constructor registers satisfies InitDescriptorSets' non-empty requirement. */
  lemma ConfiguredStagesInitialisable(fx: PostFX, e: Effect, key: string)
    requires fx.TablesWellFormed() && fx.GetPrefixFromEffect(e) + key in fx.stages
    ensures |fx.Stage(e, key).dsetBindings| > 0
  {
  }

  // ---------------------------------------------------------------------
  // ComputePass: the same tables keyed through getEffectPrefix
  // ---------------------------------------------------------------------

  class ComputePass {
    var stages: map<string, StageConfig>
    var att: map<string, Attachment>
    var pyr: map<string, AttachmentPyramid>

    constructor (stageTable: map<string, StageConfig>, attachments: map<string, Attachment>,
                 pyramids: map<string, AttachmentPyramid>)
      ensures stages == stageTable && att == attachments && pyr == pyramids
    {
      stages, att, pyr := stageTable, attachments, pyramids;
    }

    /** Stage: the stage keyed by getEffectPrefix(fct) + key, which must exist. */
    function Stage(fct: Effect, key: string): (r: StageConfig)
      reads this
      requires EffectPrefix(fct) + key in stages
      ensures r in stages.Values
    {
      stages[EffectPrefix(fct) + key]
    }

    /** Att: the attachment keyed by getEffectPrefix(fct) + key, which must exist. */
    function Att(fct: Effect, key: string): (r: Attachment)
      reads this
      requires EffectPrefix(fct) + key in att
      ensures r in att.Values
    {
      att[EffectPrefix(fct) + key]
    }

    /** Pyr: the pyramid keyed by getEffectPrefix(fct) + key, which must exist. */
    function Pyr(fct: Effect, key: string): (r: AttachmentPyramid)
      reads this
      requires EffectPrefix(fct) + key in pyr
      ensures r in pyr.Values
    {
      pyr[EffectPrefix(fct) + key]
    }
  }

  /**
   * PostFX with its standard map and ComputePass key the same table entry
   * for every (effect, key): over equal tables, Stage, Att and Pyr of the
   * two classes find the same entries, and fail on the same keys.
   */
  lemma SameKeying(fx: PostFX, cp: ComputePass, e: Effect, key: string)
    requires fx.PrefixesStandard()
    ensures fx.GetPrefixFromEffect(e) + key == EffectPrefix(e) + key
    ensures fx.stages == cp.stages ==>
              (fx.GetPrefixFromEffect(e) + key in fx.stages <==> EffectPrefix(e) + key in cp.stages) &&
              (EffectPrefix(e) + key in cp.stages ==> fx.Stage(e, key) == cp.Stage(e, key))
    ensures fx.att == cp.att ==>
              (fx.GetPrefixFromEffect(e) + key in fx.att <==> EffectPrefix(e) + key in cp.att) &&
              (EffectPrefix(e) + key in cp.att ==> fx.Att(e, key) == cp.Att(e, key))
    ensures fx.pyr == cp.pyr ==>
              (fx.GetPrefixFromEffect(e) + key in fx.pyr <==> EffectPrefix(e) + key in cp.pyr) &&
              (EffectPrefix(e) + key in cp.pyr ==> fx.Pyr(e, key) == cp.Pyr(e, key))
  {
  }
}

=== FILE: render.dfy ===
/**
 * drawObjects (src/render.cpp, and the later version in src/resources.cpp):
 * the header of the object storage buffer, through which the compute pass
 * hands one frame's maximum luminance to the next, the object slots
 * written after it, the per-frame dynamic offset into the scene buffer,
 * and the draw loop that rebinds the pipeline and the vertex buffer only
 * when they change.
 *
 * Model matrices are opaque ids: RenderObject::Transform is floating-point
 * work and its results are inputs.
 */
module Render {
  import opened Scene
  import opened Alignment

  /** The object slots of GPUSSBOData. */
  const MAX_OBJECTS: nat := 10

  /** The uvec4 in front of the object data: x is the new maximum, y the old one. */
  datatype Header = Header(x: nat, y: nat, z: nat, w: nat)

  /** GPUObjectData. */
  datatype ObjectData = ObjectData(modelMatrix: nat, color: Vec4, useObjectColor: int)

  /** The colour a GPUObjectData starts with: magenta, alpha -1. */
  const MAGENTA: Vec4 := Vec4(1.0, 0.0, 1.0, -1.0)
  const DEFAULT_OBJECT: ObjectData := ObjectData(0, MAGENTA, 0)

  // ---------------------------------------------------------------------
  // The luminance handshake
  // ---------------------------------------------------------------------

  /** The header after drawObjects of the given frame has prepared it. */
  function HeaderAfter(h: Header, frameNumber: nat): Header
  {
    if frameNumber == 0 then Header(0, 0, 0, 0) else Header(0, h.x, h.z, h.w)
  }

  /** What the compute shader does to the header during a frame: it raises x to the frame's maximum. */
  function ShaderRaises(h: Header, frameMax: nat): Header
  {
    h.(x := if frameMax > h.x then frameMax else h.x)
  }

  /** The header after frames 0 .. |maxima| - 1, the shader reporting maxima[k] in frame k. */
  function Frames(h: Header, maxima: seq<nat>): Header
    decreases |maxima|
  {
    if maxima == [] then h
    else
      var n := |maxima| - 1;
      ShaderRaises(HeaderAfter(Frames(h, maxima[..n]), n), maxima[n])
  }

  /**
   * The handshake: once frame k has been prepared, the old maximum (y) is
   * what the shader reported in frame k - 1 and the new maximum (x) starts
   * from 0, whatever the buffer held before frame 0; z and w stay 0.
   */
  lemma {:induction false} OldMaxIsPreviousFrameMax(h: Header, maxima: seq<nat>)
    ensures var prepared := HeaderAfter(Frames(h, maxima), |maxima|);
            prepared.x == 0 && prepared.z == 0 && prepared.w == 0 &&
            prepared.y == if maxima == [] then 0 else maxima[|maxima| - 1]
    decreases |maxima|
  {
    if maxima != [] {
      var n := |maxima| - 1;
      OldMaxIsPreviousFrameMax(h, maxima[..n]);
    }
  }

  /** The mapped object buffer of src/render.cpp: the header, then one slot per object. */
  class ObjectBuffer {
    var header: Header
    const slots: array<ObjectData>

    constructor (header: Header)
      ensures this.header == header && fresh(slots) && slots.Length == MAX_OBJECTS
      ensures forall i :: 0 <= i < MAX_OBJECTS ==> slots[i] == DEFAULT_OBJECT
    {
      this.header := header;
      slots := new ObjectData[MAX_OBJECTS](_ => DEFAULT_OBJECT);
    }
  }

  /**
   * The object-buffer upload of drawObjects in src/render.cpp: the header
   * handshake, then object i's matrix and colour into slot i; every other
   * slot and field is left alone.  `transforms[i]` is object i's transform.
   */
  method LoadObjectBuffer(buf: ObjectBuffer, frameNumber: nat, objects: seq<RenderObject>, transforms: seq<nat>)
    requires |objects| <= buf.slots.Length && |transforms| == |objects|
    modifies buf, buf.slots
    ensures buf.header == HeaderAfter(old(buf.header), frameNumber)
    ensures forall i :: 0 <= i < |objects| ==>
              buf.slots[i] == old(buf.slots[i]).(modelMatrix := transforms[i], color := objects[i].color)
    ensures forall i :: |objects| <= i < buf.slots.Length ==> buf.slots[i] == old(buf.slots[i])
  {
    if frameNumber == 0 {
      buf.header := Header(0, 0, 0, 0);
    } else {
      var t := buf.header.x;
      buf.header := buf.header.(x := buf.header.y, y := t);
      buf.header := buf.header.(x := 0);
    }
    for i := 0 to |objects|
      invariant buf.header == HeaderAfter(old(buf.header), frameNumber)
      invariant forall k :: 0 <= k < i ==>
                  buf.slots[k] == old(buf.slots[k]).(modelMatrix := transforms[k], color := objects[k].color)
      invariant forall k :: i <= k < buf.slots.Length ==> buf.slots[k] == old(buf.slots[k])
    {
      buf.slots[i] := buf.slots[i].(modelMatrix := transforms[i], color := objects[i].color);
    }
  }

  /** GPUSSBOData as src/resources.cpp uses it: the two flags, the two maxima and the object slots. */
  class SsboData {
    var exposureOn: bool
    var toneMappingOn: bool
    var newMax: nat
    var oldMax: nat
    const objects: array<ObjectData>

    constructor ()
      ensures fresh(objects) && objects.Length == MAX_OBJECTS
      ensures forall i :: 0 <= i < MAX_OBJECTS ==> objects[i] == DEFAULT_OBJECT
      ensures !exposureOn && !toneMappingOn && newMax == 0 && oldMax == 0
    {
      exposureOn, toneMappingOn := false, false;
      newMax, oldMax := 0, 0;
      objects := new ObjectData[MAX_OBJECTS](_ => DEFAULT_OBJECT);
    }
  }

  /**
   * UpdateSSBOData: the two flags from the input context, then object i's
   * matrix and colour into slot i.  The slots are a fixed array of
   * MAX_OBJECTS, so at most that many objects fit.
   */
  method UpdateSsboData(sd: SsboData, objects: seq<RenderObject>, transforms: seq<nat>, exposureEnabled: bool, toneMappingEnabled: bool)
    requires |objects| <= sd.objects.Length && |transforms| == |objects|
    modifies sd, sd.objects
    ensures sd.exposureOn == exposureEnabled && sd.toneMappingOn == toneMappingEnabled
    ensures sd.newMax == old(sd.newMax) && sd.oldMax == old(sd.oldMax)
    ensures forall i :: 0 <= i < |objects| ==>
              sd.objects[i] == old(sd.objects[i]).(modelMatrix := transforms[i], color := objects[i].color)
    ensures forall i :: |objects| <= i < sd.objects.Length ==> sd.objects[i] == old(sd.objects[i])
  {
    sd.exposureOn := exposureEnabled;
    sd.toneMappingOn := toneMappingEnabled;
    for i := 0 to |objects|
      invariant sd.exposureOn == exposureEnabled && sd.toneMappingOn == toneMappingEnabled
      invariant sd.newMax == old(sd.newMax) && sd.oldMax == old(sd.oldMax)
      invariant forall k :: 0 <= k < i ==>
                  sd.objects[k] == old(sd.objects[k]).(modelMatrix := transforms[k], color := objects[k].color)
      invariant forall k :: i <= k < sd.objects.Length ==> sd.objects[k] == old(sd.objects[k])
    {
      sd.objects[i] := sd.objects[i].(modelMatrix := transforms[i], color := objects[i].color);
    }
  }

  /**
   * The SSBO upload of drawObjects in src/resources.cpp: UpdateSSBOData,
   * then the handshake on the mapped maxima, which are copied into the
   * engine's copy, and finally the whole engine copy into the mapped
   * buffer.  Afterwards both hold the same data, the new maximum is 0 and
   * the old one is the mapped new maximum of the previous frame (0 on
   * frame 0).
   */
  method UploadSsbo(sd: SsboData, mapped: SsboData, frameNumber: nat, objects: seq<RenderObject>, transforms: seq<nat>,
                    exposureEnabled: bool, toneMappingEnabled: bool)
    requires sd != mapped && sd.objects != mapped.objects
    requires sd.objects.Length == mapped.objects.Length == MAX_OBJECTS
    requires |objects| <= MAX_OBJECTS && |transforms| == |objects|
    modifies sd, sd.objects, mapped, mapped.objects
    ensures sd.newMax == 0 && sd.oldMax == (if frameNumber == 0 then 0 else old(mapped.newMax))
    ensures sd.exposureOn == exposureEnabled && sd.toneMappingOn == toneMappingEnabled
    ensures forall i :: 0 <= i < |objects| ==>
              sd.objects[i] == old(sd.objects[i]).(modelMatrix := transforms[i], color := objects[i].color)
    ensures forall i :: |objects| <= i < MAX_OBJECTS ==> sd.objects[i] == old(sd.objects[i])
    ensures mapped.newMax == sd.newMax && mapped.oldMax == sd.oldMax
    ensures mapped.exposureOn == sd.exposureOn && mapped.toneMappingOn == sd.toneMappingOn
    ensures mapped.objects[..] == sd.objects[..]
  {
    UpdateSsboData(sd, objects, transforms, exposureEnabled, toneMappingEnabled);
    if frameNumber == 0 {
      mapped.newMax := 0;
      mapped.oldMax := 0;
    } else {
      mapped.newMax, mapped.oldMax := mapped.oldMax, mapped.newMax;
      mapped.newMax := 0;
    }
    sd.newMax := mapped.newMax;
    sd.oldMax := mapped.oldMax;
    // memcpy of the whole structure
    mapped.exposureOn, mapped.toneMappingOn := sd.exposureOn, sd.toneMappingOn;
    forall i | 0 <= i < MAX_OBJECTS {
      mapped.objects[i] := sd.objects[i];
    }
  }

  // ---------------------------------------------------------------------
  // The scene buffer's dynamic offset
  // ---------------------------------------------------------------------

  /**
   * uniform_offset: the padded GPUSceneData size times the frame slot,
   * computed in size_t and stored in a uint32_t.  The frame's GPUSceneData
   * is written at the same product, kept in size_t.
   */
  function UniformOffset(sceneDataSize: nat, minUboAlignment: nat, frame: nat): (r: nat)
    requires sceneDataSize < SIZE_T_LIMIT && minUboAlignment < SIZE_T_LIMIT
    requires minUboAlignment == 0 || IsPowerOfTwo(minUboAlignment)
    ensures r < UINT32_LIMIT
  {
    (PadUniformBufferSize(sceneDataSize, minUboAlignment) * frame) % SIZE_T_LIMIT % UINT32_LIMIT
  }

  /**
   * While the slots fit in 32 bits, the offset bound for frame f is where
   * that frame's scene data is written, it meets the device's alignment for
   * dynamic offsets, and frame f's scene data ends before frame f + 1's
   * begins.
   */
  lemma UniformSlotsDisjoint(sceneDataSize: nat, minUboAlignment: nat, frame: nat)
    requires sceneDataSize < SIZE_T_LIMIT && 0 < minUboAlignment < SIZE_T_LIMIT && IsPowerOfTwo(minUboAlignment)
    requires sceneDataSize + minUboAlignment - 1 < SIZE_T_LIMIT
    requires PadUniformBufferSize(sceneDataSize, minUboAlignment) * (frame + 1) < UINT32_LIMIT
    ensures UniformOffset(sceneDataSize, minUboAlignment, frame) == PadUniformBufferSize(sceneDataSize, minUboAlignment) * frame
    ensures UniformOffset(sceneDataSize, minUboAlignment, frame) % minUboAlignment == 0
    ensures UniformOffset(sceneDataSize, minUboAlignment, frame) + sceneDataSize
            <= UniformOffset(sceneDataSize, minUboAlignment, frame + 1)
  {
    var p := PadUniformBufferSize(sceneDataSize, minUboAlignment);
    SlotArithmetic(p, minUboAlignment, sceneDataSize, frame);
    NarrowSmall(p * frame);
    NarrowSmall(p * (frame + 1));
  }

  /** A slot of size p, a multiple of a and at least size, starts at a multiple of a and holds size bytes. */
  lemma SlotArithmetic(p: nat, a: nat, size: nat, frame: nat)
    requires a > 0 && p % a == 0 && size <= p
    ensures p * frame <= p * (frame + 1) && (p * frame) % a == 0
    ensures p * frame + size <= p * (frame + 1)
  {
    var q := p / a;
    assert p == q * a + p % a;
    assert p * frame == (q * frame) * a;
    DivModUnique(p * frame, a, q * frame, 0);
    assert p * (frame + 1) == p * frame + p;
  }

  /** A value below 2^32 is unchanged by the size_t and uint32_t truncations. */
  lemma NarrowSmall(x: nat)
    requires x < UINT32_LIMIT
    ensures x % SIZE_T_LIMIT % UINT32_LIMIT == x
  {
  }

  // ---------------------------------------------------------------------
  // The bind-on-change draw loop
  // ---------------------------------------------------------------------

  /**
   * What the draw loop reads of one object: its material pointer, whether
   * that material has a texture set, its mesh pointer and the mesh's
   * vertex count.  0 stands for nullptr.
   */
  datatype DrawItem = DrawItem(material: nat, textured: bool, mesh: nat, vertexCount: nat)

  /**
   * The recorded commands: a pipeline bind with its descriptor sets and the
   * scene buffer's dynamic offset, a vertex-buffer bind, a draw.
   */
  datatype Command =
    | BindPipeline(material: nat, setCount: nat, uniformOffset: nat)
    | BindVertexBuffer(mesh: nat)
    | Draw(vertexCount: nat, firstInstance: nat)

  /** lastMaterial and lastMesh before object i. */
  function Prev(objects: seq<DrawItem>, i: nat): (nat, nat)
    requires i <= |objects|
  {
    if i == 0 then (0, 0) else (objects[i - 1].material, objects[i - 1].mesh)
  }

  /** The commands for object i, given what the previous object bound. */
  function StepCommands(last: (nat, nat), o: DrawItem, i: nat, offset: nat): seq<Command>
  {
    (if o.material != last.0 then [BindPipeline(o.material, if o.textured then 3 else 2, offset)] else []) +
    (if o.mesh != last.1 then [BindVertexBuffer(o.mesh)] else []) +
    [Draw(o.vertexCount, i)]
  }

  /** The commands the loop records for the objects. */
  function DrawSpec(objects: seq<DrawItem>, offset: nat): seq<Command>
    decreases |objects|
  {
    if objects == [] then []
    else
      var n := |objects| - 1;
      DrawSpec(objects[..n], offset) + StepCommands(Prev(objects, n), objects[n], n, offset)
  }

  /** The pipeline and vertex buffer bound after the commands, starting from `st`. */
  function BoundAfter(st: (nat, nat), cmds: seq<Command>): (nat, nat)
    decreases |cmds|
  {
    if cmds == [] then st
    else
      var n := |cmds| - 1;
      var prev := BoundAfter(st, cmds[..n]);
      match cmds[n]
      case BindPipeline(m, _, _) => (m, prev.1)
      case BindVertexBuffer(v) => (prev.0, v)
      case Draw(_, _) => prev
  }

  lemma {:induction false} BoundAppend(st: (nat, nat), a: seq<Command>, b: seq<Command>)
    ensures BoundAfter(st, a + b) == BoundAfter(BoundAfter(st, a), b)
    decreases |b|
  {
    if b == [] {
      assert a + b == a;
    } else {
      var n := |b| - 1;
      assert (a + b)[..|a + b| - 1] == a + b[..n];
      BoundAppend(st, a, b[..n]);
    }
  }

  /** Whatever was bound before, one object's commands leave its own material and mesh bound. */
  lemma StepBound(st: (nat, nat), o: DrawItem, i: nat, offset: nat)
    ensures BoundAfter(st, StepCommands(st, o, i, offset)) == (o.material, o.mesh)
  {
    var p: seq<Command> := if o.material != st.0 then [BindPipeline(o.material, if o.textured then 3 else 2, offset)] else [];
    var v: seq<Command> := if o.mesh != st.1 then [BindVertexBuffer(o.mesh)] else [];
    var d := [Draw(o.vertexCount, i)];
    assert StepCommands(st, o, i, offset) == p + v + d;
    BoundAppend(st, p + v, d);
    BoundAppend(st, p, v);
    assert BoundAfter(st, p) == (if o.material != st.0 then o.material else st.0, st.1) by {
      if p != [] {
        assert p[..0] == [];
      }
    }
    var afterP := BoundAfter(st, p);
    assert BoundAfter(afterP, v) == (afterP.0, if o.mesh != st.1 then o.mesh else st.1) by {
      if v != [] {
        assert v[..0] == [];
      }
    }
    assert d[..0] == [];
  }

  /** After the commands for a run of objects, what is bound is the last object's material and mesh. */
  lemma {:induction false} BoundIsLastObject(objects: seq<DrawItem>, offset: nat)
    ensures BoundAfter((0, 0), DrawSpec(objects, offset)) == Prev(objects, |objects|)
    decreases |objects|
  {
    if objects != [] {
      var n := |objects| - 1;
      var init := objects[..n];
      BoundIsLastObject(init, offset);
      assert Prev(init, n) == Prev(objects, n);
      var step := StepCommands(Prev(objects, n), objects[n], n, offset);
      BoundAppend((0, 0), DrawSpec(init, offset), step);
      StepBound(Prev(objects, n), objects[n], n, offset);
    }
  }

  /** The commands for the first k objects are a prefix of the commands for all of them. */
  lemma {:induction false} DrawSpecPrefix(objects: seq<DrawItem>, k: nat, offset: nat)
    requires k <= |objects|
    ensures DrawSpec(objects[..k], offset) <= DrawSpec(objects, offset)
    decreases |objects|
  {
    if k < |objects| {
      var n := |objects| - 1;
      assert objects[..n][..k] == objects[..k];
      DrawSpecPrefix(objects[..n], k, offset);
    } else {
      assert objects[..k] == objects;
    }
  }

  /**
   * Skipping a bind when nothing changed is sound: object i's draw is
   * recorded with instance index i, and when it runs, the pipeline bound
   * is object i's material and the vertex buffer object i's mesh.
   */
  lemma DrawSeesItsObject(objects: seq<DrawItem>, i: nat, offset: nat)
    requires i < |objects|
    ensures var pre := DrawSpec(objects[..i + 1], offset);
            pre <= DrawSpec(objects, offset) && |pre| > 0 &&
            pre[|pre| - 1] == Draw(objects[i].vertexCount, i) &&
            BoundAfter((0, 0), pre) == (objects[i].material, objects[i].mesh)
  {
    DrawSpecPrefix(objects, i + 1, offset);
    BoundIsLastObject(objects[..i + 1], offset);
  }

  /**
   * The draw loop of drawObjects.  Every object must have a material and a
   * mesh (the loop asserts it, after the binds have already dereferenced
   * them).  `offset` is the frame's UniformOffset, the same for every bind.
   */
  method DrawObjects(objects: seq<DrawItem>, offset: nat) returns (cmds: seq<Command>)
    requires forall i :: 0 <= i < |objects| ==> objects[i].material != 0 && objects[i].mesh != 0
    ensures cmds == DrawSpec(objects, offset)
  {
    cmds := [];
    var lastMaterial, lastMesh := 0, 0;
    for i := 0 to |objects|
      invariant cmds == DrawSpec(objects[..i], offset)
      invariant (lastMaterial, lastMesh) == Prev(objects, i)
    {
      var obj := objects[i];
      ghost var last := (lastMaterial, lastMesh);
      if obj.material != lastMaterial {
        cmds := cmds + [BindPipeline(obj.material, if obj.textured then 3 else 2, offset)];
        lastMaterial := obj.material;
      }
      if obj.mesh != lastMesh {
        cmds := cmds + [BindVertexBuffer(obj.mesh)];
        lastMesh := obj.mesh;
      }
      cmds := cmds + [Draw(obj.vertexCount, i)];
      assert objects[..i + 1][..i] == objects[..i];
      assert Prev(objects[..i + 1], i) == last;
    }
    assert objects[..|objects|] == objects;
  }
}

=== FILE: scene.dfy ===
/**
 * The scene objects the engine draws (RenderObject in src/resources.h) and
 * the small vector types their fields use.  Floating-point components are
 * modelled as reals; they are only copied and compared, never computed with.
 */
module Scene {

  datatype Vec3 = Vec3(x: real, y: real, z: real)
  datatype Vec4 = Vec4(x: real, y: real, z: real, w: real)

  const ZERO3: Vec3 := Vec3(0.0, 0.0, 0.0)

  /**
   * A RenderObject.  Mesh, material and model pointers are opaque ids,
   * 0 standing for nullptr; the transform (rot, scale) is left out.  No code
   * changes a tag after the object is made, so it is a constant here.
   */
  class RenderObject {
    const tag: string
    var color: Vec4
    var mesh: nat
    var material: nat
    var model: nat
    var isSkybox: bool
    var isLightSource: bool
    var pos: Vec3
    var prevPos: Vec3

    constructor (tag: string, color: Vec4, mesh: nat, material: nat, pos: Vec3)
      ensures this.tag == tag && this.color == color && this.mesh == mesh && this.material == material
      ensures this.pos == pos && this.model == 0 && !isSkybox && !isLightSource && prevPos == ZERO3
    {
      this.tag := tag;
      this.color := color;
      this.mesh := mesh;
      this.material := material;
      this.model := 0;
      this.isSkybox := false;
      this.isLightSource := false;
      this.pos := pos;
      this.prevPos := ZERO3;
    }

    /** The light-source sphere createScene makes for each light (src/assets.cpp). */
    constructor LightSource(tag: string, color: Vec4, model: nat, pos: Vec3)
      ensures this.tag == tag && this.color == color && this.model == model && this.pos == pos
      ensures isLightSource && !isSkybox && mesh == 0 && material == 0 && prevPos == ZERO3
    {
      this.tag := tag;
      this.color := color;
      this.mesh := 0;
      this.material := 0;
      this.model := model;
      this.isSkybox := false;
      this.isLightSource := true;
      this.pos := pos;
      this.prevPos := ZERO3;
    }

    /** HasMoved: whether pos differs from the position recorded last time, which is then updated. */
    method HasMoved() returns (moved: bool)
      modifies this`prevPos
      ensures moved <==> old(pos) != old(prevPos)
      ensures prevPos == pos
    {
      moved := pos != prevPos;
      prevPos := pos;
    }
  }

  /** Two HasMoved calls with no movement in between: the second reports no movement. */
  method HasMovedTwice(obj: RenderObject) returns (first: bool, second: bool)
    modifies obj
    ensures first <==> old(obj.pos) != old(obj.prevPos)
    ensures !second
  {
    first := obj.HasMoved();
    second := obj.HasMoved();
  }
}

=== FILE: scene_state.dfy ===
/**
 * Engine-level scene bookkeeping: the name-keyed resource caches (get_cache
 * and the getMaterial/getMesh/getTexture/getModel lookups), showing and
 * hiding the light-source objects (setDisplayLightSourceObjects), the light
 * objects createScene adds, cleanupScene, and the global texture counters
 * the OBJ loader advances.
 *
 * Resources are opaque ids; a cache maps a name to the stored value, and a
 * pointer to that value is modelled by the value itself.
 */
module SceneState {
  import opened Wrappers
  import opened Vk
  import opened Seqs
  import opened Scene
  import Lights
  import Deletion

  // ---------------------------------------------------------------------
  // get_cache
  // ---------------------------------------------------------------------

  /** get_cache: nothing (nullptr) iff the name is absent, otherwise the stored entry. */
  function GetCache<T>(name: string, cache: map<string, T>): (r: Option<T>)
    ensures r.None? <==> name !in cache
    ensures r.Some? ==> r.value == cache[name]
  {
    if name in cache then Some(cache[name]) else None
  }

  /** Storing under a name makes the lookup find it, and leaves every other name's lookup as it was. */
  lemma CacheAfterStore<T>(cache: map<string, T>, name: string, v: T, other: string)
    ensures GetCache(name, cache[name := v]) == Some(v)
    ensures other != name ==> GetCache(other, cache[name := v]) == GetCache(other, cache)
  {
  }

  datatype Material = Material(pipeline: Handle, pipelineLayout: Handle, textureSet: Handle)

  /** A texture: its image and the global index the OBJ loader gave it (-1 before that). */
  datatype Texture = Texture(image: Handle, globalIndex: int)

  // ---------------------------------------------------------------------
  // Tags and the light-object lists
  // ---------------------------------------------------------------------

  function Tags(s: seq<RenderObject>): (ts: seq<string>)
    ensures |ts| == |s| && forall i :: 0 <= i < |s| ==> ts[i] == s[i].tag
  {
    seq(|s|, i requires 0 <= i < |s| => s[i].tag)
  }

  lemma TagOfMember(s: seq<RenderObject>, x: RenderObject)
    requires x in s
    ensures x.tag in Tags(s)
  {
    var i :| 0 <= i < |s| && s[i] == x;
    assert Tags(s)[i] == x.tag;
  }

  /** The tags createScene gives the light objects: "light" followed by the light's number. */
  const LIGHT_TAGS: seq<string> := ["light0", "light1", "light2", "light3"]
  const LIGHT_OBJECT_COLOR: Vec4 := Vec4(10.0, 10.0, 10.0, 1.0)

  /**
   * The renderables after setDisplayLightSourceObjects(true): each light
   * object, in order, is appended unless an object with its tag is
   * already there.
   */
  function ShowSpec(r: seq<RenderObject>, lights: seq<RenderObject>): seq<RenderObject>
    decreases |lights|
  {
    if lights == [] then r
    else
      var prev := ShowSpec(r, lights[..|lights| - 1]);
      var l := lights[|lights| - 1];
      if l.tag in Tags(prev) then prev else prev + [l]
  }

  /**
   * Showing keeps every renderable in place, leaves every light tag among
   * the renderables, appends nothing but light objects, and adds no
   * duplicate tag.
   */
  lemma {:induction false} ShowKeepsAndCovers(r: seq<RenderObject>, lights: seq<RenderObject>)
    ensures var res := ShowSpec(r, lights);
            |res| >= |r| && res[..|r|] == r &&
            (forall l :: l in lights ==> l.tag in Tags(res)) &&
            (forall k :: |r| <= k < |res| ==> res[k] in lights) &&
            (NoDuplicates(Tags(r)) ==> NoDuplicates(Tags(res)))
    decreases |lights|
  {
    if lights != [] {
      var init := lights[..|lights| - 1];
      var l := lights[|lights| - 1];
      ShowKeepsAndCovers(r, init);
      var prev := ShowSpec(r, init);
      var res := ShowSpec(r, lights);
      assert res[..|prev|] == prev;
      assert res[..|r|] == prev[..|r|];
      forall x | x in lights ensures x.tag in Tags(res) {
        if x == l {
          if l.tag !in Tags(prev) {
            assert res[|prev|] == l;
            TagOfMember(res, l);
          }
        } else {
          assert x in init;
          assert x.tag in Tags(prev);
          var i :| 0 <= i < |prev| && Tags(prev)[i] == x.tag;
          assert Tags(res)[i] == x.tag;
        }
      }
      forall k | |r| <= k < |res| ensures res[k] in lights {
        if k < |prev| {
          assert res[k] == prev[k];
          assert prev[k] in init;
        }
      }
    }
  }

  /** Showing when every light tag is already present changes nothing. */
  lemma {:induction false} ShowNoop(s: seq<RenderObject>, lights: seq<RenderObject>)
    requires forall l :: l in lights ==> l.tag in Tags(s)
    ensures ShowSpec(s, lights) == s
    decreases |lights|
  {
    if lights != [] {
      var init := lights[..|lights| - 1];
      assert forall l :: l in init ==> l in lights;
      ShowNoop(s, init);
      assert lights[|lights| - 1] in lights;
    }
  }

  /** A second setDisplayLightSourceObjects(true) changes nothing. */
  lemma ShowIdempotent(r: seq<RenderObject>, lights: seq<RenderObject>)
    ensures ShowSpec(ShowSpec(r, lights), lights) == ShowSpec(r, lights)
  {
    ShowKeepsAndCovers(r, lights);
    ShowNoop(ShowSpec(r, lights), lights);
  }

  function NotLight(lightTags: seq<string>): RenderObject -> bool
  {
    (o: RenderObject) => o.tag !in lightTags
  }

  /** The renderables after a hide that removes every light-tagged object and keeps the rest in order. */
  function HideSpec(r: seq<RenderObject>, lights: seq<RenderObject>): seq<RenderObject>
  {
    Filter(r, NotLight(Tags(lights)))
  }

  /**
   * One turn of the hide loop that steps back after an erase: the object
   * under the index is the next unvisited one; erasing it, or stepping
   * past it, extends the filtered prefix by that object.
   */
  lemma HideStep(r0: seq<RenderObject>, k: nat, cur: seq<RenderObject>, i: nat, lightTags: seq<string>)
    requires k < |r0|
    requires cur == Filter(r0[..k], NotLight(lightTags)) + r0[k..]
    requires i == |Filter(r0[..k], NotLight(lightTags))|
    ensures i < |cur| && cur[i] == r0[k]
    ensures var p := NotLight(lightTags);
            && (cur[i].tag in lightTags ==>
                  cur[..i] + cur[i + 1..] == Filter(r0[..k + 1], p) + r0[k + 1..] && i == |Filter(r0[..k + 1], p)|)
            && (cur[i].tag !in lightTags ==>
                  cur == Filter(r0[..k + 1], p) + r0[k + 1..] && i + 1 == |Filter(r0[..k + 1], p)|)
  {
    var p := NotLight(lightTags);
    FilterAppend(r0[..k], r0[k], p);
    assert r0[..k + 1] == r0[..k] + [r0[k]];
    assert r0[k..] == [r0[k]] + r0[k + 1..];
  }

  /** Hiding removes exactly the objects whose tag is a light tag. */
  lemma HideRemovesExactlyLights(r: seq<RenderObject>, lights: seq<RenderObject>)
    ensures forall o :: o in HideSpec(r, lights) <==> o in r && o.tag !in Tags(lights)
    ensures forall o :: o in HideSpec(r, lights) ==> o !in lights
  {
    forall o ensures o in HideSpec(r, lights) <==> o in r && o.tag !in Tags(lights) {
      FilterMembers(r, NotLight(Tags(lights)), o);
    }
    forall o | o in lights ensures o !in HideSpec(r, lights) {
      TagOfMember(lights, o);
    }
  }

  /** Hiding after showing gives what hiding alone gives. */
  lemma HideAfterShow(r: seq<RenderObject>, lights: seq<RenderObject>)
    ensures HideSpec(ShowSpec(r, lights), lights) == HideSpec(r, lights)
  {
    var p := NotLight(Tags(lights));
    var res := ShowSpec(r, lights);
    ShowKeepsAndCovers(r, lights);
    var added := res[|r|..];
    assert res == r + added;
    FilterConcat(r, added, p);
    forall x | x in added ensures !p(x) {
      TagOfMember(lights, x);
    }
    FilterNone(added, p);
  }

  /** The light-source objects of createScene: object i is a light source at light i's position, drawn with the sphere model. */
  ghost predicate LightObjectsAt(objs: seq<RenderObject>, sphere: nat, lights: seq<Lights.Light>)
    reads set o | o in objs
  {
    forall i :: 0 <= i < |objs| ==>
      i < |lights| && objs[i].isLightSource && objs[i].pos == lights[i].position &&
      objs[i].model == sphere && objs[i].color == LIGHT_OBJECT_COLOR
  }

  // ---------------------------------------------------------------------
  // setDisplayLightSourceObjects(false) as written
  // ---------------------------------------------------------------------

  /**
   * The inner loop of the hide branch at renderable i, from light j on: a
   * match erases renderable i and the next light is compared with the
   * element that slid into place i.  Reading renderable i once it is past
   * the end gives None.
   */
  function ScanLights(r: seq<RenderObject>, lightTags: seq<string>, i: nat, j: nat): (res: Option<seq<RenderObject>>)
    ensures res.Some? ==> |res.value| <= |r|
    decreases |lightTags| - j
  {
    if j >= |lightTags| then Some(r)
    else if i >= |r| then None
    else if r[i].tag == lightTags[j] then ScanLights(r[..i] + r[i + 1..], lightTags, i, j + 1)
    else ScanLights(r, lightTags, i, j + 1)
  }

  /** The hide branch as written, from renderable i on: i advances after every scan, erased or not. */
  function HideAsWritten(r: seq<RenderObject>, lightTags: seq<string>, i: nat): Option<seq<RenderObject>>
    decreases |r| - i
  {
    if i >= |r| then Some(r)
    else match ScanLights(r, lightTags, i, 0)
      case None => None
      case Some(r') => HideAsWritten(r', lightTags, i + 1)
  }

  /** With lights light0, light1, ...: [light1, light0] keeps light0, since the erase of light1 steps over it. */
  lemma HideSkipsNext(a: RenderObject, b: RenderObject)
    requires a.tag == "light1" && b.tag == "light0"
    ensures HideAsWritten([a, b], LIGHT_TAGS, 0) == Some([b])
  {
    assert [a, b][..0] + [a, b][1..] == [b];
  }

  /** With lights light0, light1, ...: [main, light0] reads one past the end after erasing light0. */
  lemma HideReadsPastEnd(m: RenderObject, b: RenderObject)
    requires m.tag == "main" && b.tag == "light0"
    ensures HideAsWritten([m, b], LIGHT_TAGS, 0) == None
  {
    assert [m, b][..1] + [m, b][2..] == [m];
    assert ScanLights([m], LIGHT_TAGS, 1, 1) == None;
    assert ScanLights([m, b], LIGHT_TAGS, 1, 0) == None;
    assert m.tag != LIGHT_TAGS[0] && m.tag != LIGHT_TAGS[1] && m.tag != LIGHT_TAGS[2] && m.tag != LIGHT_TAGS[3];
    assert ScanLights([m, b], LIGHT_TAGS, 0, 3) == Some([m, b]);
    assert ScanLights([m, b], LIGHT_TAGS, 0, 1) == Some([m, b]);
    assert ScanLights([m, b], LIGHT_TAGS, 0, 0) == Some([m, b]);
    assert HideAsWritten([m, b], LIGHT_TAGS, 1) == None;
  }

  /** The inner loop over renderables that are the lights from j on, in order: each erase brings the next light under index 0. */
  lemma {:induction false} ScanLightsAlone(r: seq<RenderObject>, lightTags: seq<string>, j: nat)
    requires j <= |lightTags| && Tags(r) == lightTags[j..]
    ensures ScanLights(r, lightTags, 0, j) == Some([])
    decreases |lightTags| - j
  {
    if j < |lightTags| {
      assert Tags(r)[0] == lightTags[j];
      assert Tags(r[1..]) == lightTags[j + 1..] by {
        assert forall k :: 0 <= k < |r| - 1 ==> Tags(r[1..])[k] == Tags(r)[k + 1];
      }
      ScanLightsAlone(r[1..], lightTags, j + 1);
      assert r[..0] + r[1..] == r[1..];
    } else {
      assert |Tags(r)| == 0;
    }
  }

  /**
   * When the renderables are exactly the light objects, as in createScene
   * right after cleanupScene, the hide as written reads nothing past the
   * end and agrees with the intended hide: both remove every object.
   */
  lemma HideAsWrittenOnLightsAlone(r: seq<RenderObject>)
    ensures HideAsWritten(r, Tags(r), 0) == Some(HideSpec(r, r))
    ensures HideSpec(r, r) == []
  {
    assert Tags(r)[0..] == Tags(r);
    ScanLightsAlone(r, Tags(r), 0);
    forall x | x in r ensures !NotLight(Tags(r))(x) {
      TagOfMember(r, x);
    }
    FilterNone(r, NotLight(Tags(r)));
  }

  // ---------------------------------------------------------------------
  // The engine's scene state
  // ---------------------------------------------------------------------

  class Engine {
    var renderables: seq<RenderObject>
    var ctx: Lights.RenderContext
    var materials: map<string, Material>
    var meshes: map<string, nat>
    var textures: map<string, Texture>
    var models: map<string, nat>
    var deletionStack: Deletion.DeletionStack
    var sceneDisposeStack: Deletion.DeletionStack
    /** modelLoaderGlobalDiffuseTexIndex and modelLoaderGlobalBumpTexIndex. */
    var diffuseTexIndex: nat
    var bumpTexIndex: nat
    var diffTexOrdered: seq<string>
    var bumpTexOrdered: seq<string>

    /** An engine before any scene is loaded: every container empty, both counters 0. */
    constructor (ctx: Lights.RenderContext, deletionStack: Deletion.DeletionStack, sceneDisposeStack: Deletion.DeletionStack)
      ensures this.ctx == ctx && this.deletionStack == deletionStack && this.sceneDisposeStack == sceneDisposeStack
      ensures renderables == [] && materials == map[] && meshes == map[] && textures == map[] && models == map[]
      ensures diffuseTexIndex == 0 && bumpTexIndex == 0 && diffTexOrdered == [] && bumpTexOrdered == []
      ensures TextureCountersValid()
    {
      this.ctx := ctx;
      this.deletionStack := deletionStack;
      this.sceneDisposeStack := sceneDisposeStack;
      renderables := [];
      materials, meshes, textures, models := map[], map[], map[], map[];
      diffuseTexIndex, bumpTexIndex := 0, 0;
      diffTexOrdered, bumpTexOrdered := [], [];
    }

    /** Each global texture counter is the length of its insertion-ordered list. */
    predicate TextureCountersValid()
      reads this
    {
      diffuseTexIndex == |diffTexOrdered| && bumpTexIndex == |bumpTexOrdered|
    }

    function GetMaterial(name: string): (r: Option<Material>)
      reads this
      ensures r.None? <==> name !in materials
      ensures r.Some? ==> r.value == materials[name]
    {
      GetCache(name, materials)
    }

    function GetMesh(name: string): (r: Option<nat>)
      reads this
      ensures r.None? <==> name !in meshes
      ensures r.Some? ==> r.value == meshes[name]
    {
      GetCache(name, meshes)
    }

    function GetTexture(name: string): (r: Option<Texture>)
      reads this
      ensures r.None? <==> name !in textures
      ensures r.Some? ==> r.value == textures[name]
    {
      GetCache(name, textures)
    }

    function GetModel(name: string): (r: Option<nat>)
      reads this
      ensures r.None? <==> name !in models
      ensures r.Some? ==> r.value == models[name]
    {
      GetCache(name, models)
    }

    /**
     * createMaterial: store (or overwrite) the material under its name and
     * push its cleanup on the deletion stack; the lookup then finds it.
     */
    method CreateMaterial(pipeline: Handle, layout: Handle, name: string, cleanup: nat) returns (mat: Material)
      modifies this`materials, deletionStack
      ensures materials == old(materials)[name := mat] && mat == Material(pipeline, layout, NULL_HANDLE)
      ensures GetMaterial(name) == Some(mat)
      ensures forall other :: other != name ==> GetMaterial(other) == old(GetMaterial(other))
      ensures deletionStack.deletors == old(deletionStack.deletors) + [cleanup]
    {
      mat := Material(pipeline, layout, NULL_HANDLE);
      materials := materials[name := mat];
      deletionStack.Push(cleanup);
    }

    /** std::find_if over the renderables for an object with the tag. */
    static method FindTag(s: seq<RenderObject>, t: string) returns (found: bool)
      ensures found <==> t in Tags(s)
    {
      for k := 0 to |s|
        invariant forall m :: 0 <= m < k ==> s[m].tag != t
      {
        if s[k].tag == t {
          assert Tags(s)[k] == t;
          return true;
        }
      }
      return false;
    }

    /**
     * setDisplayLightSourceObjects: showing appends each missing light
     * object; hiding removes every light-tagged renderable.  The hide loop
     * here steps back after an erase, which the source does not do (see
     * HideLightObjectsAsWritten).
     */
    method SetDisplayLightSourceObjects(display: bool)
      modifies this`renderables
      ensures display ==> renderables == ShowSpec(old(renderables), ctx.lightObjects)
      ensures !display ==> renderables == HideSpec(old(renderables), ctx.lightObjects)
    {
      var lights := ctx.lightObjects;
      if !display {
        var lightTags := Tags(lights);
        var p := NotLight(lightTags);
        ghost var r0 := renderables;
        var i := 0;
        ghost var k := 0;
        while i < |renderables|
          invariant k <= |r0| && i <= |renderables|
          invariant renderables == Filter(r0[..k], p) + r0[k..]
          invariant i == |Filter(r0[..k], p)|
          decreases |renderables| - i
        {
          HideStep(r0, k, renderables, i, lightTags);
          if renderables[i].tag in lightTags {
            renderables := renderables[..i] + renderables[i + 1..];
          } else {
            i := i + 1;
          }
          k := k + 1;
        }
        assert r0[..k] == r0;
      } else {
        for j := 0 to |lights|
          invariant renderables == ShowSpec(old(renderables), lights[..j])
        {
          var l := lights[j];
          var found := FindTag(renderables, l.tag);
          if !found {
            renderables := renderables + [l];
          }
          assert lights[..j + 1][..j] == lights[..j];
        }
        assert lights[..|lights|] == lights;
      }
    }

    /**
     * The hide branch of setDisplayLightSourceObjects as written: after an
     * erase the index still advances, so the element that slid into place
     * is compared only with the remaining lights; false where it reads past
     * the end of the renderables.
     */
    method HideLightObjectsAsWritten() returns (ok: bool)
      modifies this`renderables
      ensures var res := HideAsWritten(old(renderables), Tags(ctx.lightObjects), 0);
              (ok <==> res.Some?) && (ok ==> renderables == res.value)
    {
      var lights := ctx.lightObjects;
      ghost var lightTags := Tags(lights);
      var i := 0;
      while i < |renderables|
        invariant HideAsWritten(old(renderables), lightTags, 0) == HideAsWritten(renderables, lightTags, i)
        decreases |renderables| - i
      {
        ghost var before := renderables;
        for j := 0 to |lights|
          invariant ScanLights(before, lightTags, i, 0) == ScanLights(renderables, lightTags, i, j)
        {
          if i >= |renderables| {
            return false;
          }
          if renderables[i].tag == lights[j].tag {
            renderables := renderables[..i] + renderables[i + 1..];
          }
        }
        i := i + 1;
      }
      return true;
    }

    /**
     * The light objects of createScene: when the "sphere" model is loaded,
     * one light-source object per light, tagged light0..light3 at the
     * light's position, goes to both the renderables and the light objects;
     * then setDisplayLightSourceObjects applies the display setting, its
     * hide branch as written.  `ok` is false where that loop reads past the
     * end of the renderables.
     */
    method CreateLightObjects() returns (created: seq<RenderObject>, ok: bool)
      requires ctx.Valid()
      modifies this`renderables, ctx`lightObjects
      ensures "sphere" !in models ==> ok && created == [] && renderables == old(renderables) && ctx.lightObjects == old(ctx.lightObjects)
      ensures "sphere" in models ==> |created| == Lights.MAX_LIGHTS && Tags(created) == LIGHT_TAGS
      ensures ctx.lightObjects == old(ctx.lightObjects) + created
      ensures forall i :: 0 <= i < |created| ==> fresh(created[i])
      ensures "sphere" in models ==> LightObjectsAt(created, models["sphere"], ctx.lights)
      ensures "sphere" in models && ctx.displayLightSourceObjects ==>
                ok && renderables == ShowSpec(old(renderables) + created, ctx.lightObjects)
      ensures "sphere" in models && !ctx.displayLightSourceObjects ==>
                var res := HideAsWritten(old(renderables) + created, Tags(ctx.lightObjects), 0);
                (ok <==> res.Some?) && (ok ==> renderables == res.value)
      ensures old(renderables) == [] && old(ctx.lightObjects) == [] ==>
                ok && renderables == if ctx.displayLightSourceObjects then ShowSpec(created, created) else HideSpec(created, created)
    {
      created := [];
      ok := true;
      if "sphere" in models {
        var sphere := models["sphere"];
        created := AddLightObjects(sphere);
        if old(renderables) == [] && old(ctx.lightObjects) == [] {
          assert renderables == created && ctx.lightObjects == created;
          HideAsWrittenOnLightsAlone(created);
        }
        ok := ApplyLightDisplay();
      }
    }

    /** The loop of createScene over the lights: one sphere object per light, appended to both lists. */
    method AddLightObjects(sphere: nat) returns (created: seq<RenderObject>)
      requires ctx.Valid()
      modifies this`renderables, ctx`lightObjects
      ensures |created| == Lights.MAX_LIGHTS && Tags(created) == LIGHT_TAGS
      ensures renderables == old(renderables) + created
      ensures ctx.lightObjects == old(ctx.lightObjects) + created
      ensures forall i :: 0 <= i < |created| ==> fresh(created[i])
      ensures LightObjectsAt(created, sphere, ctx.lights)
    {
      created := [];
      for i := 0 to Lights.MAX_LIGHTS
        invariant |created| == i && Tags(created) == LIGHT_TAGS[..i]
        invariant renderables == old(renderables) + created
        invariant ctx.lightObjects == old(ctx.lightObjects) + created
        invariant forall k :: 0 <= k < i ==>
                    fresh(created[k]) && created[k].isLightSource && created[k].pos == ctx.lights[k].position &&
                    created[k].model == sphere && created[k].color == LIGHT_OBJECT_COLOR
      {
        var obj := new RenderObject.LightSource(LIGHT_TAGS[i], LIGHT_OBJECT_COLOR, sphere, ctx.lights[i].position);
        renderables := renderables + [obj];
        ctx.lightObjects := ctx.lightObjects + [obj];
        created := created + [obj];
      }
    }

    /** setDisplayLightSourceObjects(displayLightSourceObjects) as written: show, or the as-written hide. */
    method ApplyLightDisplay() returns (ok: bool)
      modifies this`renderables
      ensures ctx.displayLightSourceObjects ==> ok && renderables == ShowSpec(old(renderables), ctx.lightObjects)
      ensures !ctx.displayLightSourceObjects ==>
                var res := HideAsWritten(old(renderables), Tags(ctx.lightObjects), 0);
                (ok <==> res.Some?) && (ok ==> renderables == res.value)
    {
      if ctx.displayLightSourceObjects {
        SetDisplayLightSourceObjects(true);
        ok := true;
      } else {
        ok := HideLightObjectsAsWritten();
      }
    }

    /**
     * One texture of a loaded model (loadModelTexture and the counter
     * update): an already loaded texture is reused, otherwise it is loaded,
     * and loading aborts when the file is missing or cannot be read.  The
     * texture then takes the current counter as its global index, is
     * appended to the insertion-ordered list, and the counter advances.
     */
    method RegisterModelTexture(filename: string, bump: bool, fileExists: bool, loaded: Option<Handle>) returns (ok: bool)
      requires TextureCountersValid()
      modifies this`textures, this`diffuseTexIndex, this`bumpTexIndex, this`diffTexOrdered, this`bumpTexOrdered
      ensures TextureCountersValid()
      ensures !ok <==> filename !in old(textures) && (!fileExists || loaded.None?)
      ensures !ok ==> textures == old(textures) && diffTexOrdered == old(diffTexOrdered) && bumpTexOrdered == old(bumpTexOrdered)
      ensures ok ==> filename in textures && textures == old(textures)[filename := textures[filename]]
      ensures ok && filename in old(textures) ==> textures[filename].image == old(textures)[filename].image
      ensures ok && filename !in old(textures) ==> textures[filename].image == loaded.value
      ensures ok && !bump ==> diffTexOrdered == old(diffTexOrdered) + [filename] && bumpTexOrdered == old(bumpTexOrdered) &&
                              textures[filename].globalIndex == old(diffuseTexIndex) &&
                              diffTexOrdered[textures[filename].globalIndex] == filename
      ensures ok && bump ==> bumpTexOrdered == old(bumpTexOrdered) + [filename] && diffTexOrdered == old(diffTexOrdered) &&
                             textures[filename].globalIndex == old(bumpTexIndex) &&
                             bumpTexOrdered[textures[filename].globalIndex] == filename
    {
      var image: Handle;
      if filename in textures {
        image := textures[filename].image;
      } else if !fileExists || loaded.None? {
        return false;
      } else {
        image := loaded.value;
      }
      if !bump {
        textures := textures[filename := Texture(image, diffuseTexIndex)];
        diffTexOrdered := diffTexOrdered + [filename];
        diffuseTexIndex := diffuseTexIndex + 1;
      } else {
        textures := textures[filename := Texture(image, bumpTexIndex)];
        bumpTexOrdered := bumpTexOrdered + [filename];
        bumpTexIndex := bumpTexIndex + 1;
      }
      return true;
    }

    /**
     * cleanupScene: every scene container is emptied, the scene's dispose
     * stack is flushed and both texture counters restart at 0; materials
     * survive.
     */
    method CleanupScene() returns (disposed: seq<nat>)
      modifies this, ctx`lightObjects, sceneDisposeStack
      ensures renderables == [] && ctx.lightObjects == [] && models == map[] && meshes == map[] && textures == map[]
      ensures diffuseTexIndex == 0 && bumpTexIndex == 0 && diffTexOrdered == [] && bumpTexOrdered == []
      ensures TextureCountersValid()
      ensures disposed == Deletion.Reverse(old(sceneDisposeStack.deletors)) && sceneDisposeStack.deletors == []
      ensures materials == old(materials) && ctx == old(ctx) && sceneDisposeStack == old(sceneDisposeStack)
      ensures forall name :: GetModel(name).None? && GetMesh(name).None? && GetTexture(name).None?
    {
      renderables := [];
      ctx.lightObjects := [];
      models := map[];
      disposed := sceneDisposeStack.Flush();
      meshes := map[];
      textures := map[];
      diffuseTexIndex := 0;
      bumpTexIndex := 0;
      diffTexOrdered := [];
      bumpTexOrdered := [];
    }
  }
}

=== FILE: scripts.dfy ===
/**
 * The repository's build scripts: compile_shaders.py and build-n-run.py at
 * the top level, and scripts/compile_shaders.py and
 * scripts/linux-build-n-run.py.  Each script is a method over its
 * environment: the arguments, the platform, which() results, existence
 * checks, directory listings (in the order os.listdir returns them) and
 * the exit codes of the processes it starts are inputs; what it does is
 * the sequence of actions it returns, and how it ends.
 */
module Scripts {
  import opened Wrappers

  /** What a script does to its surroundings, in order. */
  datatype Action =
    | Echo(text: string)            // a line on standard output
    | Chdir(path: string)           // os.chdir
    | MakeDirs(path: string)        // os.makedirs
    | System(command: string)       // os.system, exit status ignored
    | Run(command: string)          // subprocess.run
    | RemoveFile(path: string)      // os.remove
    | RemoveTree(path: string)      // shutil.rmtree
    | Chmod(path: string, mode: nat)
    | RetryRemoval(path: string)    // the rmtree step handed to the error handler, called again

  /** How a script ends: running off its end, exit(code), or an uncaught exception. */
  datatype End = Finished | Exited(code: int) | Raised

  datatype Platform = Win32 | Linux | OtherPlatform

  /** os.path.join's separator on the platform. */
  function Sep(platform: Platform): char
  {
    if platform == Win32 then '\\' else '/'
  }

  /** os.path.join of relative, non-empty components. */
  function Join(a: string, b: string, sep: char): (r: string)
    ensures |r| == |a| + 1 + |b| && r[..|a|] == a && r[|a|] == sep && r[|a| + 1..] == b
  {
    var r := a + [sep] + b;
    assert r[..|a|] == a && r[|a| + 1..] == b;
    r
  }

  /** str.endswith for one suffix. */
  predicate EndsWith(s: string, suffix: string)
  {
    |suffix| <= |s| && s[|s| - |suffix|..] == suffix
  }

  /** The six shader stage extensions both compile scripts select. */
  const SHADER_EXTENSIONS: seq<string> := [".frag", ".vert", ".geom", ".tesc", ".tese", ".comp"]

  /** str.endswith with the tuple of shader extensions. */
  predicate IsShaderSource(f: string)
  {
    exists i :: 0 <= i < |SHADER_EXTENSIONS| && EndsWith(f, SHADER_EXTENSIONS[i])
  }

  /** The listing entries a compile loop selects, in listing order. */
  function Selected(listing: seq<string>): (r: seq<string>)
    ensures |r| <= |listing|
    ensures forall f :: f in r <==> f in listing && IsShaderSource(f)
  {
    if |listing| == 0 then []
    else Selected(listing[..|listing| - 1]) + (if IsShaderSource(listing[|listing| - 1]) then [listing[|listing| - 1]] else [])
  }

  lemma SelectedStep(listing: seq<string>, i: nat)
    requires i < |listing|
    ensures Selected(listing[..i + 1]) ==
              Selected(listing[..i]) + (if IsShaderSource(listing[i]) then [listing[i]] else [])
  {
    assert listing[..i + 1][..i] == listing[..i];
  }

  // ---------------------------------------------------------------------
  // scripts/compile_shaders.py
  // ---------------------------------------------------------------------

  const USAGE: string := "Usage: python compile_shaders.py <path to cmake source dir>"
  const GLSLC_NOT_FOUND: string := "Error: glslc not found"

  /**
   * The glslc path the script settles on: the which() hit, else on win32
   * the bundled external/shaderc/glslc.  None is the failed lookup outside
   * win32 (on linux the script exits; elsewhere glslc stays None).
   */
  function ResolveGlslc(which: Option<string>, platform: Platform): (r: Option<string>)
    ensures which.Some? ==> r == which
    ensures which.None? && platform == Win32 ==> r == Some(Join(Join("external", "shaderc", '\\'), "glslc", '\\'))
    ensures which.None? && platform != Win32 ==> r.None?
  {
    if which.Some? then which
    else if platform == Win32 then Some(Join(Join("external", "shaderc", Sep(platform)), "glslc", Sep(platform)))
    else None
  }

  function ShaderSrcDir(sep: char): string { Join(Join("assets", "shaders", sep), "src", sep) }
  function ShaderBinDir(sep: char): string { Join(Join("assets", "shaders", sep), "bin", sep) }

  /** The command for one source: bin_dir/<full file name>.spv as output; debug_flags plays no part. */
  function GlslcCommand(glslc: string, f: string, sep: char): string
  {
    glslc + " -g " + Join(ShaderSrcDir(sep), f, sep) + " -o " + Join(ShaderBinDir(sep), f, sep) + ".spv"
  }

  /** The compile loop's output for the selected sources: the command echoed, then run. */
  function CompileActions(glslc: string, sources: seq<string>, sep: char): (r: seq<Action>)
    ensures |r| == 2 * |sources|
  {
    if |sources| == 0 then []
    else
      var last := sources[|sources| - 1];
      CompileActions(glslc, sources[..|sources| - 1], sep) + [Echo(GlslcCommand(glslc, last, sep)), System(GlslcCommand(glslc, last, sep))]
  }

  /** Each selected source is echoed and then compiled, in order. */
  lemma {:induction false} CompileActionsAt(glslc: string, sources: seq<string>, sep: char, i: nat)
    requires i < |sources|
    ensures CompileActions(glslc, sources, sep)[2 * i] == Echo(GlslcCommand(glslc, sources[i], sep))
    ensures CompileActions(glslc, sources, sep)[2 * i + 1] == System(GlslcCommand(glslc, sources[i], sep))
    decreases |sources|
  {
    if i < |sources| - 1 {
      CompileActionsAt(glslc, sources[..|sources| - 1], sep, i);
    }
  }

  lemma CompileActionsConcat(glslc: string, a: seq<string>, b: seq<string>, sep: char)
    ensures CompileActions(glslc, a + b, sep) == CompileActions(glslc, a, sep) + CompileActions(glslc, b, sep)
  {
    var l := CompileActions(glslc, a + b, sep);
    var r := CompileActions(glslc, a, sep) + CompileActions(glslc, b, sep);
    assert |l| == |r|;
    forall k | 0 <= k < |l| ensures l[k] == r[k] {
      CompileActionsAt(glslc, a + b, sep, k / 2);
      if k < 2 * |a| {
        CompileActionsAt(glslc, a, sep, k / 2);
        assert (a + b)[k / 2] == a[k / 2];
      } else {
        CompileActionsAt(glslc, b, sep, k / 2 - |a|);
        assert (a + b)[k / 2] == b[k / 2 - |a|];
        assert r[k] == CompileActions(glslc, b, sep)[k - 2 * |a|];
      }
    }
  }

  /**
   * The compile loop of scripts/compile_shaders.py: bin_dir is created at
   * the first selected source if it does not exist yet, and each selected
   * source is echoed and compiled.
   */
  method CompileLoop(glslc: string, sep: char, binDirExists: bool, listing: seq<string>) returns (actions: seq<Action>)
    ensures actions == Compiled(glslc, sep, binDirExists, Selected(listing))
  {
    actions := [];
    var binExists := binDirExists;
    for i := 0 to |listing|
      invariant binExists == (binDirExists || |Selected(listing[..i])| > 0)
      invariant actions == Compiled(glslc, sep, binDirExists, Selected(listing[..i]))
    {
      var f := listing[i];
      CompileStep(glslc, sep, binDirExists, listing, i, actions, binExists);
      if IsShaderSource(f) {
        if !binExists {
          actions := actions + [MakeDirs(ShaderBinDir(sep))];
          binExists := true;
        }
        var command := GlslcCommand(glslc, f, sep);
        actions := actions + [Echo(command), System(command)];
      }
    }
    assert listing[..|listing|] == listing;
  }

  /** The compile loop's actions once the given sources have been handled: makedirs at most once, then each compile. */
  function Compiled(glslc: string, sep: char, binDirExists: bool, sources: seq<string>): (r: seq<Action>)
    ensures |r| == 2 * |sources| + (if !binDirExists && |sources| > 0 then 1 else 0)
  {
    (if !binDirExists && |sources| > 0 then [MakeDirs(ShaderBinDir(sep))] else []) + CompileActions(glslc, sources, sep)
  }

  /** One listing entry's contribution to the compile loop, stated against the loop's state. */
  lemma CompileStep(glslc: string, sep: char, binDirExists: bool, listing: seq<string>, i: nat,
                    acts: seq<Action>, binExists: bool)
    requires i < |listing|
    requires binExists == (binDirExists || |Selected(listing[..i])| > 0)
    requires acts == Compiled(glslc, sep, binDirExists, Selected(listing[..i]))
    ensures var command := GlslcCommand(glslc, listing[i], sep);
            var next := Compiled(glslc, sep, binDirExists, Selected(listing[..i + 1]));
            && (IsShaderSource(listing[i]) ==> |Selected(listing[..i + 1])| > 0)
            && (IsShaderSource(listing[i]) && binExists ==> next == acts + [Echo(command), System(command)])
            && (IsShaderSource(listing[i]) && !binExists ==>
                  next == acts + [MakeDirs(ShaderBinDir(sep))] + [Echo(command), System(command)])
            && (!IsShaderSource(listing[i]) ==> Selected(listing[..i + 1]) == Selected(listing[..i]))
  {
    SelectedStep(listing, i);
    if IsShaderSource(listing[i]) {
      CompiledAppend(glslc, sep, binDirExists, Selected(listing[..i]), listing[i]);
    }
  }

  /** Compiling one more source: makedirs first if it is the first source and bin_dir is missing, then its two actions. */
  lemma CompiledAppend(glslc: string, sep: char, binDirExists: bool, before: seq<string>, f: string)
    ensures var command := GlslcCommand(glslc, f, sep);
            Compiled(glslc, sep, binDirExists, before + [f]) ==
              Compiled(glslc, sep, binDirExists, before)
              + (if !binDirExists && |before| == 0 then [MakeDirs(ShaderBinDir(sep))] else [])
              + [Echo(command), System(command)]
  {
    CompileActionsConcat(glslc, before, [f], sep);
    var command := GlslcCommand(glslc, f, sep);
    assert CompileActions(glslc, [f], sep) == [Echo(command), System(command)];
    if !binDirExists && |before| == 0 {
      assert CompileActions(glslc, before, sep) == [];
    }
  }

  /**
   * scripts/compile_shaders.py: exactly one argument or exit 1 with the
   * usage line; chdir into it; resolve glslc and exit 1 when it cannot be
   * found or does not exist; then, for each listing entry with a shader
   * extension, create bin_dir if it is still missing and run glslc on it.
   * The compiler's exit status is never looked at, so once past the checks
   * the script always finishes.
   */
  method CompileShaders(argv: seq<string>, platform: Platform, which: Option<string>, glslcExists: bool,
                        binDirExists: bool, listing: seq<string>)
    returns (actions: seq<Action>, end: End)
    ensures |argv| != 2 ==> actions == [Echo(USAGE)] && end == Exited(1)
    ensures |argv| == 2 ==> |actions| > 0 && actions[0] == Chdir(argv[1])
    ensures end == Raised <==> |argv| == 2 && which.None? && platform == OtherPlatform
    ensures end == Exited(1) <==> |argv| != 2 || (which.None? && platform == Linux) || (ResolveGlslc(which, platform).Some? && !glslcExists)
    ensures end == Finished <==> |argv| == 2 && ResolveGlslc(which, platform).Some? && glslcExists
    ensures end == Finished ==>
              var sep := Sep(platform);
              actions == [Chdir(argv[1])]
                         + Compiled(ResolveGlslc(which, platform).value, sep, binDirExists, Selected(listing))
  {
    if |argv| != 2 {
      return [Echo(USAGE)], Exited(1);
    }
    actions := [Chdir(argv[1])];
    var glslc := which;
    if glslc.None? {
      if platform == Win32 {
        glslc := Some(Join(Join("external", "shaderc", Sep(platform)), "glslc", Sep(platform)));
      } else if platform == Linux {
        return actions + [Echo(GLSLC_NOT_FOUND)], Exited(1);
      }
    }
    if glslc.None? {
      // os.path.exists(None) raises TypeError
      return actions, Raised;
    }
    if !glslcExists {
      return actions + [Echo(GLSLC_NOT_FOUND)], Exited(1);
    }
    var compiled := CompileLoop(glslc.value, Sep(platform), binDirExists, listing);
    actions := actions + compiled;
    end := Finished;
  }

  // ---------------------------------------------------------------------
  // compile_shaders.py (top level)
  // ---------------------------------------------------------------------

  const SPV_EXTENSION: string := ".spv"

  /** The first pass for one source: compiled next to itself as <path>.spv. */
  function CompileInPlace(f: string, sep: char): seq<Action>
  {
    var path := Join(Join("assets", "shaders", sep), f, sep);
    [Echo(path), System("glslc " + path + " -o " + path + ".spv")]
  }

  /** The second pass for one .spv entry: moved into the bin directory. */
  function MoveToBin(f: string, sep: char): seq<Action>
  {
    var path := Join(Join("assets", "shaders", sep), f, sep);
    var command := "move " + path + " " + Join(Join("assets", "shaders", sep), "bin", sep);
    [Echo(command), System(command)]
  }

  /** The first pass over a listing: every shader source, in listing order. */
  function FirstPass(listing: seq<string>, sep: char): (r: seq<Action>)
    ensures |r| == 2 * |Selected(listing)|
  {
    if |listing| == 0 then []
    else FirstPass(listing[..|listing| - 1], sep)
         + (if IsShaderSource(listing[|listing| - 1]) then CompileInPlace(listing[|listing| - 1], sep) else [])
  }

  /** The entries the second pass moves: every name ending in .spv, whoever made it. */
  function SpvEntries(listing: seq<string>): (r: seq<string>)
    ensures forall f :: f in r <==> f in listing && EndsWith(f, SPV_EXTENSION)
  {
    if |listing| == 0 then []
    else SpvEntries(listing[..|listing| - 1])
         + (if EndsWith(listing[|listing| - 1], SPV_EXTENSION) then [listing[|listing| - 1]] else [])
  }

  function SecondPass(entries: seq<string>, sep: char): (r: seq<Action>)
    ensures |r| == 2 * |entries|
    ensures forall i :: 0 <= i < |entries| ==> r[2 * i + 1] == MoveToBin(entries[i], sep)[1]
  {
    if |entries| == 0 then []
    else
      var r := SecondPass(entries[..|entries| - 1], sep) + MoveToBin(entries[|entries| - 1], sep);
      assert forall i :: 0 <= i < |entries| - 1 ==> entries[..|entries| - 1][i] == entries[i];
      r
  }

  lemma FoldStep<T>(listing: seq<T>, i: nat)
    requires i < |listing|
    ensures listing[..i + 1][..i] == listing[..i] && listing[..i + 1][i] == listing[i]
  {
  }

  /**
   * compile_shaders.py: compile every shader source of assets/shaders next
   * to itself with a bare "glslc", then list the directory again and move
   * every .spv there into bin, those that were there before the run
   * included.  Neither pass checks an exit status.
   */
  method CompileShadersInPlace(sep: char, firstListing: seq<string>, secondListing: seq<string>)
    returns (actions: seq<Action>)
    ensures actions == FirstPass(firstListing, sep) + SecondPass(SpvEntries(secondListing), sep)
    ensures |actions| == 2 * |Selected(firstListing)| + 2 * |SpvEntries(secondListing)|
  {
    actions := [];
    for i := 0 to |firstListing|
      invariant actions == FirstPass(firstListing[..i], sep)
    {
      FirstPassStep(firstListing, i, sep);
      if IsShaderSource(firstListing[i]) {
        var path := Join(Join("assets", "shaders", sep), firstListing[i], sep);
        actions := actions + [Echo(path), System("glslc " + path + " -o " + path + ".spv")];
      }
    }
    assert firstListing[..|firstListing|] == firstListing;
    ghost var first := actions;
    ghost var moved: seq<string> := [];
    for i := 0 to |secondListing|
      invariant moved == SpvEntries(secondListing[..i])
      invariant actions == first + SecondPass(moved, sep)
    {
      SpvEntriesStep(secondListing, i);
      var f := secondListing[i];
      if EndsWith(f, SPV_EXTENSION) {
        var path := Join(Join("assets", "shaders", sep), f, sep);
        var command := "move " + path + " " + Join(Join("assets", "shaders", sep), "bin", sep);
        SecondPassAppend(first, actions, moved, f, sep);
        actions := actions + [Echo(command), System(command)];
        moved := moved + [f];
      }
    }
    assert secondListing[..|secondListing|] == secondListing;
  }

  lemma FirstPassStep(listing: seq<string>, i: nat, sep: char)
    requires i < |listing|
    ensures FirstPass(listing[..i + 1], sep) ==
              FirstPass(listing[..i], sep) + (if IsShaderSource(listing[i]) then CompileInPlace(listing[i], sep) else [])
  {
    FoldStep(listing, i);
  }

  lemma SpvEntriesStep(listing: seq<string>, i: nat)
    requires i < |listing|
    ensures SpvEntries(listing[..i + 1]) ==
              SpvEntries(listing[..i]) + (if EndsWith(listing[i], SPV_EXTENSION) then [listing[i]] else [])
  {
    FoldStep(listing, i);
  }

  lemma SecondPassAppend(first: seq<Action>, acts: seq<Action>, moved: seq<string>, f: string, sep: char)
    requires acts == first + SecondPass(moved, sep)
    ensures acts + MoveToBin(f, sep) == first + SecondPass(moved + [f], sep)
  {
    assert (moved + [f])[..|moved + [f]| - 1] == moved;
  }

  /** Every .spv the second listing shows is moved, whether or not the first pass produced it. */
  lemma {:induction false} EverySpvMoved(secondListing: seq<string>, f: string, sep: char)
    requires f in secondListing && EndsWith(f, SPV_EXTENSION)
    ensures exists i :: 0 <= i < |SpvEntries(secondListing)| &&
              SecondPass(SpvEntries(secondListing), sep)[2 * i + 1] == MoveToBin(f, sep)[1]
  {
    var entries := SpvEntries(secondListing);
    assert f in entries;
    var i :| 0 <= i < |entries| && entries[i] == f;
    assert SecondPass(entries, sep)[2 * i + 1] == MoveToBin(entries[i], sep)[1];
  }

  // ---------------------------------------------------------------------
  // build-n-run.py
  // ---------------------------------------------------------------------

  const CMAKE_CONFIGURE: string := "cmake -S . -B ."
  const MSBUILD_FALLBACK: string := "C:\\Program Files\\Microsoft Visual Studio\\2022\\Community\\MSBuild\\Current\\Bin\\MSBuild.exe"
  const MSBUILD_ARGS: string := " vulkan-hdr-demo.sln /t:Build /p:Configuration=Release"
  const WINDOWS_EXE: string := "vkdemo.exe"

  /**
   * The failure report every stage gives: its message, then ret.stderr,
   * which is None because no stage captures its output.
   */
  function Failure(message: string): seq<Action>
  {
    [Echo(message), Echo("None")]
  }

  /**
   * build-n-run.py: configure with cmake, then resolve MSBuild (which()
   * first, then the Visual Studio 2022 path, which must exist), build the
   * solution, and run the executable.  Each stage runs only after the
   * previous one returned 0; the first failure exits 1.
   */
  method BuildAndRun(cmakeRet: int, whichMsbuild: Option<string>, fallbackExists: bool, msbuildRet: int, exeRet: int)
    returns (actions: seq<Action>, end: End)
    ensures cmakeRet != 0 ==> actions == [Run(CMAKE_CONFIGURE)] + Failure("CMake failed:") && end == Exited(1)
    ensures cmakeRet == 0 && whichMsbuild.None? && !fallbackExists ==>
              actions == [Run(CMAKE_CONFIGURE), Echo("MsBuild.exe not found in PATH"),
                          Echo("MsBuild.exe not found at location " + MSBUILD_FALLBACK)]
              && end == Exited(1)
    ensures cmakeRet == 0 && (whichMsbuild.Some? || fallbackExists) ==>
              var lookup := if whichMsbuild.None? then [Echo("MsBuild.exe not found in PATH")] else [];
              var build := Run((if whichMsbuild.Some? then whichMsbuild.value else MSBUILD_FALLBACK) + MSBUILD_ARGS);
              && (msbuildRet != 0 ==>
                    actions == [Run(CMAKE_CONFIGURE)] + lookup + [build] + Failure("MSBuild failed:") && end == Exited(1))
              && (msbuildRet == 0 && exeRet != 0 ==>
                    actions == [Run(CMAKE_CONFIGURE)] + lookup + [build, Run(WINDOWS_EXE)] + Failure(WINDOWS_EXE + " failed:")
                    && end == Exited(1))
              && (msbuildRet == 0 && exeRet == 0 ==>
                    actions == [Run(CMAKE_CONFIGURE)] + lookup + [build, Run(WINDOWS_EXE)] && end == Finished)
    ensures end == Finished <==> cmakeRet == 0 && (whichMsbuild.Some? || fallbackExists) && msbuildRet == 0 && exeRet == 0
    ensures end != Finished ==> end == Exited(1)
  {
    actions := [Run(CMAKE_CONFIGURE)];
    if cmakeRet != 0 {
      return actions + Failure("CMake failed:"), Exited(1);
    }
    var msbuild: string;
    if whichMsbuild.Some? {
      msbuild := whichMsbuild.value;
    } else {
      actions := actions + [Echo("MsBuild.exe not found in PATH")];
      msbuild := MSBUILD_FALLBACK;
      if !fallbackExists {
        return actions + [Echo("MsBuild.exe not found at location " + msbuild)], Exited(1);
      }
    }
    actions := actions + [Run(msbuild + MSBUILD_ARGS)];
    if msbuildRet != 0 {
      return actions + Failure("MSBuild failed:"), Exited(1);
    }
    actions := actions + [Run(WINDOWS_EXE)];
    if exeRet != 0 {
      return actions + Failure(WINDOWS_EXE + " failed:"), Exited(1);
    }
    end := Finished;
  }

  // ---------------------------------------------------------------------
  // scripts/linux-build-n-run.py
  // ---------------------------------------------------------------------

  const EXE_NAME: string := "vkdemo"
  const LINUX_BUILD_DIR: string := "linux-build"
  const CMAKE_CACHE_FILE: string := "CMakeCache.txt"
  const S_IWUSR: nat := 0x80

  /** "wsl " in front of a command iff the --linux-is-wsl flag is given. */
  function Wsl(command: string, linuxIsWsl: bool): (r: string)
    ensures linuxIsWsl ==> r == "wsl " + command
    ensures !linuxIsWsl ==> r == command
  {
    if linuxIsWsl then "wsl " + command else command
  }

  const LINUX_CONFIGURE: string := "cmake -S . -B " + LINUX_BUILD_DIR + " -DCMAKE_BUILD_TYPE=Release"
  const LINUX_RUN: string := "./" + EXE_NAME + " .."

  /** The make command the script composes (and, as written, does not use). */
  function MakeCommand(linuxIsWsl: bool): (r: string)
    ensures r == "wsl make" <==> linuxIsWsl
  {
    Wsl("make", linuxIsWsl)
  }

  /** The make command the script actually runs. */
  const MAKE_AS_WRITTEN: string := "wsl make"

  /**
   * handleRemoveReadonly, rmtree's error handler: on a path that is not
   * writable, make it writable for the owner and call the failed step once
   * more; otherwise re-raise.
   */
  method HandleRemoveReadonly(path: string, writable: bool) returns (actions: seq<Action>, reraised: bool)
    ensures reraised <==> writable
    ensures reraised ==> actions == []
    ensures !reraised ==> actions == [Chmod(path, S_IWUSR), RetryRemoval(path)]
  {
    if !writable {
      return [Chmod(path, S_IWUSR), RetryRemoval(path)], false;
    }
    return [], true;
  }

  /**
   * The stages of scripts/linux-build-n-run.py with the make command as a
   * parameter: clean, configure, enter the build directory, make, check
   * for the executable, run it; the first failure exits 1.
   */
  method LinuxStages(linuxIsWsl: bool, makeCommand: string, cacheExists: bool, buildDirExists: bool,
                     cmakeRet: int, makeRet: int, exeExists: bool, exeRet: int)
    returns (actions: seq<Action>, end: End)
    ensures var clean := (if cacheExists then [RemoveFile(CMAKE_CACHE_FILE)] else [])
                         + (if buildDirExists then [RemoveTree(LINUX_BUILD_DIR)] else []);
            var configure := clean + [Run(Wsl(LINUX_CONFIGURE, linuxIsWsl))];
            var built := configure + [Chdir(LINUX_BUILD_DIR), Run(makeCommand)];
            && (cmakeRet != 0 ==> actions == configure + Failure("CMake failed:") && end == Exited(1))
            && (cmakeRet == 0 && makeRet != 0 ==> actions == built + Failure("Make failed:") && end == Exited(1))
            && (cmakeRet == 0 && makeRet == 0 && !exeExists ==>
                  actions == built + [Echo(EXE_NAME + " not found in " + LINUX_BUILD_DIR)] && end == Exited(1))
            && (cmakeRet == 0 && makeRet == 0 && exeExists ==>
                  var ran := built + [Run(Wsl(LINUX_RUN, linuxIsWsl))];
                  (exeRet != 0 ==> actions == ran + Failure(EXE_NAME + " failed:") && end == Exited(1))
                  && (exeRet == 0 ==> actions == ran && end == Finished))
    ensures end == Finished <==> cmakeRet == 0 && makeRet == 0 && exeExists && exeRet == 0
    ensures end != Finished ==> end == Exited(1)
  {
    actions := [];
    if cacheExists {
      actions := actions + [RemoveFile(CMAKE_CACHE_FILE)];
    }
    if buildDirExists {
      actions := actions + [RemoveTree(LINUX_BUILD_DIR)];
    }
    var cmd := LINUX_CONFIGURE;
    if linuxIsWsl {
      cmd := "wsl " + cmd;
    }
    actions := actions + [Run(cmd)];
    if cmakeRet != 0 {
      return actions + Failure("CMake failed:"), Exited(1);
    }
    actions := actions + [Chdir(LINUX_BUILD_DIR), Run(makeCommand)];
    if makeRet != 0 {
      return actions + Failure("Make failed:"), Exited(1);
    }
    if !exeExists {
      return actions + [Echo(EXE_NAME + " not found in " + LINUX_BUILD_DIR)], Exited(1);
    }
    cmd := LINUX_RUN;
    if linuxIsWsl {
      cmd := "wsl " + cmd;
    }
    actions := actions + [Run(cmd)];
    if exeRet != 0 {
      return actions + Failure(EXE_NAME + " failed:"), Exited(1);
    }
    end := Finished;
  }

  /** scripts/linux-build-n-run.py as written: make runs as "wsl make" whatever the flag. */
  method LinuxBuildAndRunAsWritten(linuxIsWsl: bool, cacheExists: bool, buildDirExists: bool,
                                   cmakeRet: int, makeRet: int, exeExists: bool, exeRet: int)
    returns (actions: seq<Action>, end: End)
    ensures cmakeRet == 0 ==> Run(Wsl(LINUX_CONFIGURE, linuxIsWsl)) in actions && Run(MAKE_AS_WRITTEN) in actions
    ensures end == Finished <==> cmakeRet == 0 && makeRet == 0 && exeExists && exeRet == 0
  {
    actions, end := LinuxStages(linuxIsWsl, MAKE_AS_WRITTEN, cacheExists, buildDirExists, cmakeRet, makeRet, exeExists, exeRet);
  }

  /**
   * Without --linux-is-wsl the script still builds through WSL: the make
   * stage runs "wsl make" although the configure and run stages are
   * unprefixed.
   */
  method AsWrittenMakeIgnoresFlag() returns (actions: seq<Action>)
    ensures Run(LINUX_CONFIGURE) in actions && Run(MAKE_AS_WRITTEN) in actions
    ensures MAKE_AS_WRITTEN != MakeCommand(false)
  {
    var end;
    actions, end := LinuxBuildAndRunAsWritten(false, false, false, 0, 0, true, 0);
  }

  /**
   * scripts/linux-build-n-run.py with make run through the composed
   * command: every process goes through WSL iff the flag is given.
   */
  method LinuxBuildAndRun(linuxIsWsl: bool, cacheExists: bool, buildDirExists: bool,
                          cmakeRet: int, makeRet: int, exeExists: bool, exeRet: int)
    returns (actions: seq<Action>, end: End)
    ensures forall a :: a in actions && a.Run? ==> (linuxIsWsl <==> "wsl " <= a.command)
    ensures cmakeRet == 0 ==> Run(MakeCommand(linuxIsWsl)) in actions
    ensures end == Finished <==> cmakeRet == 0 && makeRet == 0 && exeExists && exeRet == 0
  {
    actions, end := LinuxStages(linuxIsWsl, MakeCommand(linuxIsWsl), cacheExists, buildDirExists,
                                cmakeRet, makeRet, exeExists, exeRet);
    assert LINUX_CONFIGURE[0] == 'c' && LINUX_RUN[0] == '.' && "make"[0] == 'm';
    assert forall c :: "wsl " <= "wsl " + c;
  }
}

=== FILE: seqs.dfy ===
/** Small facts about sequences shared by the other modules. */
module Seqs {

  /** Appending to a sequence leaves its first b elements alone and extends the rest. */
  lemma AppendSlices<T>(prev: seq<T>, b: nat, ext: seq<T>)
    requires b <= |prev|
    ensures (prev + ext)[..b] == prev[..b]
    ensures (prev + ext)[b..] == prev[b..] + ext
  {
  }

  predicate NoDuplicates<T(==)>(s: seq<T>)
  {
    forall i, j :: 0 <= i < j < |s| ==> s[i] != s[j]
  }

  /** The elements of s that satisfy p, in their original order. */
  function Filter<T>(s: seq<T>, p: T -> bool): (r: seq<T>)
    ensures |r| <= |s|
    ensures forall i :: 0 <= i < |r| ==> p(r[i])
  {
    if s == [] then []
    else if p(s[|s| - 1]) then Filter(s[..|s| - 1], p) + [s[|s| - 1]]
    else Filter(s[..|s| - 1], p)
  }

  lemma FilterAppend<T>(s: seq<T>, x: T, p: T -> bool)
    ensures Filter(s + [x], p) == Filter(s, p) + if p(x) then [x] else []
  {
    assert (s + [x])[..|s + [x]| - 1] == s;
  }

  lemma {:induction false} FilterConcat<T>(s: seq<T>, t: seq<T>, p: T -> bool)
    ensures Filter(s + t, p) == Filter(s, p) + Filter(t, p)
    decreases |t|
  {
    if t != [] {
      var t' := t[..|t| - 1];
      assert s + t == (s + t') + [t[|t| - 1]];
      assert t == t' + [t[|t| - 1]];
      FilterConcat(s, t', p);
      FilterAppend(s + t', t[|t| - 1], p);
      FilterAppend(t', t[|t| - 1], p);
    } else {
      assert s + t == s;
    }
  }

  /** Every element p keeps is still there after filtering, and nothing else is. */
  lemma {:induction false} FilterMembers<T>(s: seq<T>, p: T -> bool, x: T)
    ensures x in Filter(s, p) <==> x in s && p(x)
  {
    if s != [] {
      var s' := s[..|s| - 1];
      assert s == s' + [s[|s| - 1]];
      FilterMembers(s', p, x);
    }
  }

  /** Nothing survives a filter that rejects every element. */
  lemma {:induction false} FilterNone<T>(s: seq<T>, p: T -> bool)
    requires forall x :: x in s ==> !p(x)
    ensures Filter(s, p) == []
  {
    if s != [] {
      var s' := s[..|s| - 1];
      assert forall x :: x in s' ==> x in s;
      assert s[|s| - 1] in s;
      FilterNone(s', p);
    }
  }
}

=== FILE: smoothing.dfy ===
/**
 * computeSmoothingShapes and computeSmoothingShape (src/model_loader.cpp):
 * each shape's faces are sorted by (smoothing group id, face index) and
 * split into maximal runs of one group; every run becomes an output shape
 * of triangles whose corners are re-indexed into a fresh attribute set.
 * In group 0 every corner gets its own vertex; in any other group corners
 * that share an input vertex share the output vertex.
 *
 * tinyobj's output is input data.  The shapes and the attribute set that
 * the source passes by reference are values here: the methods return them.
 */
module Smoothing {
  import opened ObjData
  import opened Sorting

  // ---------------------------------------------------------------------
  // Sorting the faces by (group id, face index)
  // ---------------------------------------------------------------------

  /** 0, 1, ..., n - 1. */
  function Iota(n: nat): (r: seq<nat>)
    ensures |r| == n && forall i :: 0 <= i < n ==> r[i] == i
  {
    if n == 0 then [] else Iota(n - 1) + [n - 1]
  }

  lemma {:induction false} IotaOnce(n: nat, x: nat)
    ensures multiset(Iota(n))[x] == if x < n then 1 else 0
  {
    if n > 0 {
      IotaOnce(n - 1, x);
    }
  }

  lemma {:induction false} MulLtCancel(a: nat, c: nat, n: nat)
    requires a * n < c * n
    ensures a < c
    decreases a
  {
    if a > 0 {
      assert a * n == (a - 1) * n + n;
      assert c >= 1;
      assert c * n == (c - 1) * n + n;
      MulLtCancel(a - 1, c - 1, n);
    }
  }

  /** g * n + f with f < n orders pairs (g, f) lexicographically. */
  lemma KeyOrder(a0: nat, a1: nat, b0: nat, b1: nat, n: nat)
    requires a1 < n && b1 < n && a0 * n + a1 <= b0 * n + b1
    ensures a0 <= b0 && (a0 == b0 ==> a1 <= b1)
  {
    assert (b0 + 1) * n == b0 * n + n;
    MulLtCancel(a0, b0 + 1, n);
  }

  lemma CountTwo<T>(s: seq<T>, i: nat, j: nat)
    requires i < j < |s| && s[i] == s[j]
    ensures multiset(s)[s[i]] >= 2
  {
    assert s == s[..i] + [s[i]] + s[i + 1..j] + [s[j]] + s[j + 1..];
  }

  /** The integer that orders face f of a shape as the pair (group id, f) does. */
  function FaceKey(groups: seq<nat>): nat -> int
  {
    (f: nat) => if f < |groups| then groups[f] * |groups| + f else f
  }

  /** Pair (a, b) comes strictly before pair (c, d) in std::pair's order. */
  predicate PairLess(a: nat, b: nat, c: nat, d: nat)
  {
    a < c || (a == c && b < d)
  }

  /** The face indices in the order std::sort leaves the pairs (group id, face index). */
  function SortedFaces(groups: seq<nat>): seq<nat>
  {
    SortBy(Iota(|groups|), FaceKey(groups))
  }

  /** Every face of the shape appears in the sorted order, and nothing else does. */
  lemma SortedFacesCover(groups: seq<nat>)
    ensures var s := SortedFaces(groups);
            |s| == |groups| &&
            (forall k :: 0 <= k < |s| ==> s[k] < |groups|) &&
            (forall f :: 0 <= f < |groups| ==> f in s)
  {
    var n := |groups|;
    var s := SortedFaces(groups);
    forall k | 0 <= k < |s| ensures s[k] < n {
      assert s[k] in multiset(s);
      IotaOnce(n, s[k]);
    }
    forall f | 0 <= f < n ensures f in s {
      IotaOnce(n, f);
      assert f in multiset(s);
    }
  }

  /** The sorted faces come in strictly ascending (group id, face index) order, so no face appears twice. */
  lemma SortedFacesStrict(groups: seq<nat>)
    ensures var s := SortedFaces(groups);
            forall k, l :: 0 <= k < l < |s| ==>
              s[k] < |groups| && s[l] < |groups| && PairLess(groups[s[k]], s[k], groups[s[l]], s[l])
  {
    var n := |groups|;
    var s := SortedFaces(groups);
    var key := FaceKey(groups);
    SortedFacesCover(groups);
    forall k, l | 0 <= k < l < |s| ensures PairLess(groups[s[k]], s[k], groups[s[l]], s[l]) {
      assert key(s[k]) <= key(s[l]);
      KeyOrder(groups[s[k]], s[k], groups[s[l]], s[l], n);
      IotaOnce(n, s[k]);
      if s[k] == s[l] {
        CountTwo(s, k, l);
      }
    }
  }

  /** sortedids: the sorted pairs (group id, face index). */
  function SortedIds(groups: seq<nat>): (ids: seq<(nat, nat)>)
    ensures |ids| == |groups|
    ensures forall k :: 0 <= k < |ids| ==> ids[k].1 == SortedFaces(groups)[k] && ids[k].1 < |groups| && ids[k].0 == groups[ids[k].1]
  {
    var s := SortedFaces(groups);
    SortedFacesCover(groups);
    seq(|s|, k requires 0 <= k < |s| => (groups[s[k]], s[k]))
  }

  // ---------------------------------------------------------------------
  // Splitting the sorted ids into runs of one group
  // ---------------------------------------------------------------------

  /** The end of the maximal run of equal group ids that starts at i. */
  function RunEnd(ids: seq<(nat, nat)>, i: nat): (j: nat)
    requires i < |ids|
    ensures i < j <= |ids|
    ensures forall k :: i <= k < j ==> ids[k].0 == ids[i].0
    ensures j < |ids| ==> ids[j].0 != ids[i].0
    decreases |ids| - i
  {
    if i + 1 < |ids| && ids[i + 1].0 == ids[i].0 then RunEnd(ids, i + 1) else i + 1
  }

  /** A run that is constant and stops at a change of group or at the end is the maximal one. */
  lemma {:induction false} RunEndUnique(ids: seq<(nat, nat)>, i: nat, j: nat)
    requires i < j <= |ids|
    requires forall k :: i <= k < j ==> ids[k].0 == ids[i].0
    requires j < |ids| ==> ids[j].0 != ids[i].0
    ensures RunEnd(ids, i) == j
    decreases j - i
  {
    if i + 1 < j {
      RunEndUnique(ids, i + 1, j);
    }
  }

  /** The runs of ids[i..] as (begin, end) pairs, in order. */
  function Runs(ids: seq<(nat, nat)>, i: nat): seq<(nat, nat)>
    requires i <= |ids|
    decreases |ids| - i
  {
    if i == |ids| then [] else [(i, RunEnd(ids, i))] + Runs(ids, RunEnd(ids, i))
  }

  /** The group ids of ids[i..] never decrease. */
  ghost predicate GroupsAscend(ids: seq<(nat, nat)>)
  {
    forall k, l :: 0 <= k <= l < |ids| ==> ids[k].0 <= ids[l].0
  }

  /**
   * rs tiles [i, |ids|) without gap or overlap; each run is non-empty and
   * holds a single group id; and consecutive runs have strictly ascending
   * group ids, so no group is split in two.
   */
  ghost predicate RunsTile(ids: seq<(nat, nat)>, i: nat, rs: seq<(nat, nat)>)
  {
    && (rs == [] <==> i == |ids|)
    && (rs != [] ==> rs[0].0 == i && rs[|rs| - 1].1 == |ids|)
    && (forall r :: 0 <= r < |rs| ==> i <= rs[r].0 < rs[r].1 <= |ids|)
    && (forall r, k :: 0 <= r < |rs| && rs[r].0 <= k < rs[r].1 ==> ids[k].0 == ids[rs[r].0].0)
    && (forall r :: 0 <= r < |rs| - 1 ==> rs[r].1 == rs[r + 1].0 && ids[rs[r].0].0 < ids[rs[r + 1].0].0)
  }

  /** A run [i, j) of one group, ending where a larger group starts, followed by a tiling of the rest tiles [i, |ids|). */
  lemma RunsTileStep(ids: seq<(nat, nat)>, i: nat, j: nat, rest: seq<(nat, nat)>)
    requires i < j <= |ids|
    requires forall k :: i <= k < j ==> ids[k].0 == ids[i].0
    requires j < |ids| ==> ids[i].0 < ids[j].0
    requires RunsTile(ids, j, rest)
    ensures RunsTile(ids, i, [(i, j)] + rest)
  {
    RunsStepBounds(ids, i, j, rest);
    RunsStepGroups(ids, i, j, rest);
    RunsStepAscend(ids, i, j, rest);
  }

  lemma RunsStepBounds(ids: seq<(nat, nat)>, i: nat, j: nat, rest: seq<(nat, nat)>)
    requires i < j <= |ids|
    requires forall r :: 0 <= r < |rest| ==> j <= rest[r].0 < rest[r].1 <= |ids|
    ensures var rs := [(i, j)] + rest; forall r :: 0 <= r < |rs| ==> i <= rs[r].0 < rs[r].1 <= |ids|
  {
    var rs := [(i, j)] + rest;
    forall r | 0 <= r < |rs| ensures i <= rs[r].0 < rs[r].1 <= |ids| {
      if r > 0 { assert rs[r] == rest[r - 1]; }
    }
  }

  lemma RunsStepGroups(ids: seq<(nat, nat)>, i: nat, j: nat, rest: seq<(nat, nat)>)
    requires i < j <= |ids|
    requires forall k :: i <= k < j ==> ids[k].0 == ids[i].0
    requires forall r :: 0 <= r < |rest| ==> rest[r].1 <= |ids|
    requires forall r, k :: 0 <= r < |rest| && rest[r].0 <= k < rest[r].1 ==> ids[k].0 == ids[rest[r].0].0
    ensures var rs := [(i, j)] + rest;
            forall r, k :: 0 <= r < |rs| && rs[r].0 <= k < rs[r].1 ==> ids[k].0 == ids[rs[r].0].0
  {
    var rs := [(i, j)] + rest;
    forall r, k | 0 <= r < |rs| && rs[r].0 <= k < rs[r].1 ensures ids[k].0 == ids[rs[r].0].0 {
      if r > 0 { assert rs[r] == rest[r - 1]; }
    }
  }

  lemma RunsStepAscend(ids: seq<(nat, nat)>, i: nat, j: nat, rest: seq<(nat, nat)>)
    requires i < j <= |ids|
    requires j < |ids| ==> ids[i].0 < ids[j].0
    requires RunsTile(ids, j, rest)
    ensures var rs := [(i, j)] + rest;
            forall r :: 0 <= r < |rs| - 1 ==> rs[r].1 == rs[r + 1].0 && ids[rs[r].0].0 < ids[rs[r + 1].0].0
  {
    var rs := [(i, j)] + rest;
    forall r | 0 <= r < |rs| - 1 ensures rs[r].1 == rs[r + 1].0 && ids[rs[r].0].0 < ids[rs[r + 1].0].0 {
      if r == 0 {
        assert rs[1] == rest[0];
      } else {
        assert rs[r] == rest[r - 1] && rs[r + 1] == rest[r];
      }
    }
  }

  /** The runs of ids[i..] tile [i, |ids|) as RunsTile describes. */
  lemma {:induction false} RunsPartition(ids: seq<(nat, nat)>, i: nat)
    requires i <= |ids|
    requires GroupsAscend(ids)
    ensures RunsTile(ids, i, Runs(ids, i))
    decreases |ids| - i
  {
    if i < |ids| {
      var j := RunEnd(ids, i);
      RunsPartition(ids, j);
      if j < |ids| {
        assert ids[i].0 <= ids[j].0;
      }
      RunsTileStep(ids, i, j, Runs(ids, j));
    }
  }

  /**
   * The split loop of computeSmoothingShapes: idend is advanced while the
   * group id stays the same, and each [idbegin, idend) is one run.
   */
  method SplitRuns(ids: seq<(nat, nat)>) returns (runs: seq<(nat, nat)>)
    requires |ids| > 0
    ensures runs == Runs(ids, 0)
  {
    var n := |ids|;
    var activeid := ids[0].0;
    var id := activeid;
    var idbegin, idend := 0, 0;
    runs := [];
    while idbegin < n
      invariant idbegin <= n && idend == idbegin
      invariant idbegin < n ==> activeid == id && id == ids[idbegin].0
      invariant runs + Runs(ids, idbegin) == Runs(ids, 0)
      decreases n - idbegin
    {
      while true
        invariant idbegin <= idend < n
        invariant activeid == ids[idbegin].0 && id == ids[idend].0
        invariant forall k :: idbegin <= k < idend ==> ids[k].0 == activeid
        invariant idend == idbegin ==> id == activeid
        decreases n - idend
      {
        if activeid != id {
          break;
        }
        idend := idend + 1;
        if idend >= n {
          break;
        }
        id := ids[idend].0;
      }
      RunEndUnique(ids, idbegin, idend);
      runs := runs + [(idbegin, idend)];
      activeid := id;
      idbegin := idend;
    }
  }

  /** The sorted ids of a shape ascend by group id, as RunsPartition needs. */
  lemma SortedIdsAscend(groups: seq<nat>)
    ensures GroupsAscend(SortedIds(groups))
  {
    var ids := SortedIds(groups);
    SortedFacesStrict(groups);
    forall k, l | 0 <= k <= l < |ids| ensures ids[k].0 <= ids[l].0 {
      if k < l {
        assert PairLess(ids[k].0, ids[k].1, ids[l].0, ids[l].1);
      }
    }
  }

  // ---------------------------------------------------------------------
  // Re-indexing the corners of one run
  // ---------------------------------------------------------------------

  /**
   * What the source demands of an input corner: a vertex index (the assert
   * rules out -1) inside the positions, and a texcoord index that is -1 or
   * inside the texcoords.
   */
  predicate CornerOk(inA: Attrib, idx: Index)
  {
    0 <= idx.vertexIndex && 3 * idx.vertexIndex + 3 <= |inA.vertices| &&
    (idx.texcoordIndex == -1 || (0 <= idx.texcoordIndex && 2 * idx.texcoordIndex + 2 <= |inA.texcoords|))
  }

  /** The three coordinates of position i. */
  function Pos(vs: seq<real>, i: int): seq<real>
    requires 0 <= i && 3 * i + 3 <= |vs|
  {
    vs[3 * i..3 * i + 3]
  }

  /** The state computeSmoothingShape builds: the output mesh, the shared output attributes and the remap table. */
  datatype Acc = Acc(mesh: ObjMesh, attrib: Attrib, remap: map<int, nat>)

  /** One corner: reuse the remapped vertex in a non-zero group, otherwise append a fresh vertex. */
  function AddCorner(inA: Attrib, group: nat, idx: Index, acc: Acc): (r: Acc)
    requires CornerOk(inA, idx) && |acc.attrib.vertices| % 3 == 0
    ensures |r.attrib.vertices| % 3 == 0
  {
    var tc := idx.texcoordIndex;
    if group != 0 && idx.vertexIndex in acc.remap then
      var vi := acc.remap[idx.vertexIndex];
      acc.(mesh := acc.mesh.(indices := acc.mesh.indices + [Index(vi, vi, if tc == -1 then -1 else vi)]))
    else
      var a := acc.attrib;
      var offset := |a.vertices| / 3;
      var p := 3 * idx.vertexIndex;
      var texcoords := if tc == -1 then a.texcoords else a.texcoords + inA.texcoords[2 * tc..2 * tc + 2];
      Acc(acc.mesh.(indices := acc.mesh.indices + [Index(offset, offset, if tc == -1 then -1 else offset)]),
          Attrib(a.vertices + inA.vertices[p..p + 3], a.normals + [0.0, 0.0, 0.0], texcoords),
          acc.remap[idx.vertexIndex := offset])
  }

  /** The corners cs, first to last. */
  function AddCorners(inA: Attrib, group: nat, cs: seq<Index>, acc: Acc): (r: Acc)
    requires forall k :: 0 <= k < |cs| ==> CornerOk(inA, cs[k])
    requires |acc.attrib.vertices| % 3 == 0
    ensures |r.attrib.vertices| % 3 == 0
    decreases |cs|
  {
    if cs == [] then acc
    else AddCorner(inA, group, cs[|cs| - 1], AddCorners(inA, group, cs[..|cs| - 1], acc))
  }

  /** What the source demands of a shape: at least one face, three corners per face, and valid corners and material ids. */
  predicate ShapeOk(inA: Attrib, s: Shape)
  {
    var groups := s.mesh.smoothingGroupIds;
    |groups| > 0 && 3 * |groups| <= |s.mesh.indices| &&
    (forall k :: 0 <= k < 3 * |groups| ==> CornerOk(inA, s.mesh.indices[k])) &&
    (|s.mesh.materialIds| > 0 ==> |groups| <= |s.mesh.materialIds|)
  }

  /** The three input corners of face f. */
  function FaceCorners(s: Shape, f: nat): (cs: seq<Index>)
    requires 3 * f + 3 <= |s.mesh.indices|
    ensures |cs| == 3
  {
    s.mesh.indices[3 * f..3 * f + 3]
  }

  /** One face: a 3 in num_face_vertices, its material id when the shape has any, the group id, then its corners. */
  function AddFace(inA: Attrib, s: Shape, group: nat, f: nat, acc: Acc): (r: Acc)
    requires ShapeOk(inA, s) && f < |s.mesh.smoothingGroupIds| && |acc.attrib.vertices| % 3 == 0
    ensures |r.attrib.vertices| % 3 == 0
  {
    var m := acc.mesh;
    var mats := if |s.mesh.materialIds| > 0 then m.materialIds + [s.mesh.materialIds[f]] else m.materialIds;
    var m' := m.(numFaceVertices := m.numFaceVertices + [3], materialIds := mats,
                 smoothingGroupIds := m.smoothingGroupIds + [group]);
    AddCorners(inA, group, FaceCorners(s, f), acc.(mesh := m'))
  }

  /** The faces fs, first to last. */
  function AddFaces(inA: Attrib, s: Shape, group: nat, fs: seq<nat>, acc: Acc): (r: Acc)
    requires ShapeOk(inA, s) && |acc.attrib.vertices| % 3 == 0
    requires forall k :: 0 <= k < |fs| ==> fs[k] < |s.mesh.smoothingGroupIds|
    ensures |r.attrib.vertices| % 3 == 0
    decreases |fs|
  {
    if fs == [] then acc
    else AddFace(inA, s, group, fs[|fs| - 1], AddFaces(inA, s, group, fs[..|fs| - 1], acc))
  }

  const EMPTY_MESH: ObjMesh := ObjMesh([], [], [], [])

  /** computeSmoothingShape: the output shape for faces fs of group `group`, and the attributes grown by its vertices. */
  function SmoothShape(inA: Attrib, s: Shape, group: nat, fs: seq<nat>, outA: Attrib): (r: (Shape, Attrib))
    requires ShapeOk(inA, s) && |outA.vertices| % 3 == 0
    requires forall k :: 0 <= k < |fs| ==> fs[k] < |s.mesh.smoothingGroupIds|
    ensures |r.1.vertices| % 3 == 0
  {
    var acc := AddFaces(inA, s, group, fs, Acc(EMPTY_MESH, outA, map[]));
    (Shape(s.name, acc.mesh), acc.attrib)
  }

  // ---------------------------------------------------------------------
  // What the re-indexing guarantees
  // ---------------------------------------------------------------------

  /**
   * An output corner against its input corner: vertex and normal index
   * agree, the vertex is one appended after the first `base` vertices and
   * holds the input's position, the texcoord is -1 exactly when the input's
   * is, and otherwise it equals the vertex index.
   */
  predicate CornerMapped(inA: Attrib, base: nat, out: Attrib, inIdx: Index, outIdx: Index)
  {
    var vi := outIdx.vertexIndex;
    vi == outIdx.normalIndex && base <= vi && 3 * vi + 3 <= |out.vertices| &&
    0 <= inIdx.vertexIndex && 3 * inIdx.vertexIndex + 3 <= |inA.vertices| &&
    Pos(out.vertices, vi) == Pos(inA.vertices, inIdx.vertexIndex) &&
    (outIdx.texcoordIndex == -1 <==> inIdx.texcoordIndex == -1) &&
    (outIdx.texcoordIndex != -1 ==> outIdx.texcoordIndex == vi)
  }

  /** The attributes only grew from `base`, by whole vertices with zero normals. */
  ghost predicate AttribGrown(base: Attrib, a: Attrib)
  {
    |a.vertices| % 3 == 0 && |base.vertices| <= |a.vertices| && a.vertices[..|base.vertices|] == base.vertices &&
    |base.normals| <= |a.normals| && |a.normals| - |base.normals| == |a.vertices| - |base.vertices| &&
    a.normals[..|base.normals|] == base.normals &&
    (forall k :: |base.normals| <= k < |a.normals| ==> a.normals[k] == 0.0) &&
    |base.texcoords| <= |a.texcoords| && a.texcoords[..|base.texcoords|] == base.texcoords
  }

  /** Every output corner is mapped from its input corner. */
  ghost predicate AllMapped(inA: Attrib, b: nat, a: Attrib, ins: seq<Index>, outs: seq<Index>)
  {
    |outs| == |ins| && forall k :: 0 <= k < |ins| ==> CornerMapped(inA, b, a, ins[k], outs[k])
  }

  /** Every remap entry points at an output vertex, from the b-th on, that holds the input vertex's position. */
  ghost predicate RemapOk(inA: Attrib, b: nat, a: Attrib, remap: map<int, nat>)
  {
    forall x :: x in remap ==>
      0 <= x && 3 * x + 3 <= |inA.vertices| && b <= remap[x] && 3 * remap[x] + 3 <= |a.vertices| &&
      Pos(a.vertices, remap[x]) == Pos(inA.vertices, x)
  }

  /** Group 0: corner k got the fresh vertex b + k, and nothing else was appended. */
  ghost predicate AllFresh(base: Attrib, a: Attrib, ins: seq<Index>, outs: seq<Index>)
  {
    |a.vertices| == |base.vertices| + 3 * |ins| && |outs| == |ins| &&
    forall k :: 0 <= k < |ins| ==> outs[k].vertexIndex == |base.vertices| / 3 + k
  }

  /** Any other group: corner k's vertex is the remap entry of its input vertex. */
  ghost predicate AllShared(ins: seq<Index>, remap: map<int, nat>, outs: seq<Index>)
  {
    |outs| == |ins| &&
    forall k :: 0 <= k < |ins| ==> ins[k].vertexIndex in remap && remap[ins[k].vertexIndex] == outs[k].vertexIndex
  }

  /** What holds after the input corners `ins` are processed from the attributes `base`. */
  ghost predicate CornersInv(inA: Attrib, group: nat, base: Attrib, ins: seq<Index>, acc: Acc)
  {
    var b := |base.vertices| / 3;
    AttribGrown(base, acc.attrib) &&
    AllMapped(inA, b, acc.attrib, ins, acc.mesh.indices) &&
    RemapOk(inA, b, acc.attrib, acc.remap) &&
    (group == 0 ==> AllFresh(base, acc.attrib, ins, acc.mesh.indices)) &&
    (group != 0 ==> AllShared(ins, acc.remap, acc.mesh.indices))
  }

  /** Appending to the positions keeps the existing ones. */
  lemma PosAppend(vs: seq<real>, extra: seq<real>, x: int)
    requires 0 <= x && 3 * x + 3 <= |vs|
    ensures Pos(vs + extra, x) == Pos(vs, x)
  {
    assert (vs + extra)[3 * x..3 * x + 3] == vs[3 * x..3 * x + 3];
  }

  lemma MappedAppend(inA: Attrib, b: nat, a: Attrib, extra: seq<real>, a': Attrib, ins: seq<Index>, outs: seq<Index>, remap: map<int, nat>)
    requires a'.vertices == a.vertices + extra
    requires AllMapped(inA, b, a, ins, outs) && RemapOk(inA, b, a, remap)
    ensures AllMapped(inA, b, a', ins, outs) && RemapOk(inA, b, a', remap)
  {
    forall k | 0 <= k < |ins| ensures CornerMapped(inA, b, a', ins[k], outs[k]) {
      PosAppend(a.vertices, extra, outs[k].vertexIndex);
    }
    forall x | x in remap ensures Pos(a'.vertices, remap[x]) == Pos(inA.vertices, x) {
      PosAppend(a.vertices, extra, remap[x]);
    }
  }

  /** A corner whose input vertex is already remapped in a non-zero group keeps the invariant. */
  lemma ReuseKeeps(inA: Attrib, group: nat, base: Attrib, ins: seq<Index>, c: Index, acc: Acc)
    requires |base.vertices| % 3 == 0 && CornerOk(inA, c) && |acc.attrib.vertices| % 3 == 0
    requires group != 0 && c.vertexIndex in acc.remap
    requires CornersInv(inA, group, base, ins, acc)
    ensures CornersInv(inA, group, base, ins + [c], AddCorner(inA, group, c, acc))
  {
    var r := AddCorner(inA, group, c, acc);
    var b := |base.vertices| / 3;
    var ins' := ins + [c];
    assert r.attrib == acc.attrib && r.remap == acc.remap;
    assert r.mesh.indices == acc.mesh.indices + [r.mesh.indices[|ins|]];
    forall k | 0 <= k < |ins'|
      ensures CornerMapped(inA, b, r.attrib, ins'[k], r.mesh.indices[k])
      ensures ins'[k].vertexIndex in r.remap && r.remap[ins'[k].vertexIndex] == r.mesh.indices[k].vertexIndex
    {
      if k < |ins| {
        assert ins'[k] == ins[k] && r.mesh.indices[k] == acc.mesh.indices[k];
      }
    }
  }

  /** A corner that gets a fresh vertex keeps the invariant. */
  lemma FreshKeeps(inA: Attrib, group: nat, base: Attrib, ins: seq<Index>, c: Index, acc: Acc)
    requires |base.vertices| % 3 == 0 && CornerOk(inA, c) && |acc.attrib.vertices| % 3 == 0
    requires !(group != 0 && c.vertexIndex in acc.remap)
    requires CornersInv(inA, group, base, ins, acc)
    ensures CornersInv(inA, group, base, ins + [c], AddCorner(inA, group, c, acc))
  {
    var r := AddCorner(inA, group, c, acc);
    var a, a' := acc.attrib, r.attrib;
    var b := |base.vertices| / 3;
    var ins' := ins + [c];
    var offset := |a.vertices| / 3;
    var p := 3 * c.vertexIndex;
    var extra := inA.vertices[p..p + 3];
    assert a'.vertices == a.vertices + extra;
    assert offset * 3 == |a.vertices|;
    assert Pos(a'.vertices, offset) == Pos(inA.vertices, c.vertexIndex);
    assert a'.vertices[..|base.vertices|] == a.vertices[..|base.vertices|];
    assert a'.normals[..|base.normals|] == a.normals[..|base.normals|];
    assert a'.texcoords[..|base.texcoords|] == a.texcoords[..|base.texcoords|];
    assert AttribGrown(base, a');
    MappedAppend(inA, b, a, extra, a', ins, acc.mesh.indices, acc.remap);
    assert b <= offset;
    assert r.mesh.indices == acc.mesh.indices + [Index(offset, offset, if c.texcoordIndex == -1 then -1 else offset)];
    forall k | 0 <= k < |ins'| ensures CornerMapped(inA, b, a', ins'[k], r.mesh.indices[k]) {
      if k < |ins| {
        assert ins'[k] == ins[k] && r.mesh.indices[k] == acc.mesh.indices[k];
      }
    }
    assert RemapOk(inA, b, a', r.remap);
    if group != 0 {
      forall k | 0 <= k < |ins'|
        ensures ins'[k].vertexIndex in r.remap && r.remap[ins'[k].vertexIndex] == r.mesh.indices[k].vertexIndex
      {
        if k < |ins| {
          assert ins'[k] == ins[k] && r.mesh.indices[k] == acc.mesh.indices[k];
        }
      }
    } else {
      assert offset == b + |ins|;
      forall k | 0 <= k < |ins'| ensures r.mesh.indices[k].vertexIndex == b + k {
        if k < |ins| {
          assert r.mesh.indices[k] == acc.mesh.indices[k];
        }
      }
    }
  }

  /** AddCorner keeps the invariant and changes nothing in the mesh but its indices. */
  lemma AddCornerKeeps(inA: Attrib, group: nat, base: Attrib, ins: seq<Index>, c: Index, acc: Acc)
    requires |base.vertices| % 3 == 0 && CornerOk(inA, c) && |acc.attrib.vertices| % 3 == 0
    requires CornersInv(inA, group, base, ins, acc)
    ensures CornersInv(inA, group, base, ins + [c], AddCorner(inA, group, c, acc))
  {
    if group != 0 && c.vertexIndex in acc.remap {
      ReuseKeeps(inA, group, base, ins, c, acc);
    } else {
      FreshKeeps(inA, group, base, ins, c, acc);
    }
  }

  lemma {:induction false} AddCornersKeeps(inA: Attrib, group: nat, base: Attrib, ins: seq<Index>, cs: seq<Index>, acc: Acc)
    requires |base.vertices| % 3 == 0 && |acc.attrib.vertices| % 3 == 0
    requires forall k :: 0 <= k < |cs| ==> CornerOk(inA, cs[k])
    requires CornersInv(inA, group, base, ins, acc)
    ensures CornersInv(inA, group, base, ins + cs, AddCorners(inA, group, cs, acc))
    decreases |cs|
  {
    if cs != [] {
      var init := cs[..|cs| - 1];
      AddCornersKeeps(inA, group, base, ins, init, acc);
      AddCornerKeeps(inA, group, base, ins + init, cs[|cs| - 1], AddCorners(inA, group, init, acc));
      assert ins + init + [cs[|cs| - 1]] == ins + cs;
    }
  }

  /** The corners change nothing in the mesh but its indices, which they extend. */
  lemma {:induction false} AddCornersMesh(inA: Attrib, group: nat, cs: seq<Index>, acc: Acc)
    requires |acc.attrib.vertices| % 3 == 0
    requires forall k :: 0 <= k < |cs| ==> CornerOk(inA, cs[k])
    ensures var m := AddCorners(inA, group, cs, acc).mesh;
            m == acc.mesh.(indices := m.indices) && |m.indices| == |acc.mesh.indices| + |cs| &&
            m.indices[..|acc.mesh.indices|] == acc.mesh.indices
    decreases |cs|
  {
    if cs != [] {
      var init := cs[..|cs| - 1];
      AddCornersMesh(inA, group, init, acc);
      var m := AddCorners(inA, group, init, acc).mesh;
      assert m.indices[..|acc.mesh.indices|] == acc.mesh.indices;
    }
  }

  /** The input corners of faces fs, in order. */
  function Corners(s: Shape, fs: seq<nat>): (cs: seq<Index>)
    requires forall k :: 0 <= k < |fs| ==> 3 * fs[k] + 3 <= |s.mesh.indices|
    ensures |cs| == 3 * |fs|
  {
    if fs == [] then [] else Corners(s, fs[..|fs| - 1]) + FaceCorners(s, fs[|fs| - 1])
  }

  /**
   * The per-face entries of an output mesh for faces fs: one 3 per face,
   * the group id per face, and the face's material id per face when the
   * input shape has material ids, none otherwise.
   */
  ghost predicate FacesInv(s: Shape, group: nat, fs: seq<nat>, m: ObjMesh)
  {
    |m.numFaceVertices| == |fs| && (forall t :: 0 <= t < |fs| ==> m.numFaceVertices[t] == 3) &&
    |m.smoothingGroupIds| == |fs| && (forall t :: 0 <= t < |fs| ==> m.smoothingGroupIds[t] == group) &&
    (|s.mesh.materialIds| > 0 ==>
       |m.materialIds| == |fs| &&
       forall t :: 0 <= t < |fs| ==> fs[t] < |s.mesh.materialIds| && m.materialIds[t] == s.mesh.materialIds[fs[t]]) &&
    (|s.mesh.materialIds| == 0 ==> m.materialIds == [])
  }

  lemma AddFacesKeeps(inA: Attrib, s: Shape, group: nat, fs: seq<nat>, outA: Attrib)
    requires ShapeOk(inA, s) && |outA.vertices| % 3 == 0
    requires forall k :: 0 <= k < |fs| ==> fs[k] < |s.mesh.smoothingGroupIds|
    ensures var acc := AddFaces(inA, s, group, fs, Acc(EMPTY_MESH, outA, map[]));
            CornersInv(inA, group, outA, Corners(s, fs), acc) && FacesInv(s, group, fs, acc.mesh)
  {
    AddFacesCorners(inA, s, group, fs, outA);
    AddFacesFaces(inA, s, group, fs, Acc(EMPTY_MESH, outA, map[]));
  }

  /** The corners of faces fs, in order, are mapped corners of the output. */
  lemma {:induction false} AddFacesCorners(inA: Attrib, s: Shape, group: nat, fs: seq<nat>, outA: Attrib)
    requires ShapeOk(inA, s) && |outA.vertices| % 3 == 0
    requires forall k :: 0 <= k < |fs| ==> fs[k] < |s.mesh.smoothingGroupIds|
    ensures CornersInv(inA, group, outA, Corners(s, fs), AddFaces(inA, s, group, fs, Acc(EMPTY_MESH, outA, map[])))
    decreases |fs|
  {
    var acc0 := Acc(EMPTY_MESH, outA, map[]);
    if fs == [] {
      assert outA.vertices[..|outA.vertices|] == outA.vertices;
      assert outA.normals[..|outA.normals|] == outA.normals;
      assert outA.texcoords[..|outA.texcoords|] == outA.texcoords;
    } else {
      var init, f := fs[..|fs| - 1], fs[|fs| - 1];
      AddFacesCorners(inA, s, group, init, outA);
      var acc := AddFaces(inA, s, group, init, acc0);
      var m := acc.mesh;
      var mats := if |s.mesh.materialIds| > 0 then m.materialIds + [s.mesh.materialIds[f]] else m.materialIds;
      var m' := m.(numFaceVertices := m.numFaceVertices + [3], materialIds := mats,
                   smoothingGroupIds := m.smoothingGroupIds + [group]);
      var cs := FaceCorners(s, f);
      forall k | 0 <= k < 3 ensures CornerOk(inA, cs[k]) {
        assert cs[k] == s.mesh.indices[3 * f + k];
      }
      AddCornersKeeps(inA, group, outA, Corners(s, init), cs, acc.(mesh := m'));
    }
  }

  /** The per-face entries of the mesh after faces fs, starting from a mesh with none. */
  lemma {:induction false} AddFacesFaces(inA: Attrib, s: Shape, group: nat, fs: seq<nat>, acc0: Acc)
    requires ShapeOk(inA, s) && |acc0.attrib.vertices| % 3 == 0
    requires forall k :: 0 <= k < |fs| ==> fs[k] < |s.mesh.smoothingGroupIds|
    requires acc0.mesh.numFaceVertices == [] && acc0.mesh.smoothingGroupIds == [] && acc0.mesh.materialIds == []
    ensures FacesInv(s, group, fs, AddFaces(inA, s, group, fs, acc0).mesh)
    decreases |fs|
  {
    if fs != [] {
      var init, f := fs[..|fs| - 1], fs[|fs| - 1];
      AddFacesFaces(inA, s, group, init, acc0);
      var acc := AddFaces(inA, s, group, init, acc0);
      var m := acc.mesh;
      var mats := if |s.mesh.materialIds| > 0 then m.materialIds + [s.mesh.materialIds[f]] else m.materialIds;
      var m' := m.(numFaceVertices := m.numFaceVertices + [3], materialIds := mats,
                   smoothingGroupIds := m.smoothingGroupIds + [group]);
      var cs := FaceCorners(s, f);
      forall k | 0 <= k < 3 ensures CornerOk(inA, cs[k]) {
        assert cs[k] == s.mesh.indices[3 * f + k];
      }
      AddCornersMesh(inA, group, cs, acc.(mesh := m'));
      var r := AddCorners(inA, group, cs, acc.(mesh := m')).mesh;
      assert s.mesh.materialIds != [] ==> f < |s.mesh.materialIds|;
      FacesInvStep(s, group, init, f, m, r);
    }
  }

  /** FacesInv after one more face: a 3, the group id and the face's material id appended. */
  lemma FacesInvStep(s: Shape, group: nat, init: seq<nat>, f: nat, m: ObjMesh, r: ObjMesh)
    requires FacesInv(s, group, init, m)
    requires r.numFaceVertices == m.numFaceVertices + [3] && r.smoothingGroupIds == m.smoothingGroupIds + [group]
    requires |s.mesh.materialIds| > 0 ==> f < |s.mesh.materialIds| && r.materialIds == m.materialIds + [s.mesh.materialIds[f]]
    requires |s.mesh.materialIds| == 0 ==> r.materialIds == m.materialIds
    ensures FacesInv(s, group, init + [f], r)
  {
    var fs := init + [f];
    forall t | 0 <= t < |fs| ensures r.numFaceVertices[t] == 3 && r.smoothingGroupIds[t] == group {
      if t < |init| {
        assert r.numFaceVertices[t] == m.numFaceVertices[t];
        assert r.smoothingGroupIds[t] == m.smoothingGroupIds[t];
      }
    }
    if |s.mesh.materialIds| > 0 {
      forall t | 0 <= t < |fs| ensures fs[t] < |s.mesh.materialIds| && r.materialIds[t] == s.mesh.materialIds[fs[t]] {
        if t < |init| {
          assert fs[t] == init[t] && r.materialIds[t] == m.materialIds[t];
        }
      }
    }
  }

  /**
   * computeSmoothingShape's promise: the output shape keeps the input's
   * name and has, per face, one 3, the group id, the material id when the
   * input has any, and exactly 3 indices; every output corner is mapped
   * from its input corner and the attributes only grew; in group 0 every
   * corner has its own fresh vertex; in any other group two corners with
   * the same input vertex share one output vertex.
   */
  lemma SmoothShapeMeets(inA: Attrib, s: Shape, group: nat, fs: seq<nat>, outA: Attrib)
    requires ShapeOk(inA, s) && |outA.vertices| % 3 == 0
    requires forall k :: 0 <= k < |fs| ==> fs[k] < |s.mesh.smoothingGroupIds|
    ensures var (shape, a) := SmoothShape(inA, s, group, fs, outA);
            var ins := Corners(s, fs);
            var outs := shape.mesh.indices;
            shape.name == s.name && FacesInv(s, group, fs, shape.mesh) && |outs| == 3 * |fs| &&
            AttribGrown(outA, a) &&
            (forall k :: 0 <= k < |outs| ==> CornerMapped(inA, |outA.vertices| / 3, a, ins[k], outs[k])) &&
            (group == 0 ==> |a.vertices| == |outA.vertices| + 9 * |fs| &&
                            forall k, l :: 0 <= k < l < |outs| ==> outs[k].vertexIndex != outs[l].vertexIndex) &&
            (group != 0 ==> forall k, l :: 0 <= k < |outs| && 0 <= l < |outs| && ins[k].vertexIndex == ins[l].vertexIndex ==>
                              outs[k].vertexIndex == outs[l].vertexIndex)
  {
    AddFacesKeeps(inA, s, group, fs, outA);
  }

  // ---------------------------------------------------------------------
  // All runs of all shapes
  // ---------------------------------------------------------------------

  /** The face indices of some sorted ids. */
  function FacesOf(ids: seq<(nat, nat)>): (fs: seq<nat>)
    ensures |fs| == |ids| && forall k :: 0 <= k < |ids| ==> fs[k] == ids[k].1
  {
    seq(|ids|, k requires 0 <= k < |ids| => ids[k].1)
  }

  /** Sorted ids of shape s: every face index is a face of s. */
  predicate IdsOf(s: Shape, ids: seq<(nat, nat)>)
  {
    forall k :: 0 <= k < |ids| ==> ids[k].1 < |s.mesh.smoothingGroupIds|
  }

  predicate RunsWithin(ids: seq<(nat, nat)>, runs: seq<(nat, nat)>)
  {
    forall r :: 0 <= r < |runs| ==> runs[r].0 < runs[r].1 <= |ids|
  }

  lemma {:induction false} RunsInRange(ids: seq<(nat, nat)>, i: nat)
    requires i <= |ids|
    ensures RunsWithin(ids, Runs(ids, i))
    decreases |ids| - i
  {
    if i < |ids| {
      RunsInRange(ids, RunEnd(ids, i));
    }
  }

  lemma RunsWithinTail(ids: seq<(nat, nat)>, runs: seq<(nat, nat)>)
    requires runs != [] && RunsWithin(ids, runs)
    ensures runs[0].0 < runs[0].1 <= |ids| && RunsWithin(ids, runs[1..])
  {
    forall r | 0 <= r < |runs[1..]| ensures runs[1..][r].0 < runs[1..][r].1 <= |ids| {
      assert runs[1..][r] == runs[r + 1];
    }
  }

  /** One output shape per run, in order, each in the group of its first id; the attributes are threaded through. */
  function SmoothRuns(inA: Attrib, s: Shape, ids: seq<(nat, nat)>, runs: seq<(nat, nat)>, outs: seq<Shape>, outA: Attrib): (r: (seq<Shape>, Attrib))
    requires ShapeOk(inA, s) && |outA.vertices| % 3 == 0 && IdsOf(s, ids) && RunsWithin(ids, runs)
    ensures |r.1.vertices| % 3 == 0
    decreases |runs|
  {
    if runs == [] then (outs, outA)
    else
      var (b, e) := runs[0];
      var (shape, a) := SmoothShape(inA, s, ids[b].0, FacesOf(ids[b..e]), outA);
      SmoothRuns(inA, s, ids, runs[1..], outs + [shape], a)
  }

  /** computeSmoothingShapes: every input shape in turn, split into its runs. */
  function SmoothAll(inA: Attrib, shapes: seq<Shape>, outs: seq<Shape>, outA: Attrib): (r: (seq<Shape>, Attrib))
    requires forall k :: 0 <= k < |shapes| ==> ShapeOk(inA, shapes[k])
    requires |outA.vertices| % 3 == 0
    decreases |shapes|
  {
    if shapes == [] then (outs, outA)
    else
      var ids := SortedIds(shapes[0].mesh.smoothingGroupIds);
      RunsInRange(ids, 0);
      var (outs', outA') := SmoothRuns(inA, shapes[0], ids, Runs(ids, 0), outs, outA);
      SmoothAll(inA, shapes[1..], outs', outA')
  }

  /** The output shape made for run (b, e): the input's name, and the per-face entries of the run's faces in the run's group. */
  ghost predicate RunShape(s: Shape, ids: seq<(nat, nat)>, run: (nat, nat), shape: Shape)
    requires run.0 < run.1 <= |ids|
  {
    shape.name == s.name && FacesInv(s, ids[run.0].0, FacesOf(ids[run.0..run.1]), shape.mesh)
  }

  /** The shape SmoothShape makes for one run is that run's shape. */
  lemma SmoothShapeRun(inA: Attrib, s: Shape, ids: seq<(nat, nat)>, run: (nat, nat), outA: Attrib)
    requires ShapeOk(inA, s) && |outA.vertices| % 3 == 0 && IdsOf(s, ids) && run.0 < run.1 <= |ids|
    ensures RunShape(s, ids, run, SmoothShape(inA, s, ids[run.0].0, FacesOf(ids[run.0..run.1]), outA).0)
  {
    SmoothShapeMeets(inA, s, ids[run.0].0, FacesOf(ids[run.0..run.1]), outA);
  }

  /** SmoothRuns keeps the shapes already made and appends one shape per run. */
  lemma {:induction false} SmoothRunsPrefix(inA: Attrib, s: Shape, ids: seq<(nat, nat)>, runs: seq<(nat, nat)>, outs: seq<Shape>, outA: Attrib)
    requires ShapeOk(inA, s) && |outA.vertices| % 3 == 0 && IdsOf(s, ids) && RunsWithin(ids, runs)
    ensures var res := SmoothRuns(inA, s, ids, runs, outs, outA).0;
            |res| == |outs| + |runs| && res[..|outs|] == outs
    decreases |runs|
  {
    if runs != [] {
      var (b, e) := runs[0];
      var (shape, a) := SmoothShape(inA, s, ids[b].0, FacesOf(ids[b..e]), outA);
      RunsWithinTail(ids, runs);
      SmoothRunsPrefix(inA, s, ids, runs[1..], outs + [shape], a);
      var res := SmoothRuns(inA, s, ids, runs[1..], outs + [shape], a).0;
      assert res[..|outs|] == (res[..|outs| + 1])[..|outs|];
    }
  }

  /** shapes[r] is the shape of run r, for every run. */
  ghost predicate AllRunShapes(s: Shape, ids: seq<(nat, nat)>, runs: seq<(nat, nat)>, shapes: seq<Shape>)
    decreases |runs|
  {
    |shapes| == |runs| &&
    (runs != [] ==>
       runs[0].0 < runs[0].1 <= |ids| && RunShape(s, ids, runs[0], shapes[0]) &&
       AllRunShapes(s, ids, runs[1..], shapes[1..]))
  }

  lemma {:induction false} AllRunShapesAt(s: Shape, ids: seq<(nat, nat)>, runs: seq<(nat, nat)>, shapes: seq<Shape>, k: nat)
    requires RunsWithin(ids, runs) && k <= |shapes| && AllRunShapes(s, ids, runs, shapes[k..])
    ensures |shapes| == k + |runs|
    ensures forall r :: 0 <= r < |runs| ==> RunShape(s, ids, runs[r], shapes[k + r])
    decreases |runs|
  {
    if runs != [] {
      RunsWithinTail(ids, runs);
      assert shapes[k..][1..] == shapes[k + 1..];
      AllRunShapesAt(s, ids, runs[1..], shapes, k + 1);
      forall r | 0 <= r < |runs| ensures RunShape(s, ids, runs[r], shapes[k + r]) {
        if r > 0 {
          assert runs[r] == runs[1..][r - 1];
        } else {
          assert shapes[k] == shapes[k..][0];
        }
      }
    }
  }

  /** SmoothRuns keeps the shapes already made and appends the shape of each run, in run order. */
  lemma {:induction false} SmoothRunsAll(inA: Attrib, s: Shape, ids: seq<(nat, nat)>, runs: seq<(nat, nat)>, outs: seq<Shape>, outA: Attrib)
    requires ShapeOk(inA, s) && |outA.vertices| % 3 == 0 && IdsOf(s, ids) && RunsWithin(ids, runs)
    ensures var res := SmoothRuns(inA, s, ids, runs, outs, outA).0;
            |outs| <= |res| && AllRunShapes(s, ids, runs, res[|outs|..])
    decreases |runs|
  {
    SmoothRunsPrefix(inA, s, ids, runs, outs, outA);
    if runs != [] {
      var (b, e) := runs[0];
      var (shape, a) := SmoothShape(inA, s, ids[b].0, FacesOf(ids[b..e]), outA);
      SmoothShapeRun(inA, s, ids, runs[0], outA);
      RunsWithinTail(ids, runs);
      SmoothRunsAll(inA, s, ids, runs[1..], outs + [shape], a);
      SmoothRunsPrefix(inA, s, ids, runs[1..], outs + [shape], a);
      var res := SmoothRuns(inA, s, ids, runs[1..], outs + [shape], a).0;
      assert res[|outs|] == (outs + [shape])[|outs|] by { assert res[..|outs| + 1] == outs + [shape]; }
      AllRunShapesCons(s, ids, runs, res, |outs|);
    }
  }

  lemma AllRunShapesCons(s: Shape, ids: seq<(nat, nat)>, runs: seq<(nat, nat)>, res: seq<Shape>, k: nat)
    requires runs != [] && runs[0].0 < runs[0].1 <= |ids| && k < |res| && RunShape(s, ids, runs[0], res[k])
    requires AllRunShapes(s, ids, runs[1..], res[k + 1..])
    ensures AllRunShapes(s, ids, runs, res[k..])
  {
    assert res[k..][1..] == res[k + 1..];
  }


  /** SmoothRuns keeps the shapes already made and appends one shape per run, in run order. */
  lemma SmoothRunsShapes(inA: Attrib, s: Shape, ids: seq<(nat, nat)>, runs: seq<(nat, nat)>, outs: seq<Shape>, outA: Attrib)
    requires ShapeOk(inA, s) && |outA.vertices| % 3 == 0 && IdsOf(s, ids) && RunsWithin(ids, runs)
    ensures var res := SmoothRuns(inA, s, ids, runs, outs, outA).0;
            |res| == |outs| + |runs| && res[..|outs|] == outs &&
            forall r :: 0 <= r < |runs| ==> RunShape(s, ids, runs[r], res[|outs| + r])
  {
    SmoothRunsPrefix(inA, s, ids, runs, outs, outA);
    SmoothRunsAll(inA, s, ids, runs, outs, outA);
    AllRunShapesAt(s, ids, runs, SmoothRuns(inA, s, ids, runs, outs, outA).0, |outs|);
  }

  // ---------------------------------------------------------------------
  // The source's loops
  // ---------------------------------------------------------------------

  /** The loop body of computeSmoothingShape for one corner. */
  method RemapCorner(inA: Attrib, sgroupid: nat, inidx: Index, mesh: ObjMesh, attrib: Attrib, remap: map<int, nat>)
    returns (mesh': ObjMesh, attrib': Attrib, remap': map<int, nat>)
    requires CornerOk(inA, inidx) && |attrib.vertices| % 3 == 0
    ensures Acc(mesh', attrib', remap') == AddCorner(inA, sgroupid, inidx, Acc(mesh, attrib, remap))
  {
    var outidx: Index;
    attrib', remap' := attrib, remap;
    if sgroupid != 0 && inidx.vertexIndex in remap {
      var vi := remap[inidx.vertexIndex];
      outidx := Index(vi, vi, if inidx.texcoordIndex == -1 then -1 else vi);
    } else {
      var offset := |attrib.vertices| / 3;
      outidx := Index(offset, offset, if inidx.texcoordIndex == -1 then -1 else offset);
      var p := 3 * inidx.vertexIndex;
      var vertices := attrib.vertices + [inA.vertices[p], inA.vertices[p + 1], inA.vertices[p + 2]];
      assert vertices == attrib.vertices + inA.vertices[p..p + 3];
      var texcoords := attrib.texcoords;
      if inidx.texcoordIndex != -1 {
        var t := 2 * inidx.texcoordIndex;
        texcoords := texcoords + [inA.texcoords[t], inA.texcoords[t + 1]];
        assert texcoords == attrib.texcoords + inA.texcoords[t..t + 2];
      }
      attrib' := Attrib(vertices, attrib.normals + [0.0, 0.0, 0.0], texcoords);
      remap' := remap[inidx.vertexIndex := offset];
    }
    mesh' := mesh.(indices := mesh.indices + [outidx]);
  }

  /** The loop body of computeSmoothingShape for one face. */
  method RemapFace(inA: Attrib, s: Shape, sgroupid: nat, face: nat, mesh: ObjMesh, attrib: Attrib, remap: map<int, nat>)
    returns (mesh': ObjMesh, attrib': Attrib, remap': map<int, nat>)
    requires ShapeOk(inA, s) && face < |s.mesh.smoothingGroupIds| && |attrib.vertices| % 3 == 0
    ensures Acc(mesh', attrib', remap') == AddFace(inA, s, sgroupid, face, Acc(mesh, attrib, remap))
  {
    mesh' := mesh.(numFaceVertices := mesh.numFaceVertices + [3]);
    if |s.mesh.materialIds| > 0 {
      mesh' := mesh'.(materialIds := mesh'.materialIds + [s.mesh.materialIds[face]]);
    }
    mesh' := mesh'.(smoothingGroupIds := mesh'.smoothingGroupIds + [sgroupid]);
    attrib', remap' := attrib, remap;
    ghost var atFace := Acc(mesh', attrib', remap');
    ghost var cs := FaceCorners(s, face);
    forall k | 0 <= k < 3 ensures CornerOk(inA, cs[k]) {
      assert cs[k] == s.mesh.indices[3 * face + k];
    }
    for v := 0 to 3
      invariant |attrib'.vertices| % 3 == 0
      invariant Acc(mesh', attrib', remap') == AddCorners(inA, sgroupid, cs[..v], atFace)
    {
      assert s.mesh.indices[3 * face + v] == cs[v];
      mesh', attrib', remap' := RemapCorner(inA, sgroupid, s.mesh.indices[3 * face + v], mesh', attrib', remap');
      assert cs[..v + 1][..v] == cs[..v];
    }
    assert cs[..3] == cs;
  }

  /** The faces of ids[b..e] are faces of s. */
  lemma FacesOfIds(s: Shape, ids: seq<(nat, nat)>, b: nat, e: nat)
    requires IdsOf(s, ids) && b <= e <= |ids|
    ensures forall k :: 0 <= k < |FacesOf(ids[b..e])| ==> FacesOf(ids[b..e])[k] < |s.mesh.smoothingGroupIds|
  {
    forall k | 0 <= k < |FacesOf(ids[b..e])| ensures FacesOf(ids[b..e])[k] < |s.mesh.smoothingGroupIds| {
      assert ids[b..e][k] == ids[b + k];
    }
  }

  lemma FacesOfSnoc(ids: seq<(nat, nat)>, b: nat, e: nat)
    requires b <= e < |ids|
    ensures FacesOf(ids[b..e + 1]) == FacesOf(ids[b..e]) + [ids[e].1]
  {
    var x, y := FacesOf(ids[b..e + 1]), FacesOf(ids[b..e]) + [ids[e].1];
    forall k | 0 <= k < |x| ensures x[k] == y[k] {
      assert ids[b..e + 1][k] == ids[b + k];
      if k < e - b {
        assert ids[b..e][k] == ids[b + k];
      }
    }
  }

  /** AddFaces of one more face is AddFace after the others. */
  lemma AddFacesSnoc(inA: Attrib, s: Shape, group: nat, fs: seq<nat>, f: nat, acc: Acc)
    requires ShapeOk(inA, s) && |acc.attrib.vertices| % 3 == 0 && f < |s.mesh.smoothingGroupIds|
    requires forall k :: 0 <= k < |fs| ==> fs[k] < |s.mesh.smoothingGroupIds|
    ensures AddFaces(inA, s, group, fs + [f], acc) == AddFace(inA, s, group, f, AddFaces(inA, s, group, fs, acc))
  {
    assert (fs + [f])[..|fs|] == fs;
  }

  /** The state after the faces of ids[b..e], in the group of ids[b]. */
  ghost function RunAcc(inA: Attrib, s: Shape, ids: seq<(nat, nat)>, b: nat, e: nat, outA: Attrib): (r: Acc)
    requires ShapeOk(inA, s) && |outA.vertices| % 3 == 0 && IdsOf(s, ids) && b < |ids| && b <= e <= |ids|
  {
    FacesOfIds(s, ids, b, e);
    AddFaces(inA, s, ids[b].0, FacesOf(ids[b..e]), Acc(EMPTY_MESH, outA, map[]))
  }

  /** One pass of computeSmoothingShape's face loop: face ids[id].1 after the faces of ids[idbegin..id]. */
  method SmoothFace(inA: Attrib, s: Shape, ids: seq<(nat, nat)>, idbegin: nat, id: nat, outA: Attrib,
                    mesh: ObjMesh, attrib: Attrib, remap: map<int, nat>)
    returns (mesh': ObjMesh, attrib': Attrib, remap': map<int, nat>)
    requires ShapeOk(inA, s) && |outA.vertices| % 3 == 0 && IdsOf(s, ids) && idbegin <= id < |ids|
    requires |attrib.vertices| % 3 == 0
    requires Acc(mesh, attrib, remap) == RunAcc(inA, s, ids, idbegin, id, outA)
    ensures |attrib'.vertices| % 3 == 0
    ensures Acc(mesh', attrib', remap') == RunAcc(inA, s, ids, idbegin, id + 1, outA)
  {
    var face := ids[id].1;
    ghost var fs := FacesOf(ids[idbegin..id]);
    FacesOfIds(s, ids, idbegin, id);
    mesh', attrib', remap' := RemapFace(inA, s, ids[idbegin].0, face, mesh, attrib, remap);
    FacesOfSnoc(ids, idbegin, id);
    AddFacesSnoc(inA, s, ids[idbegin].0, fs, face, Acc(EMPTY_MESH, outA, map[]));
  }

  /** computeSmoothingShape for the ids [idbegin, idend) of shape s, appending to the attributes outA. */
  method ComputeSmoothingShape(inA: Attrib, s: Shape, ids: seq<(nat, nat)>, idbegin: nat, idend: nat, outA: Attrib)
    returns (shape: Shape, outattrib: Attrib)
    requires ShapeOk(inA, s) && |outA.vertices| % 3 == 0 && IdsOf(s, ids)
    requires idbegin < idend <= |ids|
    ensures (shape, outattrib) == SmoothShape(inA, s, ids[idbegin].0, FacesOf(ids[idbegin..idend]), outA)
  {
    var sgroupid := ids[idbegin].0;
    var mesh := EMPTY_MESH;
    var remap: map<int, nat> := map[];
    outattrib := outA;
    for id := idbegin to idend
      invariant |outattrib.vertices| % 3 == 0
      invariant Acc(mesh, outattrib, remap) == RunAcc(inA, s, ids, idbegin, id, outA)
    {
      mesh, outattrib, remap := SmoothFace(inA, s, ids, idbegin, id, outA, mesh, outattrib, remap);
    }
    shape := Shape(s.name, mesh);
  }

  /** The runs of one input shape, each made into an output shape in turn. */
  method ComputeRuns(inA: Attrib, s: Shape, ids: seq<(nat, nat)>, runs: seq<(nat, nat)>, outs: seq<Shape>, outA: Attrib)
    returns (outshapes: seq<Shape>, outattrib: Attrib)
    requires ShapeOk(inA, s) && |outA.vertices| % 3 == 0 && IdsOf(s, ids) && RunsWithin(ids, runs)
    ensures (outshapes, outattrib) == SmoothRuns(inA, s, ids, runs, outs, outA)
  {
    outshapes, outattrib := outs, outA;
    for r := 0 to |runs|
      invariant |outattrib.vertices| % 3 == 0
      invariant SmoothRuns(inA, s, ids, runs[r..], outshapes, outattrib) == SmoothRuns(inA, s, ids, runs, outs, outA)
    {
      var (idbegin, idend) := runs[r];
      assert runs[r..][0] == runs[r] && runs[r..][1..] == runs[r + 1..];
      var shape;
      shape, outattrib := ComputeSmoothingShape(inA, s, ids, idbegin, idend, outattrib);
      outshapes := outshapes + [shape];
    }
    assert runs[|runs|..] == [];
  }

  /**
   * computeSmoothingShapes: for each input shape, sort its (group id, face)
   * pairs, split them into runs of one group and make one output shape
   * per run, all sharing one output attribute set.
   */
  method ComputeSmoothingShapes(inA: Attrib, inshapes: seq<Shape>) returns (outshapes: seq<Shape>, outattrib: Attrib)
    requires forall k :: 0 <= k < |inshapes| ==> ShapeOk(inA, inshapes[k])
    ensures (outshapes, outattrib) == SmoothAll(inA, inshapes, [], EMPTY_ATTRIB)
  {
    outshapes, outattrib := [], EMPTY_ATTRIB;
    for si := 0 to |inshapes|
      invariant |outattrib.vertices| % 3 == 0
      invariant SmoothAll(inA, inshapes[si..], outshapes, outattrib) == SmoothAll(inA, inshapes, [], EMPTY_ATTRIB)
    {
      var inshape := inshapes[si];
      assert inshapes[si..][0] == inshape && inshapes[si..][1..] == inshapes[si + 1..];
      // std::sort of the pairs (smoothing_group_ids[i], i)
      var sortedids := SortedIds(inshape.mesh.smoothingGroupIds);
      RunsInRange(sortedids, 0);
      var runs := SplitRuns(sortedids);
      outshapes, outattrib := ComputeRuns(inA, inshape, sortedids, runs, outshapes, outattrib);
    }
    assert inshapes[|inshapes|..] == [];
  }
}

=== FILE: sorting.dfy ===
/**
 * A sort by an integer key, standing for the std::sort calls of the
 * descriptor layout cache and of the smoothing-group split.  The sort is
 * stable; where the source's std::sort could order equal keys differently,
 * the callers only rely on the result when keys are distinct.
 */
module Sorting {

  predicate SortedBy<T>(s: seq<T>, key: T -> int)
  {
    forall i, j :: 0 <= i < j < |s| ==> key(s[i]) <= key(s[j])
  }

  predicate StrictlySortedBy<T>(s: seq<T>, key: T -> int)
  {
    forall i, j :: 0 <= i < j < |s| ==> key(s[i]) < key(s[j])
  }

  /** No two elements of s share a key unless they are equal. */
  predicate KeyDetermines<T(==)>(s: seq<T>, key: T -> int)
  {
    forall i, j :: 0 <= i < |s| && 0 <= j < |s| && key(s[i]) == key(s[j]) ==> s[i] == s[j]
  }

  function Insert<T(==)>(x: T, s: seq<T>, key: T -> int): (r: seq<T>)
    requires SortedBy(s, key)
    ensures SortedBy(r, key)
    ensures multiset(r) == multiset(s) + multiset{x}
  {
    if s == [] then [x]
    else if key(x) <= key(s[0]) then [x] + s
    else
      var rest := Insert(x, s[1..], key);
      InsertBehindHead(x, s, rest, key);
      [s[0]] + rest
  }

  /** Putting the head back in front of the insertion into the tail keeps the order and the elements. */
  lemma InsertBehindHead<T>(x: T, s: seq<T>, rest: seq<T>, key: T -> int)
    requires |s| > 0 && SortedBy(s, key) && key(s[0]) < key(x)
    requires SortedBy(rest, key) && multiset(rest) == multiset(s[1..]) + multiset{x}
    ensures SortedBy([s[0]] + rest, key)
    ensures multiset([s[0]] + rest) == multiset(s) + multiset{x}
  {
    assert s == [s[0]] + s[1..];
    forall k | 0 <= k < |rest| ensures key(s[0]) <= key(rest[k]) {
      assert rest[k] in multiset(rest);
      if rest[k] != x {
        assert rest[k] in multiset(s[1..]);
        var m :| 1 <= m < |s| && s[m] == rest[k];
      }
    }
    var r := [s[0]] + rest;
    forall i, j | 0 <= i < j < |r| ensures key(r[i]) <= key(r[j]) {
      if i > 0 {
        assert r[i] == rest[i - 1] && r[j] == rest[j - 1];
      } else {
        assert r[j] == rest[j - 1];
      }
    }
  }

  /** Insertion sort: sorted by key and a permutation of the input. */
  function SortBy<T(==)>(s: seq<T>, key: T -> int): (r: seq<T>)
    ensures SortedBy(r, key)
    ensures multiset(r) == multiset(s)
    ensures |r| == |s|
  {
    if s == [] then []
    else
      assert s == [s[0]] + s[1..];
      Insert(s[0], SortBy(s[1..], key), key)
  }

  lemma HeadsEqual<T>(a: seq<T>, b: seq<T>, key: T -> int)
    requires |a| > 0 && SortedBy(a, key) && SortedBy(b, key)
    requires multiset(a) == multiset(b)
    requires KeyDetermines(a, key)
    ensures |b| > 0 && a[0] == b[0]
  {
    assert a[0] in multiset(b);
    var j :| 0 <= j < |b| && b[j] == a[0];
    assert b[0] in multiset(a);
    var i :| 0 <= i < |a| && a[i] == b[0];
    assert key(b[0]) <= key(b[j]);
    assert key(a[0]) <= key(a[i]);
  }

  lemma TailsSameElements<T>(a: seq<T>, b: seq<T>)
    requires |a| > 0 && |b| > 0 && a[0] == b[0]
    requires multiset(a) == multiset(b)
    ensures multiset(a[1..]) == multiset(b[1..])
  {
    assert a == [a[0]] + a[1..] && b == [b[0]] + b[1..];
    assert multiset(a[1..]) == multiset(a) - multiset{a[0]};
    assert multiset(b[1..]) == multiset(b) - multiset{b[0]};
  }

  /** Two sequences sorted by a key that tells their elements apart are equal when they hold the same elements. */
  lemma {:induction false} SortedPermutationsEqual<T>(a: seq<T>, b: seq<T>, key: T -> int)
    requires SortedBy(a, key) && SortedBy(b, key)
    requires multiset(a) == multiset(b)
    requires KeyDetermines(a, key)
    ensures a == b
    decreases |a|
  {
    assert |a| == |multiset(a)| == |multiset(b)| == |b|;
    if |a| > 0 {
      HeadsEqual(a, b, key);
      TailsSameElements(a, b);
      var ta, tb := a[1..], b[1..];
      assert SortedBy(ta, key) by {
        forall i, j | 0 <= i < j < |ta| ensures key(ta[i]) <= key(ta[j]) {
          assert ta[i] == a[i + 1] && ta[j] == a[j + 1];
        }
      }
      assert SortedBy(tb, key) by {
        forall i, j | 0 <= i < j < |tb| ensures key(tb[i]) <= key(tb[j]) {
          assert tb[i] == b[i + 1] && tb[j] == b[j + 1];
        }
      }
      assert KeyDetermines(ta, key) by {
        forall i, j | 0 <= i < |ta| && 0 <= j < |ta| && key(ta[i]) == key(ta[j]) ensures ta[i] == ta[j] {
          assert ta[i] == a[i + 1] && ta[j] == a[j + 1];
        }
      }
      SortedPermutationsEqual(ta, tb, key);
      assert a == [a[0]] + ta && b == [b[0]] + tb;
    }
  }

  /** Sorting a sequence that is already sorted changes nothing. */
  lemma SortSortedIsIdentity<T>(s: seq<T>, key: T -> int)
    requires StrictlySortedBy(s, key)
    ensures SortBy(s, key) == s
  {
    var r := SortBy(s, key);
    forall i, j | 0 <= i < |r| && 0 <= j < |r| && key(r[i]) == key(r[j]) ensures r[i] == r[j] {
      assert r[i] in multiset(s) && r[j] in multiset(s);
    }
    SortedPermutationsEqual(r, s, key);
  }

  /** Sorting two permutations of each other gives the same sequence, when keys tell elements apart. */
  lemma SortPermutationInvariant<T>(a: seq<T>, b: seq<T>, key: T -> int)
    requires multiset(a) == multiset(b)
    requires KeyDetermines(a, key)
    ensures SortBy(a, key) == SortBy(b, key)
  {
    var ra, rb := SortBy(a, key), SortBy(b, key);
    forall i, j | 0 <= i < |ra| && 0 <= j < |ra| && key(ra[i]) == key(ra[j]) ensures ra[i] == ra[j] {
      assert ra[i] in multiset(a) && ra[j] in multiset(a);
      var x :| 0 <= x < |a| && a[x] == ra[i];
      var y :| 0 <= y < |a| && a[y] == ra[j];
    }
    SortedPermutationsEqual(ra, rb, key);
  }
}

=== FILE: strutil.dfy ===
/**
 * String helpers: cpp_utils::str_toupper (src/cpp_utils.cpp) and the path
 * helpers GetBaseDir and GetFileNameNoExt (src/resources.cpp, repeated in
 * src/model_loader.cpp).
 */
module StrUtil {
  import opened Wrappers

  const SIZE_T_LIMIT: nat := 0x1_0000_0000_0000_0000
  /** The characters find_last_of("/\\") looks for. */
  const SEPARATORS: set<char> := {'/', '\\'}

  predicate IsLower(c: char) { 'a' <= c <= 'z' }

  /** ::toupper in the C locale: only 'a'..'z' change. */
  function ToUpper(c: char): char
  {
    if IsLower(c) then (c as int - 32) as char else c
  }

  /** cpp_utils::str_toupper: ::toupper applied to every character of a copy. */
  function StrToUpper(src: string): (r: string)
    ensures |r| == |src|
    ensures forall i :: 0 <= i < |src| && IsLower(src[i]) ==> r[i] as int == src[i] as int - 32 && 'A' <= r[i] <= 'Z'
    ensures forall i :: 0 <= i < |src| && !IsLower(src[i]) ==> r[i] == src[i]
  {
    if src == [] then [] else [ToUpper(src[0])] + StrToUpper(src[1..])
  }

  lemma {:induction false} StrToUpperIdempotent(s: string)
    ensures StrToUpper(StrToUpper(s)) == StrToUpper(s)
  {
    var u := StrToUpper(s);
    var uu := StrToUpper(u);
    forall i | 0 <= i < |s| ensures uu[i] == u[i] {
      assert !IsLower(u[i]);
    }
  }

  /** std::string::find_last_of: the last position holding one of chars, if any. */
  function FindLastOf(s: string, chars: set<char>): (r: Option<nat>)
    ensures r.Some? ==> r.value < |s| && s[r.value] in chars
    ensures r.Some? ==> forall j :: r.value < j < |s| ==> s[j] !in chars
    ensures r.None? ==> forall j :: 0 <= j < |s| ==> s[j] !in chars
  {
    if s == [] then None
    else if s[|s| - 1] in chars then Some(|s| - 1)
    else FindLastOf(s[..|s| - 1], chars)
  }

  /** find_last_of finds k exactly when k is the last position holding one of chars. */
  lemma FindLastOfIs(s: string, chars: set<char>, k: nat)
    requires k < |s| && s[k] in chars
    requires forall j :: k < j < |s| ==> s[j] !in chars
    ensures FindLastOf(s, chars) == Some(k)
  {
    var r := FindLastOf(s, chars);
    assert r.Some?;
  }

  /** std::string::substr(pos, count): throws unless pos <= size, then takes at most count characters. */
  function Substr(s: string, pos: nat, count: nat): (r: Option<string>)
    ensures r.Some? <==> pos <= |s|
    ensures r.Some? ==> r.value == s[pos..if pos + count <= |s| then pos + count else |s|]
  {
    if pos > |s| then None
    else if pos + count <= |s| then Some(s[pos..pos + count])
    else Some(s[pos..])
  }

  /** GetBaseDir: the text before the last '/' or '\\', or "" when there is none. */
  function GetBaseDir(filepath: string): (r: string)
    ensures r <= filepath
    ensures (forall j :: 0 <= j < |filepath| ==> filepath[j] !in SEPARATORS) ==> r == ""
    ensures (exists j :: 0 <= j < |filepath| && filepath[j] in SEPARATORS) ==>
              |r| < |filepath| && filepath[|r|] in SEPARATORS &&
              forall j :: |r| < j < |filepath| ==> filepath[j] !in SEPARATORS
  {
    match FindLastOf(filepath, SEPARATORS)
    case Some(p) => filepath[..p]
    case None => ""
  }

  /** Joining a directory and a separator-free name and taking the base directory gives the directory back. */
  lemma BaseDirOfJoin(dir: string, sep: char, name: string)
    requires sep in SEPARATORS
    requires forall j :: 0 <= j < |name| ==> name[j] !in SEPARATORS
    ensures GetBaseDir(dir + [sep] + name) == dir
  {
    var path := dir + [sep] + name;
    FindLastOfIs(path, SEPARATORS, |dir|);
  }

  /**
   * GetFileNameNoExt as the source writes it: cut at the last '.', then take
   * subs.substr(slashp, subs.length() - 1 - slashp), the count computed in
   * size_t.  None stands for the std::out_of_range that substr throws.
   */
  function GetFileNameNoExt(filepath: string): (r: Option<string>)
    ensures (forall j :: 0 <= j < |filepath| ==> filepath[j] !in SEPARATORS) ==>
              r == Some(if FindLastOf(filepath, {'.'}).Some? then filepath[..FindLastOf(filepath, {'.'}).value] else filepath)
    ensures var dotp, slashp := FindLastOf(filepath, {'.'}), FindLastOf(filepath, SEPARATORS);
            (slashp.Some? && dotp.Some? && dotp.value < slashp.value) ==> r.None?
  {
    var dotp := FindLastOf(filepath, {'.'});
    var slashp := FindLastOf(filepath, SEPARATORS);
    var subs := if dotp.Some? then filepath[..dotp.value] else filepath;
    if slashp.Some? then
      Substr(subs, slashp.value, (|subs| - 1 - slashp.value) % SIZE_T_LIMIT)
    else
      Some(subs)
  }

  /**
   * On "dir/stem.ext" the source's GetFileNameNoExt keeps the separator and
   * drops the last character of the stem: "models/cube.obj" gives "/cub".
   */
  lemma {:induction false} GetFileNameNoExtKeepsSeparator(dir: string, sep: char, stem: string, ext: string)
    requires sep in SEPARATORS && |stem| > 0 && |stem| < SIZE_T_LIMIT
    requires forall j :: 0 <= j < |stem| ==> stem[j] !in SEPARATORS
    requires forall j :: 0 <= j < |ext| ==> ext[j] !in SEPARATORS && ext[j] != '.'
    ensures GetFileNameNoExt(dir + [sep] + stem + "." + ext) == Some([sep] + stem[..|stem| - 1])
  {
    var path := dir + [sep] + stem + "." + ext;
    var dot := |dir| + 1 + |stem|;
    FindLastOfIs(path, {'.'}, dot);
    FindLastOfIs(path, SEPARATORS, |dir|);
    var subs := path[..dot];
    assert subs == dir + ([sep] + stem);
    assert subs[|dir|..|dir| + |stem|] == ([sep] + stem)[..|stem|];
    assert ([sep] + stem)[..|stem|] == [sep] + stem[..|stem| - 1];
  }

  lemma CubeExample()
    ensures GetFileNameNoExt("models/cube.obj") == Some("/cub")
    ensures FileNameNoExt("models/cube.obj") == "cube"
  {
    var dir, stem, ext := "models", "cube", "obj";
    GetFileNameNoExtKeepsSeparator(dir, '/', stem, ext);
    FileNameNoExtOfJoin(dir, '/', stem, ext);
    CubePath();
  }

  lemma CubePath()
    ensures "models" + ['/'] + "cube" + "." + "obj" == "models/cube.obj"
    ensures ['/'] + "cube"[..|"cube"| - 1] == "/cub"
  {
  }

  /**
   * The file name without directory and extension: the text after the last
   * separator, cut at the last '.' when that dot comes after the separator.
   */
  function FileNameNoExt(filepath: string): (r: string)
    ensures forall j :: 0 <= j < |r| ==> r[j] !in SEPARATORS
    ensures |r| <= |filepath|
  {
    var start := match FindLastOf(filepath, SEPARATORS) case Some(p) => p + 1 case None => 0;
    var name := filepath[start..];
    assert forall j :: 0 <= j < |name| ==> name[j] == filepath[start + j];
    match FindLastOf(name, {'.'})
    case Some(d) => name[..d]
    case None => name
  }

  lemma {:induction false} FileNameNoExtOfJoin(dir: string, sep: char, stem: string, ext: string)
    requires sep in SEPARATORS
    requires forall j :: 0 <= j < |stem| ==> stem[j] !in SEPARATORS
    requires forall j :: 0 <= j < |ext| ==> ext[j] !in SEPARATORS && ext[j] != '.'
    ensures FileNameNoExt(dir + [sep] + stem + "." + ext) == stem
  {
    var path := dir + [sep] + stem + "." + ext;
    FindLastOfIs(path, SEPARATORS, |dir|);
    var name := path[|dir| + 1..];
    assert name == stem + "." + ext;
    FindLastOfIs(name, {'.'}, |stem|);
  }
}

=== FILE: swapchain.dfy ===
/**
 * Swapchain configuration of src/swapchain.cpp: the choice of surface
 * format, present mode, extent and image count, the sharing mode, and the
 * replacement of the old swapchain handle.  The surface queries, the
 * framebuffer size and vkCreateSwapchainKHR's result are inputs.
 */
module Swapchain {
  import opened Vk

  /** VkFormat, VkColorSpaceKHR and VkPresentModeKHR values the engine names. */
  const FORMAT_B8G8R8A8_SRGB: nat := 50
  const COLOR_SPACE_SRGB_NONLINEAR: nat := 0
  const PRESENT_MODE_MAILBOX: nat := 1
  const PRESENT_MODE_FIFO: nat := 2

  /** The special currentExtent width meaning "the surface size follows the swapchain". */
  const UINT32_MAX: nat := UINT32_LIMIT - 1

  datatype SurfaceFormat = SurfaceFormat(format: nat, colorSpace: nat)
  datatype Extent = Extent(width: nat, height: nat)

  const PREFERRED_FORMAT: SurfaceFormat := SurfaceFormat(FORMAT_B8G8R8A8_SRGB, COLOR_SPACE_SRGB_NONLINEAR)

  /** The VkSurfaceCapabilitiesKHR fields the engine reads. */
  datatype Capabilities = Capabilities(currentExtent: Extent, minImageExtent: Extent, maxImageExtent: Extent,
                                       minImageCount: nat, maxImageCount: nat)

  /**
   * pickSurfaceFormat: the 8-bit BGRA sRGB format with the sRGB non-linear
   * colour space if the surface offers it, otherwise the first format offered.
   */
  method PickSurfaceFormat(formats: seq<SurfaceFormat>) returns (f: SurfaceFormat)
    requires |formats| > 0
    ensures f in formats
    ensures PREFERRED_FORMAT in formats ==> f == PREFERRED_FORMAT
    ensures PREFERRED_FORMAT !in formats ==> f == formats[0]
  {
    for i := 0 to |formats|
      invariant PREFERRED_FORMAT !in formats[..i]
    {
      if formats[i].format == FORMAT_B8G8R8A8_SRGB && formats[i].colorSpace == COLOR_SPACE_SRGB_NONLINEAR {
        return formats[i];
      }
    }
    assert formats[..|formats|] == formats;
    return formats[0];
  }

  /**
   * pickPresentMode: MAILBOX if offered, else FIFO, the one mode every
   * surface must support ("Surface Queries" in the Window System Integration
   * chapter of the Vulkan specification).
   */
  method PickPresentMode(modes: seq<nat>) returns (pm: nat)
    ensures pm == PRESENT_MODE_MAILBOX <==> PRESENT_MODE_MAILBOX in modes
    ensures pm != PRESENT_MODE_MAILBOX ==> pm == PRESENT_MODE_FIFO
  {
    for i := 0 to |modes|
      invariant PRESENT_MODE_MAILBOX !in modes[..i]
    {
      if modes[i] == PRESENT_MODE_MAILBOX {
        return modes[i];
      }
    }
    assert modes[..|modes|] == modes;
    return PRESENT_MODE_FIFO;
  }

  /** std::max(lo, std::min(hi, x)). */
  function Clamp(x: nat, lo: nat, hi: nat): (r: nat)
    ensures lo <= hi ==> lo <= r <= hi
    ensures lo <= x <= hi ==> r == x
    ensures x < lo ==> r == lo
    ensures lo <= hi < x ==> r == hi
    ensures hi < lo ==> r == lo
  {
    if lo > (if hi < x then hi else x) then lo else if hi < x then hi else x
  }

  /**
   * pickExtent: the surface's currentExtent, unless its width is the special
   * value UINT32_MAX; then the framebuffer size, each side clamped into the
   * surface's [minImageExtent, maxImageExtent].
   */
  function PickExtent(caps: Capabilities, framebuffer: Extent): (r: Extent)
    ensures caps.currentExtent.width != UINT32_MAX ==> r == caps.currentExtent
    ensures caps.currentExtent.width == UINT32_MAX && caps.minImageExtent.width <= caps.maxImageExtent.width ==>
              caps.minImageExtent.width <= r.width <= caps.maxImageExtent.width
    ensures caps.currentExtent.width == UINT32_MAX && caps.minImageExtent.height <= caps.maxImageExtent.height ==>
              caps.minImageExtent.height <= r.height <= caps.maxImageExtent.height
    ensures caps.currentExtent.width == UINT32_MAX
              && caps.minImageExtent.width <= framebuffer.width <= caps.maxImageExtent.width
              && caps.minImageExtent.height <= framebuffer.height <= caps.maxImageExtent.height
            ==> r == framebuffer
  {
    if caps.currentExtent.width != UINT32_MAX then caps.currentExtent
    else Extent(Clamp(framebuffer.width, caps.minImageExtent.width, caps.maxImageExtent.width),
                Clamp(framebuffer.height, caps.minImageExtent.height, caps.maxImageExtent.height))
  }

  /**
   * The image count requested from createSwapchain: one more than the
   * minimum (a uint32_t sum, so UINT32_MAX wraps to 0), lowered to the
   * maximum when the surface has one (maxImageCount 0 means no limit).
   */
  function ImageCount(minImageCount: nat, maxImageCount: nat): (n: nat)
    requires minImageCount < UINT32_LIMIT
    ensures n < UINT32_LIMIT
    ensures maxImageCount > 0 ==> n <= maxImageCount
    ensures minImageCount < UINT32_MAX && (maxImageCount == 0 || minImageCount < maxImageCount) ==> n == minImageCount + 1
    ensures minImageCount < UINT32_MAX && 0 < maxImageCount && minImageCount <= maxImageCount ==> minImageCount <= n
  {
    var count := (minImageCount + 1) % UINT32_LIMIT;
    if maxImageCount > 0 && count > maxImageCount then maxImageCount else count
  }

  datatype SharingMode = Exclusive | Concurrent

  /**
   * The sharing mode: the images are shared between the two queue families
   * when graphics and presentation use different ones, and owned by the one
   * family otherwise.
   */
  function Sharing(graphicsFamily: nat, presentFamily: nat): (r: (SharingMode, seq<nat>))
    ensures r.0 == Concurrent <==> graphicsFamily != presentFamily
    ensures r.0 == Concurrent ==> r.1 == [graphicsFamily, presentFamily]
    ensures r.0 == Exclusive ==> r.1 == []
  {
    if graphicsFamily != presentFamily then (Concurrent, [graphicsFamily, presentFamily]) else (Exclusive, [])
  }

  /** The VkSwapchainCreateInfoKHR fields the engine decides. */
  datatype CreateInfo = CreateInfo(minImageCount: nat, surfaceFormat: SurfaceFormat, extent: Extent,
                                   presentMode: nat, sharingMode: SharingMode, queueFamilies: seq<nat>,
                                   oldSwapchain: Handle)

  datatype SwapchainOutcome =
    | NoSurfaceFormats
    | NoPresentModes
    | CreateFailed(info: CreateInfo)
    | Created(info: CreateInfo)

  /** The engine's swapchain state: _swapchain.handle, its images and format, and _windowExtent. */
  class SwapchainState {
    var handle: Handle
    var images: seq<Handle>
    var imageFormat: nat
    var windowExtent: Extent
    /** The handles passed to vkDestroySwapchainKHR, in order. */
    var destroyed: seq<Handle>

    constructor ()
      ensures handle == NULL_HANDLE && images == [] && destroyed == []
    {
      handle := NULL_HANDLE;
      images := [];
      imageFormat := 0;
      windowExtent := Extent(0, 0);
      destroyed := [];
    }

    /**
     * createSwapchain.  The surface format is the one ImGui's selection
     * helper returns (given here); the present mode, extent, image count and
     * sharing mode are the engine's own choices.  The new swapchain is
     * created with the current one as oldSwapchain, and only once creation
     * has succeeded is the old handle, if not null, destroyed and replaced.
     */
    method CreateSwapchain(caps: Capabilities, formats: seq<SurfaceFormat>, presentModes: seq<nat>,
                           surfaceFormat: SurfaceFormat, framebuffer: Extent,
                           graphicsFamily: nat, presentFamily: nat,
                           createResult: VkResult, newSwapchain: Handle, newImages: seq<Handle>)
      returns (outcome: SwapchainOutcome)
      requires caps.minImageCount < UINT32_LIMIT
      modifies this
      ensures outcome == NoSurfaceFormats <==> |formats| == 0
      ensures outcome == NoPresentModes <==> |formats| > 0 && |presentModes| == 0
      ensures outcome.Created? <==> |formats| > 0 && |presentModes| > 0 && createResult == Success
      ensures outcome.Created? || outcome.CreateFailed? ==>
        var info := outcome.info;
        && info.minImageCount == ImageCount(caps.minImageCount, caps.maxImageCount)
        && info.surfaceFormat == surfaceFormat
        && info.extent == PickExtent(caps, framebuffer)
        && (info.presentMode == PRESENT_MODE_MAILBOX <==> PRESENT_MODE_MAILBOX in presentModes)
        && (info.presentMode != PRESENT_MODE_MAILBOX ==> info.presentMode == PRESENT_MODE_FIFO)
        && (info.sharingMode, info.queueFamilies) == Sharing(graphicsFamily, presentFamily)
        && info.oldSwapchain == old(handle)
      ensures outcome.Created? ==>
        && handle == newSwapchain && images == newImages
        && imageFormat == surfaceFormat.format && windowExtent == outcome.info.extent
        && destroyed == old(destroyed) + (if old(handle) != NULL_HANDLE then [old(handle)] else [])
      ensures !outcome.Created? ==>
        handle == old(handle) && images == old(images) && imageFormat == old(imageFormat)
        && windowExtent == old(windowExtent) && destroyed == old(destroyed)
    {
      if |formats| == 0 {
        return NoSurfaceFormats;
      }
      if |presentModes| == 0 {
        return NoPresentModes;
      }
      var presentMode := PickPresentMode(presentModes);
      var extent := PickExtent(caps, framebuffer);
      var imageCount := ImageCount(caps.minImageCount, caps.maxImageCount);
      var sharing := Sharing(graphicsFamily, presentFamily);
      var info := CreateInfo(imageCount, surfaceFormat, extent, presentMode, sharing.0, sharing.1, handle);
      if createResult != Success {
        return CreateFailed(info);
      }
      if handle != NULL_HANDLE {
        destroyed := destroyed + [handle];
      }
      handle := newSwapchain;
      images := newImages;
      imageFormat := surfaceFormat.format;
      windowExtent := extent;
      outcome := Created(info);
    }
  }

  /**
   * Recreating twice destroys exactly the first two live handles: each
   * swapchain is destroyed by the creation that replaces it, once.
   */
  method RecreateTwice(sc: SwapchainState, caps: Capabilities, formats: seq<SurfaceFormat>, presentModes: seq<nat>,
                       surfaceFormat: SurfaceFormat, framebuffer: Extent, graphicsFamily: nat, presentFamily: nat,
                       first: Handle, second: Handle)
    returns (o1: SwapchainOutcome, o2: SwapchainOutcome)
    requires caps.minImageCount < UINT32_LIMIT && |formats| > 0 && |presentModes| > 0
    requires sc.handle != NULL_HANDLE && first != NULL_HANDLE
    modifies sc
    ensures o1.Created? && o2.Created?
    ensures sc.handle == second && o2.info.oldSwapchain == first
    ensures sc.destroyed == old(sc.destroyed) + [old(sc.handle), first]
  {
    o1 := sc.CreateSwapchain(caps, formats, presentModes, surfaceFormat, framebuffer, graphicsFamily, presentFamily, Success, first, []);
    o2 := sc.CreateSwapchain(caps, formats, presentModes, surfaceFormat, framebuffer, graphicsFamily, presentFamily, Success, second, []);
  }
}

=== FILE: vk.dfy ===
/**
 * The few Vulkan values the engine's decisions depend on.  Handles are
 * opaque ids with 0 standing for VK_NULL_HANDLE; results are the VkResult
 * codes the engine distinguishes, everything else folded into OtherError.
 */
module Vk {
  type Handle = nat

  newtype uint32 = x: int | 0 <= x < 0x1_0000_0000

  const NULL_HANDLE: Handle := 0

  datatype VkResult =
    | Success
    | Suboptimal
    | ErrorOutOfDate
    | ErrorFragmentedPool
    | ErrorOutOfPoolMemory
    | OtherError(code: int)

  /** VkDescriptorType values used by the engine. */
  const COMBINED_IMAGE_SAMPLER: uint32 := 1
  const STORAGE_IMAGE: uint32 := 3
  const UNIFORM_BUFFER: uint32 := 6
  const STORAGE_BUFFER: uint32 := 7

  /** VkShaderStageFlagBits values used by the engine. */
  const STAGE_VERTEX: uint32 := 0x1
  const STAGE_FRAGMENT: uint32 := 0x10
  const STAGE_COMPUTE: uint32 := 0x20

  const UINT32_LIMIT: nat := 0x1_0000_0000
}

=== FILE: wrappers.dfy ===
/** Option, the stand-in for the source's null pointers and std::optional. */
module Wrappers {
  datatype Option<+T> = None | Some(value: T)
}
